=== FILE: README.md ===
# lush core in Dafny

This project models the core of **lush**, an interactive shell written in
TypeScript. The model covers:

- **The token line.** This is the structure the line editor edits. Lines
  are cut into maximal runs, and the editor inserts and deletes characters,
  deletes ranges and splits lines. Normalisation prunes empty tokens,
  merges neighbours of the same type and renumbers positions. Token lines
  are also read back from the YAML form the serialiser writes.
- **The token-type machinery.** This covers the registry of token and
  operator types, the `Number` literal validator, the choice and rotation
  of a token's type among the types that accept its text, and the operator
  tables loaded from the operator file.
- **The completion pipeline.** Five providers are merged, deduplicated by
  value and sorted. The completion menu has a column layout, a grid and
  arrow-key navigation over it. Snippet files and module paths are ranked.
- **The builtins.** These are the registry and `builtins` listing, help-flag
  detection, the directory stack, `history`, `html` with its ANSI-to-HTML
  converter, and the job-control builtins. Those builtins run over an
  explicit job table driven by child-process events.
- **Smaller pieces.** These are the variable-name recogniser, the
  submit-on-empty-last-line rule, `tldr` command summaries with their
  cache, and the prompt.
- **The legacy line editor.** This covers its key tokenizer, which tries
  the longest key sequence first, and its buffer with movement, editing,
  kills, backslash continuation and history navigation.
- **The two enum generators.** One numbers bit flags with JavaScript's
  32-bit shift. The other quotes string members with `JSON.stringify`.

Every module-level variable of the source (maps, arrays, counters, caches)
becomes an explicit value. Each operation returns the new value alongside
its result.

Calls to the outside world become inputs:

- `process.cwd()`;
- the output of `tldr`;
- directory listings and the executables on `PATH`;
- the symbols the TypeScript compiler indexes;
- whether a signal was delivered;
- the parsed YAML document.

Writes through a builtin's `ctx.write` become the returned text. Hook
calls of the job table are appended to a trace. `process.exit` and
accepted command lines become effects of the line editor.

A JavaScript string is modelled as a `string`: a sequence of Unicode
scalar values, one `char` per character.
`trim`, `\s` and case mapping are restricted to ASCII, and numbers are
integers.

## Model

| member | source | states |
|---|---|---|
| TokenEdit.Metadata | src/tokenEdit.ts:18-23 | the clone keeps type, `tokenIdx` and `x` and carries no text |
| TokenEdit.Locate | src/tokenEdit.ts:43-62 | it finds nothing exactly when the line is empty or the column lies past its text; otherwise it finds a token whose start is the length of the text before it and whose end is at or after the column, strictly after it when boundaries do not go to the earlier token and the column is inside the text |
| TokenEdit.LocateOffset | src/tokenEdit.ts:43-62 | the offset inside the found leaf plus the leaf's start is the column clamped to the line |
| TokenEdit.LeafInsertText | src/tokenEdit.ts:147-201 | inserting into a leaf yields tokens whose text is the leaf's text with the character at the offset |
| TokenEdit.LeafInsertKinds | src/tokenEdit.ts:147-201 | a space lengthens a Space token; a space strictly inside another leaf splits it into two same-typed halves around a one-space Space token; another character keeps a non-Space leaf's type and becomes its own text token next to a Space leaf |
| TokenEdit.InsertInText | src/tokenEdit.ts:203-211 | before normalisation, the character lands at the column clamped to the line |
| TokenEdit.InsertChar | src/tokenEdit.ts:203-211 | after `insertCharacter` the line text is the old text with the character at the clamped column, and the line is normal |
| TokenEdit.InsertTextText | src/tokenEdit.ts:324-330 | `InsertText`: from a non-negative column, the inserted text lands at that column, or at the end when the column is past it |
| TokenEdit.InsertTextNormal | src/tokenEdit.ts:324-330 | inserting text into a normal line leaves it normal |
| TokenEdit.DeleteInText | src/tokenEdit.ts:213-223 | a deletion removes exactly the character at the column (clamped at 0), and one happens whenever the column is inside the text |
| TokenEdit.DeleteChar | src/tokenEdit.ts:213-223 | when it reports no deletion the line is untouched; when it reports one, exactly the character at the column is gone and the line is normal; a column inside the text always deletes |
| TokenEdit.DeleteRunText | src/tokenEdit.ts:225-233 | `n` deletions at a column inside or at the end of the text remove the next `n` characters, or all that remain |
| TokenEdit.DeleteRangeText | src/tokenEdit.ts:225-233 | a range deletion from a non-negative start removes the characters from start to end, cut at the end of the text, and never more than `end - start` |
| TokenEdit.DeleteRunNormal | src/tokenEdit.ts:332-334 | deleting a range from a normal line leaves it normal |
| TokenEdit.SplitToken | src/tokenEdit.ts:235-274 | at or before the start, the whole token stays and an empty clone is split off; at or past the end, nothing is split off; strictly inside, the two parts hold the text before and after the offset, both keeping the token's type |
| TokenEdit.SplitKids | src/tokenEdit.ts:250-271 | the children are cut into the text before and after the offset relative to the parent, clamped |
| TokenEdit.SplitAt | src/tokenEdit.ts:276-322 | the line is cut into the text before and after the column relative to the first token, clamped |
| TokenEdit.SplitLine | src/tokenEdit.ts:336-338 | the two lines hold the first `col` characters (clamped) and the rest, so together they give back the text, and both are normal |
| TokenEdit.InsertTextChars | src/tokenEdit.ts:324-330 | `InsertText` at any column, negative ones included, gives the text that inserting the characters one by one into the plain string gives, each at the column clamped to the text then, with the column advancing by one per character |
| TokenEdit.TextInsertInside | src/tokenEdit.ts:324-330 | inserting characters one by one from a column inside the text or at its end puts the whole text at that column |
| TokenEdit.InsertTextBelowZero | src/tokenEdit.ts:324-330 | from a column `col` at or below zero, with `m` the smaller of the text's length and `1 - col`: the first `m - 1` characters each go to the front and so end up reversed, the `m`-th goes in front of them, the rest follow it in order, and the old text comes last |
| TokenEdit.DeleteInBelowZero | src/tokenEdit.ts:43-62 | on a line without empty tokens, a deletion at a negative column is the deletion at column 0 |
| TokenEdit.DeleteRunBelowZero | src/tokenEdit.ts:225-233 | on a line without empty tokens, the deletion loop from a negative start deletes as it does from 0 |
| TokenEdit.DeleteRangeBelowZero | src/tokenEdit.ts:332-334 | on a line without empty tokens, a range starting below zero removes `end - start` characters (none when `end <= start`) from the front, or all of them |
| TokenRoundTrip.InsertSpaceDeleteRestores | src/tokenEdit.ts:203-223 | on a normal line, inserting a space at a column inside the text or at its end and then deleting at that column reports a deletion and gives back the line, types and positions included |
| TokenRoundTrip.SampleRoundTrip | tests/tokenEdit.test.ts:92-104 | on the three-token sample line `echo`, space, `42`, inserting a space at column 2 and deleting the range 2 to 3 gives back the sample line |
| TokenNormalize.PruneSound | src/tokenEdit.ts:97-119 | pruning keeps the line text and leaves no empty leaf and no childless composite at any depth |
| TokenNormalize.PruneSolid | src/tokenEdit.ts:97-119 | pruning a line with nothing empty changes nothing |
| TokenNormalize.MergeText | src/tokenEdit.ts:64-95 | merging adjacent same-typed leaves keeps the line text |
| TokenNormalize.MergeShape | src/tokenEdit.ts:64-95 | merging a line without empty tokens leaves no two mergeable neighbours at any depth |
| TokenNormalize.MergeCalm | src/tokenEdit.ts:64-95 | merging a line without mergeable neighbours changes nothing |
| TokenNormalize.PlaceSound | src/tokenEdit.ts:121-138 | renumbering keeps the line text, keeps a line free of empty tokens and mergeable neighbours, and puts every token at its index and its column, children at their parent's column |
| TokenNormalize.PlacePlaced | src/tokenEdit.ts:121-138 | renumbering a line whose positions are already right changes nothing |
| TokenNormalize.NormalizeSound | src/tokenEdit.ts:140-145 | `Normalize`: normalising keeps the line text and yields a normal line: nothing empty, no mergeable neighbours, every position right |
| TokenNormalize.NormalizeNormal | src/tokenEdit.ts:340-342 | `Normalize`: a normal line is its own normal form |
| TokenNormalize.NormalizeIdempotent | src/tokenEdit.ts:340-342 | `Normalize`: normalising twice is normalising once |
| TokenLine.ScanRun | src/tokenLine.ts:14-19 | the scan stops at the end of the maximal run of the starting character's kind |
| TokenLine.TokenizeStep | src/tokenLine.ts:13-25 | one turn of the loop extends a tokenisation of a prefix to a longer prefix |
| TokenLine.Tokenize | src/tokenLine.ts:9-27 | the tokens concatenate to the text, each is one leaf covering a maximal run of spaces (type Space) or of other characters (type AnyString), neighbours differ in kind, and token `i` has index `i` and sits at its start offset |
| TokenLine.HandleDoubleSpace | src/tokenLine.ts:29-44 | the text changes only by a space inserted at the clamped cursor when no space precedes it; the new cursor is at or before the old one, with only spaces in between and no space just before it |
| TokenLine.CollectArguments | src/tokenLine.ts:46-57 | the result is the text of every non-Space token with non-empty text, line by line and token by token |
| TokenLine.ArgumentsFromTokens | src/tokenLine.ts:46-57 | every collected text is the whole, non-empty text of some non-Space token of the input |
| MultilineEnter.ShouldSubmit | src/multilineEnter.ts:13-27 | it submits exactly when the active line is the last, has empty text, and some other line has non-blank text |
| MultilineEnter.BlankLinesNeverSubmit | src/multilineEnter.ts:9-11 | a buffer whose lines are all blank never submits |
| YamlSerialize.Get | src/yaml-serialize.ts:13-15 | a value found is the value of a field with that key of an object; other values have no fields |
| YamlSerialize.Sanitize | src/yaml-serialize.ts:12-30 | a non-object becomes an empty AnyString token at position 0; the token is composite exactly when the object's `subTokens` is an array, with one child per element |
| YamlSerialize.Deserialize | src/yaml-serialize.ts:43-49 | a non-array document and a line that is not an array are errors; otherwise every line is sanitised, in order |
| YamlSerialize.SanitizeToValue | src/yaml-serialize.ts:12-30 | sanitising the value the serialiser writes for a token gives the token back |
| YamlSerialize.DeserializeRoundTrip | src/yaml-serialize.ts:39-49 | loading what the serialiser wrote gives the lines back unchanged |
| TokenRegistry.Get | src/tokens.ts:53 | a lookup finds the entry registered under the type name, if any |
| TokenRegistry.RegisterToken | src/tokens.ts:83-85 | registering replaces an entry of the same type name in place and otherwise appends, so type names stay distinct and the new entry is found under its name |
| TokenRegistry.RegisterTokenOthers | src/tokens.ts:83-85 | registering one type name leaves the entry of every other name as it was |
| TokenRegistry.InstallNumberValidator | src/tokens.ts:107-109 | afterwards the Number entry exists, carries the literal validator, keeps its priority (0 when it was created), and every other entry is unchanged |
| TokenRegistry.RegisterOprAsWritten | src/tokens.ts:79-81 | as written, the operator is stored under its symbol with its type, and every other key keeps its operator |
| TokenRegistry.RegisterOprDropsSecondary | src/tokens.ts:79-81 | a supplied closing symbol never reaches the map |
| TokenRegistry.RegisterOprBracketExample | src/tokens.ts:79-81 | the bracket pair `[ ]` is stored without its closing symbol |
| TokenRegistry.RegisterOpr | src/tokens.ts:79-81 | as intended, the stored operator carries exactly the secondary symbol supplied |
| TokenRegistry.RegisterOprKeepsSecondary | src/tokens.ts:79-81 | the intended registration keeps what the caller supplied |
| NumberLiteral.ScanDigits | src/tokens.ts:56-65 | the scan ends at a position from which the run of digits (with inner `_`) cannot continue |
| NumberLiteral.ScanUnique | src/tokens.ts:56-65 | a digit run that cannot be continued is the one the scanner finds |
| NumberLiteral.DigitsToEnd | src/tokens.ts:56-65 | the whole tail is a digit run exactly when the scanner reaches the end |
| NumberLiteral.IntegerEndUnique | src/tokens.ts:57 | a decimal integer followed by the end or by `.`, `e`, `E` or `n` ends where the scanner says |
| NumberLiteral.PrefixedNotDecimal | src/tokens.ts:59-65 | after `0x`, `0o` or `0b` no decimal alternative can match |
| NumberLiteral.ValidIffGrammar | src/tokens.ts:56-77 | the left-to-right scanner `IsValid` accepts exactly the strings the literal grammar, alternative by alternative, describes |
| NumberLiteral.EmptyIsNotLiteral | src/tokens.ts:74-77 | the empty string is rejected |
| NumberLiteral.SeparatorsBetweenDigits | src/tokens.ts:56-72 | every `_` of an accepted literal sits between two digits of the literal's radix |
| NumberLiteral.BigIntIsInteger | src/tokens.ts:66-69 | an `n` suffix only ever follows a pure integer form, without fraction or exponent |
| NumberLiteral.AcceptedDecimalExamples | src/tokens.ts:59 | `0`, `1_234`, `1.` and `.5` are accepted |
| NumberLiteral.AcceptedExponentExample | src/tokens.ts:58 | `1.23e+10` is accepted |
| NumberLiteral.AcceptedPrefixedExamples | src/tokens.ts:60-65 | hexadecimal, octal and binary literals are accepted |
| NumberLiteral.AcceptedBigIntExamples | src/tokens.ts:66-69 | integer literals with an `n` suffix are accepted |
| NumberLiteral.RejectedDecimalExamples | src/tokens.ts:56-59 | leading and doubled separators, a leading zero, signs, a separator after the dot and a lone dot are rejected |
| NumberLiteral.RejectedExponentExamples | src/tokens.ts:58 | an exponent without digits is rejected, with or without its sign |
| NumberLiteral.RejectedPrefixedExamples | src/tokens.ts:60-65 | a prefix without digits, or with a digit outside its radix, is rejected |
| NumberLiteral.RejectedBigIntExamples | src/tokens.ts:66-72 | an `n` after a fraction or an exponent, and text after the `n`, are rejected |
| TokenType.RankRanked | src/tokenType.ts:18 | ranking orders positions by priority, highest first, and by registration among equals, as the stable sort does |
| TokenType.CandidatesRanked | src/tokenType.ts:4-19 | the candidates are in ranking order |
| TokenType.CandidatesMembers | src/tokenType.ts:4-19 | the candidates are exactly the entries whose validator accepts the non-empty text, and there are none for empty text |
| TokenType.CandidatesUnique | src/tokenType.ts:4-19 | any list of the accepting entries ordered by priority and then registration is the candidate list |
| TokenType.TokenCandidates | src/tokenType.ts:4-19 | `Candidates`: a missing token has none; a present token has, in ranking order, exactly the entries whose validator accepts its non-empty text |
| TokenType.SortedValidTokens | src/tokenType.ts:4-19 | a missing token gets no candidates; otherwise the descriptors of the ranked accepting entries |
| TokenType.NextIndexMod | src/tokenType.ts:26-28 | the next index is `(currentIdx + 1) % candidates.length` when the current type is found, and 0 otherwise |
| TokenType.Retype | src/tokenType.ts:33 | only the type changes; the text, index, column and leaf-or-composite shape are kept |
| TokenType.RotateToken | src/tokenType.ts:21-35 | with no candidates nothing changes and the result is false; otherwise the token's type becomes the next candidate's, and the result says whether it differs from the old one |
| TokenType.Rotate | src/tokenType.ts:21-35 | a missing token is left alone and the result is false |
| TokenType.RotateFromOther | src/tokenType.ts:26-28 | a type that is not a candidate gives way to the best candidate |
| TokenType.RotateRetype | src/tokenType.ts:21-35 | rotating never changes the text, so every rotation steps through the same candidate list |
| TokenType.RotateTimesKind | src/tokenType.ts:21-35 | `n` rotations move the type `n` steps through the candidates of the token's text and change nothing else |
| TokenType.KindAfterCycles | src/tokenType.ts:26-29 | with distinct candidate types, `n` rotations from candidate `k` reach candidate `(k + n) mod m` |
| TokenType.RotateCycles | src/tokenType.ts:21-35 | with one entry per type name, a token at candidate `k` has the type of candidate `(k + n) mod m` after `n` rotations, and nothing else about it changes |
| TokenType.RotateFullRound | src/tokenType.ts:21-35 | a full round of rotations brings a candidate type back |
| Operators.PrimaryKey | src/expr/expr.ts:29-31 | the key is the type name, `:` and the symbol |
| Operators.OprKey | src/expr/expr.ts:33-36 | the detail key extends the primary key by `:` and the secondary symbol exactly when that is a non-empty string |
| Operators.AddPrimary | src/expr/expr.ts:44-52 | the first operator under a key is stored alone, the second pairs with it, and later ones are appended; every other key is unchanged |
| Operators.RegisterOpr | src/expr/expr.ts:42-65 | the primary table always gains the operator; a circumfix operator without a secondary symbol, or one whose detail key is taken, is an error that leaves the detail table as it was; otherwise the detail table gains it under its detail key |
| Operators.RegisterRun | src/expr/expr.ts:44-52 | registering several operators under a fresh primary key keeps them all there in order: one alone, two or more as a list |
| Operators.RegisterOther | src/expr/expr.ts:42-65 | registering leaves every other primary key's slot as it was |
| Operators.NormalizeEntries | src/expr/expr.ts:83-88 | a missing entry gives none, a single entry one, a list the list |
| Operators.AssertOprType | src/expr/expr.ts:90-95 | as intended, exactly the six operator type names are accepted and map to their type; anything else is an error |
| Operators.AssertOprTypeName | src/expr/expr.ts:90-95 | the intended check reads back every type name and nothing else |
| Operators.AssertOprTypeAsWritten | src/expr/expr.ts:90-95 | as written, the `in` test also accepts inherited property names such as `toString` |
| Operators.AsWrittenAcceptsToString | src/expr/expr.ts:91-92 | as written, `toString` passes the type check instead of being reported as unknown |
| Operators.AsWrittenOnMembers | src/expr/expr.ts:90-95 | on the six member names the check as written and as intended agree |
| Operators.SplitSymbol | src/expr/expr.ts:97-104 | a blank key is an error; otherwise the first space-separated part is the primary symbol and the rest, joined by single spaces, the secondary one, absent when there is no rest |
| Operators.SplitSymbolJoin | src/expr/expr.ts:97-104 | a key made of non-empty, space-free parts joined by single spaces splits back into those parts |
| Operators.SplitSymbolSpaces | src/expr/expr.ts:98 | runs of spaces collapse: `"[  ]"` splits as `"[ ]"` does |
| Operators.SplitSymbolBlank | src/expr/expr.ts:99-101 | a blank key is an error |
| Operators.LoadOperators | src/expr/expr.ts:106-126 | a document that is not an object is an error leaving both tables empty; on success the count is the number of entries the document lists; entry types go through the corrected check `AssertOprType`, not the `in` test as written |
| Operators.RegisterEntriesContents | src/expr/expr.ts:115-123 | registering a key's entries appends, under each primary key, the resolved operators of that key in entry order, and adds every circumfix operator under its detail key, none of which was present before |
| Operators.RegisterPairsContents | src/expr/expr.ts:113-124 | registering the keys one after another does the same for all the file's operators in file order; the count is their number |
| Operators.LoadOperatorsContents | src/expr/expr.ts:106-126 | a successful load came from an object and fills the tables with exactly what the file lists: under each primary key the operators of that key in file order, each with the entry's own `s` and `s1` or the key's symbols, and each circumfix operator under its detail key; the count is their number |
| Operators.LoadSharedOpener | src/expr/expr.ts:106-126 | two keys sharing their first symbol, such as `"[ ]"` and `"[ ["`, both land under that symbol's primary key in file order, each under its own detail key |
| Helpers.SigilLen | src/helpers.ts:16-26 | the scan skips one leading sigil and then one twigil `*`, at most two characters |
| Helpers.IsStrVariable | src/helpers.ts:14-43 | the scan accepts exactly the strings that have something after the prefix, all of it word characters |
| Helpers.ShapeIffScan | src/helpers.ts:14-43 | the scan agrees with the declarative shape: an optional sigil, an optional twigil, then a non-empty run of `[A-Za-z0-9_]` |
| Helpers.StripSigils | src/helpers.ts:45-57 | a variable loses exactly its prefix and keeps its word characters; any other string is returned unchanged |
| Helpers.StripSigilsIdempotent | src/helpers.ts:45-57 | stripping twice strips no more than stripping once |
| Helpers.StripSigilAndTwigil | src/helpers.ts:45-57 | a sigil and a twigil in front of a word are both removed |
| Helpers.StripOneSigil | src/helpers.ts:45-57 | a sigil alone, or a twigil alone, in front of a word is removed |
| Helpers.StripNonVariable | src/helpers.ts:46 | a non-variable comes back as it is |
| Helpers.BareSigilRejected | src/helpers.ts:28 | a bare sigil, a bare twigil and both together are rejected |
| Helpers.TrailingDashRejected | src/helpers.ts:38-40 | a trailing non-word character is rejected |
| Helpers.AcceptedExamples | src/helpers.ts:14-43 | plain names, and names behind a sigil and a twigil, are accepted |
| CompletionNavigation.CeilDiv | src/completionNavigation.ts:16 | the result is the least quotient whose multiple covers the dividend |
| CompletionNavigation.Isqrt | src/completionNavigation.ts:15 | the result squared is at most `n` and its successor squared exceeds it |
| CompletionNavigation.IsqrtUnique | src/completionNavigation.ts:15 | only one number has that property |
| CompletionNavigation.ComputeLayout | src/completionNavigation.ts:10-26 | without a bound: about the square root of columns and enough rows, never zero; with a bound: the fewest columns up to `max(1, length)` whose rows fit, and a single column of `max(1, length)` rows when none does |
| CompletionNavigation.SomeColumnsFit | src/completionNavigation.ts:19-24 | with at least one item and a bound of at least one row some column count fits, so the fallback is not reached |
| CompletionNavigation.NothingFitsBelowOneRow | src/completionNavigation.ts:25 | with a bound below one row and a non-empty list nothing fits |
| CompletionNavigation.LayoutTwelveInFive | src/completionNavigation.ts:10-26 | twelve items in at most five rows take three columns of four |
| CompletionNavigation.LayoutNineUnbounded | src/completionNavigation.ts:14-18 | nine items without a bound form a three by three square |
| CompletionNavigation.BuildGrid | src/completionNavigation.ts:28-43 | the grid lists `0..min(total, columns·rows)` column-major: column `c` holds the numbers from `c·rows` up to the next column or `total`, and no column is empty |
| CompletionNavigation.FindPosition | src/completionNavigation.ts:84-94 | a negative number or one not in the grid has no position; otherwise the position is the first column holding it and its first row there |
| CompletionNavigation.PickColumnRow | src/completionNavigation.ts:96-106 | the entry at the row of the target column, or that column's last entry when it is shorter |
| CompletionNavigation.Navigate | src/completionNavigation.ts:45-82 | an empty grid gives nothing; an entry not in the grid gives the first entry; otherwise the answer is an entry of the grid |
| CompletionNavigation.FindPositionDistinct | src/completionNavigation.ts:84-94 | in a grid without repeats an entry's position is determined by the entry |
| CompletionNavigation.NavigateUp | src/completionNavigation.ts:58-62 | up moves to the previous row of the same column, wrapping from the top to the bottom, and gives nothing in a one-entry column |
| CompletionNavigation.NavigateDown | src/completionNavigation.ts:63-68 | down moves to the next row of the same column, wrapping from the bottom to the top |
| CompletionNavigation.UpThenDown | src/completionNavigation.ts:58-68 | down undoes up |
| CompletionNavigation.NavigateSideways | src/completionNavigation.ts:69-78 | left and right move to the neighbouring column, wrapping around, at the same row or the target's last row, and give nothing with one column |
| CompletionNavigation.BuildExampleGrid | src/completionNavigation.ts:28-43 | five items in a two by three layout give columns `[0,1,2]` and `[3,4]` |
| CompletionNavigation.BuiltGridDistinct | src/completionNavigation.ts:28-43 | every built grid is without repeats, so the navigation lemmas apply to it |
| CompletionProvider.Chosen | src/completionProvider.ts:369-387 | the candidate kept for a value is one of the candidates and carries that value |
| CompletionProvider.Dedupe | src/completionProvider.ts:369-387 | the result has one candidate per value, values in order of first appearance, each the candidate `Chosen` keeps |
| CompletionProvider.DedupeStep | src/completionProvider.ts:376-385 | handling one more candidate keeps that description true |
| CompletionProvider.ChosenLast | src/completionProvider.ts:378-384 | a later candidate replaces a kept one exactly when the kept one is a Command and the later one is not |
| CompletionProvider.CandLessTransitive | src/completionProvider.ts:389-399 | the sort comparator (lower-cased values in character order, ties broken by character order where the source uses `localeCompare`) is transitive |
| CompletionProvider.CandLessTotal | src/completionProvider.ts:389-399 | two candidates the comparator (ties broken by character order, not `localeCompare`) cannot order have equal values |
| CompletionProvider.SortCandidates | src/completionProvider.ts:389-399 | the result is sorted by lower-cased value and then by value in character order (the source breaks that tie with `localeCompare`), and is a permutation of the input |
| CompletionProvider.SortedUnique | src/completionProvider.ts:389-399 | among candidates with distinct values any permutation sorted under the model's comparator is this one, so the order does not depend on the sorting algorithm |
| CompletionProvider.ResolveTokenType | src/completionProvider.ts:57-64 | the first of the names the registry knows, and nothing when it knows none |
| CompletionProvider.FirstNonSpace | src/completionProvider.ts:66-76 | the first token, line by line, whose type is not Space |
| CompletionProvider.QueryPrefix | src/completionProvider.ts:78-81 | the active mode token's text, else the first non-Space token's text, else the empty string |
| CompletionProvider.SplitPathPrefix | src/completionProvider.ts:152-167 | the part up to and including the last `/` and the rest in lower case; a prefix without `/` has an empty directory part, and a blank prefix counts as empty |
| CompletionProvider.BuildCandidatePath | src/completionProvider.ts:184-190 | the base, the name, and a trailing `/` unless the name already ends in one |
| CompletionProvider.PrefersIffBetterRank | src/completionProvider.ts:671-694 | a new symbol's metadata wins exactly when its module path ranks strictly better: outside node_modules before inside, then outside TypeScript's `lib` before inside; on a tie the existing entry stays |
| CompletionProvider.PrefersAsymmetric | src/completionProvider.ts:671-686 | preference is never both ways and never between equal paths |
| CompletionProvider.Gather | src/completionProvider.ts:192-306 | each entry whose name starts with the needle, ignoring case, becomes a candidate of the resolved token type in input order; nothing when no type resolves |
| CompletionProvider.FolderCandidates | src/completionProvider.ts:87-122 | without a folder token type nothing is offered; every offer is a Folder ending in `/` and starting with the prefix's directory part |
| CompletionProvider.BuiltinCandidates | src/completionProvider.ts:192-214 | one candidate per registered builtin name that matches the prefix |
| CompletionProvider.SnippetCandidates | src/completionProvider.ts:216-242 | without a snippet token type nothing is offered; every offer is a SnippetTrigger matching the lower-cased prefix, taken from a snippet whose description, or else trigger, describes it |
| CompletionProvider.CommandCandidates | src/completionProvider.ts:244-281 | without a command token type nothing is offered; every offer is a Command matching the lower-cased prefix and is one of the executables with its path as description |
| CompletionProvider.TypeScriptCandidates | src/completionProvider.ts:283-306 | without a TypeScript token type nothing is offered; every offer is a TypeScriptSymbol matching the lower-cased prefix and is one of the indexed labels |
| CompletionProvider.Reports | src/completionProvider.ts:336-367 | one progress report per stage in stage order, then the final one |
| CompletionProvider.Collect | src/completionProvider.ts:336-367 | the result is deduplicated and sorted: distinct values, each value's chosen candidate from the merged stage results, in the model's comparator order (ties by character order, not `localeCompare`) |
| CompletionProvider.SortKeepsFacts | src/completionProvider.ts:364-366 | sorting keeps the deduplicated candidates, hence distinct values and the same choices |
| CompletionProvider.ObjectEntries | src/completionProvider.ts:516-540 | anything that is not an object has no entries |
| CompletionProvider.ExtractSnippets | src/completionProvider.ts:516-540 | a source that is not an object gives no snippets; every trigger is non-empty and every description kept has non-blank text |
| CompletionProvider.AllBucketsAppend | src/completionProvider.ts:522-538 | entries from several buckets are the entries of each bucket, in order |
| CompletionProvider.ExtractSnippetsExample | src/completionProvider.ts:516-540 | a described trigger keeps its description, an empty key is skipped, and a blank description falls back to the trigger |
| CompletionProvider.ChosenCommandExample | src/completionProvider.ts:369-387 | a Command followed by a builtin of the same name keeps the builtin |
| HelpFlags.ScanIffSeparated | src/builtins/helpFlags.ts:5-10 | the scan finds a match exactly when `-h`, white space and `-h` occur as separate words |
| HelpFlags.SeparatedAtIffMatch | src/builtins/helpFlags.ts:8 | a match at a pair of positions is exactly a successful test at the first |
| HelpFlags.RawHasSeparatedDouble | src/builtins/helpFlags.ts:5-10 | a blank raw line is false; otherwise the result is whether the trimmed line spells `-h -h` as separate words |
| HelpFlags.Tally | src/builtins/helpFlags.ts:16-24 | the count is the number of arguments exactly `-h`, and the flag says whether one is exactly `-hh` |
| HelpFlags.DetectHelpLevel | src/builtins/helpFlags.ts:12-30 | a cluster wins; two `-h`, or the raw line spelling them apart, give double; one `-h` gives single; otherwise none |
| HelpFlags.HelpPredicates | src/builtins/helpFlags.ts:32-38 | double help holds exactly when a cluster, two `-h` or a separated raw `-h -h` was given; single help exactly when one `-h` and nothing more |
| HelpFlags.ClusterDominates | src/builtins/helpFlags.ts:26 | a `-hh` anywhere gives cluster whatever else is present |
| HelpFlags.RawSeparatedExample | src/builtins/helpFlags.ts:27 | one `-h` argument with `-h  -h` on the raw line reads as double, and without the raw repetition as single |
| DirectoryStack.Push | src/builtins/directoryStack.ts:3-5 | the stack grows by the path on top and keeps what was below |
| DirectoryStack.Pop | src/builtins/directoryStack.ts:7-9 | an empty stack gives nothing and stays empty; otherwise the top comes back and the rest plus the top is the old stack |
| DirectoryStack.Peek | src/builtins/directoryStack.ts:11-13 | nothing exactly for an empty stack, otherwise the top |
| DirectoryStack.Clear | src/builtins/directoryStack.ts:15-17 | the stack is empty afterwards |
| DirectoryStack.Entries | src/builtins/directoryStack.ts:19-21 | the copy lists the same paths, bottom first |
| DirectoryStack.Has | src/builtins/directoryStack.ts:23-25 | true exactly when the stack is not empty |
| DirectoryStack.Reverse | src/builtins/directoryStack.ts:28 | the entries listed from the top down |
| DirectoryStack.PushPop | src/builtins/directoryStack.ts:3-13 | pop undoes push and returns the pushed path; peek after push sees it |
| DirectoryStack.EmptyStack | src/builtins/directoryStack.ts:7-25 | pop and peek on an empty stack give nothing and change nothing |
| DirectoryStack.EntriesAfter | src/builtins/directoryStack.ts:3-21 | the copy grows by the pushed path, and clearing leaves nothing |
| DirectoryStack.FormatEmpty | src/builtins/directoryStack.ts:27-30 | `Format`: an empty stack formats as the current directory alone |
| DirectoryStack.FormatPush | src/builtins/directoryStack.ts:27-30 | `Format`: a pushed path is listed right after the current directory, followed by what the stack listed before |
| DirectoryStack.FormatExample | src/builtins/directoryStack.ts:27-30 | after pushing `/a` and `/b`, listing from `/home` gives `/home /b /a` |
| BuiltinRegistry.Get | src/builtins/registry.ts:21-23 | the handler registered under the name, and nothing for an unknown name |
| BuiltinRegistry.Register | src/builtins/registry.ts:17-19 | a present name keeps its place and gets the new handler; a new name is appended; names stay distinct |
| BuiltinRegistry.ListBuiltins | src/builtins/registry.ts:25-27 | the names in strictly ascending character order, characters compared by code point |
| BuiltinRegistry.RegisterDistinct | src/builtins/registry.ts:17-19 | registering keeps every name once |
| BuiltinRegistry.GetRegistered | src/builtins/registry.ts:17-23 | looking a name up after registering it gives the new handler |
| BuiltinRegistry.GetOther | src/builtins/registry.ts:17-23 | registering one name leaves every other name's handler as it was |
| BuiltinRegistry.ListedOnce | src/builtins/registry.ts:25-27 | every registered name is listed exactly once, and only those |
| BuiltinRegistry.ListExample | src/builtins/registry.ts:25-27 | two builtins registered out of order are listed sorted |
| BuiltinRegistry.PadName | src/builtins.ts:119-120 | a name shorter than the column is padded to it; a longer one is followed by one space |
| BuiltinRegistry.HelpLines | src/builtins.ts:118-123 | one line per help entry: the padded name, then the description or nothing |
| BuiltinRegistry.BuiltinList | src/builtins.ts:114-138 | a cluster lists the help entries; double and single help write their placeholders; otherwise the sorted names one per line, or a note that none are registered |
| BuiltinRegistry.HelpLineExamples | src/builtins.ts:119-122 | a short name is padded to the column and a long one gets one space |
| HistoryBuiltin.NumberedLines | src/builtins/history.ts:15-20 | one line per entry, numbered on from the start, joined by line feeds |
| HistoryBuiltin.PositiveCount | src/builtins/history.ts:48-53 | an argument gives its value when `parseInt` reads a positive integer from it, and nothing otherwise |
| HistoryBuiltin.HistoryCommand | src/builtins/history.ts:23-57 | help goes first; more than one argument, an empty history and an invalid count each write their own message; otherwise the listing |
| HistoryBuiltin.ListsNewest | src/builtins/history.ts:34-56 | a valid request lists the newest `n` entries in order, `n` the smaller of the count and the history length, the last one numbered with the history length |
| HistoryBuiltin.FormatHistoryNewest | src/builtins/history.ts:12-21 | `FormatHistory`: a count within the history shows its last `count` entries |
| HistoryBuiltin.NumbersConsecutive | src/builtins/history.ts:14-17 | line `k` of the `n` shown carries number `|history| - n + k + 1` |
| HistoryBuiltin.HistoryLineParts | src/builtins/history.ts:18 | below 100000 the number fills the first five columns and the command starts at column seven, and `parseInt` of the line reads the number back |
| HistoryBuiltin.CountExample | src/builtins/history.ts:45-56 | three entries and the argument `2` list the last two, numbered 2 and 3 |
| HistoryBuiltin.PadExample | src/builtins/history.ts:18 | entry 42 is numbered `   42` |
| Html.EscapeHtml | src/builtins/html.ts:3-10 | the replacement chain equals escaping each character on its own, so no entity is escaped twice |
| Html.ChainChar | src/builtins/html.ts:4-9 | running the five replacements over one character gives that character's entity, so no later replacement rewrites an entity an earlier one inserted |
| Html.UnescapeEscape | src/builtins/html.ts:3-10 | escaping loses nothing: unescaping gives the input back |
| Html.ApplyCode | src/builtins/html.ts:38-80 | 0 closes italic and every span; 3 opens italic unless open; 23 closes it; 39 closes one span; 31 and 32 replace the open span by a coloured one; other codes change nothing; the state keeps tracking what was emitted |
| Html.Convert | src/builtins/html.ts:22-90 | output is only ever appended, and from a state that agrees with its emitted tags, at most one `<i>` and one `<span>` are open and the state keeps agreeing |
| Html.CloseAll | src/builtins/html.ts:92-98 | closing after the loop leaves every tag closed |
| Html.ChalkPieces | src/builtins/html.ts:17-100 | the emitted pieces are balanced: every tag is closed at the end, and no tag is closed that was not opened |
| Html.ConvertCsi | src/builtins/html.ts:28-83 | an escape sequence applies its numeric parameters in order and the loop continues after the `m` |
| Html.ConvertChar | src/builtins/html.ts:84-89 | a line feed becomes `<br>` and a newline, a carriage return is dropped, any other character is escaped on its own |
| Html.Unterminated | src/builtins/html.ts:29-32 | an `ESC [` with no `m` after it ends the conversion and drops the rest of the input |
| Html.PlainText | src/builtins/html.ts:17-100 | `ChalkHtml`: text without ESC is converted character by character, and no tag is emitted |
| Html.ItalicWrap | src/builtins/html.ts:50-63 | `ChalkHtml`: italic-styled text without ESC renders as `<i>`, the text's HTML, `</i>` |
| Html.RedWrap | src/builtins/html.ts:64-79 | `ChalkHtml`: red-styled text without ESC renders as a red span around the text's HTML |
| Html.HtmlCount | src/builtins.ts:179-186 | 1 by default; a positive integer first argument replaces it; anything else is ignored |
| Html.LastEntries | src/builtins.ts:188 | the newest `count` entries in order, or all of them when there are fewer |
| Html.FirstWord | src/builtins.ts:147-151 | the first word and the rest of the line; the match fails on an empty line, on one starting with white space and on one holding a line terminator |
| Html.PlainHtmlEscapes | src/builtins.ts:143-156 | on text without line breaks or ESC the converter is `escapeHtml` |
| Html.CommandLineItalic | src/builtins.ts:145-151 | `FormatCommandHtml`: a one-line command whose first word holds no ESC renders as the word in `<i>`, then the rest escaped |
| Html.CommandMultiLine | src/builtins.ts:145-155 | `FormatCommandHtml`: only the first line is styled; every later line is escaped whole |
| Html.FormatOutputHtml | src/builtins.ts:158-161 | empty output is marked as such; anything else goes through the converter |
| Html.HtmlHistory | src/builtins.ts:163-195 | help comes first, then the empty-history paragraph, then one section per newest entry |
| Html.HtmlShowsNewest | src/builtins.ts:173-194 | without help and with history, the output is one section (`EntrySection`: `Section` around the entry's command and output HTML) for each of the last `n` entries, `n` the smaller of the count and the history length, joined by newlines |
| Html.HtmlCountExample | src/builtins.ts:179-194 | three entries and the argument `2` show the last two |
| JobControl.UpdateJobStatus | src/jobControl.ts:69-77 | the status changes; the stop time is set when stopping and cleared when running; nothing else changes |
| JobControl.ResolveJob | src/jobControl.ts:51-59 | a pending waiter is resolved, and forgotten when the job is disowned or done; other waiters are untouched, and a waiter once settled never becomes pending again |
| JobControl.RegisterJob | src/jobControl.ts:89-151 | the new job is Running with the next id, no exit code and no signal, and has a pending waiter; a foreground job pauses input and takes the slot; the table stays reachable |
| JobControl.OnSpawn | src/jobControl.ts:89-114 | the pid is refreshed when the child reports one, and a job registered with `background` set announces itself, even after `fg`, `bg` or `suspend-job` rewrote its `background` field |
| JobControl.OnError | src/jobControl.ts:116-127 | the job is Done with exit code 1 and no signal; the slot holder gives up the slot and resumes input, any other job re-renders the prompt; the waiter is resolved, and the waiters change only by resolving this job |
| JobControl.OnExit | src/jobControl.ts:129-144 | the code and the signal are recorded and the job is Done; the slot holder gives up the slot and resumes input; another, non-disowned job reports its exit label and re-renders; a disowned one stays silent; the waiter is resolved, and the waiters change only by resolving this job |
| JobControl.ListJobs | src/jobControl.ts:153-155 | exactly the non-disowned jobs, in registration order |
| JobControl.ForegroundJob | src/jobControl.ts:157-160 | nothing when the slot is empty; otherwise a visible job whose id is in the slot |
| JobControl.FindJob | src/jobControl.ts:162-179 | a found job is always a visible job of the table |
| JobControl.FindCurrent | src/jobControl.ts:164-166 | the current-job spec picks the newest job that is not Done, else the newest job of all, and nothing only when no job is visible |
| JobControl.FindPrevious | src/jobControl.ts:168-170 | `%-` picks a not-Done job with exactly one newer not-Done job; when it finds nothing, at most one job is not Done |
| JobControl.FindNumeric | src/jobControl.ts:172-176 | a spec that parses as `n` after one optional `%` picks the oldest job with id `n`, else the oldest with pid `n` |
| JobControl.FindByPrefix | src/jobControl.ts:172-178 | any other spec picks the oldest job whose command starts with it, one leading `%` removed |
| JobControl.SuspendForegroundJob | src/jobControl.ts:191-203 | without a foreground job, or when the signal is not delivered, nothing changes and the result is false; otherwise the job is Stopped, the slot is freed, input resumes and a Stopped message is written |
| JobControl.ResumeJobInForeground | src/jobControl.ts:205-213 | a Done job is left alone; any other job pauses input, takes the slot and runs in the foreground |
| JobControl.ResumeJobInBackground | src/jobControl.ts:215-222 | a Done job is left alone; any other job runs in the background and announces that it continued |
| JobControl.DisownJob | src/jobControl.ts:230-234 | the job is disowned, so it leaves the listing, and its waiter is resolved and forgotten |
| JobControl.JobStatusLabel | src/jobControl.ts:236-248 | Running or Foreground by the background flag, Stopped, and for Done jobs the signal, Done for exit code 0, else `Exit` and the code or `?` |
| JobControl.FormatJob | src/jobControl.ts:250-254 | the line is `[id] pid label command`, with `?` for a missing pid |
| JobControl.LabelDeterminesStatus | src/jobControl.ts:236-248 | a label never belongs to two different statuses |
| JobControl.RegisteredIds | src/jobControl.ts:91 | jobs registered from the initial table are numbered 1, 2, and so on |
| JobControl.InitialValid | src/jobControl.ts:41-43 | the fresh table holds no jobs and is reachable |
| JobControl.SuspendThenForeground | src/jobControl.ts:191-213 | suspending the foreground job and resuming it in the foreground restores it as a Running foreground job holding the slot |
| JobControl.SpawnUsesRegistration | src/jobControl.ts:89-114 | a job registered in the background that `fg` moves to the foreground before it spawns still announces `Started`, and a job registered in the foreground never does |
| JobControl.DisownHides | src/jobControl.ts:230-234 | once disowned a job is no longer listed while every other listed job still is, no spec finds it, and waiting on it returns at once |
| JobControl.ExitFreesSlot | src/jobControl.ts:116-144 | an exit or an error of the job holding the slot frees it, leaving no foreground job |
| JobControl.LabelExamples | src/jobControl.ts:242-244 | exit 0 is Done, exit 2 is `Exit 2`, and a signal wins |
| JobControl.FormatExample | src/jobControl.ts:250-254 | the listing line of a running background job is `[3] 7 Running sleep 5` |
| JobControl.DoneMessageExample | src/jobControl.ts:65-67 | the `JobMessage` line a job that exited with code 0 writes is `[3] Done sleep 5` |
| JobBuiltins.RespondHelp | src/builtins/jobControl.ts:23-38 | help is answered exactly when a help level was detected: the cluster caption, or the double or single placeholder |
| JobBuiltins.ParseSignal | src/builtins/jobControl.ts:101-107 | a number when the rest parses as one, else the rest upper-cased when non-empty, else no signal |
| JobBuiltins.KillArgs | src/builtins/jobControl.ts:96-108 | a leading option is removed from the targets and selects the signal; otherwise all arguments are targets |
| JobBuiltins.KillOne | src/builtins/jobControl.ts:113-131 | a found job is signalled, writing `kill: failed for <spec>` when not delivered and letting a thrown error escape; an unknown non-numeric target writes `kill: invalid target <spec>`; a pid is signalled directly, a thrown error written as `kill: <message>`, and nothing written otherwise |
| JobBuiltins.DisownEach | src/builtins/jobControl.ts:168-175 | each found spec disowns one more job and each unknown spec is reported on its own line |
| JobBuiltins.HelpShortCircuits | src/builtins/jobControl.ts:23-38 | any help flag answers with the help text and leaves the job table alone |
| JobBuiltins.JobsReply | src/builtins/jobControl.ts:40-49 | `jobs` leaves the table alone and reports an empty listing, or writes every listed job's formatted line, each ended by a newline, in listing order |
| JobBuiltins.JoinedThenNewline | src/builtins/jobControl.ts:47-48 | joining the formatted lines with newlines and adding one newline ends every line with a newline |
| JobBuiltins.Jobs | src/builtins/jobControl.ts:40-49 | `jobs` always writes something and never changes the table, awaits or lets an error escape |
| JobBuiltins.Fg | src/builtins/jobControl.ts:53-68 | `fg` lets nothing escape; it changes the table only when it resumes and awaits the one job the spec finds, which was not Done and now holds the foreground slot; the table stays reachable |
| JobBuiltins.Bg | src/builtins/jobControl.ts:72-86 | `bg` awaits nothing, lets nothing escape, keeps the job count and the foreground slot, and keeps the table reachable |
| JobBuiltins.FirstThrowIsFirst | src/builtins/jobControl.ts:113-131 | no target before the one `FirstThrow` names throws when signalled, and that one, when there is one, does |
| JobBuiltins.KillEach | src/builtins/jobControl.ts:113-131 | the loop writes each target's lines in order, up to and including the first target whose signalling throws, and that target's error escapes; with no such target every target writes and nothing escapes |
| JobBuiltins.KillEachEscapes | src/builtins/jobControl.ts:113-131 | no error escapes exactly when no target's signalling throws; otherwise the escaping error is that of the first target that throws |
| JobBuiltins.Kill | src/builtins/jobControl.ts:90-133 | `kill` never changes the table or awaits; with targets left after the option it writes their lines up to and including the first target that throws, whose error escapes; any escaping error comes from signalling one of those targets |
| JobBuiltins.Settle | src/jobControl.ts:116-144 | awaiting a job whose waiter is already settled returns at once and changes nothing; otherwise the job's exit or error handler runs first, so the job is Done and its waiter settled; no other job changes and no settled waiter becomes pending |
| JobBuiltins.WaitEach | src/builtins/jobControl.ts:143-150 | every awaited job is a listed job; only awaited jobs change, each into Done or not at all; every awaited job's waiter is settled at the end; in a reachable table every awaited job whose waiter was pending is Done, and the table stays reachable |
| JobBuiltins.SettleThenRest | src/builtins/jobControl.ts:143-150 | awaiting one job and then the later specs from the table that leaves awaits them all, with the guarantees stated for `WaitEach` |
| JobBuiltins.WaitEachCons | src/builtins/jobControl.ts:143-150 | the first spec is looked up and awaited on its own, and the later specs are looked up in the table it leaves, in which that job has ended |
| JobBuiltins.SettleEach | src/jobControl.ts:187-189 | awaiting all listed jobs ends each of them: only they change, each into Done or not at all, and each one's waiter is settled |
| JobBuiltins.WaitEachAppend | src/builtins/jobControl.ts:143-150 | the specs are handled one after another: for `a + b` the loop does what it does for `a` and then, from the table that leaves, what it does for `b`; the outputs and the awaited jobs concatenate |
| JobBuiltins.WaitEachOne | src/builtins/jobControl.ts:144-149 | a found spec is awaited, writes nothing and leaves the table its job ending gives; an unknown one writes `wait: no such job <spec>`, awaits nothing and changes nothing |
| JobBuiltins.WaitCurrentThenPrevious | src/builtins/jobControl.ts:143-150 | with three running jobs, `wait %+ %-` awaits the newest job and then the oldest, because the newest has ended when `%-` is looked up |
| JobBuiltins.Wait | src/builtins/jobControl.ts:137-151 | `wait` lets no error escape and awaits only listed jobs; the table it returns differs only in the awaited jobs, each Done or unchanged with its waiter settled; in a reachable table every awaited job whose waiter was pending is Done, and the table stays reachable |
| JobBuiltins.Suspend | src/builtins/jobControl.ts:155-158 | `suspend` keeps the jobs and the slot; when it acts it writes nothing and only pauses input |
| JobBuiltins.Disown | src/builtins/jobControl.ts:162-176 | `disown` awaits nothing and lets nothing escape; it keeps the job count, slot and trace, never un-disowns a job, disowns at most one job per argument and keeps the table reachable |
| JobBuiltins.SuspendJob | src/builtins/jobControl.ts:180-185 | `suspend-job` awaits nothing and lets nothing escape; when it changes the table the signal was delivered to the foreground job, which is now Stopped with the slot freed, and nothing is written |
| JobBuiltins.Run | src/builtins/jobControl.ts:40-185 | only `kill` lets an error escape, only `fg` and `wait` await jobs, and every builtin keeps the table reachable |
| JobBuiltins.FgReply | src/builtins/jobControl.ts:53-68 | `fg` refuses an unknown spec, naming `%+` when none was given, and a Done job, leaving the table alone; any other job is resumed in the foreground and awaited |
| JobBuiltins.BgOnlyStopped | src/builtins/jobControl.ts:72-86 | `bg` changes the table only for a Stopped job, which then runs in the background; other jobs are reported with their label |
| JobBuiltins.KillMissingTarget | src/builtins/jobControl.ts:90-112 | `kill` with nothing to signal says so, even after consuming an option |
| JobBuiltins.SignalExamples | src/builtins/jobControl.ts:101-107 | `-9` selects signal 9, `-term` selects TERM, and a bare `-` none |
| JobBuiltins.DisownNeedsSpec | src/builtins/jobControl.ts:164-167 | `disown` with no argument is an error and changes nothing |
| JobBuiltins.DisownReport | src/builtins/jobControl.ts:162-176 | `disown` disowns one job per resolvable spec and reports every other spec on a line of its own |
| JobBuiltins.SuspendJobFails | src/builtins/jobControl.ts:180-185 | `suspend-job` without a stoppable foreground job reports it and changes nothing |
| JobBuiltins.WaitAll | src/builtins/jobControl.ts:137-142 | `wait` without arguments writes nothing, awaits every listed job and only those, and returns with every listed job's waiter settled |
| JobBuiltins.FreshShellExamples | src/builtins/jobControl.ts:40-61 | on a fresh table `jobs` reports no jobs and a bare `fg` reports `%+` |
| CommandSummary.CollapseWs | src/commandSummary.ts:34 | the result is single-spaced, empty exactly when the input is, and starts with white space exactly when the input does |
| CommandSummary.CollapseKeepsText | src/commandSummary.ts:34 | collapsing keeps every non-white-space character, in order |
| CommandSummary.CollapseFixed | src/commandSummary.ts:34 | collapsing a single-spaced string changes nothing |
| CommandSummary.CollapseIdempotent | src/commandSummary.ts:34 | collapsing twice is collapsing once |
| CommandSummary.Cleaned | src/commandSummary.ts:25-29 | the kept lines are trimmed, non-empty and not warnings |
| CommandSummary.CleanedMembers | src/commandSummary.ts:25-29 | the cleaned list holds exactly the trimmed lines that are kept |
| CommandSummary.TrimDropsCarriageReturn | src/commandSummary.ts:21 | `trim` drops the carriage return of a `\r\n` ending, so splitting at line feeds gives the same trimmed lines |
| CommandSummary.QuoteLoopFirst | src/commandSummary.ts:30-36 | the first loop picks the first quote line with text, collapsed; with none it leaves nothing or the empty string |
| CommandSummary.FallbackFirst | src/commandSummary.ts:38-47 | the second loop takes the first kept line that is not the command's name or a "more information" line, collapsed, and nothing when there is none |
| CommandSummary.Summarize | src/commandSummary.ts:21-49 | a non-empty summary is always single-spaced |
| CommandSummary.GetCommandSummary | src/commandSummary.ts:8-54 | a blank name gives nothing and runs nothing; a cached name answers from the cache; otherwise `tldr` runs, a failure caches nothing found, and the summary is cached under the trimmed name |
| CommandSummary.ResetCache | src/commandSummary.ts:56-58 | the cache is empty afterwards |
| CommandSummary.LookupTwice | src/commandSummary.ts:8-13 | a second lookup answers from the cache with the same summary, failures included |
| CommandSummary.LookupAfterReset | src/commandSummary.ts:56-58 | after a reset the next lookup of a non-blank name runs `tldr` again |
| Prompt.SafeNumber | src/prompt.ts:4 | a non-negative number is kept; negative and non-finite numbers become 0 |
| Prompt.CounterReadsBack | src/prompt.ts:5 | the counter is all digits, at least four of them, reads back as the number, and is the plain decimal rendering once that has four or more digits |
| Prompt.CounterWidth | src/prompt.ts:1-5 | below 10000 the counter is exactly four characters |
| Prompt.CounterInjective | src/prompt.ts:5 | two counters are equal exactly when the numbers are |
| Prompt.DefaultsToZero | src/prompt.ts:3-4 | `PromptText`: omitted, zero, negative and non-finite arguments give the same prompt |
| Prompt.PromptExamples | src/prompt.ts:3-7 | `PromptText`: `prompt(12)` gives `0012 ` then the directory and `> `, and `prompt()` gives `0000 ` |
| Prompt.LongCounter | src/prompt.ts:5 | `PromptText`: `prompt(12345)` starts with `12345`, never cut |
| BitEnum.ToInt32 | templates/bitenum/gen.ts:55 | the value lies in the signed 32-bit range and is congruent to the input modulo `2^32` |
| BitEnum.Shl1 | templates/bitenum/gen.ts:64 | `v << 1` is twice the value modulo `2^32`, as a signed 32-bit number |
| BitEnum.Lit | templates/bitenum/gen.ts:34-38 | the literal keeps the value and its raw text is the decimal rendering |
| BitEnum.CreateEnumAst | templates/bitenum/gen.ts:41-82 | one declaration named as given, one member per input member in order under its own name, and an explicit member keeps its initializer |
| BitEnum.PowerTestMeans | templates/bitenum/gen.ts:60 | the power-of-two test holds exactly for numbers whose low 32 bits are zero or a single power of two |
| BitEnum.ExplicitKeepsSequence | templates/bitenum/gen.ts:56-66 | only bare members and resetting literals move the sequence; every other explicit member leaves it |
| BitEnum.PowerLiteralResets | templates/bitenum/gen.ts:58-63 | an explicit `2^j` with `j < 30` restarts the sequence at `2^(j+1)`, and 0 restarts it at 0 |
| BitEnum.ThreeKeepsSequence | templates/bitenum/gen.ts:58-63 | a literal failing the test, such as 3, is kept and does not restart the sequence |
| BitEnum.BarePowers | templates/bitenum/gen.ts:52-55 | bare members only: the `k`-th gets `2^(k + j)` after a start of `2^j`, while that stays below `2^31` |
| BitEnum.BareFromOne | templates/bitenum/gen.ts:41-55 | bare members are numbered 1, 2, 4, and so on from the start |
| BitEnum.FlagsExample | templates/bitenum/gen.ts:85-93 | in the example, `Read`, `Write` and `Delete` get 1, 2 and 16 around `Execute = 8` and `ReadWrite = Read \| Write` |
| BitEnum.ShiftWraps | templates/bitenum/gen.ts:52-55 | the 32-bit shift wraps around: `2^30 << 1` is `-2^31` and `-2^31 << 1` is 0 |
| BitEnum.BareShifted | templates/bitenum/gen.ts:52-55 | among bare members the `k`-th gets the start value shifted left `k` times |
| BitEnum.ShiftPow2 | templates/bitenum/gen.ts:52-55 | shifting `2^j` left `n` times gives `2^(j + n)` up to `2^30`, then `-2^31`, then 0 for good |
| BitEnum.BareNumbering | templates/bitenum/gen.ts:46-55 | `createEnumAST` numbers bare members 1, 2, 4, … up to `2^30`; the 32nd gets `-2^31` and every later one 0 |
| StrEnum.EscapeChar | templates/strenum/gen.ts:28-32 | a printable character other than `"` and `\` stands for itself; every escape is non-empty |
| StrEnum.Quote | templates/strenum/gen.ts:28-32 | the raw text begins and ends with a double quote |
| StrEnum.HexRoundTrip | templates/strenum/gen.ts:28-32 | the hex digit written for a character reads back as its value |
| StrEnum.Str | templates/strenum/gen.ts:28-32 | the literal keeps the value and its raw text is `JSON.stringify` of it |
| StrEnum.InitializerOf | templates/strenum/gen.ts:44-50 | a bare member and a tuple without initializer get their own name quoted; a given initializer is kept |
| StrEnum.Build | templates/strenum/gen.ts:41-57 | one member per input member, in order, each with its name and initializer |
| StrEnum.CreateStringEnumAst | templates/strenum/gen.ts:34-66 | one declaration named as given, with the members in order, given initializers kept and every other member valued by its own name |
| StrEnum.UnquoteQuote | templates/strenum/gen.ts:28-32 | parsing the raw text of a generated literal with `JSON.parse` gives back its value |
| StrEnum.DecodeChar | templates/strenum/gen.ts:28-32 | decoding one escape and what follows gives the character in front of what follows decodes to |
| StrEnum.QuotePlain | templates/strenum/gen.ts:28-32 | a name without control characters, quotes or backslashes is quoted as it is |
| StrEnum.DefaultsParse | templates/strenum/gen.ts:44-50 | the raw text of a default initializer parses back to the member's own name |
| StrEnum.BarePlain | templates/strenum/gen.ts:44-46 | a bare member with a plain name gets its name, in double quotes, as initializer |
| StrEnum.DirectionExample | templates/strenum/gen.ts:69-76 | in the example, `North` and `West` get their names and `East` keeps `"E"` |
| EditorKeys.TableLengths | src/editor.ts:275-299 | the table holds 22 sequences: one of four characters, eight of three, the rest single characters |
| EditorKeys.TableOrdered | src/editor.ts:299 | after the sort no entry is empty and no entry is longer than one before it |
| EditorKeys.FirstMatchFrom | src/editor.ts:331-338 | a found entry starts at the position, and no entry scanned before it does |
| EditorKeys.FirstIsLongest | src/editor.ts:299-338 | scanning the length-sorted table finds the longest sequence starting at the position, and finds one exactly when some sequence starts there |
| EditorKeys.TextEnd | src/editor.ts:341-348 | the text run stops at the end of the input or at the first later position where a sequence starts, and no sequence starts before that |
| EditorKeys.Spans | src/editor.ts:326-351 | the pieces cover the input in order; each key piece is the longest sequence starting there; no sequence starts inside a text piece; text pieces are maximal |
| EditorKeys.Head | src/editor.ts:328-348 | the first piece is the longest sequence starting at the position, or else the text up to the next position where one starts |
| EditorKeys.TokenizeWith | src/editor.ts:326-351 | the tokenizer's loop produces exactly the tokens of that cut |
| EditorKeys.FindKey | src/editor.ts:331-338 | the inner loop gives the first table entry starting at the position, or the table length when none does |
| EditorKeys.TextRunEnd | src/editor.ts:341-348 | the text loop stops at the first later position where a sequence starts, or at the end |
| EditorKeys.Tokenize | src/editor.ts:326-351 | with the editor's own table, which is ordered, the tokens are the longest-match cut |
| Editor.TextSplits | src/editor.ts:29-35 | the buffer is the text before the cursor followed by the text after it |
| Editor.BeforeEmpty | src/editor.ts:29-35 | nothing is before the cursor exactly at the start of the buffer |
| Editor.AfterEmpty | src/editor.ts:29-35 | nothing is after the cursor exactly at the end of the last line |
| Editor.MoveLeft | src/editor.ts:102-108 | the text is unchanged; at the start nothing moves, otherwise one character passes from before the cursor to after it |
| Editor.MoveRight | src/editor.ts:109-115 | the text is unchanged; at the end nothing moves, otherwise one character passes from after the cursor to before it |
| Editor.PreviousLine | src/editor.ts:116-121 | up one line with the column clamped to its length; nothing on the first line |
| Editor.NextLine | src/editor.ts:122-127 | down one line with the column clamped to its length; nothing on the last line |
| Editor.BeginningOfLine | src/editor.ts:209 | the cursor goes to column 0 of its line and the text is unchanged |
| Editor.EndOfLine | src/editor.ts:210 | the cursor goes to the end of its line and the text is unchanged |
| Editor.InsertText | src/editor.ts:354-360 | the text goes in at the cursor: the part before the cursor grows by it and the part after is unchanged; an empty text changes nothing |
| Editor.DeleteChar | src/editor.ts:217-223 | inside a line the character under the cursor goes and the part before is unchanged; at a line's end nothing changes |
| Editor.BackwardDeleteChar | src/editor.ts:224-237 | the last character before the cursor goes, a line break joining two lines, and the part after is unchanged; nothing at the start of the buffer |
| Editor.KillLineEnd | src/editor.ts:244-247 | the part before the cursor is unchanged and exactly the rest of the line is cut |
| Editor.KillLineBeginning | src/editor.ts:248-252 | exactly the line's text before the cursor is cut, the part after is unchanged, and the cursor is at column 0 |
| Editor.ResetBuffer | src/editor.ts:186-190 | one empty line with the cursor at its start and the history kept |
| Editor.LoadHistory | src/editor.ts:84-94 | an index inside the history shows that entry, selects it and keeps the cursor inside the buffer; any other index empties the buffer |
| Editor.PreviousHistory | src/editor.ts:128-132 | an empty history changes nothing; otherwise the newest entry when none is selected, else the one before, stopping at the oldest |
| Editor.NextHistory | src/editor.ts:133-143 | with no selection nothing happens; below the newest the next entry is shown; past the newest the buffer empties and the selection clears |
| Editor.Continue | src/editor.ts:147-155 | the trailing backslash of the cursor's line is dropped and an empty line opens below it with the cursor at its start |
| Editor.Submit | src/editor.ts:146-184 | a line ending in a backslash continues; otherwise the trimmed buffer is accepted, appended to the history unless empty, and the buffer is reset; the old history is always a prefix of the new one |
| Editor.DeleteOrEof | src/editor.ts:197-208 | an empty buffer exits with code 0; otherwise it deletes like `deleteChar` |
| Editor.Apply | src/editor.ts:193-272 | every action keeps the editor well formed and only ever extends the history; a line is accepted only by `acceptLine`, and an exit, which leaves the editor as it was, comes only from `exitEditor` or end-of-input |
| Editor.HandleToken | src/editor.ts:366-372 | a key runs its mapped action, if any; text is inserted |
| Editor.KeyBindings | src/editor.ts:301-323 | `KeyAction`: only `enter` accepts a line, only `ctrl-c` and `ctrl-d` can end the editor, each movement along a line has its control key and its arrow or `home`/`end` key, and an unmapped key does nothing |
| Editor.Run | src/editor.ts:363-374 | the history only grows; only the last effect can be an exit, so nothing after an exit is handled |
| Editor.HandleChunk | src/editor.ts:363-374 | handling a chunk keeps the editor well formed and only extends the history, and every effect but the last is an accepted line |
| Editor.RightUndoesLeft | src/editor.ts:102-115 | moving right undoes moving left |
| Editor.LeftUndoesRight | src/editor.ts:102-115 | moving left undoes moving right |
| Editor.BackspaceUndoesInsert | src/editor.ts:224-237 | backspace undoes typing one character |
| Editor.KillsRemoveSpan | src/editor.ts:244-252 | killing removes exactly the text between the cursor and the end, or the start, of its line and keeps the rest of the buffer |
| Editor.HistoryBackAndForth | src/editor.ts:128-143 | stepping back and forward again returns to the selected entry |
| Editor.HistoryNewestAndBack | src/editor.ts:128-143 | from no selection, back shows the newest entry and forward again empties the buffer and clears the selection |
| Editor.HistoryClampsAtOldest | src/editor.ts:128-132 | stepping back from the oldest entry stays there |
| Editor.ContinueOnLastLine | src/editor.ts:147-155 | on the last line the trailing backslash becomes a line break, with the cursor at the end of the buffer |
| Editor.SubmitThenRecall | src/editor.ts:157-183 | submitting a buffer with text adds it to the history, and stepping back then shows it again |
| Strings.TrimEmptyIffAllWs | src/multilineEnter.ts:10 | a string trims to empty exactly when it is all white space |
| Strings.JoinSplit | src/editor.ts:84-94 | joining the pieces of a split with the same separator gives the string back |
| Strings.SplitJoin | src/editor.ts:157-158 | splitting undoes joining with a separator that no part contains |
| Strings.ParseIntOfNatToString | src/builtins/history.ts:48 | `parseInt` reads a plain decimal rendering back as its value |
| Strings.SortStrings | src/builtins/registry.ts:25-27 | the result is strictly ascending in character order, characters compared by code point, and has the same elements |

## Left out

- Painting, colours and terminal control are not modelled: the prompt and
  buffer rendering of the line editor, chalk's colour level and the
  highlighters of `typeInit`.
- The editor's look-up of commands on `PATH`, spawning them and echoing
  unknown ones are not modelled. An accepted line is an effect. Its buffer
  reset is modelled as immediate, while the source resets only after a
  spawned child exits.
- `process.exit` becomes an `Exit` effect.
- Reading files and directories is not modelled, and neither are YAML
  parsing and dumping, the TypeScript compiler's symbol index or the
  executable cache. Their results are inputs.
- The language file's token types, whose validators are opaque, come in
  as a list of entries.
- `isStrNumber` is not modelled. It depends on JavaScript's
  floating-point `Number` parse.
- Numbers are integers. Fractional history numbers in the prompt, `NaN`
  other than as a non-finite input, and literals beyond `2^53` are not
  modelled.
- `parseInt` of a digit run too long for a finite double is treated as
  finite.
- JavaScript strings are sequences of UTF-16 code units, the model's
  are sequences of Unicode scalar values. A character outside the Basic
  Multilingual Plane counts 1 in a length or index, where JavaScript
  counts its two surrogates, and it orders by its code point, where
  JavaScript orders by its leading surrogate (so the model puts it after
  U+E000 to U+FFFF, JavaScript before). Lone surrogates cannot occur and
  are not given `JSON.stringify`'s `\u` escapes.
- White space (`\s`, `trim`) and case mapping are ASCII only.
- `Object.entries` lists fields in document order. JavaScript lists
  integer-like keys first, in numeric order.
- A raw operator entry whose `type` is not a string is not modelled.
- `killJob`'s delivery to the child is an input, and `process.kill` on a
  bare pid is a function from pid and signal to an optional error.
- The asynchronous parts of `fg` and the completion stages are not
  modelled. `fg` returns the table as its await begins, with the job
  listed as awaited, and the stages run in their fixed order.
- JobBuiltins.WaitEach: while `wait` awaits one job, other jobs can end
  at the same time, and a later spec then sees them Done. The model ends
  only the awaited job before the next lookup. How each awaited child
  ends (exit code and signal, or an error) is the input `ends`, and that
  end is taken to come.
- JobBuiltins.Wait: the returned table is the one after the awaited jobs
  have ended, not the table `wait` was given.
- JobBuiltins.SettleEach: `waitForAllJobs` awaits every listed job at
  once, so they end in whatever order their children do. The model ends
  them in listing order, which fixes the order of the lines their exit
  handlers write.
- src/builtins/registry.ts defines only `registerBuiltin`, `getBuiltin`
  and `listBuiltins`. The `registerBuiltinHelp`, `getBuiltinHelp` and
  `listBuiltinHelpEntries` that src/builtins.ts (lines 5-6, 15-17, 117,
  141, 198) and src/builtins/jobControl.ts (lines 3, 51, 70 and after each
  builtin) import from it are not defined there, so as written these
  modules do not load. The model follows the evidently intended registry:
  `builtins` receives the help entries as a parameter, and the
  `registerBuiltinHelp` calls are not modelled.
- Operators.LoadOperators: entry types go through the corrected check.
  As written (src/expr/expr.ts:118 calls the `in`-based check) an entry
  whose type is an inherited property name such as `toString` is
  registered under a key built from a function's text and counted, where
  the model stops with the unknown-type error.
- JobBuiltins.FgReply: src/builtins/jobControl.ts:21 imports `JobStatus`
  from src/types.ts, which does not define it (src/jobControl.ts:4 does),
  so as written the status tests of lines 62 and 81 cannot run on a found
  job. The model compares with the statuses of src/jobControl.ts, as
  evidently intended.
- JobBuiltins.BgOnlyStopped: the same unresolved `JobStatus` import; the
  model follows the intended one.
- JobBuiltins.Suspend: the shell's own `SIGTSTP` (src/jobControl.ts:258)
  is not modelled, only the pause of input.
- The file-system builtins (`cd`, `pushd`, `popd`, `dirs`, `mkdir`,
  `pwd`, `clear`, `exit`, `ts`, `lush`, busybox) are not modelled. They
  wrap operating-system calls. Of them, only the directory stack they
  share is modelled.
- src/history.ts is not part of this model. It is a history store whose
  source does not compile as written.
- The native busybox host is not part of this model.
- CompletionProvider.CandLess: two values equal up to case are ordered
  by character order, while `sortCandidates` orders them with
  `localeCompare`, whose order depends on the locale's collation (under
  the usual one `"a"` sorts before `"A"`, here `"A"` before `"a"`).
- CompletionProvider.CandLessTransitive: proved for the model's
  character-order tie-break only, not for `localeCompare`.
- CompletionProvider.CandLessTotal: proved for the model's
  character-order tie-break only, not for `localeCompare`.
- CompletionProvider.SortCandidates: sorted under the model's comparator,
  so candidates equal up to case may come out in the opposite order to
  the source's.
- CompletionProvider.SortedUnique: the uniqueness is for the model's
  comparator, not for the `localeCompare` tie-break.
- CompletionProvider.Collect: its order inherits the model's tie-break
  for values equal up to case.
- BuiltinRegistry.ListBuiltins: names are compared by code point, not by
  UTF-16 code unit, so a name with a character above U+FFFF is placed
  after one with a character in U+E000 to U+FFFF, where JavaScript's
  `sort` places it before.
- Strings.SortStrings: compares by code point, not by UTF-16 code unit,
  with the same consequence for characters above U+FFFF.
- Html.ChalkPieces: the model proves that the emitted tags are balanced
  and never nested deeper than one `<i>` and one `<span>`. It does not
  prove that `<i>` and `<span>` are properly nested with respect to each
  other: code 0 closes `</i>` before the spans even when the span was
  opened first.
- TokenEdit.InsertTextText: states the result for non-negative columns
  only; a negative column, which the source accepts, is covered by
  `TokenEdit.InsertTextBelowZero` and `TokenEdit.InsertTextChars`.
- TokenEdit.DeleteRangeText: states the result for non-negative starts
  only; a negative start, which the source accepts, is covered by
  `TokenEdit.DeleteRangeBelowZero`.
- TokenEdit.DeleteRangeBelowZero: proved for lines without empty tokens,
  which every line the editor keeps is; on a line holding an empty leaf a
  negative column can find that leaf and stop the loop early.
- BitEnum.CreateEnumAst: a literal that is not a finite integer takes
  no part in the power-of-two test. Fractional values are not modelled.

## Findings

| source | as written | input that shows it | evidently intended | confidence | as-written member | corrected member |
|---|---|---|---|---|---|---|
| src/tokens.ts:79-81 | `s1 ? { type, s } : { type, s, s1 }` stores the secondary symbol only when it is falsy | `registerOpr("[", Circumfix, "]")` stores `{ type, s: "[" }` without `"]"` | the secondary symbol is stored when it is supplied | not executed | TokenRegistry.RegisterOprAsWritten | TokenRegistry.RegisterOpr |
| src/expr/expr.ts:90-95 | `value in OprType` is true for inherited properties of the enum object | the operator type `"toString"` passes the check and yields a function instead of an operator type | only the six member names are accepted | not executed | Operators.AssertOprTypeAsWritten | Operators.AssertOprType |

=== FILE: bitenum.dfy ===
/** The bit-flag enum generator of templates/bitenum/gen.ts: it builds
    the syntax tree of one TypeScript `enum` whose bare members get the
    successive powers of two. The shift and the power-of-two test are
    JavaScript's 32-bit integer operators, written out here over
    unbounded integers (section 13.9.1 of ECMA-262 for `<<`, section
    13.12 for `&`, both through ToInt32 / ToUint32 of section 7.1). */
module BitEnum {
  import opened Strings
  import TokenType

  // ---------------------------------------------------------------------
  // 32-bit integer arithmetic

  const Two32: int := 0x1_0000_0000
  const Two31: int := 0x8000_0000

  /** ToUint32 of an integral number. */
  function ToUint32(v: int): (u: nat)
    ensures u < Two32
    ensures 0 <= v < Two32 ==> u == v
    ensures -Two32 <= v < 0 ==> u == v + Two32
  {
    v % Two32
  }

  /** ToInt32 of an integral number. */
  function ToInt32(v: int): (i: int)
    ensures -Two31 <= i < Two31
    ensures -Two31 <= v < Two31 ==> i == v
    ensures (i - v) % Two32 == 0
  {
    var u := ToUint32(v);
    if u < Two31 then u else u - Two32
  }

  /** `v << 1`. */
  function Shl1(v: int): (r: int)
    ensures -Two31 <= r < Two31
    ensures (r - 2 * v) % Two32 == 0
  {
    var u := ToUint32(v);
    Doubled(u, v);
    Congruent(ToInt32(u * 2), u * 2, 2 * v);
    ToInt32(u * 2)
  }

  lemma Doubled(x: int, y: int)
    requires (x - y) % Two32 == 0
    ensures (2 * x - 2 * y) % Two32 == 0
  {
    var p := (x - y) / Two32;
    assert 2 * x - 2 * y == Two32 * (2 * p);
  }

  lemma Congruent(x: int, y: int, z: int)
    requires (x - y) % Two32 == 0 && (y - z) % Two32 == 0
    ensures (x - z) % Two32 == 0
  {
    var p, q := (x - y) / Two32, (y - z) / Two32;
    assert x - z == Two32 * (p + q);
  }

  /** The bitwise and of the low `n` bits of `a` and `b`. */
  function BitAnd(a: nat, b: nat, n: nat): (r: nat)
    ensures a == 0 || b == 0 ==> r == 0
  {
    if n == 0 then 0
    else (if a % 2 == 1 && b % 2 == 1 then 1 else 0) + 2 * BitAnd(a / 2, b / 2, n - 1)
  }

  /** `v & (v - 1)` is zero: the generator's power-of-two test. */
  predicate PowerTest(v: int) {
    BitAnd(ToUint32(v), ToUint32(v - 1), 32) == 0
  }

  function Pow2(k: nat): (p: nat)
    ensures p >= 1
  {
    if k == 0 then 1 else 2 * Pow2(k - 1)
  }

  ghost predicate IsPow2(u: nat) {
    exists k: nat :: u == Pow2(k)
  }

  // ---------------------------------------------------------------------
  // The syntax tree

  /** A number value: an integer, or a non-integral number kept by its
      source text. */
  datatype Number = Integer(n: int) | NonInteger(text: string)

  datatype Initializer =
    | Literal(value: Number, raw: string)
    /** `left | right` of two identifiers. */
    | BitOr(left: string, right: string)

  /** An input member: a bare name, or a name with its initializer. */
  datatype Member = Bare(name: string) | Explicit(name: string, init: Initializer)

  datatype EnumMember = EnumMember(id: string, initializer: Initializer)
  datatype EnumDeclaration = EnumDeclaration(id: string, members: seq<EnumMember>)
  datatype Program = Program(body: seq<EnumDeclaration>)

  /** `lit(value)`: the raw text is the decimal rendering. */
  function Lit(value: int): (l: Initializer)
    ensures l.Literal? && l.value == Integer(value) && l.raw == IntToString(value)
  {
    Literal(Integer(value), IntToString(value))
  }

  /** An explicit initializer that restarts the sequence: an integer
      literal passing the power-of-two test. */
  predicate Resets(init: Initializer) {
    init.Literal? && init.value.Integer? && PowerTest(init.value.n)
  }

  /** The automatic value after one member. */
  function Step(m: Member, current: int): int {
    match m
    case Bare(_) => Shl1(current)
    case Explicit(_, init) => if Resets(init) then Shl1(init.value.n) else current
  }

  /** The members from `current` on. */
  function Build(ms: seq<Member>, current: int): (out: seq<EnumMember>)
    ensures |out| == |ms|
    ensures forall k :: 0 <= k < |ms| ==> out[k].id == ms[k].name
    ensures forall k :: 0 <= k < |ms| && ms[k].Explicit? ==> out[k].initializer == ms[k].init
    ensures |ms| > 0 && ms[0].Bare? ==> out[0].initializer == Lit(current)
  {
    if |ms| == 0 then []
    else
      var m := ms[0];
      var head := match m
        case Bare(n) => EnumMember(n, Lit(current))
        case Explicit(n, init) => EnumMember(n, init);
      [head] + Build(ms[1..], Step(m, current))
  }

  /** `createEnumAST`: one declaration with the given name. */
  function CreateEnumAst(name: string, ms: seq<Member>): (p: Program)
    ensures |p.body| == 1 && p.body[0].id == name
    ensures |p.body[0].members| == |ms|
    ensures forall k :: 0 <= k < |ms| ==> p.body[0].members[k].id == ms[k].name
    ensures forall k :: 0 <= k < |ms| && ms[k].Explicit? ==> p.body[0].members[k].initializer == ms[k].init
  {
    Program([EnumDeclaration(name, Build(ms, 1))])
  }

  // ---------------------------------------------------------------------
  // Properties of the arithmetic

  lemma {:induction false} BitAndSelf(a: nat, n: nat)
    ensures BitAnd(a, a, n) == a % Pow2(n)
  {
    if n > 0 {
      BitAndSelf(a / 2, n - 1);
      DivModPow2(a, n);
    }
  }

  lemma DivModPow2(a: nat, n: nat)
    requires n > 0
    ensures a % Pow2(n) == a % 2 + 2 * ((a / 2) % Pow2(n - 1))
  {
    var p := Pow2(n - 1);
    assert Pow2(n) == 2 * p;
    var q := (a / 2) / p;
    var r := (a / 2) % p;
    assert a / 2 == q * p + r;
    assert a == (2 * p) * q + (2 * r + a % 2);
    assert 0 <= 2 * r + a % 2 < 2 * p;
    TokenType.ModUnique(a, 2 * p, q, 2 * r + a % 2);
  }

  /** A power of two and its predecessor share no bit. */
  lemma {:induction false} PowerAndPredecessor(k: nat, n: nat)
    ensures BitAnd(Pow2(k), Pow2(k) - 1, n) == 0
  {
    if k > 0 && n > 0 {
      assert Pow2(k) % 2 == 0 && Pow2(k) / 2 == Pow2(k - 1);
      assert (Pow2(k) - 1) / 2 == Pow2(k - 1) - 1;
      PowerAndPredecessor(k - 1, n - 1);
    }
  }

  /** A positive number below `2^n` sharing no bit with its predecessor is
      a power of two. */
  lemma {:induction false} TestedIsPower(u: nat, n: nat)
    requires 0 < u < Pow2(n) && BitAnd(u, u - 1, n) == 0
    ensures IsPow2(u)
  {
    assert n > 0;
    if u % 2 == 1 {
      assert (u - 1) / 2 == u / 2 && (u - 1) % 2 == 0;
      assert BitAnd(u / 2, u / 2, n - 1) == 0;
      BitAndSelf(u / 2, n - 1);
      assert u / 2 < Pow2(n - 1);
      TokenType.ModUnique(u / 2, Pow2(n - 1), 0, u / 2);
      assert u / 2 == 0;
      assert u == Pow2(0);
    } else {
      assert (u - 1) / 2 == u / 2 - 1;
      assert u / 2 < Pow2(n - 1);
      TestedIsPower(u / 2, n - 1);
      var k: nat :| u / 2 == Pow2(k);
      assert u == Pow2(k + 1);
    }
  }

  lemma {:induction false} Pow2Grows(j: nat, k: nat)
    requires j < k
    ensures Pow2(j) < Pow2(k)
  {
    if j < k - 1 {
      Pow2Grows(j, k - 1);
    }
  }

  lemma Pow2Of32()
    ensures Pow2(32) == Two32 && Pow2(31) == Two31
  {
    assert Pow2(8) == 256;
    assert Pow2(16) == 65536 by {
      Pow2Add(8, 8);
    }
    Pow2Add(16, 15);
    assert Pow2(15) == 32768 by {
      Pow2Add(8, 7);
    }
  }

  lemma {:induction false} Pow2Add(a: nat, b: nat)
    ensures Pow2(a + b) == Pow2(a) * Pow2(b)
  {
    if b > 0 {
      Pow2Add(a, b - 1);
    }
  }

  /** The power-of-two test holds exactly for the numbers whose low 32
      bits are zero or a single power of two. */
  lemma PowerTestMeans(v: int)
    ensures PowerTest(v) <==> ToUint32(v) == 0 || IsPow2(ToUint32(v))
  {
    var u := ToUint32(v);
    Pow2Of32();
    if u == 0 {
    } else {
      assert ToUint32(v - 1) == u - 1;
      if IsPow2(u) {
        var k: nat :| u == Pow2(k);
        PowerAndPredecessor(k, 32);
      }
      if PowerTest(v) {
        TestedIsPower(u, 32);
      }
    }
  }

  /** Doubling stays exact below `2^30`. */
  lemma ShiftDoubles(v: int)
    requires 0 <= v < Two31 / 2
    ensures Shl1(v) == 2 * v
  {
  }

  // ---------------------------------------------------------------------
  // Properties of the generator

  /** Only bare members and resetting literals move the sequence: every
      other explicit member leaves it where it was. */
  lemma ExplicitKeepsSequence(name: string, init: Initializer, current: int)
    requires !Resets(init)
    ensures Step(Explicit(name, init), current) == current
  {
  }

  /** An explicit power of two `2^j`, `j < 30`, restarts the sequence at
      `2^(j+1)`; so does 0, at 0. */
  lemma PowerLiteralResets(name: string, j: nat, raw: string, current: int)
    requires j < 30
    ensures Step(Explicit(name, Literal(Integer(Pow2(j)), raw)), current) == 2 * Pow2(j)
    ensures Step(Explicit(name, Literal(Integer(0), raw)), current) == 0
  {
    PowerTestPow2(j);
    DoublePow2(j);
    assert PowerTest(0);
  }

  /** Below `2^30` a power of two shifts to the next one. */
  lemma DoublePow2(j: nat)
    requires j < 30
    ensures Shl1(Pow2(j)) == 2 * Pow2(j) == Pow2(j + 1)
  {
    Pow2Of32();
    Pow2Grows(j, 30);
    assert Pow2(30) * 2 == Two31;
    ShiftDoubles(Pow2(j));
  }

  lemma PowerTestPow2(j: nat)
    requires j < 32
    ensures PowerTest(Pow2(j))
  {
    Pow2Below(j);
    var p := Pow2(j);
    assert ToUint32(p) == p;
    assert ToUint32(p - 1) == p - 1;
    PowerAndPredecessor(j, 32);
  }

  lemma Pow2Below(j: nat)
    requires j < 32
    ensures Pow2(j) < Two32
    ensures j < 31 ==> Pow2(j) < Two31
  {
    Pow2Of32();
    Pow2Grows(j, 32);
    if j < 31 {
      Pow2Grows(j, 31);
    }
  }

  /** A literal that fails the test, such as 3, is kept and does not
      restart the sequence. */
  lemma ThreeKeepsSequence(name: string, current: int)
    ensures Step(Explicit(name, Literal(Integer(3), "3")), current) == current
  {
    assert ToUint32(3) == 3 && ToUint32(2) == 2;
    assert BitAnd(3, 2, 32) == 2 by {
      assert BitAnd(1, 1, 31) == 1 by {
        assert BitAnd(0, 0, 30) == 0;
      }
    }
  }

  /** Bare members only: the k-th gets `2^(k + j)` after a start of
      `2^j`, as long as that stays below `2^31`. */
  lemma {:induction false} BarePowers(ms: seq<Member>, j: nat, k: nat)
    requires forall i :: 0 <= i < |ms| ==> ms[i].Bare?
    requires k < |ms| && j + k <= 30
    ensures Build(ms, Pow2(j))[k].initializer == Lit(Pow2(j + k))
  {
    if k > 0 {
      DoublePow2(j);
      assert Step(ms[0], Pow2(j)) == Pow2(j + 1);
      BarePowers(ms[1..], j + 1, k - 1);
      assert j + 1 + (k - 1) == j + k;
    }
  }

  /** `createEnumAST` numbers bare members 1, 2, 4, ... from the start. */
  lemma BareFromOne(name: string, ms: seq<Member>, k: nat)
    requires forall i :: 0 <= i < |ms| ==> ms[i].Bare?
    requires k < |ms| && k <= 30
    ensures CreateEnumAst(name, ms).body[0].members[k].initializer == Lit(Pow2(k))
  {
    BarePowers(ms, 0, k);
  }

  /** The generator's own example: `Read`, `Write`, `Execute = 8`,
      `ReadWrite = Read | Write`, `Delete` numbers the bare members 1, 2
      and 16. */
  lemma FlagsExample(read: string, write: string, execute: string, readWrite: string, delete: string)
    ensures var ms := [Bare(read), Bare(write), Explicit(execute, Literal(Integer(8), "8")),
                       Explicit(readWrite, BitOr(read, write)), Bare(delete)];
      var out := CreateEnumAst("Flags", ms).body[0].members;
      out[0].initializer == Lit(1) && out[1].initializer == Lit(2)
      && out[4].initializer == Lit(16)
  {
    var ms := [Bare(read), Bare(write), Explicit(execute, Literal(Integer(8), "8")),
               Explicit(readWrite, BitOr(read, write)), Bare(delete)];
    FlagsHead(ms);
    FlagsRest(ms[2..], 8);
    assert CreateEnumAst("Flags", ms).body[0].members == Build(ms, 1);
    assert Build(ms, 1)[4] == Build(ms, 1)[2..][2];
  }

  lemma FlagsHead(ms: seq<Member>)
    requires |ms| > 2 && ms[0].Bare? && ms[1].Bare?
    ensures Build(ms, 1)[0].initializer == Lit(1) && Build(ms, 1)[1].initializer == Lit(2)
    ensures Build(ms, 1)[2..] == Build(ms[2..], 4)
  {
    DoublePow2(0);
    DoublePow2(1);
    assert Step(ms[0], 1) == 2;
    assert Step(ms[1..][0], 2) == 4;
    var out := Build(ms, 1);
    BuildStep(ms, 1);
    BuildStep(ms[1..], 2);
    assert ms[1..][1..] == ms[2..];
    assert out[2..] == out[1..][1..];
    assert out[1] == out[1..][0];
  }

  lemma FlagsRest(ms: seq<Member>, eight: int)
    requires eight == 8 && |ms| == 3
    requires ms[0].Explicit? && ms[0].init.Literal? && ms[0].init.value == Integer(eight)
    requires ms[1].Explicit? && ms[1].init.BitOr? && ms[2].Bare?
    ensures Build(ms, 4)[2].initializer == Lit(16)
  {
    assert Pow2(3) == eight && Pow2(4) == 16;
    PowerLiteralResets(ms[0].name, 3, ms[0].init.raw, 4);
    assert Step(ms[0], 4) == 16;
    ExplicitKeepsSequence(ms[1].name, ms[1].init, 16);
    BuildStep(ms, 4);
    BuildStep(ms[1..], 16);
    assert ms[1..][1..] == ms[2..];
  }

  /** One step of `Build`: the head, then the rest from the next value. */
  lemma BuildStep(ms: seq<Member>, current: int)
    requires |ms| > 0
    ensures Build(ms, current)[1..] == Build(ms[1..], Step(ms[0], current))
  {
  }

  /** The shift wraps around: `2^30 << 1` is `-2^31`, and `-2^31 << 1`
      is 0. */
  lemma ShiftWraps()
    ensures Shl1(Pow2(30)) == -Two31
    ensures Shl1(-Two31) == 0
  {
    Pow2Of32();
    assert Pow2(30) * 2 == Two31;
  }

  /** `v` shifted left by one `n` times. */
  function ShiftTimes(v: int, n: nat): int
    decreases n
  {
    if n == 0 then v else ShiftTimes(Shl1(v), n - 1)
  }

  /** Bare members only: the `k`-th is the start shifted `k` times. */
  lemma {:induction false} BareShifted(ms: seq<Member>, current: int, k: nat)
    requires forall i :: 0 <= i < |ms| ==> ms[i].Bare?
    requires k < |ms|
    ensures Build(ms, current)[k].initializer == Lit(ShiftTimes(current, k))
    decreases k
  {
    if k > 0 {
      var out := Build(ms, current);
      BuildStep(ms, current);
      assert Step(ms[0], current) == Shl1(current);
      assert out[k] == out[1..][k - 1];
      BareShifted(ms[1..], Shl1(current), k - 1);
    }
  }

  /** Zero stays zero under any number of shifts. */
  lemma {:induction false} ShiftZero(n: nat)
    ensures ShiftTimes(0, n) == 0
    decreases n
  {
    if n > 0 {
      assert Shl1(0) == 0;
      ShiftZero(n - 1);
    }
  }

  /** What the `m`-th left shift of 1 gives as a 32-bit integer. */
  function ShiftedOne(m: nat): int {
    if m <= 30 then Pow2(m) else if m == 31 then -Two31 else 0
  }

  /** Shifting `2^j` `n` times gives `2^(j + n)` up to `2^30`, then
      `-2^31`, then 0 for good. */
  lemma {:induction false} ShiftPow2(j: nat, n: nat, m: nat)
    requires j <= 30 && m == j + n
    ensures ShiftTimes(Pow2(j), n) == ShiftedOne(m)
    decreases n
  {
    if n > 0 {
      if j < 30 {
        DoublePow2(j);
        assert ShiftTimes(Pow2(j), n) == ShiftTimes(Pow2(j + 1), n - 1);
        ShiftPow2(j + 1, n - 1, m);
      } else {
        ShiftPastTop(n, m);
      }
    }
  }

  /** From `2^30` on, one shift gives `-2^31` and any further one 0. */
  lemma ShiftPastTop(n: nat, m: nat)
    requires n > 0 && m == 30 + n
    ensures ShiftTimes(Pow2(30), n) == ShiftedOne(m)
  {
    ShiftWraps();
    assert ShiftTimes(Pow2(30), n) == ShiftTimes(-Two31, n - 1);
    if n > 1 {
      assert ShiftTimes(-Two31, n - 1) == ShiftTimes(0, n - 2);
      ShiftZero(n - 2);
    }
  }

  /** `createEnumAST` numbers bare members 1, 2, 4, … up to `2^30`; the
      32nd gets `-2^31` and every later one 0. */
  lemma BareNumbering(name: string, ms: seq<Member>, k: nat)
    requires forall i :: 0 <= i < |ms| ==> ms[i].Bare?
    requires k < |ms|
    ensures CreateEnumAst(name, ms).body[0].members[k].initializer ==
      Lit(if k <= 30 then Pow2(k) else if k == 31 then -Two31 else 0)
  {
    BareShifted(ms, Pow2(0), k);
    ShiftPow2(0, k, k);
  }
}

=== FILE: builtin_registry.dfy ===
/** The builtin registry of src/builtins/registry.ts, a JavaScript `Map`
    from names to handlers kept here as a list of entries in insertion
    order, and the `builtins` listing builtin of src/builtins.ts. The
    handlers themselves are opaque: the registry is generic in their
    type. */
module BuiltinRegistry {
  import opened Wrappers
  import opened Strings
  import opened HelpFlags

  datatype Entry<H> = Entry(name: string, handler: H)

  /** The registry: entries in the order their names were first set. */
  type Registry<H> = seq<Entry<H>>

  function Names<H>(r: Registry<H>): (ns: seq<string>)
    ensures |ns| == |r|
    ensures forall k :: 0 <= k < |r| ==> ns[k] == r[k].name
  {
    if |r| == 0 then [] else [r[0].name] + Names(r[1..])
  }

  /** Every name appears once, as in a `Map`. */
  predicate Distinct<H>(r: Registry<H>) {
    forall i, j :: 0 <= i < j < |r| ==> r[i].name != r[j].name
  }

  /** Where `name` sits in the registry, if anywhere. */
  function Find<H>(r: Registry<H>, name: string): (k: Option<nat>)
    ensures k.None? <==> name !in Names(r)
    ensures k.Some? ==> k.value < |r| && r[k.value].name == name
  {
    if |r| == 0 then None
    else if r[0].name == name then Some(0)
    else
      assert Names(r) == [r[0].name] + Names(r[1..]);
      match Find(r[1..], name)
      case None => None
      case Some(k) => Some(k + 1)
  }

  /** `registry.get(name)`. */
  function Get<H>(r: Registry<H>, name: string): (h: Option<H>)
    ensures h.None? <==> name !in Names(r)
    ensures h.Some? ==> exists k :: 0 <= k < |r| && r[k].name == name && r[k].handler == h.value
  {
    match Find(r, name)
    case None => None
    case Some(k) => Some(r[k].handler)
  }

  /** `registerBuiltin`: `registry.set(name, handler)`. A name already
      present keeps its place and gets the new handler; a new name is
      appended. */
  function Register<H>(r: Registry<H>, name: string, handler: H): (r': Registry<H>)
    requires Distinct(r)
    ensures Names(r') == if name in Names(r) then Names(r) else Names(r) + [name]
    ensures name !in Names(r) ==> r' == r + [Entry(name, handler)]
    ensures forall k :: 0 <= k < |r| ==> r'[k] == (if r[k].name == name then Entry(name, handler) else r[k])
  {
    match Find(r, name)
    case Some(k) =>
      var r' := r[k := Entry(name, handler)];
      assert Names(r') == Names(r);
      r'
    case None =>
      var r' := r + [Entry(name, handler)];
      assert Names(r') == Names(r) + [name];
      r'
  }

  /** `listBuiltins`: the names in ascending character order. */
  function ListBuiltins<H>(r: Registry<H>): (ns: seq<string>)
    requires Distinct(r)
    ensures SortedStrict(ns)
    ensures multiset(ns) == multiset(Names(r))
  {
    SortStrings(Names(r))
  }

  // ---------------------------------------------------------------------
  // Properties

  /** Registering keeps every name once. */
  lemma RegisterDistinct<H>(r: Registry<H>, name: string, handler: H)
    requires Distinct(r)
    ensures Distinct(Register(r, name, handler))
  {
    var r' := Register(r, name, handler);
    forall i, j | 0 <= i < j < |r'|
      ensures r'[i].name != r'[j].name
    {
      assert r'[i].name == Names(r')[i] && r'[j].name == Names(r')[j];
      if j < |r| {
        assert Names(r')[i] == Names(r)[i] && Names(r')[j] == Names(r)[j];
      } else {
        assert Names(r')[i] == Names(r)[i];
      }
    }
  }

  /** `getBuiltin` after `registerBuiltin` of the same name gives the new
      handler, replacing whatever was there. */
  lemma GetRegistered<H>(r: Registry<H>, name: string, handler: H)
    requires Distinct(r)
    ensures Get(Register(r, name, handler), name) == Some(handler)
  {
    var r' := Register(r, name, handler);
    var k := Find(r', name).value;
    if name in Names(r) {
      assert k < |r|;
    } else {
      assert k == |r| by {
        assert forall j :: 0 <= j < |r| ==> Names(r)[j] != name;
      }
    }
  }

  /** Registering one name leaves every other name's handler as it was. */
  lemma GetOther<H>(r: Registry<H>, name: string, handler: H, other: string)
    requires Distinct(r) && name != other
    ensures Get(Register(r, name, handler), other) == Get(r, other)
  {
    FindOther(r, name, handler, other);
  }

  lemma {:induction false} FindOther<H>(r: Registry<H>, name: string, handler: H, other: string)
    requires Distinct(r) && name != other
    ensures Find(Register(r, name, handler), other) == Find(r, other)
  {
    if |r| > 0 {
      FindOther(r[1..], name, handler, other);
    }
  }

  /** Every registered name is listed exactly once, and only those. */
  lemma ListedOnce<H>(r: Registry<H>, name: string)
    requires Distinct(r)
    ensures name in ListBuiltins(r) <==> Get(r, name).Some?
    ensures multiset(ListBuiltins(r))[name] <= 1
  {
    var ns := ListBuiltins(r);
    assert name in ns <==> name in multiset(Names(r));
    assert multiset(Names(r))[name] <= 1 by {
      NamesDistinct(r, name);
    }
  }

  lemma {:induction false} NamesDistinct<H>(r: Registry<H>, name: string)
    requires Distinct(r)
    ensures multiset(Names(r))[name] <= 1
  {
    if |r| > 0 {
      NamesDistinct(r[1..], name);
      assert Names(r) == [r[0].name] + Names(r[1..]);
      if r[0].name == name {
        assert name !in Names(r[1..]) by {
          forall k | 0 <= k < |r| - 1
            ensures Names(r[1..])[k] != name
          {
            assert r[1..][k] == r[k + 1];
          }
        }
      }
    }
  }

  /** Two builtins registered into an empty registry, the second first in
      character order, are listed sorted. */
  lemma ListExample<H>(a: H, b: H)
    ensures ListBuiltins(Register(Register([], "jobs", a), "fg", b)) == ["fg", "jobs"]
  {
    var r1 := Register([], "jobs", a);
    assert Names(r1) == ["jobs"];
    RegisterDistinct([], "jobs", a);
    var r := Register(r1, "fg", b);
    assert Names(r) == ["jobs", "fg"];
    RegisterDistinct(r1, "fg", b);
    ListedSorted(r);
  }

  lemma ListedSorted<H>(r: Registry<H>)
    requires Distinct(r) && Names(r) == ["jobs", "fg"]
    ensures ListBuiltins(r) == ["fg", "jobs"]
  {
    assert Less("fg", "jobs");
    assert multiset(["jobs", "fg"]) == multiset(["fg", "jobs"]);
    SortedUnique(ListBuiltins(r), ["fg", "jobs"]);
  }

  // ---------------------------------------------------------------------
  // The `builtins` builtin

  /** The width of the name column in the help listing. */
  const NameColumn: nat := 11

  /** A name padded to the column, or followed by one space when it fills
      the column already. */
  function PadName(name: string): (p: string)
    ensures |name| < NameColumn ==> |p| == NameColumn
    ensures |name| >= NameColumn ==> p == name + " "
    ensures p[..|name|] == name && AllChar(p[|name|..], ' ')
  {
    if |name| >= NameColumn then
      assert (name + " ")[|name|..] == " ";
      name + " "
    else PadEnd(name, NameColumn, ' ')
  }

  /** A help entry: a name and an optional description. */
  datatype HelpEntry = HelpEntry(name: string, description: Option<string>)

  function HelpLine(e: HelpEntry): string {
    PadName(e.name) + e.description.GetOr("")
  }

  function HelpLines(es: seq<HelpEntry>): (ls: seq<string>)
    ensures |ls| == |es|
    ensures forall k :: 0 <= k < |es| ==> ls[k] == HelpLine(es[k])
  {
    if |es| == 0 then [] else [HelpLine(es[0])] + HelpLines(es[1..])
  }

  /** `builtinListCommand`, with the help entries as a parameter: the
      help functions the builtins import from src/builtins/registry.ts are
      not defined there, so nothing in the source keeps those entries. */
  function BuiltinList<H>(argv: seq<string>, raw: string, r: Registry<H>, help: seq<HelpEntry>): (out: string)
    requires Distinct(r)
    ensures DetectHelpLevel(argv, raw) == Cluster ==> out == Join(HelpLines(help), "\n") + "\n"
    ensures DetectHelpLevel(argv, raw) == Double ==> out == "TBD -h -h\n"
    ensures DetectHelpLevel(argv, raw) == Single ==> out == "TBD -h\n"
    ensures DetectHelpLevel(argv, raw) == NoHelp && |r| == 0 ==> out == "<no builtins registered>\n"
    ensures DetectHelpLevel(argv, raw) == NoHelp && |r| > 0 ==> out == Join(ListBuiltins(r), "\n") + "\n"
  {
    var level := DetectHelpLevel(argv, raw);
    if level == Cluster then Join(HelpLines(help), "\n") + "\n"
    else if level == Double then "TBD -h -h\n"
    else if level == Single then "TBD -h\n"
    else
      var names := ListBuiltins(r);
      (if |names| > 0 then Join(names, "\n") else "<no builtins registered>") + "\n"
  }

  /** A short name is padded to the column; a long one gets one space. */
  lemma HelpLineExamples()
    ensures HelpLine(HelpEntry("cd", Some("change directory"))) == "cd         change directory"
    ensures HelpLine(HelpEntry("averylongname", None)) == "averylongname "
  {
    assert PadName("cd") == "cd" + Repeat(' ', 9);
    assert Repeat(' ', 9) == "         ";
    assert PadName("cd") == "cd         ";
  }
}

=== FILE: command_summary.dfy ===
/** The one-line command summaries of src/commandSummary.ts, taken from
    the output of `tldr <name>` and memoised per trimmed name. Running
    `tldr` is a parameter: a function from the name to its standard
    output, or `None` when the call fails. */
module CommandSummary {
  import opened Wrappers
  import opened Strings

  // ---------------------------------------------------------------------
  // Collapsing white space

  /** No white space other than a single space, and never two in a row. */
  predicate SingleSpaced(r: string) {
    forall i :: 0 <= i < |r| && IsWs(r[i]) ==> r[i] == ' ' && (i + 1 < |r| ==> !IsWs(r[i + 1]))
  }

  /** `s.replace(/\s+/g, " ")`. */
  function CollapseWs(s: string): (r: string)
    ensures SingleSpaced(r)
    ensures |r| > 0 <==> |s| > 0
    ensures |s| > 0 ==> (IsWs(r[0]) <==> IsWs(s[0]))
    decreases |s|
  {
    if |s| == 0 then ""
    else if IsWs(s[0]) then
      var k := WsPrefixLen(s);
      var rest := CollapseWs(s[k..]);
      assert forall i :: 1 <= i < |" " + rest| ==> (" " + rest)[i] == rest[i - 1];
      " " + rest
    else
      var rest := CollapseWs(s[1..]);
      assert forall i :: 1 <= i < |[s[0]] + rest| ==> ([s[0]] + rest)[i] == rest[i - 1];
      [s[0]] + rest
  }

  /** The characters of `s` that are not white space. */
  function DropWs(s: string): (r: string)
    ensures forall i :: 0 <= i < |r| ==> !IsWs(r[i])
  {
    if |s| == 0 then "" else (if IsWs(s[0]) then "" else [s[0]]) + DropWs(s[1..])
  }

  /** Collapsing keeps every other character, in order. */
  lemma {:induction false} CollapseKeepsText(s: string)
    ensures DropWs(CollapseWs(s)) == DropWs(s)
    decreases |s|
  {
    if |s| > 0 {
      if IsWs(s[0]) {
        var k := WsPrefixLen(s);
        CollapseKeepsText(s[k..]);
        DropWsSpaces(s, k);
        assert (" " + CollapseWs(s[k..]))[1..] == CollapseWs(s[k..]);
      } else {
        CollapseKeepsText(s[1..]);
        assert ([s[0]] + CollapseWs(s[1..]))[1..] == CollapseWs(s[1..]);
      }
    }
  }

  lemma {:induction false} DropWsSpaces(s: string, k: nat)
    requires k <= |s| && AllWs(s[..k])
    ensures DropWs(s) == DropWs(s[k..])
  {
    if k > 0 {
      var head, tail := s[..k], s[1..][..k - 1];
      assert AllWs(tail) by {
        forall i | 0 <= i < k - 1 ensures IsWs(tail[i]) {
          assert tail[i] == head[i + 1];
        }
      }
      DropWsSpaces(s[1..], k - 1);
      assert s[1..][k - 1..] == s[k..];
      assert IsWs(s[..k][0]);
    }
  }

  /** Collapsing an already single-spaced string changes nothing, so
      collapsing twice is collapsing once. */
  lemma {:induction false} CollapseFixed(r: string)
    requires SingleSpaced(r)
    ensures CollapseWs(r) == r
    decreases |r|
  {
    if |r| > 0 {
      var t := r[1..];
      assert SingleSpaced(t) by {
        forall i | 0 <= i < |t| && IsWs(t[i])
          ensures t[i] == ' ' && (i + 1 < |t| ==> !IsWs(t[i + 1]))
        {
          assert t[i] == r[i + 1];
        }
      }
      CollapseFixed(t);
      if IsWs(r[0]) {
        assert WsPrefixLen(r) == 1 by {
          assert |r| > 1 ==> !IsWs(r[1]);
          assert r[..1] == [r[0]];
        }
        assert r == " " + t;
      } else {
        assert r == [r[0]] + t;
      }
    }
  }

  lemma CollapseIdempotent(s: string)
    ensures CollapseWs(CollapseWs(s)) == CollapseWs(s)
  {
    CollapseFixed(CollapseWs(s));
  }

  // ---------------------------------------------------------------------
  // Extracting the summary

  /** `stdout.split(/\r?\n/)`, split at each line feed; the carriage return
      before it stays on the line, where `trim` removes it (see
      `TrimDropsCarriageReturn`). */
  function Lines(stdout: string): (ls: seq<string>)
    ensures |ls| >= 1 && Join(ls, "\n") == stdout
  {
    JoinSplit(stdout, '\n');
    Split(stdout, '\n')
  }

  /** A trimmed line the extraction keeps: non-empty and not a warning. */
  predicate Kept(t: string) {
    t != "" && !StartsWith(ToLower(t), "warning:")
  }

  /** The `cleaned` list: the trimmed lines that are kept, in order. */
  function Cleaned(lines: seq<string>): (r: seq<string>)
    ensures |r| <= |lines|
    ensures forall k :: 0 <= k < |r| ==> Kept(r[k]) && Trim(r[k]) == r[k]
  {
    if |lines| == 0 then []
    else
      var t := Trim(lines[0]);
      TrimTrimmed(lines[0]);
      (if Kept(t) then [t] else []) + Cleaned(lines[1..])
  }

  lemma TrimTrimmed(s: string)
    ensures Trim(Trim(s)) == Trim(s)
  {
    var t := Trim(s);
    if |t| > 0 {
      assert WsSuffixStart(t) == |t|;
      assert WsPrefixLen(t) == 0;
    } else {
      assert WsSuffixStart(t) == 0;
    }
  }

  predicate IsQuote(line: string) {
    |line| > 0 && line[0] == '>'
  }

  /** A line starting with `>` without the `>` and the white space after
      it (the first `replace`). */
  function Unquote(line: string): (r: string)
    requires IsQuote(line)
    ensures |r| < |line| && line[|line| - |r|..] == r
    ensures |r| > 0 ==> !IsWs(r[0])
  {
    var body := line[1..];
    body[WsPrefixLen(body)..]
  }

  /** A quote line that yields a summary: something follows the `>`. */
  predicate QuoteWithText(line: string) {
    IsQuote(line) && Unquote(line) != ""
  }

  /** The first loop. `summary` starts as `null` and is overwritten by
      each quote line until it holds a non-empty string; a bare `>` sets
      it to the empty string, which does not stop the search. */
  function QuoteLoop(kept: seq<string>, summary: Option<string>): (r: Option<string>)
    ensures summary.Some? && summary.value != "" ==> r == summary
  {
    if |kept| == 0 then summary
    else if summary.Some? && summary.value != "" then QuoteLoop(kept[1..], summary)
    else if IsQuote(kept[0]) then
      var x := Unquote(kept[0]);
      QuoteLoop(kept[1..], Some(if x != "" then CollapseWs(x) else x))
    else QuoteLoop(kept[1..], summary)
  }

  /** The second loop: the first kept line that is neither the command's
      own name nor a "more information" line, white space collapsed. */
  function Fallback(kept: seq<string>, lowerKey: string): (r: Option<string>)
    ensures r.Some? ==> r.value != "" && SingleSpaced(r.value)
  {
    if |kept| == 0 then None
    else
      var lower := ToLower(kept[0]);
      if kept[0] == "" || lower == lowerKey || StartsWith(lower, "more information") then Fallback(kept[1..], lowerKey)
      else Some(CollapseWs(kept[0]))
  }

  /** The summary `tldr`'s output gives for `key`: the quote, else the
      fallback, else whatever the first loop left (`null`, or the empty
      string after a bare `>`). */
  function Summarize(stdout: string, key: string): (r: Option<string>)
    ensures r.Some? && r.value != "" ==> SingleSpaced(r.value)
  {
    var kept := Cleaned(Lines(stdout));
    var quote := QuoteLoop(kept, None);
    QuoteLoopShape(kept, None);
    if quote.Some? && quote.value != "" then quote
    else match Fallback(kept, ToLower(key))
      case Some(f) => Some(f)
      case None => quote
  }

  /** What the first loop can leave behind. */
  lemma {:induction false} QuoteLoopShape(kept: seq<string>, summary: Option<string>)
    requires summary.None? || summary.value == "" || SingleSpaced(summary.value)
    ensures var r := QuoteLoop(kept, summary);
      r.None? || r.value == "" || SingleSpaced(r.value)
  {
    if |kept| > 0 {
      if summary.Some? && summary.value != "" {
        QuoteLoopShape(kept[1..], summary);
      } else if IsQuote(kept[0]) {
        var x := Unquote(kept[0]);
        QuoteLoopShape(kept[1..], Some(if x != "" then CollapseWs(x) else x));
      } else {
        QuoteLoopShape(kept[1..], summary);
      }
    }
  }

  /** Line `i` is the first kept line with text after its `>`. */
  predicate FirstQuote(kept: seq<string>, i: nat) {
    i < |kept| && QuoteWithText(kept[i]) && forall j :: 0 <= j < i ==> !QuoteWithText(kept[j])
  }

  /** The first loop picks the first quote line with text, collapsed; with
      none, it leaves `null` or the empty string. */
  lemma {:induction false} QuoteLoopFirst(kept: seq<string>, summary: Option<string>, i: nat)
    requires summary.None? || summary.value == ""
    ensures FirstQuote(kept, i) ==> QuoteLoop(kept, summary) == Some(CollapseWs(Unquote(kept[i])))
    ensures (forall j :: 0 <= j < |kept| ==> !QuoteWithText(kept[j])) ==>
      QuoteLoop(kept, summary).None? || QuoteLoop(kept, summary) == Some("")
    decreases |kept|
  {
    if |kept| > 0 {
      var next := if IsQuote(kept[0]) then Some(Unquote(kept[0])) else summary;
      if QuoteWithText(kept[0]) {
        var x := Unquote(kept[0]);
        assert QuoteLoop(kept, summary) == QuoteLoop(kept[1..], Some(CollapseWs(x)));
        if FirstQuote(kept, i) {
          assert i == 0;
        }
      } else {
        assert next.None? || next.value == "";
        assert QuoteLoop(kept, summary) == QuoteLoop(kept[1..], next);
        QuoteLoopFirst(kept[1..], next, if i > 0 then i - 1 else 0);
        if FirstQuote(kept, i) {
          assert i > 0;
          assert kept[1..][i - 1] == kept[i];
          assert FirstQuote(kept[1..], i - 1) by {
            forall j | 0 <= j < i - 1 ensures !QuoteWithText(kept[1..][j]) {
              assert kept[1..][j] == kept[j + 1];
            }
          }
        }
        if forall j :: 0 <= j < |kept| ==> !QuoteWithText(kept[j]) {
          forall j | 0 <= j < |kept| - 1 ensures !QuoteWithText(kept[1..][j]) {
            assert kept[1..][j] == kept[j + 1];
          }
        }
      }
    }
  }

  /** A kept line the second loop may take. */
  predicate Candidate(line: string, lowerKey: string) {
    line != "" && ToLower(line) != lowerKey && !StartsWith(ToLower(line), "more information")
  }

  /** The second loop takes the first candidate, collapsed, and gives
      `None` when there is none. */
  lemma {:induction false} FallbackFirst(kept: seq<string>, lowerKey: string, i: nat)
    ensures (i < |kept| && Candidate(kept[i], lowerKey) && forall j :: 0 <= j < i ==> !Candidate(kept[j], lowerKey)) ==>
      Fallback(kept, lowerKey) == Some(CollapseWs(kept[i]))
    ensures (forall j :: 0 <= j < |kept| ==> !Candidate(kept[j], lowerKey)) ==> Fallback(kept, lowerKey) == None
    decreases |kept|
  {
    if |kept| > 0 && !Candidate(kept[0], lowerKey) {
      FallbackFirst(kept[1..], lowerKey, if i > 0 then i - 1 else 0);
      if i < |kept| && Candidate(kept[i], lowerKey) && forall j :: 0 <= j < i ==> !Candidate(kept[j], lowerKey) {
        assert i > 0 && kept[1..][i - 1] == kept[i];
        forall j | 0 <= j < i - 1 ensures !Candidate(kept[1..][j], lowerKey) {
          assert kept[1..][j] == kept[j + 1];
        }
      }
      if forall j :: 0 <= j < |kept| ==> !Candidate(kept[j], lowerKey) {
        forall j | 0 <= j < |kept| - 1 ensures !Candidate(kept[1..][j], lowerKey) {
          assert kept[1..][j] == kept[j + 1];
        }
      }
    }
  }

  /** The cleaned list holds exactly the trimmed lines that are kept. */
  lemma {:induction false} CleanedMembers(lines: seq<string>, x: string)
    ensures x in Cleaned(lines) <==> Kept(x) && exists j :: 0 <= j < |lines| && Trim(lines[j]) == x
  {
    if |lines| > 0 {
      CleanedMembers(lines[1..], x);
      var t := Trim(lines[0]);
      assert Cleaned(lines) == (if Kept(t) then [t] else []) + Cleaned(lines[1..]);
      if exists j :: 0 <= j < |lines| && Trim(lines[j]) == x {
        var j :| 0 <= j < |lines| && Trim(lines[j]) == x;
        if j > 0 {
          assert Trim(lines[1..][j - 1]) == x;
        }
      }
      if exists j :: 0 <= j < |lines| - 1 && Trim(lines[1..][j]) == x {
        var j :| 0 <= j < |lines| - 1 && Trim(lines[1..][j]) == x;
        assert Trim(lines[j + 1]) == x;
      }
    }
  }

  /** The carriage return of a `\r\n` line ending is dropped by `trim`, so
      splitting at line feeds alone gives the same trimmed lines. */
  lemma TrimDropsCarriageReturn(s: string)
    ensures Trim(s + "\r") == Trim(s)
  {
    var t := s + "\r";
    assert t[..|t| - 1] == s;
    assert WsSuffixStart(t) == WsSuffixStart(s);
    var k := WsSuffixStart(s);
    assert TrimEnd(t) == t[..k] == s[..k] == TrimEnd(s);
  }

  // ---------------------------------------------------------------------
  // The memo cache

  type Cache = map<string, Option<string>>

  /** One lookup: the summary, the cache after it, and whether `tldr` was
      run for it. */
  datatype Lookup = Lookup(summary: Option<string>, cache: Cache, consulted: bool)

  /** The trimmed name, or the empty key for a value that is not a string
      (`None`). */
  function KeyOf(name: Option<string>): string {
    match name
    case Some(n) => Trim(n)
    case None => ""
  }

  /** `getCommandSummary`. */
  function GetCommandSummary(cache: Cache, name: Option<string>, tldr: string -> Option<string>): (l: Lookup)
    ensures KeyOf(name) == "" ==> l == Lookup(None, cache, false)
    ensures KeyOf(name) != "" && KeyOf(name) in cache ==> l == Lookup(cache[KeyOf(name)], cache, false)
    ensures KeyOf(name) != "" && KeyOf(name) !in cache ==>
      l.consulted && l.cache == cache[KeyOf(name) := l.summary]
    ensures KeyOf(name) != "" && KeyOf(name) !in cache && tldr(KeyOf(name)).None? ==> l.summary == None
    ensures KeyOf(name) != "" && KeyOf(name) !in cache && tldr(KeyOf(name)).Some? ==>
      l.summary == Summarize(tldr(KeyOf(name)).value, KeyOf(name))
  {
    var key := KeyOf(name);
    if key == "" then Lookup(None, cache, false)
    else if key in cache then Lookup(cache[key], cache, false)
    else match tldr(key)
      case None => Lookup(None, cache[key := None], true)
      case Some(stdout) =>
        var summary := Summarize(stdout, key);
        Lookup(summary, cache[key := summary], true)
  }

  /** `resetCommandSummaryCache`. */
  function ResetCache(cache: Cache): (c: Cache)
    ensures c == map[]
  {
    map[]
  }

  /** Asking twice runs `tldr` at most once: the second lookup answers from
      the cache with the same summary, failures included. */
  lemma LookupTwice(cache: Cache, name: Option<string>, tldr: string -> Option<string>)
    ensures var first := GetCommandSummary(cache, name, tldr);
      var second := GetCommandSummary(first.cache, name, tldr);
      !second.consulted && second.summary == first.summary && second.cache == first.cache
  {
  }

  /** After a reset the next lookup of a non-blank name runs `tldr`
      again. */
  lemma LookupAfterReset(cache: Cache, name: Option<string>, tldr: string -> Option<string>)
    requires KeyOf(name) != ""
    ensures GetCommandSummary(ResetCache(cache), name, tldr).consulted
  {
  }
}

=== FILE: completion_navigation.dfy ===
/** Layout of the completion menu and arrow-key navigation over it
    (src/completionNavigation.ts). Items are numbered 0..total-1 and laid
    out column-major. */
module CompletionNavigation {
  import opened Wrappers

  /** The row bound: a finite number, or a non-finite one (infinity or
      NaN), which asks for a near-square layout. */
  datatype MaxRows = Finite(m: int) | NotFinite

  datatype Layout = Layout(columns: int, rows: int)

  datatype Direction = Up | Down | Left | Right

  /** `Math.ceil(a / b)` for a non-negative `a` and a positive `b`. */
  function CeilDiv(a: nat, b: nat): (q: nat)
    requires b > 0
    ensures (q - 1) * b < a <= q * b
  {
    (a + b - 1) / b
  }

  function Max(a: int, b: int): int {
    if a >= b then a else b
  }

  function Min(a: int, b: int): int {
    if a <= b then a else b
  }

  /** The integer square root, standing for `Math.floor(Math.sqrt(n))`. */
  function Isqrt(n: nat): (r: nat)
    ensures r * r <= n < (r + 1) * (r + 1)
  {
    if n == 0 then 0
    else
      var s := Isqrt(n - 1);
      if (s + 1) * (s + 1) <= n then
        assert n == (s + 1) * (s + 1);
        assert (s + 2) * (s + 2) == n + 2 * s + 3;
        s + 1
      else s
  }

  /** The integer square root is the only number with its defining
      property. */
  lemma IsqrtUnique(n: nat, r: nat)
    requires r * r <= n < (r + 1) * (r + 1)
    ensures Isqrt(n) == r
  {
    var s := Isqrt(n);
    if s < r {
      MulMono(s + 1, r);
    } else if s > r {
      MulMono(r + 1, s);
    }
  }

  lemma MulMono(a: nat, b: nat)
    requires a <= b
    ensures a * a <= b * b
  {
    assert a * a <= a * b <= b * b;
  }

  /** Column count `c` fits when its rows stay within the bound. */
  predicate Fits(length: nat, m: int, c: nat)
    requires c > 0
  {
    CeilDiv(length, c) <= m
  }

  /** `computeCompletionLayout`: with a finite bound, the fewest columns
      that fit among 1..max(1, length), and a single column of
      max(1, length) rows when none does. */
  method ComputeLayout(length: nat, maxRows: MaxRows) returns (r: Layout)
    ensures maxRows.NotFinite? ==>
      r.columns == Max(1, Isqrt(length)) &&
      r.rows == (if length == 0 then 1 else CeilDiv(length, r.columns))
    ensures maxRows.Finite? && (exists c :: 1 <= c <= Max(1, length) && Fits(length, maxRows.m, c)) ==>
      1 <= r.columns <= Max(1, length) && r.rows == CeilDiv(length, r.columns) &&
      Fits(length, maxRows.m, r.columns) &&
      forall c :: 1 <= c < r.columns ==> !Fits(length, maxRows.m, c)
    ensures maxRows.Finite? && !(exists c :: 1 <= c <= Max(1, length) && Fits(length, maxRows.m, c)) ==>
      r == Layout(1, Max(1, length))
  {
    if maxRows.NotFinite? {
      var columns := Max(1, Isqrt(length));
      var rows := CeilDiv(length, columns);
      return Layout(columns, if rows == 0 then 1 else rows);
    }
    var columns := 1;
    while columns <= Max(1, length)
      invariant 1 <= columns <= Max(1, length) + 1
      invariant forall c :: 1 <= c < columns ==> !Fits(length, maxRows.m, c)
    {
      var rows := CeilDiv(length, columns);
      if rows <= maxRows.m {
        assert Fits(length, maxRows.m, columns);
        return Layout(columns, rows);
      }
      columns := columns + 1;
    }
    return Layout(1, Max(1, length));
  }

  /** With at least one item and at least one row allowed, some column
      count always fits, so the fallback is not reached. */
  lemma SomeColumnsFit(length: nat, m: int)
    requires length >= 1 && m >= 1
    ensures Fits(length, m, length)
  {
    assert CeilDiv(length, length) == 1;
  }

  /** The bound below one row with a non-empty list: nothing fits. */
  lemma NothingFitsBelowOneRow(length: nat, m: int)
    requires length >= 1 && m < 1
    ensures forall c :: 1 <= c <= Max(1, length) ==> !Fits(length, m, c)
  {
  }

  /** Twelve items in at most five rows take three columns of four. */
  method LayoutTwelveInFive() returns (r: Layout)
    ensures r == Layout(3, 4)
  {
    assert !Fits(12, 5, 1) && !Fits(12, 5, 2) && Fits(12, 5, 3);
    r := ComputeLayout(12, Finite(5));
  }

  /** Nine items without a row bound form a three by three square. */
  method LayoutNineUnbounded() returns (r: Layout)
    ensures r == Layout(3, 3)
  {
    IsqrtUnique(9, 3);
    r := ComputeLayout(9, NotFinite);
  }

  // ---------------------------------------------------------------------
  // The grid

  type Grid = seq<seq<int>>

  /** The consecutive numbers lo, lo+1, ..., hi-1 (empty when hi <= lo). */
  function Range(lo: int, hi: int): (r: seq<int>)
    ensures |r| == Max(0, hi - lo)
    ensures forall i :: 0 <= i < |r| ==> r[i] == lo + i
  {
    if hi <= lo then [] else seq(hi - lo, i requires 0 <= i < hi - lo => lo + i)
  }

  lemma RangeAppend(lo: int, mid: int, hi: int)
    requires lo <= mid <= hi
    ensures Range(lo, mid) + Range(mid, hi) == Range(lo, hi)
  {
  }

  function Flatten(g: Grid): seq<int> {
    if |g| == 0 then [] else Flatten(g[..|g| - 1]) + g[|g| - 1]
  }

  /** `buildCompletionGrid`: column `c` holds the numbers from c·rows up to
      the next column or `total`; empty columns are not pushed, and no
      non-empty column is skipped. */
  method BuildGrid(layout: Layout, total: int) returns (grid: Grid)
    ensures |grid| <= Max(0, layout.columns)
    ensures forall c :: 0 <= c < |grid| ==> 1 <= |grid[c]| <= layout.rows
    ensures forall c :: 0 <= c < |grid| ==>
      grid[c] == Range(c * layout.rows, Min(total, c * layout.rows + layout.rows))
    ensures forall c :: 0 <= c < layout.columns && 0 < layout.rows && c * layout.rows < total ==> c < |grid|
    ensures Flatten(grid) == Range(0, Min(total, Max(0, layout.columns) * Max(0, layout.rows)))
  {
    grid := [];
    if layout.rows <= 0 {
      return;
    }
    var rows := layout.rows;
    var column := 0;
    var base := 0;
    while column < layout.columns
      invariant 0 <= column && (column <= layout.columns || column == 0)
      invariant base == column * rows
      invariant GridSoFar(grid, rows, total, column, base)
    {
      var entries := Column(base, rows, total);
      GridStep(grid, rows, total, column, base, entries);
      if |entries| > 0 {
        grid := grid + [entries];
      }
      column := column + 1;
      base := base + rows;
    }
    GridDone(grid, rows, total, layout.columns, column, base);
  }

  /** What the invariant of `BuildGrid` gives once every column is done. */
  lemma GridDone(grid: Grid, rows: int, total: int, columns: int, column: nat, base: int)
    requires GridSoFar(grid, rows, total, column, base) && base == column * rows
    requires column == Max(0, columns)
    ensures base == Max(0, columns) * Max(0, rows)
    ensures forall c :: 0 <= c < columns && c * rows < total ==> c < |grid|
  {
    forall c | 0 <= c < columns && c * rows < total ensures c < |grid| {
      if c >= |grid| {
        MulMonoRight(|grid|, c, rows);
      }
    }
  }

  /** The loop invariant of `BuildGrid` after `column` columns, whose
      numbers start at `base`. */
  predicate GridSoFar(grid: Grid, rows: int, total: int, column: nat, base: int) {
    rows > 0 && |grid| <= column &&
    (forall c :: 0 <= c < |grid| ==> 1 <= |grid[c]| <= rows) &&
    (forall c :: 0 <= c < |grid| ==> grid[c] == Range(c * rows, Min(total, c * rows + rows))) &&
    Flatten(grid) == Range(0, Min(total, base)) &&
    (|grid| == column || total <= |grid| * rows)
  }

  /** One turn of the loop of `BuildGrid` keeps its invariant. */
  lemma GridStep(grid: Grid, rows: int, total: int, column: nat, base: int, entries: seq<int>)
    requires GridSoFar(grid, rows, total, column, base) && base == column * rows
    requires entries == Range(base, Min(total, base + rows))
    ensures |entries| > 0 ==> GridSoFar(grid + [entries], rows, total, column + 1, base + rows)
    ensures |entries| == 0 ==> GridSoFar(grid, rows, total, column + 1, base + rows)
    ensures base + rows == (column + 1) * rows
  {
    if |entries| > 0 {
      assert base < total;
      if |grid| < column {
        MulMonoRight(|grid|, column, rows);
        assert false;
      }
      var g' := grid + [entries];
      assert g'[..|g'| - 1] == grid;
      RangeAppend(0, base, Min(total, base + rows));
      assert Flatten(g') == Flatten(grid) + entries;
    } else {
      assert total <= base;
      if |grid| == column {
        assert total <= |grid| * rows;
      }
    }
  }

  lemma MulMonoRight(a: nat, b: nat, rows: int)
    requires a <= b && rows > 0
    ensures a * rows <= b * rows
  {
    var d := b - a;
    assert b * rows == a * rows + d * rows;
  }

  /** One column: the numbers from `base` up to `base + rows`, stopping at
      `total`. */
  method Column(base: int, rows: int, total: int) returns (entries: seq<int>)
    requires rows > 0
    ensures entries == Range(base, Min(total, base + rows))
  {
    entries := [];
    var row := 0;
    while row < rows
      invariant 0 <= row <= rows
      invariant entries == Range(base, Min(total, base + row))
    {
      if base + row >= total {
        break;
      }
      entries := entries + [base + row];
      row := row + 1;
    }
  }

  // ---------------------------------------------------------------------
  // Navigation

  predicate InGrid(g: Grid, v: int) {
    exists c, i :: 0 <= c < |g| && 0 <= i < |g[c]| && g[c][i] == v
  }

  /** No number appears twice, as in every grid `BuildGrid` produces. */
  predicate Distinct(g: Grid) {
    forall c1, i1, c2, i2 ::
      (0 <= c1 < |g| && 0 <= i1 < |g[c1]| && 0 <= c2 < |g| && 0 <= i2 < |g[c2]| && g[c1][i1] == g[c2][i2]) ==>
      c1 == c2 && i1 == i2
  }

  /** The first position of `v` in its column. */
  function IndexIn(col: seq<int>, v: int): (r: Option<nat>)
    ensures r.Some? ==> r.value < |col| && col[r.value] == v && forall i :: 0 <= i < r.value ==> col[i] != v
    ensures r.None? ==> forall i :: 0 <= i < |col| ==> col[i] != v
  {
    if |col| == 0 then None
    else if col[0] == v then Some(0)
    else match IndexIn(col[1..], v)
      case None => None
      case Some(i) => Some(i + 1)
  }

  /** `findPosition`: the first column holding `v`, and its first row
      there; nothing for a negative number or one not in the grid. */
  function FindPosition(v: int, g: Grid, from: nat := 0): (r: Option<(nat, nat)>)
    requires from <= |g|
    decreases |g| - from
    ensures r.Some? ==> from <= r.value.0 < |g| && r.value.1 < |g[r.value.0]| && g[r.value.0][r.value.1] == v
    ensures r.Some? ==> forall i :: 0 <= i < r.value.1 ==> g[r.value.0][i] != v
    ensures r.Some? ==> forall c, i :: from <= c < r.value.0 && 0 <= i < |g[c]| ==> g[c][i] != v
    ensures r.None? <==> v < 0 || forall c, i :: from <= c < |g| && 0 <= i < |g[c]| ==> g[c][i] != v
  {
    if v < 0 || from == |g| then None
    else match IndexIn(g[from], v)
      case Some(i) => Some((from, i))
      case None => FindPosition(v, g, from + 1)
  }

  /** `pickColumnRow`: row `row` of column `c`, or its last entry when the
      column is shorter. */
  function PickColumnRow(g: Grid, c: nat, row: nat): (r: Option<int>)
    requires c < |g|
    ensures r.Some? <==> |g[c]| > 0
    ensures r.Some? ==> r.value == g[c][Min(row, |g[c]| - 1)]
  {
    if |g[c]| == 0 then None else Some(g[c][Min(row, |g[c]| - 1)])
  }

  /** `navigateCompletionIndex`. */
  function Navigate(current: int, dir: Direction, g: Grid): (r: Option<int>)
    ensures |g| == 0 ==> r == None
    ensures r.Some? ==> InGrid(g, r.value)
    ensures |g| > 0 && FindPosition(current, g).None? ==>
      r == (if |g[0]| > 0 then Some(g[0][0]) else None)
    ensures (dir == Left || dir == Right) && FindPosition(current, g).Some? && |g| == 1 ==> r == None
    ensures (dir == Up || dir == Down) && FindPosition(current, g).Some? ==>
      (r == None <==> |g[FindPosition(current, g).value.0]| == 1)
  {
    if |g| == 0 then None
    else match FindPosition(current, g)
      case None => if |g[0]| > 0 then Some(g[0][0]) else None
      case Some((column, row)) =>
        var col := g[column];
        match dir
        case Up =>
          var next := if row == 0 then |col| - 1 else row - 1;
          if next == row then None else Some(col[next])
        case Down =>
          var next := if row == |col| - 1 then 0 else row + 1;
          if next == row then None else Some(col[next])
        case Left =>
          if |g| == 1 then None
          else PickColumnRow(g, if column == 0 then |g| - 1 else column - 1, row)
        case Right =>
          if |g| == 1 then None
          else PickColumnRow(g, if column == |g| - 1 then 0 else column + 1, row)
  }

  /** In a grid without repeats the position of an entry is determined by
      the entry. */
  lemma FindPositionDistinct(g: Grid, c: nat, i: nat)
    requires Distinct(g) && c < |g| && i < |g[c]| && g[c][i] >= 0
    ensures FindPosition(g[c][i], g) == Some((c, i))
  {
  }

  /** Up moves to the previous row of the same column, wrapping from the
      top to the bottom. */
  lemma NavigateUp(g: Grid, c: nat, i: nat)
    requires Distinct(g) && c < |g| && i < |g[c]| && g[c][i] >= 0 && |g[c]| > 1
    ensures Navigate(g[c][i], Up, g) == Some(g[c][if i == 0 then |g[c]| - 1 else i - 1])
  {
    FindPositionDistinct(g, c, i);
  }

  /** Down moves to the next row of the same column, wrapping from the
      bottom to the top. */
  lemma NavigateDown(g: Grid, c: nat, i: nat)
    requires Distinct(g) && c < |g| && i < |g[c]| && g[c][i] >= 0 && |g[c]| > 1
    ensures Navigate(g[c][i], Down, g) == Some(g[c][if i == |g[c]| - 1 then 0 else i + 1])
  {
    FindPositionDistinct(g, c, i);
  }

  /** Down undoes Up. */
  lemma UpThenDown(g: Grid, v: int)
    requires Distinct(g) && Navigate(v, Up, g).Some? && FindPosition(v, g).Some?
    requires forall c, i :: 0 <= c < |g| && 0 <= i < |g[c]| ==> g[c][i] >= 0
    ensures Navigate(Navigate(v, Up, g).value, Down, g) == Some(v)
  {
    var (c, i) := FindPosition(v, g).value;
    NavigateUp(g, c, i);
    var j := if i == 0 then |g[c]| - 1 else i - 1;
    NavigateDown(g, c, j);
  }

  /** Left and Right move to the neighbouring column, wrapping around, at
      the same row or the target column's last row when it is shorter. */
  lemma NavigateSideways(g: Grid, c: nat, i: nat)
    requires Distinct(g) && c < |g| && i < |g[c]| && g[c][i] >= 0 && |g| > 1
    ensures var t := if c == 0 then |g| - 1 else c - 1;
      Navigate(g[c][i], Left, g) == (if |g[t]| > 0 then Some(g[t][Min(i, |g[t]| - 1)]) else None)
    ensures var t := if c == |g| - 1 then 0 else c + 1;
      Navigate(g[c][i], Right, g) == (if |g[t]| > 0 then Some(g[t][Min(i, |g[t]| - 1)]) else None)
  {
    FindPositionDistinct(g, c, i);
  }

  /** The grid of the example: five items in columns of three. */
  lemma ExampleGrid(g: Grid)
    requires g == [[0, 1, 2], [3, 4]]
    ensures Navigate(0, Down, g) == Some(1) && Navigate(2, Down, g) == Some(0)
    ensures Navigate(4, Left, g) == Some(1) && Navigate(1, Right, g) == Some(4)
    ensures Navigate(3, Up, g) == Some(4)
    ensures Navigate(3, Left, [[3]]) == None
  {
    assert FindPosition(0, g) == Some((0, 0));
    assert FindPosition(2, g) == Some((0, 2));
    assert FindPosition(1, g) == Some((0, 1));
    assert FindPosition(4, g) == Some((1, 1));
    assert FindPosition(3, g) == Some((1, 0));
    assert FindPosition(3, [[3]]) == Some((0, 0));
  }

  /** The grid built for five items in a 2×3 layout is the one of the
      example. */
  method BuildExampleGrid() returns (g: Grid)
    ensures g == [[0, 1, 2], [3, 4]]
  {
    g := BuildGrid(Layout(2, 3), 5);
    assert 1 * 3 < 5;
    assert |g| == 2;
    assert g[0] == Range(0, 3) == [0, 1, 2];
    assert g[1] == Range(3, 5) == [3, 4];
  }

  /** Every grid `BuildGrid` produces is without repeats, so the
      navigation lemmas above apply to it. */
  lemma BuiltGridDistinct(g: Grid, rows: int)
    requires rows > 0
    requires forall c :: 0 <= c < |g| ==> 1 <= |g[c]| <= rows
    requires forall c, i :: 0 <= c < |g| && 0 <= i < |g[c]| ==> g[c][i] == c * rows + i
    ensures Distinct(g)
  {
    forall c1, i1, c2, i2 | 0 <= c1 < |g| && 0 <= i1 < |g[c1]| && 0 <= c2 < |g| && 0 <= i2 < |g[c2]| &&
      g[c1][i1] == g[c2][i2]
      ensures c1 == c2 && i1 == i2
    {
      if c1 < c2 {
        MulStep(c1, c2, rows);
      } else if c2 < c1 {
        MulStep(c2, c1, rows);
      }
    }
  }

  lemma MulStep(a: int, b: int, rows: int)
    requires 0 <= a < b && rows > 0
    ensures a * rows + rows <= b * rows
  {
    MulMonoRight(a + 1, b, rows);
    assert (a + 1) * rows == a * rows + rows;
  }
}

=== FILE: completion_provider.dfy ===
/** The first-token completion pipeline of src/completionProvider.ts: five
    providers run in a fixed order, their results are merged, deduplicated
    by value and sorted. What the providers read from the file system, the
    PATH and the TypeScript compiler arrives as plain input lists. */
module CompletionProvider {
  import opened Wrappers
  import opened Strings
  import opened TokenTree
  import TokenRegistry
  import YamlSerialize

  const SpaceKind: string := "Space"
  const CommandKind: string := "Command"

  /** A completion candidate. Of its metadata only the kind (which the
      deduplication looks at) and the description are kept. */
  datatype Candidate = Candidate(value: string, tokenType: string, kind: string, description: string)

  // ---------------------------------------------------------------------
  // Deduplication

  predicate HasValue(cs: seq<Candidate>, v: string) {
    exists i :: 0 <= i < |cs| && cs[i].value == v
  }

  predicate DistinctValues(cs: seq<Candidate>) {
    forall i, j :: 0 <= i < j < |cs| ==> cs[i].value != cs[j].value
  }

  /** The position of the first candidate with value `v`. */
  function FirstIndex(cs: seq<Candidate>, v: string): (r: Option<nat>)
    ensures r.Some? ==> r.value < |cs| && cs[r.value].value == v
    ensures r.Some? ==> forall i :: 0 <= i < r.value ==> cs[i].value != v
    ensures r.None? <==> !HasValue(cs, v)
  {
    if |cs| == 0 then None
    else match FirstIndex(cs[..|cs| - 1], v)
      case Some(i) => Some(i)
      case None => if cs[|cs| - 1].value == v then Some(|cs| - 1) else None
  }

  /** The position of the first candidate with value `v` whose kind is not
      "Command". */
  function FirstNonCommand(cs: seq<Candidate>, v: string): (r: Option<nat>)
    ensures r.Some? ==> r.value < |cs| && cs[r.value].value == v && cs[r.value].kind != CommandKind
    ensures r.Some? ==> forall i :: 0 <= i < r.value ==> cs[i].value != v || cs[i].kind == CommandKind
    ensures r.None? ==> forall i :: 0 <= i < |cs| ==> cs[i].value != v || cs[i].kind == CommandKind
  {
    if |cs| == 0 then None
    else match FirstNonCommand(cs[..|cs| - 1], v)
      case Some(i) => Some(i)
      case None =>
        if cs[|cs| - 1].value == v && cs[|cs| - 1].kind != CommandKind then Some(|cs| - 1) else None
  }

  /** The candidate deduplication keeps for value `v`: the first one that
      is not a Command, or the first one when all of them are Commands. */
  function Chosen(cs: seq<Candidate>, v: string): (c: Candidate)
    requires HasValue(cs, v)
    ensures c in cs && c.value == v
  {
    match FirstNonCommand(cs, v)
    case Some(i) => cs[i]
    case None => cs[FirstIndex(cs, v).value]
  }

  /** The position of value `v` in a list of distinct values. */
  function IndexOfValue(d: seq<Candidate>, v: string): (r: Option<nat>)
    ensures r.Some? ==> r.value < |d| && d[r.value].value == v
    ensures r.None? <==> !HasValue(d, v)
  {
    FirstIndex(d, v)
  }

  /** `dedupeCandidates`: the `Map` from value to candidate is the list
      `d` of its entries in insertion order. A later candidate replaces a
      kept Command unless it is a Command itself. */
  function Dedupe(cs: seq<Candidate>): (d: seq<Candidate>)
    ensures DistinctValues(d)
    ensures forall i :: 0 <= i < |cs| ==> HasValue(d, cs[i].value)
    ensures forall k :: 0 <= k < |d| ==> HasValue(cs, d[k].value) && d[k] == Chosen(cs, d[k].value)
    ensures forall k1, k2 :: 0 <= k1 < k2 < |d| ==>
      FirstIndex(cs, d[k1].value).value < FirstIndex(cs, d[k2].value).value
  {
    if |cs| == 0 then []
    else
      var prev := cs[..|cs| - 1];
      var d := Dedupe(prev);
      var c := cs[|cs| - 1];
      var d' := match IndexOfValue(d, c.value)
        case None => d + [c]
        case Some(k) => if d[k].kind == CommandKind && c.kind != CommandKind then d[k := c] else d;
      DedupeStep(cs, d, c);
      assert DedupedFrom(cs, d');
      d'
  }

  /** The result of `Dedupe` for all but the last candidate. */
  predicate DedupedFrom(cs: seq<Candidate>, d: seq<Candidate>) {
    DistinctValues(d) &&
    (forall i :: 0 <= i < |cs| ==> HasValue(d, cs[i].value)) &&
    (forall k :: 0 <= k < |d| ==> HasValue(cs, d[k].value) && d[k] == Chosen(cs, d[k].value)) &&
    (forall k1, k2 :: 0 <= k1 < k2 < |d| ==> FirstIndex(cs, d[k1].value).value < FirstIndex(cs, d[k2].value).value)
  }

  /** Handling the last candidate `c` of `cs` extends the invariant from
      the candidates before it to all of `cs`. */
  lemma DedupeStep(cs: seq<Candidate>, d: seq<Candidate>, c: Candidate)
    requires |cs| > 0 && c == cs[|cs| - 1] && DedupedFrom(cs[..|cs| - 1], d)
    ensures IndexOfValue(d, c.value).None? ==> DedupedFrom(cs, d + [c])
    ensures IndexOfValue(d, c.value).Some? ==>
      var k := IndexOfValue(d, c.value).value;
      DedupedFrom(cs, if d[k].kind == CommandKind && c.kind != CommandKind then d[k := c] else d)
  {
    match IndexOfValue(d, c.value)
    case None => DedupeNew(cs, d, c);
    case Some(k) => DedupeSeen(cs, d, c, k);
  }

  /** A value seen before the last candidate keeps its first position,
      and its choice unless the last candidate has that value. */
  lemma PrefixSame(cs: seq<Candidate>, v: string)
    requires |cs| > 0 && HasValue(cs[..|cs| - 1], v)
    ensures HasValue(cs, v) && FirstIndex(cs, v) == FirstIndex(cs[..|cs| - 1], v)
    ensures v != cs[|cs| - 1].value ==> Chosen(cs, v) == Chosen(cs[..|cs| - 1], v)
  {
    var prev := cs[..|cs| - 1];
    var i :| 0 <= i < |prev| && prev[i].value == v;
    assert cs[i] == prev[i];
  }

  /** The last candidate brings a value not seen before: it is appended. */
  lemma DedupeNew(cs: seq<Candidate>, d: seq<Candidate>, c: Candidate)
    requires |cs| > 0 && c == cs[|cs| - 1] && DedupedFrom(cs[..|cs| - 1], d)
    requires !HasValue(d, c.value)
    ensures DedupedFrom(cs, d + [c])
  {
    var prev := cs[..|cs| - 1];
    var d' := d + [c];
    forall i | 0 <= i < |prev| ensures prev[i].value != c.value {
      assert HasValue(d, prev[i].value);
    }
    assert FirstIndex(cs, c.value) == Some(|cs| - 1);
    assert FirstNonCommand(cs, c.value) == (if c.kind != CommandKind then Some(|cs| - 1) else None);
    forall k | 0 <= k < |d'|
      ensures HasValue(cs, d'[k].value) && d'[k] == Chosen(cs, d'[k].value)
    {
      if k < |d| {
        PrefixSame(cs, d[k].value);
      } else {
        assert cs[|cs| - 1].value == c.value;
      }
    }
    forall k | 0 <= k < |d| ensures FirstIndex(cs, d[k].value) == FirstIndex(prev, d[k].value) {
      PrefixSame(cs, d[k].value);
    }
    forall i | 0 <= i < |cs| ensures HasValue(d', cs[i].value) {
      if i < |prev| {
        assert prev[i] == cs[i];
        var k :| 0 <= k < |d| && d[k].value == cs[i].value;
        assert d'[k] == d[k];
      } else {
        assert d'[|d|] == c;
      }
    }
    NewOrder(cs, d, c, d');
  }

  /** The appended entry comes last in first-position order, and the
      entries before it keep theirs. */
  lemma NewOrder(cs: seq<Candidate>, d: seq<Candidate>, c: Candidate, d': seq<Candidate>)
    requires |cs| > 0 && c == cs[|cs| - 1] && DedupedFrom(cs[..|cs| - 1], d) && d' == d + [c]
    requires FirstIndex(cs, c.value) == Some(|cs| - 1)
    requires forall k :: 0 <= k < |d| ==> FirstIndex(cs, d[k].value) == FirstIndex(cs[..|cs| - 1], d[k].value)
    ensures forall k1, k2 :: 0 <= k1 < k2 < |d'| ==>
      FirstIndex(cs, d'[k1].value).Some? && FirstIndex(cs, d'[k2].value).Some? &&
      FirstIndex(cs, d'[k1].value).value < FirstIndex(cs, d'[k2].value).value
  {
    var prev := cs[..|cs| - 1];
    forall k1, k2 | 0 <= k1 < k2 < |d'|
      ensures FirstIndex(cs, d'[k1].value).Some? && FirstIndex(cs, d'[k2].value).Some?
      ensures FirstIndex(cs, d'[k1].value).value < FirstIndex(cs, d'[k2].value).value
    {
      assert d'[k1] == d[k1];
      assert FirstIndex(cs, d[k1].value) == FirstIndex(prev, d[k1].value);
      assert HasValue(prev, d[k1].value);
      if k2 < |d| {
        assert d'[k2] == d[k2];
        assert FirstIndex(cs, d[k2].value) == FirstIndex(prev, d[k2].value);
        assert FirstIndex(prev, d[k1].value).value < FirstIndex(prev, d[k2].value).value;
      } else {
        assert d'[k2] == c;
      }
    }
  }

  /** The last candidate's value was seen before: its entry stays in
      place, replaced only when a Command meets a non-Command. */
  lemma DedupeSeen(cs: seq<Candidate>, d: seq<Candidate>, c: Candidate, k: nat)
    requires |cs| > 0 && c == cs[|cs| - 1] && DedupedFrom(cs[..|cs| - 1], d)
    requires k < |d| && d[k].value == c.value
    ensures DedupedFrom(cs, if d[k].kind == CommandKind && c.kind != CommandKind then d[k := c] else d)
  {
    ChosenLast(cs, cs[..|cs| - 1], c, d[k]);
    if d[k].kind == CommandKind && c.kind != CommandKind {
      DedupeSeenWith(cs, d, c, k, d[k := c]);
    } else {
      DedupeSeenWith(cs, d, c, k, d);
    }
  }

  /** The entry list after the last candidate differs from the one before
      at most in entry `k`, which now holds the choice for `k`'s value. */
  lemma DedupeSeenWith(cs: seq<Candidate>, d: seq<Candidate>, c: Candidate, k: nat, d': seq<Candidate>)
    requires |cs| > 0 && c == cs[|cs| - 1] && DedupedFrom(cs[..|cs| - 1], d)
    requires k < |d| && d[k].value == c.value
    requires |d'| == |d| && d'[k] == Chosen(cs, c.value)
    requires forall j :: 0 <= j < |d| && j != k ==> d'[j] == d[j]
    ensures DedupedFrom(cs, d')
  {
    var prev := cs[..|cs| - 1];
    assert forall j :: 0 <= j < |d| ==> d'[j].value == d[j].value;
    SeenChosen(cs, d, c, k, d');
    SeenCovers(cs, d, c, k, d');
    assert DistinctValues(d') by {
      forall i, j | 0 <= i < j < |d'| ensures d'[i].value != d'[j].value {
        assert d[i].value != d[j].value;
      }
    }
    forall k1, k2 | 0 <= k1 < k2 < |d'|
      ensures FirstIndex(cs, d'[k1].value).value < FirstIndex(cs, d'[k2].value).value
    {
      assert FirstIndex(prev, d[k1].value).value < FirstIndex(prev, d[k2].value).value;
    }
  }

  lemma SeenChosen(cs: seq<Candidate>, d: seq<Candidate>, c: Candidate, k: nat, d': seq<Candidate>)
    requires |cs| > 0 && c == cs[|cs| - 1] && DedupedFrom(cs[..|cs| - 1], d)
    requires k < |d| && d[k].value == c.value
    requires |d'| == |d| && d'[k] == Chosen(cs, c.value)
    requires forall j :: 0 <= j < |d| && j != k ==> d'[j] == d[j]
    ensures forall j :: 0 <= j < |d'| ==> HasValue(cs, d'[j].value) && d'[j] == Chosen(cs, d'[j].value)
    ensures forall j :: 0 <= j < |d'| ==> FirstIndex(cs, d'[j].value) == FirstIndex(cs[..|cs| - 1], d[j].value)
  {
    forall j | 0 <= j < |d'|
      ensures HasValue(cs, d'[j].value) && d'[j] == Chosen(cs, d'[j].value)
      ensures FirstIndex(cs, d'[j].value) == FirstIndex(cs[..|cs| - 1], d[j].value)
    {
      if j != k {
        assert d[j].value != d[k].value;
      }
      SeenChosenOne(cs, d[j].value, d[j], d'[j]);
    }
  }

  /** One entry of `SeenChosen`: an entry for another value keeps its
      candidate, the entry for the last candidate's value takes the new
      choice, and either way the first position is unchanged. */
  lemma SeenChosenOne(cs: seq<Candidate>, v: string, x: Candidate, x': Candidate)
    requires |cs| > 0 && HasValue(cs[..|cs| - 1], v) && x == Chosen(cs[..|cs| - 1], v)
    requires (v != cs[|cs| - 1].value && x' == x) || (v == cs[|cs| - 1].value && x' == Chosen(cs, v))
    ensures x'.value == v && HasValue(cs, v) && x' == Chosen(cs, v)
    ensures FirstIndex(cs, v) == FirstIndex(cs[..|cs| - 1], v)
  {
    PrefixSame(cs, v);
  }

  lemma SeenCovers(cs: seq<Candidate>, d: seq<Candidate>, c: Candidate, k: nat, d': seq<Candidate>)
    requires |cs| > 0 && c == cs[|cs| - 1] && DedupedFrom(cs[..|cs| - 1], d)
    requires k < |d| && d[k].value == c.value
    requires |d'| == |d| && forall j :: 0 <= j < |d| ==> d'[j].value == d[j].value
    ensures forall i :: 0 <= i < |cs| ==> HasValue(d', cs[i].value)
  {
    var prev := cs[..|cs| - 1];
    forall i | 0 <= i < |cs| ensures HasValue(d', cs[i].value) {
      if i < |prev| {
        assert prev[i] == cs[i];
        var j :| 0 <= j < |d| && d[j].value == cs[i].value;
        assert d'[j].value == d[j].value;
      } else {
        assert d'[k].value == c.value;
      }
    }
  }

  /** When value `v` of the last candidate `c` was seen before and `kept`
      was kept for it, the choice for `v` moves to `c` exactly when `kept`
      is a Command and `c` is not. */
  lemma ChosenLast(cs: seq<Candidate>, prev: seq<Candidate>, c: Candidate, kept: Candidate)
    requires |cs| > 0 && prev == cs[..|cs| - 1] && c == cs[|cs| - 1]
    requires HasValue(prev, c.value) && kept == Chosen(prev, c.value)
    ensures Chosen(cs, c.value) == if kept.kind == CommandKind && c.kind != CommandKind then c else kept
  {
    var v := c.value;
    match FirstNonCommand(prev, v)
    case Some(i) =>
      assert FirstNonCommand(cs, v) == Some(i);
    case None =>
      assert FirstIndex(cs, v) == FirstIndex(prev, v);
      assert kept == prev[FirstIndex(prev, v).value];
      assert kept.kind == CommandKind;
  }

  // ---------------------------------------------------------------------
  // Sorting

  /** The comparator of `sortCandidates`: lower-cased values first, then
      the values themselves, both in character order. The source breaks
      the tie with `localeCompare`; see README. */
  predicate CandLess(a: Candidate, b: Candidate) {
    Less(ToLower(a.value), ToLower(b.value)) ||
    (ToLower(a.value) == ToLower(b.value) && Less(a.value, b.value))
  }

  lemma CandLessTransitive(a: Candidate, b: Candidate, c: Candidate)
    requires CandLess(a, b) && CandLess(b, c)
    ensures CandLess(a, c)
  {
    if Less(ToLower(a.value), ToLower(b.value)) && Less(ToLower(b.value), ToLower(c.value)) {
      LessTransitive(ToLower(a.value), ToLower(b.value), ToLower(c.value));
    } else if ToLower(a.value) == ToLower(b.value) == ToLower(c.value) {
      LessTransitive(a.value, b.value, c.value);
    }
  }

  /** Two candidates the comparator cannot tell apart have equal values. */
  lemma CandLessTotal(a: Candidate, b: Candidate)
    ensures a.value == b.value || CandLess(a, b) || CandLess(b, a)
  {
    LessTotal(ToLower(a.value), ToLower(b.value));
    LessTotal(a.value, b.value);
  }

  lemma CandLessAsymmetric(a: Candidate, b: Candidate)
    requires CandLess(a, b)
    ensures !CandLess(b, a)
  {
    if Less(ToLower(a.value), ToLower(b.value)) {
      LessAsymmetric(ToLower(a.value), ToLower(b.value));
      if ToLower(a.value) == ToLower(b.value) {
        LessIrreflexive(ToLower(a.value));
      }
    } else {
      LessAsymmetric(a.value, b.value);
      LessIrreflexive(ToLower(a.value));
    }
  }

  /** No candidate is followed by one that sorts strictly before it. */
  predicate SortedCands(s: seq<Candidate>) {
    forall i, j :: 0 <= i < j < |s| ==> !CandLess(s[j], s[i])
  }

  /** Inserts `x` after every element that does not sort after it, as a
      stable sort does. */
  function InsertCand(x: Candidate, s: seq<Candidate>): (r: seq<Candidate>)
    requires SortedCands(s)
    ensures SortedCands(r)
    ensures multiset(r) == multiset(s) + multiset{x}
  {
    if |s| == 0 then [x]
    else if CandLess(x, s[0]) then
      InsertFront(x, s);
      [x] + s
    else
      var t := InsertCand(x, s[1..]);
      InsertBehind(x, s, t);
      [s[0]] + t
  }

  /** An element that sorts before the head of a sorted list can go in
      front of it. */
  lemma InsertFront(x: Candidate, s: seq<Candidate>)
    requires SortedCands(s) && |s| > 0 && CandLess(x, s[0])
    ensures SortedCands([x] + s)
  {
    forall j | 0 <= j < |s| ensures !CandLess(s[j], x) {
      if CandLess(s[j], x) {
        CandLessTransitive(s[j], x, s[0]);
        if j == 0 {
          CandLessAsymmetric(s[0], x);
        }
      }
    }
  }

  /** An element that does not sort before the head, inserted into the
      rest, leaves the head in front. */
  lemma InsertBehind(x: Candidate, s: seq<Candidate>, t: seq<Candidate>)
    requires SortedCands(s) && |s| > 0 && !CandLess(x, s[0])
    requires SortedCands(t) && multiset(t) == multiset(s[1..]) + multiset{x}
    ensures SortedCands([s[0]] + t)
    ensures multiset([s[0]] + t) == multiset(s) + multiset{x}
  {
    assert s == [s[0]] + s[1..];
    forall k | 0 <= k < |t| ensures !CandLess(t[k], s[0]) {
      assert t[k] in multiset(t);
      assert t[k] == x || t[k] in s[1..];
    }
  }

  /** `sortCandidates`: a stable sort under `CandLess`. */
  function SortCandidates(s: seq<Candidate>): (r: seq<Candidate>)
    ensures SortedCands(r)
    ensures multiset(r) == multiset(s)
  {
    if |s| == 0 then []
    else
      assert s == s[..|s| - 1] + [s[|s| - 1]];
      InsertCand(s[|s| - 1], SortCandidates(s[..|s| - 1]))
  }

  /** Among candidates with distinct values the sorted order is strict, so
      the result of any sort under the same comparator is this one. */
  lemma {:induction false} SortedUnique(a: seq<Candidate>, b: seq<Candidate>)
    requires SortedCands(a) && SortedCands(b) && multiset(a) == multiset(b) && DistinctValues(a)
    ensures a == b
    decreases |a|
  {
    assert |a| == |multiset(a)| == |b|;
    if |a| > 0 {
      SameHead(a, b);
      MultisetTail(a, b);
      SortedUnique(a[1..], b[1..]);
    }
  }

  /** Two sorted permutations of a list with distinct values start with
      the same candidate. */
  lemma SameHead(a: seq<Candidate>, b: seq<Candidate>)
    requires SortedCands(a) && SortedCands(b) && multiset(a) == multiset(b) && DistinctValues(a)
    requires |a| > 0 && |b| > 0
    ensures a[0] == b[0]
  {
    assert a[0] in multiset(b) && b[0] in multiset(a);
    var i :| 0 <= i < |b| && b[i] == a[0];
    var j :| 0 <= j < |a| && a[j] == b[0];
    CandLessIrreflexive(a[0]);
    CandLessIrreflexive(b[0]);
    assert !CandLess(b[i], b[0]);
    assert !CandLess(a[j], a[0]);
    CandLessTotal(a[0], b[0]);
    assert a[0].value == a[j].value;
  }

  lemma CandLessIrreflexive(a: Candidate)
    ensures !CandLess(a, a)
  {
    LessIrreflexive(ToLower(a.value));
    LessIrreflexive(a.value);
  }

  // ---------------------------------------------------------------------
  // Prefix and token-type resolution

  /** `resolveTokenType`: the first of `names` the registry knows. */
  function ResolveTokenType(reg: TokenRegistry.Registry, names: seq<string>): (r: Option<string>)
    ensures r.Some? ==> r.value in names && TokenRegistry.Get(reg, r.value).Some?
    ensures r.Some? ==> forall i :: 0 <= i < |names| && names[i] != r.value && TokenRegistry.Get(reg, names[i]).Some? ==>
      exists j :: 0 <= j < i && names[j] == r.value
    ensures r.None? <==> forall i :: 0 <= i < |names| ==> TokenRegistry.Get(reg, names[i]).None?
  {
    if |names| == 0 then None
    else if TokenRegistry.Get(reg, names[0]).Some? then Some(names[0])
    else
      var r := ResolveTokenType(reg, names[1..]);
      assert forall i :: 1 <= i < |names| ==> names[i] == names[1..][i - 1];
      r
  }

  /** The tokens of all lines, line after line. */
  function AllTokens(lines: seq<Line>): (r: seq<Token>)
    ensures forall t :: t in r <==> exists i :: 0 <= i < |lines| && t in lines[i]
  {
    if |lines| == 0 then [] else lines[0] + AllTokens(lines[1..])
  }

  /** `firstNonSpaceToken`: the first token, line by line, that is not of
      type Space. */
  function FirstNonSpace(ts: seq<Token>): (r: Option<Token>)
    ensures r.Some? ==> r.value.kind != SpaceKind
    ensures r.Some? ==> exists i :: 0 <= i < |ts| && ts[i] == r.value && forall j :: 0 <= j < i ==> ts[j].kind == SpaceKind
    ensures r.None? <==> forall i :: 0 <= i < |ts| ==> ts[i].kind == SpaceKind
  {
    if |ts| == 0 then None
    else if ts[0].kind != SpaceKind then Some(ts[0])
    else
      var r := FirstNonSpace(ts[1..]);
      assert forall i :: 1 <= i < |ts| ==> ts[i] == ts[1..][i - 1];
      r
  }

  /** The query prefix: the active mode token's text, else the first
      non-Space token's text, else "". */
  function QueryPrefix(lines: seq<Line>, active: Option<Token>): (r: string)
    ensures active.Some? ==> r == Text(active.value)
    ensures active.None? && (forall t :: t in AllTokens(lines) ==> t.kind == SpaceKind) ==> r == ""
    ensures active.None? && FirstNonSpace(AllTokens(lines)).Some? ==> r == Text(FirstNonSpace(AllTokens(lines)).value)
  {
    match active
    case Some(t) => Text(t)
    case None =>
      match FirstNonSpace(AllTokens(lines))
      case Some(t) => Text(t)
      case None => ""
  }

  /** `name.toLowerCase().startsWith(needle)`. */
  predicate MatchesNeedle(name: string, needle: string) {
    StartsWith(ToLower(name), needle)
  }

  // ---------------------------------------------------------------------
  // Paths

  /** `splitPathPrefix` without the directory it resolves to: the part up
      to and including the last `/`, and the rest in lower case. A
      white-space-only prefix counts as empty. */
  function SplitPathPrefix(prefix: string): (r: (string, string))
    ensures AllWs(prefix) ==> r == ("", "")
    ensures !AllWs(prefix) ==> StartsWith(prefix, r.0) && r.1 == ToLower(prefix[|r.0|..]) && '/' !in prefix[|r.0|..]
    ensures r.0 == "" || r.0[|r.0| - 1] == '/'
  {
    var normalized := BlankAsEmpty(prefix);
    match LastIndexOf(normalized, '/')
    case Some(idx) =>
      SplitAtLast(normalized, idx);
      (normalized[..idx + 1], ToLower(normalized[idx + 1..]))
    case None =>
      ("", ToLower(normalized))
  }

  /** `prefix.trim() === "" ? "" : prefix`. */
  function BlankAsEmpty(prefix: string): (r: string)
    ensures AllWs(prefix) ==> r == ""
    ensures !AllWs(prefix) ==> r == prefix
  {
    TrimEmptyIffAllWs(prefix);
    if Trim(prefix) == "" then "" else prefix
  }

  lemma SplitAtLast(s: string, idx: nat)
    requires idx < |s| && s[idx] == '/' && forall k :: idx < k < |s| ==> s[k] != '/'
    ensures s == s[..idx + 1] + s[idx + 1..] && '/' !in s[idx + 1..]
    ensures s[..idx + 1][idx] == '/'
  {
    var rest := s[idx + 1..];
    forall k | 0 <= k < |rest| ensures rest[k] != '/' {
      assert rest[k] == s[idx + 1 + k];
    }
  }

  /** `buildCandidatePath`: the base, the name, and a `/` unless the name
      already ends in one. */
  function BuildCandidatePath(base: string, name: string): (r: string)
    ensures EndsWith(r, "/")
    ensures EndsWith(name, "/") ==> r == base + name
    ensures !EndsWith(name, "/") ==> r == base + name + "/"
  {
    if EndsWith(name, "/") then base + name else base + name + "/"
  }

  /** A symbol's module path ranks by where it comes from: outside
      node_modules before inside it, and then outside TypeScript's own
      `lib` before inside it. */
  function PathRank(path: string): (n: nat)
    ensures n < 4
  {
    (if Contains(path, "node_modules") then 2 else 0) + (if Contains(path, "typescript/lib") then 1 else 0)
  }

  /** `prefersNewMetadata`, over the two module paths (a missing path is
      ""). */
  predicate PrefersNewMetadata(current: string, next: string) {
    var currentInModules := Contains(current, "node_modules");
    var nextInModules := Contains(next, "node_modules");
    if currentInModules && !nextInModules then true
    else if !currentInModules && nextInModules then false
    else
      var currentLib := Contains(current, "typescript/lib");
      var nextLib := Contains(next, "typescript/lib");
      if currentLib && !nextLib then true
      else if !currentLib && nextLib then false
      else false
  }

  /** The new entry wins exactly when its path ranks strictly better, so
      on a tie the existing entry is kept. */
  lemma PrefersIffBetterRank(current: string, next: string)
    ensures PrefersNewMetadata(current, next) <==> PathRank(next) < PathRank(current)
  {
  }

  /** Preference is a strict order: never both ways, never for equal
      paths. */
  lemma PrefersAsymmetric(current: string, next: string)
    ensures !(PrefersNewMetadata(current, next) && PrefersNewMetadata(next, current))
    ensures !PrefersNewMetadata(current, current)
  {
    PrefersIffBetterRank(current, next);
    PrefersIffBetterRank(next, current);
    PrefersIffBetterRank(current, current);
  }

  // ---------------------------------------------------------------------
  // Providers

  /** An item a provider can offer: the text matched against the query,
      the value the candidate inserts, and its description. */
  datatype Entry = Entry(name: string, value: string, description: string)

  /** The loop shared by every provider: each entry whose name starts,
      ignoring case, with `needle` becomes a candidate of the resolved
      token type, in input order; nothing when no type resolved. */
  function Gather(tokenType: Option<string>, kind: string, entries: seq<Entry>, needle: string): (r: seq<Candidate>)
    ensures tokenType.None? ==> r == []
    ensures |r| <= |entries|
    ensures forall c :: c in r <==>
      (tokenType.Some? &&
       exists e :: e in entries && MatchesNeedle(e.name, needle) && c == Candidate(e.value, tokenType.value, kind, e.description))
  {
    if tokenType.None? || |entries| == 0 then []
    else
      var e := entries[0];
      var rest := Gather(tokenType, kind, entries[1..], needle);
      assert forall x :: x in entries <==> x == e || x in entries[1..] by {
        assert entries == [e] + entries[1..];
      }
      if MatchesNeedle(e.name, needle) then [Candidate(e.value, tokenType.value, kind, e.description)] + rest
      else rest
  }

  /** Gathering from two lists is gathering from each, in order. */
  lemma {:induction false} GatherAppend(tokenType: Option<string>, kind: string, a: seq<Entry>, b: seq<Entry>, needle: string)
    ensures Gather(tokenType, kind, a + b, needle) == Gather(tokenType, kind, a, needle) + Gather(tokenType, kind, b, needle)
  {
    if tokenType.Some? && |a| > 0 {
      assert (a + b)[0] == a[0] && (a + b)[1..] == a[1..] + b;
      GatherAppend(tokenType, kind, a[1..], b, needle);
    } else if tokenType.Some? {
      assert a + b == b;
    }
  }

  const FolderTypes: seq<string> := ["Folder"]
  const BuiltinTypes: seq<string> := ["ShBuiltin", "Builtin"]
  const SnippetTypes: seq<string> := ["SnippetTrigger", "SnippetKey"]
  const CommandTypes: seq<string> := ["ShCommandName", "Command"]
  const TypeScriptTypes: seq<string> := ["TypeScriptSymbol"]

  /** A directory entry as the folder provider reads it. */
  datatype DirEntry = DirEntry(name: string, isDirectory: bool)

  /** The sub-directories of a listing, offered under `base`. */
  function FolderEntries(listing: seq<DirEntry>, base: string): (r: seq<Entry>)
    ensures forall e :: e in r <==>
      exists d :: d in listing && d.isDirectory && e == Entry(d.name, BuildCandidatePath(base, d.name), BuildCandidatePath(base, d.name))
  {
    if |listing| == 0 then []
    else
      var d := listing[0];
      var rest := FolderEntries(listing[1..], base);
      assert forall x :: x in listing <==> x == d || x in listing[1..] by {
        assert listing == [d] + listing[1..];
      }
      if d.isDirectory then [Entry(d.name, BuildCandidatePath(base, d.name), BuildCandidatePath(base, d.name))] + rest
      else rest
  }

  /** `gatherFolderCandidates`: the sub-directories of the directory the
      prefix names whose names start with the rest of the prefix. The
      directory's listing is an input. */
  function FolderCandidates(reg: TokenRegistry.Registry, prefix: string, listing: seq<DirEntry>): (r: seq<Candidate>)
    ensures ResolveTokenType(reg, FolderTypes).None? ==> r == []
    ensures forall c :: c in r ==> c.kind == "Folder" && EndsWith(c.value, "/") && StartsWith(c.value, SplitPathPrefix(prefix).0)
  {
    var parts := SplitPathPrefix(prefix);
    Gather(ResolveTokenType(reg, FolderTypes), "Folder", FolderEntries(listing, parts.0), parts.1)
  }

  /** `gatherBuiltinCandidates` over the registered builtin names. */
  function BuiltinCandidates(reg: TokenRegistry.Registry, prefix: string, names: seq<string>): (r: seq<Candidate>)
    ensures ResolveTokenType(reg, BuiltinTypes).None? ==> r == []
    ensures forall c :: c in r <==>
      (ResolveTokenType(reg, BuiltinTypes).Some? && c.value in names && MatchesNeedle(c.value, ToLower(prefix)) &&
       c == Candidate(c.value, ResolveTokenType(reg, BuiltinTypes).value, "Builtin", c.value))
  {
    var entries := seq(|names|, i requires 0 <= i < |names| => Entry(names[i], names[i], names[i]));
    var tt := ResolveTokenType(reg, BuiltinTypes);
    var needle := ToLower(prefix);
    var r := Gather(tt, "Builtin", entries, needle);
    assert forall c :: c in r ==>
      tt.Some? && c.value in names && MatchesNeedle(c.value, needle) && c == Candidate(c.value, tt.value, "Builtin", c.value) by {
      forall c | c in r
        ensures tt.Some? && c.value in names && MatchesNeedle(c.value, needle) && c == Candidate(c.value, tt.value, "Builtin", c.value)
      {
        var e :| e in entries && MatchesNeedle(e.name, needle) && c == Candidate(e.value, tt.value, "Builtin", e.description);
        var i :| 0 <= i < |entries| && entries[i] == e;
        assert names[i] in names;
      }
    }
    assert forall c: Candidate ::
      (tt.Some? && c.value in names && MatchesNeedle(c.value, needle) && c == Candidate(c.value, tt.value, "Builtin", c.value)) ==> c in r by {
      forall c: Candidate | tt.Some? && c.value in names && MatchesNeedle(c.value, needle) && c == Candidate(c.value, tt.value, "Builtin", c.value)
        ensures c in r
      {
        var i :| 0 <= i < |names| && names[i] == c.value;
        assert entries[i] in entries;
      }
    }
    r
  }

  /** A snippet trigger and its optional description. */
  datatype SnippetEntry = SnippetEntry(trigger: string, description: Option<string>)

  /** `gatherSnippetCandidates` over the loaded snippet entries; the
      description falls back to the trigger. */
  function SnippetCandidates(reg: TokenRegistry.Registry, prefix: string, snippets: seq<SnippetEntry>): (r: seq<Candidate>)
    ensures ResolveTokenType(reg, SnippetTypes).None? ==> r == []
    ensures forall c :: c in r ==> c.kind == "SnippetTrigger" && MatchesNeedle(c.value, ToLower(prefix))
    ensures forall c :: c in r ==>
      exists sn :: sn in snippets && sn.trigger == c.value && c.description == sn.description.GetOr(sn.trigger)
  {
    var entries := seq(|snippets|, i requires 0 <= i < |snippets| =>
      Entry(snippets[i].trigger, snippets[i].trigger, snippets[i].description.GetOr(snippets[i].trigger)));
    var r := Gather(ResolveTokenType(reg, SnippetTypes), "SnippetTrigger", entries, ToLower(prefix));
    assert forall c :: c in r ==> exists sn :: sn in snippets && sn.trigger == c.value && c.description == sn.description.GetOr(sn.trigger) by {
      forall c | c in r ensures exists sn :: sn in snippets && sn.trigger == c.value && c.description == sn.description.GetOr(sn.trigger) {
        var e :| e in entries && MatchesNeedle(e.name, ToLower(prefix)) && c == Candidate(e.value, ResolveTokenType(reg, SnippetTypes).value, "SnippetTrigger", e.description);
        var i :| 0 <= i < |entries| && entries[i] == e;
        assert snippets[i] in snippets;
      }
    }
    r
  }

  /** `gatherCommandCandidates` over the executables on the PATH, as
      name and full path; the full path becomes the description. */
  function CommandCandidates(reg: TokenRegistry.Registry, prefix: string, commands: seq<(string, string)>): (r: seq<Candidate>)
    ensures ResolveTokenType(reg, CommandTypes).None? ==> r == []
    ensures forall c :: c in r ==> c.kind == CommandKind && MatchesNeedle(c.value, ToLower(prefix)) && (c.value, c.description) in commands
  {
    var entries := seq(|commands|, i requires 0 <= i < |commands| => Entry(commands[i].0, commands[i].0, commands[i].1));
    var r := Gather(ResolveTokenType(reg, CommandTypes), CommandKind, entries, ToLower(prefix));
    assert forall c :: c in r ==> (c.value, c.description) in commands by {
      forall c | c in r ensures (c.value, c.description) in commands {
        var e :| e in entries && MatchesNeedle(e.name, ToLower(prefix)) && c == Candidate(e.value, ResolveTokenType(reg, CommandTypes).value, CommandKind, e.description);
        var i :| 0 <= i < |entries| && entries[i] == e;
        assert commands[i] == (c.value, c.description);
      }
    }
    r
  }

  /** `gatherTypeScriptCandidates` over the labels of the indexed
      symbols. */
  function TypeScriptCandidates(reg: TokenRegistry.Registry, prefix: string, labels: seq<string>): (r: seq<Candidate>)
    ensures ResolveTokenType(reg, TypeScriptTypes).None? ==> r == []
    ensures forall c :: c in r ==> c.kind == "TypeScriptSymbol" && MatchesNeedle(c.value, ToLower(prefix)) && c.value in labels
  {
    var entries := seq(|labels|, i requires 0 <= i < |labels| => Entry(labels[i], labels[i], labels[i]));
    var r := Gather(ResolveTokenType(reg, TypeScriptTypes), "TypeScriptSymbol", entries, ToLower(prefix));
    assert forall c :: c in r ==> c.value in labels by {
      forall c | c in r ensures c.value in labels {
        var e :| e in entries && MatchesNeedle(e.name, ToLower(prefix)) && c == Candidate(e.value, ResolveTokenType(reg, TypeScriptTypes).value, "TypeScriptSymbol", e.description);
        var i :| 0 <= i < |entries| && entries[i] == e;
        assert labels[i] == c.value;
      }
    }
    r
  }

  // ---------------------------------------------------------------------
  // The pipeline

  /** One progress report: stage `index` of `total`. */
  datatype Progress = Progress(index: nat, total: nat, caption: string)

  const StageLabels: seq<string> :=
    ["scanning folders", "loading builtins", "loading snippets", "finding commands", "indexing TypeScript symbols"]
  const FinalLabel: string := "finalizing results"

  /** What the providers read from outside: the listing of the folder the
      prefix's directory part resolves to (with a trailing `/` removed, so
      an empty or bare `/` part lists the working directory), the builtin
      names, the snippet entries, the executables on the PATH and the
      TypeScript symbol labels. */
  datatype Sources = Sources(
    folders: seq<DirEntry>, builtins: seq<string>, snippets: seq<SnippetEntry>,
    commands: seq<(string, string)>, symbols: seq<string>)

  /** The five stage results, in stage order. */
  function StageResults(reg: TokenRegistry.Registry, prefix: string, src: Sources): (r: seq<seq<Candidate>>)
    ensures |r| == |StageLabels|
  {
    [FolderCandidates(reg, prefix, src.folders), BuiltinCandidates(reg, prefix, src.builtins),
     SnippetCandidates(reg, prefix, src.snippets), CommandCandidates(reg, prefix, src.commands),
     TypeScriptCandidates(reg, prefix, src.symbols)]
  }

  function Flat(xss: seq<seq<Candidate>>): (r: seq<Candidate>)
    ensures forall c :: c in r <==> exists i :: 0 <= i < |xss| && c in xss[i]
  {
    if |xss| == 0 then [] else xss[0] + Flat(xss[1..])
  }

  /** The progress reports: one per stage, then the final one. */
  function Reports(): (r: seq<Progress>)
    ensures |r| == |StageLabels| + 1
    ensures forall i :: 0 <= i < |StageLabels| ==> r[i] == Progress(i + 1, |StageLabels| + 1, StageLabels[i])
    ensures r[|StageLabels|] == Progress(|StageLabels| + 1, |StageLabels| + 1, FinalLabel)
  {
    var total := |StageLabels| + 1;
    seq(|StageLabels|, i requires 0 <= i < |StageLabels| => Progress(i + 1, total, StageLabels[i]))
      + [Progress(total, total, FinalLabel)]
  }

  /** `collectFirstTokenCandidates`: the progress reports it makes, in
      order, and the candidates it returns. */
  function Collect(reg: TokenRegistry.Registry, lines: seq<Line>, active: Option<Token>, src: Sources):
    (r: (seq<Progress>, seq<Candidate>))
    ensures |r.0| == |StageLabels| + 1
    ensures forall i :: 0 <= i < |StageLabels| ==> r.0[i] == Progress(i + 1, |StageLabels| + 1, StageLabels[i])
    ensures r.0[|StageLabels|] == Progress(|StageLabels| + 1, |StageLabels| + 1, FinalLabel)
    ensures SortedCands(r.1) && DistinctValues(r.1)
    ensures var merged := Flat(StageResults(reg, QueryPrefix(lines, active), src));
      (forall c :: c in merged ==> HasValue(r.1, c.value)) &&
      (forall c :: c in r.1 ==> HasValue(merged, c.value) && c == Chosen(merged, c.value))
  {
    var prefix := QueryPrefix(lines, active);
    var progress := Reports();
    var merged := Flat(StageResults(reg, prefix, src));
    var deduped := Dedupe(merged);
    var sorted := SortCandidates(deduped);
    SortKeepsFacts(deduped, sorted, merged);
    (progress, sorted)
  }

  /** Sorting keeps what deduplication established: the same candidates,
      hence distinct values and the same choices. */
  lemma SortKeepsFacts(deduped: seq<Candidate>, sorted: seq<Candidate>, merged: seq<Candidate>)
    requires multiset(sorted) == multiset(deduped) && DistinctValues(deduped)
    requires forall i :: 0 <= i < |merged| ==> HasValue(deduped, merged[i].value)
    requires forall k :: 0 <= k < |deduped| ==> HasValue(merged, deduped[k].value) && deduped[k] == Chosen(merged, deduped[k].value)
    ensures DistinctValues(sorted)
    ensures forall c :: c in merged ==> HasValue(sorted, c.value)
    ensures forall c :: c in sorted ==> HasValue(merged, c.value) && c == Chosen(merged, c.value)
  {
    SameMembers(deduped, sorted);
    SortedDistinct(deduped, sorted);
    forall c | c in merged ensures HasValue(sorted, c.value) {
      var i :| 0 <= i < |merged| && merged[i] == c;
      var k :| 0 <= k < |deduped| && deduped[k].value == c.value;
      assert deduped[k] in sorted;
    }
    forall c | c in sorted ensures HasValue(merged, c.value) && c == Chosen(merged, c.value) {
      var k :| 0 <= k < |deduped| && deduped[k] == c;
    }
  }

  lemma SameMembers(a: seq<Candidate>, b: seq<Candidate>)
    requires multiset(a) == multiset(b)
    ensures forall c :: c in a <==> c in b
  {
    forall c ensures c in a <==> c in multiset(a) {}
    forall c ensures c in b <==> c in multiset(b) {}
  }

  /** A permutation of a list with distinct values has distinct values. */
  lemma SortedDistinct(deduped: seq<Candidate>, sorted: seq<Candidate>)
    requires multiset(sorted) == multiset(deduped) && DistinctValues(deduped)
    ensures DistinctValues(sorted)
  {
    SameMembers(deduped, sorted);
    forall i, j | 0 <= i < j < |sorted| ensures sorted[i].value != sorted[j].value {
      TwiceCount(sorted, i, j);
      AtMostOnce(deduped, sorted[i]);
      assert sorted[i] in deduped && sorted[j] in deduped;
      var a :| 0 <= a < |deduped| && deduped[a] == sorted[i];
      var b :| 0 <= b < |deduped| && deduped[b] == sorted[j];
      assert a != b;
    }
  }

  /** A candidate at two positions occurs at least twice. */
  lemma TwiceCount(s: seq<Candidate>, i: nat, j: nat)
    requires i < j < |s|
    ensures s[i] == s[j] ==> multiset(s)[s[i]] >= 2
  {
    if s[i] == s[j] {
      assert s == s[..j] + s[j..];
      assert s[..j][i] == s[i] && s[j..][0] == s[j];
      assert multiset(s) == multiset(s[..j]) + multiset(s[j..]);
    }
  }

  /** In a list with distinct values no candidate occurs twice. */
  lemma {:induction false} AtMostOnce(s: seq<Candidate>, x: Candidate)
    requires DistinctValues(s)
    ensures multiset(s)[x] <= 1
  {
    if |s| > 0 {
      var p := s[..|s| - 1];
      assert s == p + [s[|s| - 1]];
      AtMostOnce(p, x);
      forall k | 0 <= k < |p| ensures p[k] != s[|s| - 1] {
        assert p[k].value == s[k].value;
      }
      assert s[|s| - 1] !in multiset(p);
    }
  }

  // ---------------------------------------------------------------------
  // Snippets from the language description

  /** `value && typeof value === "object"`: objects and arrays. */
  predicate IsObject(v: YamlSerialize.Value) {
    v.VObj? || v.VArr?
  }

  /** `Object.entries`: an object's fields, or an array's items keyed by
      their index. */
  function ObjectEntries(v: YamlSerialize.Value): (r: seq<(string, YamlSerialize.Value)>)
    ensures !IsObject(v) ==> r == []
  {
    match v
    case VObj(fields) => fields
    case VArr(items) => seq(|items|, i requires 0 <= i < |items| => (NatToString(i), items[i]))
    case _ => []
  }

  /** A trigger's description: `meta.what` when it is a string that is not
      blank. */
  function Describe(meta: YamlSerialize.Value): (r: Option<string>)
    ensures r.Some? ==> !AllWs(r.value)
  {
    if !IsObject(meta) then None
    else match YamlSerialize.Get(meta, "what")
      case Some(VStr(w)) =>
        TrimEmptyIffAllWs(w);
        if Trim(w) != "" then Some(w) else None
      case _ => None
  }

  /** One bucket's entries: every non-empty key is a trigger. */
  function BucketEntries(fields: seq<(string, YamlSerialize.Value)>): (r: seq<SnippetEntry>)
    ensures |r| <= |fields|
    ensures forall e :: e in r ==> e.trigger != "" && exists f :: f in fields && f.0 == e.trigger && e.description == Describe(f.1)
  {
    if |fields| == 0 then []
    else
      var rest := BucketEntries(fields[1..]);
      assert forall f :: f in fields[1..] ==> f in fields;
      if fields[0].0 == "" then rest
      else [SnippetEntry(fields[0].0, Describe(fields[0].1))] + rest
  }

  /** The entries of every bucket that is an object, bucket after
      bucket. */
  function AllBuckets(buckets: seq<(string, YamlSerialize.Value)>): (r: seq<SnippetEntry>)
    ensures forall e :: e in r ==> e.trigger != "" && (e.description.Some? ==> !AllWs(e.description.value))
  {
    if |buckets| == 0 then []
    else
      var b := buckets[0].1;
      (if IsObject(b) then BucketEntries(ObjectEntries(b)) else []) + AllBuckets(buckets[1..])
  }

  /** `extractSnippets`: the triggers under `snippets`, one per key of each
      bucket; anything that is not an object gives none. */
  function ExtractSnippets(source: YamlSerialize.Value): (r: seq<SnippetEntry>)
    ensures !IsObject(source) ==> r == []
    ensures forall e :: e in r ==> e.trigger != "" && (e.description.Some? ==> !AllWs(e.description.value))
  {
    if !IsObject(source) then []
    else match YamlSerialize.Get(source, "snippets")
      case Some(snippets) => if IsObject(snippets) then AllBuckets(ObjectEntries(snippets)) else []
      case None => []
  }

  /** Every non-empty key of every object bucket gives exactly one entry,
      in order. */
  lemma {:induction false} AllBucketsAppend(a: seq<(string, YamlSerialize.Value)>, b: seq<(string, YamlSerialize.Value)>)
    ensures AllBuckets(a + b) == AllBuckets(a) + AllBuckets(b)
  {
    if |a| > 0 {
      assert (a + b)[0] == a[0] && (a + b)[1..] == a[1..] + b;
      AllBucketsAppend(a[1..], b);
    } else {
      assert a + b == b;
    }
  }

  /** A bucket with a described trigger, an empty key and a trigger whose
      description is blank. */
  lemma ExtractSnippetsExample()
    ensures ExtractSnippets(YamlSerialize.VObj([("snippets", YamlSerialize.VObj([("shell", YamlSerialize.VObj([
      ("ls", YamlSerialize.VObj([("what", YamlSerialize.VStr("list"))])),
      ("", YamlSerialize.VNull),
      ("cd", YamlSerialize.VObj([("what", YamlSerialize.VStr("  "))]))]))]))]))
      == [SnippetEntry("ls", Some("list")), SnippetEntry("cd", None)]
  {
    var blank := YamlSerialize.VObj([("what", YamlSerialize.VStr("  "))]);
    var list := YamlSerialize.VObj([("what", YamlSerialize.VStr("list"))]);
    var fields := [("ls", list), ("", YamlSerialize.VNull), ("cd", blank)];
    ExampleBucket(list, blank, fields);
    ExampleNesting(fields);
  }

  lemma ExampleDescriptions(list: YamlSerialize.Value, blank: YamlSerialize.Value)
    requires blank == YamlSerialize.VObj([("what", YamlSerialize.VStr("  "))])
    requires list == YamlSerialize.VObj([("what", YamlSerialize.VStr("list"))])
    ensures Describe(blank) == None && Describe(list) == Some("list")
  {
    assert YamlSerialize.Get(blank, "what") == Some(YamlSerialize.VStr("  "));
    assert AllWs("  ");
    assert YamlSerialize.Get(list, "what") == Some(YamlSerialize.VStr("list"));
    assert !AllWs("list") by { assert !IsWs("list"[0]); }
  }

  lemma ExampleBucket(list: YamlSerialize.Value, blank: YamlSerialize.Value, fields: seq<(string, YamlSerialize.Value)>)
    requires blank == YamlSerialize.VObj([("what", YamlSerialize.VStr("  "))])
    requires list == YamlSerialize.VObj([("what", YamlSerialize.VStr("list"))])
    requires fields == [("ls", list), ("", YamlSerialize.VNull), ("cd", blank)]
    ensures BucketEntries(fields) == [SnippetEntry("ls", Some("list")), SnippetEntry("cd", None)]
  {
    ExampleDescriptions(list, blank);
    assert fields[1..][1..] == [("cd", blank)];
    assert BucketEntries([("cd", blank)]) == [SnippetEntry("cd", None)];
    assert BucketEntries(fields[1..]) == [SnippetEntry("cd", None)];
  }

  lemma ExampleNesting(fields: seq<(string, YamlSerialize.Value)>)
    ensures ExtractSnippets(YamlSerialize.VObj([("snippets", YamlSerialize.VObj([("shell", YamlSerialize.VObj(fields))]))]))
      == BucketEntries(fields)
  {
    var shell := YamlSerialize.VObj(fields);
    var snippets := YamlSerialize.VObj([("shell", shell)]);
    var source := YamlSerialize.VObj([("snippets", snippets)]);
    assert YamlSerialize.Get(source, "snippets") == Some(snippets);
    assert ObjectEntries(snippets) == [("shell", shell)];
    assert IsObject(shell) && ObjectEntries(shell) == fields;
    assert [("shell", shell)][1..] == [];
    assert AllBuckets([("shell", shell)]) == BucketEntries(fields) + AllBuckets([]);
    assert BucketEntries(fields) + [] == BucketEntries(fields);
  }

  /** A Command followed by a builtin of the same name: the builtin is
      the one kept. */
  lemma ChosenCommandExample()
    ensures var cs := [Candidate("ls", "Command", CommandKind, "/bin/ls"), Candidate("cd", "Builtin", "Builtin", "cd"),
      Candidate("ls", "Builtin", "Builtin", "ls")];
      HasValue(cs, "ls") && HasValue(cs, "cd") && Chosen(cs, "ls") == cs[2] && Chosen(cs, "cd") == cs[1]
  {
    var cs := [Candidate("ls", "Command", CommandKind, "/bin/ls"), Candidate("cd", "Builtin", "Builtin", "cd"),
      Candidate("ls", "Builtin", "Builtin", "ls")];
    assert cs[0].value == "ls" && cs[0].kind == CommandKind;
    assert cs[1].value == "cd" && cs[2].value == "ls";
    assert FirstNonCommand(cs, "ls") == Some(2);
    assert FirstNonCommand(cs, "cd") == Some(1);
  }
}

=== FILE: directory_stack.dfy ===
/** The directory stack of src/builtins/directoryStack.ts behind `pushd`,
    `popd` and `dirs`. The module-level array becomes a value, bottom
    first; each operation returns the new stack alongside its result. The
    current directory, `process.cwd()` by default, is a parameter. */
module DirectoryStack {
  import opened Wrappers
  import opened Strings

  /** The stack, bottom first: the last element is the top. */
  type Stack = seq<string>

  const Empty: Stack := []

  /** `pushDirectory`. */
  function Push(st: Stack, path: string): (r: Stack)
    ensures |r| == |st| + 1 && r[|st|] == path && r[..|st|] == st
  {
    st + [path]
  }

  /** `popDirectory`: the top and the stack without it; nothing and the
      same stack when empty. */
  function Pop(st: Stack): (r: (Option<string>, Stack))
    ensures |st| == 0 ==> r == (None, st)
    ensures |st| > 0 ==> r.0 == Some(st[|st| - 1]) && r.1 + [st[|st| - 1]] == st
  {
    if |st| == 0 then (None, st) else (Some(st[|st| - 1]), st[..|st| - 1])
  }

  /** `peekDirectory`: the top, if any. */
  function Peek(st: Stack): (r: Option<string>)
    ensures r.None? <==> |st| == 0
    ensures r.Some? ==> r.value == st[|st| - 1]
  {
    if |st| == 0 then None else Some(st[|st| - 1])
  }

  /** `clearDirectoryStack`. */
  function Clear(st: Stack): (r: Stack)
    ensures |r| == 0
  {
    []
  }

  /** `getDirectoryStack`: a copy, bottom first. */
  function Entries(st: Stack): (r: seq<string>)
    ensures |r| == |st| && forall k :: 0 <= k < |st| ==> r[k] == st[k]
  {
    st[..]
  }

  /** `hasDirectoryStack`. */
  function Has(st: Stack): (r: bool)
    ensures r <==> |st| > 0
  {
    |st| > 0
  }

  function Reverse(s: seq<string>): (r: seq<string>)
    ensures |r| == |s|
    ensures forall k :: 0 <= k < |s| ==> r[k] == s[|s| - 1 - k]
  {
    if |s| == 0 then [] else [s[|s| - 1]] + Reverse(s[..|s| - 1])
  }

  /** `formatDirectoryStack`: the current directory, then the entries from
      the top down, separated by single spaces. */
  function Format(st: Stack, current: string): string {
    Join([current] + Reverse(st), " ")
  }

  // ---------------------------------------------------------------------
  // Properties

  /** Pop undoes push: it returns the pushed path and the stack before. */
  lemma PushPop(st: Stack, path: string)
    ensures Pop(Push(st, path)) == (Some(path), st)
    ensures Peek(Push(st, path)) == Some(path)
  {
    assert (st + [path])[..|st|] == st;
  }

  /** Pop and peek on an empty stack give nothing and change nothing. */
  lemma EmptyStack()
    ensures Pop(Empty) == (None, Empty) && Peek(Empty) == None && !Has(Empty)
  {
  }

  /** The copy grows by the pushed path, and clearing leaves nothing. */
  lemma EntriesAfter(st: Stack, path: string)
    ensures Entries(Push(st, path)) == Entries(st) + [path]
    ensures !Has(Clear(st)) && Entries(Clear(st)) == []
  {
  }

  /** An empty stack formats as the current directory alone. */
  lemma FormatEmpty(current: string)
    ensures Format(Empty, current) == current
  {
  }

  /** A pushed path is listed right after the current directory, followed
      by what the stack listed before. */
  lemma FormatPush(st: Stack, path: string, current: string)
    ensures Format(Push(st, path), current) == current + " " + Format(st, path)
  {
    var st' := st + [path];
    assert st'[..|st'| - 1] == st;
    assert Reverse(st') == [path] + Reverse(st);
    var parts := [current] + Reverse(st');
    assert parts == [current] + ([path] + Reverse(st));
    assert parts[1..] == [path] + Reverse(st);
  }

  /** Two pushes: `dirs` from `/home` lists `/home /b /a`. */
  lemma FormatExample()
    ensures Format(Push(Push(Empty, "/a"), "/b"), "/home") == "/home /b /a"
  {
    FormatPush(Push(Empty, "/a"), "/b", "/home");
    FormatPush(Empty, "/a", "/b");
    FormatEmpty("/a");
  }
}

=== FILE: editor.dfy ===
/** The legacy line editor of src/editor.ts: a buffer of lines with a
    cursor, movement and editing actions, backslash continuation and
    history navigation, driven by the tokens of each input chunk.
    Painting the prompt, looking commands up on `PATH` and spawning them
    are left out; an accepted line is reported as an effect. */
module Editor {
  import opened Wrappers
  import opened Strings
  import EditorKeys

  const Nl: string := "\n"

  /** The editor's module-level state: `lines`, `lineIdx`, `colIdx`,
      `history` and `histIdx` (-1 when no history entry is selected). */
  datatype Editor = Editor(lines: seq<string>, line: nat, col: nat, history: seq<string>, histIdx: int)

  /** The cursor is on an existing line, at most at its end, and the
      selected history entry exists. */
  predicate Valid(e: Editor) {
    |e.lines| >= 1 && e.line < |e.lines| && e.col <= |e.lines[e.line]|
    && -1 <= e.histIdx < |e.history|
  }

  const Initial: Editor := Editor([""], 0, 0, [], -1)

  /** The buffer as one string, lines joined by line feeds. */
  function Text(e: Editor): string {
    Join(e.lines, Nl)
  }

  /** The buffer text before the cursor. */
  function Before(e: Editor): string
    requires Valid(e)
  {
    Join(e.lines[..e.line] + [e.lines[e.line][..e.col]], Nl)
  }

  /** The buffer text from the cursor on. */
  function After(e: Editor): string
    requires Valid(e)
  {
    Join([e.lines[e.line][e.col..]] + e.lines[e.line + 1..], Nl)
  }

  // ---------------------------------------------------------------------
  // Joining lines

  lemma {:induction false} JoinSplice(xs: seq<string>, u: string, v: string, ys: seq<string>)
    ensures Join(xs + [u + v] + ys, Nl) == Join(xs + [u], Nl) + Join([v] + ys, Nl)
  {
    if |xs| == 0 {
      assert xs + [u + v] + ys == [u + v] + ys;
      assert xs + [u] == [u];
      if |ys| > 0 {
        assert ([u + v] + ys)[1..] == ys;
        assert ([v] + ys)[1..] == ys;
      }
    } else {
      JoinSplice(xs[1..], u, v, ys);
      assert (xs + [u + v] + ys)[1..] == xs[1..] + [u + v] + ys;
      assert (xs + [u])[1..] == xs[1..] + [u];
    }
  }

  lemma JoinLast(xs: seq<string>, u: string, t: string)
    ensures Join(xs + [u + t], Nl) == Join(xs + [u], Nl) + t
  {
    JoinSplice(xs, u, t, []);
    assert xs + [u + t] + [] == xs + [u + t];
  }

  lemma JoinFirst(t: string, v: string, ys: seq<string>)
    ensures Join([t + v] + ys, Nl) == t + Join([v] + ys, Nl)
  {
    JoinSplice([], t, v, ys);
    assert [] + [t + v] + ys == [t + v] + ys;
    assert [] + [t] == [t];
  }

  /** The buffer is the text before the cursor followed by the text after
      it. */
  lemma TextSplits(e: Editor)
    requires Valid(e)
    ensures Text(e) == Before(e) + After(e)
  {
    var ln := e.lines[e.line];
    assert ln == ln[..e.col] + ln[e.col..];
    assert e.lines == e.lines[..e.line] + [ln[..e.col] + ln[e.col..]] + e.lines[e.line + 1..];
    JoinSplice(e.lines[..e.line], ln[..e.col], ln[e.col..], e.lines[e.line + 1..]);
  }

  /** Nothing is before the cursor exactly at the start of the buffer. */
  lemma BeforeEmpty(e: Editor)
    requires Valid(e)
    ensures Before(e) == "" <==> e.line == 0 && e.col == 0
  {
    var ln := e.lines[e.line];
    if e.line > 0 {
      JoinAppend(e.lines[..e.line], ln[..e.col], Nl);
    } else {
      assert e.lines[..e.line] + [ln[..e.col]] == [ln[..e.col]];
    }
  }

  /** Nothing is after the cursor exactly at the end of the last line. */
  lemma AfterEmpty(e: Editor)
    requires Valid(e)
    ensures After(e) == "" <==> e.line == |e.lines| - 1 && e.col == |e.lines[e.line]|
  {
    var rest := e.lines[e.line + 1..];
    var tail := e.lines[e.line][e.col..];
    if |rest| > 0 {
      assert ([tail] + rest)[1..] == rest;
    } else {
      assert [tail] + rest == [tail];
    }
  }

  // ---------------------------------------------------------------------
  // Movement

  /** `moveLeft`. */
  function MoveLeft(e: Editor): (r: Editor)
    requires Valid(e)
    ensures Valid(r) && r.lines == e.lines && r.history == e.history && r.histIdx == e.histIdx
    ensures Before(e) == "" ==> r == e
    ensures Before(e) != "" ==> |Before(r)| + 1 == |Before(e)|
  {
    BeforeEmpty(e);
    if e.col > 0 then
      var r := e.(col := e.col - 1);
      var ln := e.lines[e.line];
      assert ln[..e.col] == ln[..e.col - 1] + [ln[e.col - 1]];
      JoinLast(e.lines[..e.line], ln[..e.col - 1], [ln[e.col - 1]]);
      r
    else if e.line > 0 then
      var r := e.(line := e.line - 1, col := |e.lines[e.line - 1]|);
      assert e.lines[..e.line - 1] + [e.lines[e.line - 1]] == e.lines[..e.line];
      assert e.lines[e.line - 1][..|e.lines[e.line - 1]|] == e.lines[e.line - 1];
      JoinAppend(e.lines[..e.line], "", Nl);
      assert e.lines[e.line][..0] == "";
      r
    else e
  }

  /** `moveRight`. */
  function MoveRight(e: Editor): (r: Editor)
    requires Valid(e)
    ensures Valid(r) && r.lines == e.lines && r.history == e.history && r.histIdx == e.histIdx
    ensures After(e) == "" ==> r == e
    ensures After(e) != "" ==> |Before(r)| == |Before(e)| + 1
  {
    AfterEmpty(e);
    var ln := e.lines[e.line];
    if e.col < |ln| then
      var r := e.(col := e.col + 1);
      assert ln[..e.col + 1] == ln[..e.col] + [ln[e.col]];
      JoinLast(e.lines[..e.line], ln[..e.col], [ln[e.col]]);
      r
    else if e.line < |e.lines| - 1 then
      var r := e.(line := e.line + 1, col := 0);
      assert e.lines[..e.line] + [ln] == e.lines[..e.line + 1];
      assert ln[..e.col] == ln;
      JoinAppend(e.lines[..e.line + 1], "", Nl);
      assert e.lines[e.line + 1][..0] == "";
      r
    else e
  }

  /** `previousLine`: up one line, the column clamped to its length. */
  function PreviousLine(e: Editor): (r: Editor)
    requires Valid(e)
    ensures Valid(r) && r.lines == e.lines && r.history == e.history && r.histIdx == e.histIdx
    ensures e.line > 0 ==> r.line == e.line - 1 && r.col == Min(e.col, |e.lines[e.line - 1]|)
    ensures e.line == 0 ==> r == e
  {
    if e.line > 0 then e.(line := e.line - 1, col := Min(e.col, |e.lines[e.line - 1]|)) else e
  }

  /** `nextLine`: down one line, the column clamped to its length. */
  function NextLine(e: Editor): (r: Editor)
    requires Valid(e)
    ensures Valid(r) && r.lines == e.lines && r.history == e.history && r.histIdx == e.histIdx
    ensures e.line < |e.lines| - 1 ==> r.line == e.line + 1 && r.col == Min(e.col, |e.lines[e.line + 1]|)
    ensures e.line == |e.lines| - 1 ==> r == e
  {
    if e.line < |e.lines| - 1 then e.(line := e.line + 1, col := Min(e.col, |e.lines[e.line + 1]|)) else e
  }

  function Min(a: nat, b: nat): (m: nat)
    ensures m <= a && m <= b && (m == a || m == b)
  {
    if a < b then a else b
  }

  /** `beginningOfLine`. */
  function BeginningOfLine(e: Editor): (r: Editor)
    requires Valid(e)
    ensures Valid(r) && r.lines == e.lines && r.line == e.line && r.col == 0
    ensures r.history == e.history && r.histIdx == e.histIdx
  {
    e.(col := 0)
  }

  /** `endOfLine`. */
  function EndOfLine(e: Editor): (r: Editor)
    requires Valid(e)
    ensures Valid(r) && r.lines == e.lines && r.line == e.line && r.col == |e.lines[e.line]|
    ensures r.history == e.history && r.histIdx == e.histIdx
  {
    e.(col := |e.lines[e.line]|)
  }

  // ---------------------------------------------------------------------
  // Editing

  /** `insertText`: the text goes in at the cursor, which moves past it;
      an empty text changes nothing. */
  function InsertText(e: Editor, text: string): (r: Editor)
    requires Valid(e)
    ensures Valid(r) && r.history == e.history && r.histIdx == e.histIdx
    ensures text == "" ==> r == e
    ensures text != "" ==> Before(r) == Before(e) + text && After(r) == After(e)
    ensures text != "" ==> r.line == e.line && r.col == e.col + |text|
  {
    if text == "" then e
    else
      var ln := e.lines[e.line];
      var ln' := ln[..e.col] + text + ln[e.col..];
      var r := e.(lines := e.lines[e.line := ln'], col := e.col + |text|);
      assert r.lines[..e.line] == e.lines[..e.line];
      assert r.lines[e.line + 1..] == e.lines[e.line + 1..];
      assert ln'[..e.col + |text|] == ln[..e.col] + text;
      assert ln'[e.col + |text|..] == ln[e.col..];
      JoinLast(e.lines[..e.line], ln[..e.col], text);
      r
  }

  /** `deleteChar`: removes the character under the cursor; nothing at a
      line's end. */
  function DeleteChar(e: Editor): (r: Editor)
    requires Valid(e)
    ensures Valid(r) && r.line == e.line && r.col == e.col && r.history == e.history && r.histIdx == e.histIdx
    ensures e.col == |e.lines[e.line]| ==> r == e
    ensures e.col < |e.lines[e.line]| ==> Before(r) == Before(e) && After(r) == After(e)[1..]
  {
    var ln := e.lines[e.line];
    if e.col < |ln| then
      var ln' := ln[..e.col] + ln[e.col + 1..];
      var r := e.(lines := e.lines[e.line := ln']);
      assert r.lines[..e.line] == e.lines[..e.line];
      assert r.lines[e.line + 1..] == e.lines[e.line + 1..];
      assert ln'[..e.col] == ln[..e.col];
      assert ln'[e.col..] == ln[e.col + 1..];
      assert ln[e.col..] == [ln[e.col]] + ln[e.col + 1..];
      JoinFirst([ln[e.col]], ln[e.col + 1..], e.lines[e.line + 1..]);
      r
    else e
  }

  /** `backwardDeleteChar`: removes the character before the cursor, which
      at a line's start is the line break, joining the line onto the
      previous one; nothing at the start of the buffer. */
  function BackwardDeleteChar(e: Editor): (r: Editor)
    requires Valid(e)
    ensures Valid(r) && r.history == e.history && r.histIdx == e.histIdx
    ensures Before(e) == "" ==> r == e
    ensures Before(e) != "" ==> Before(r) == Before(e)[..|Before(e)| - 1] && After(r) == After(e)
  {
    BeforeEmpty(e);
    var ln := e.lines[e.line];
    if e.col > 0 then
      var r := e.(lines := e.lines[e.line := ln[..e.col - 1] + ln[e.col..]], col := e.col - 1);
      DeleteBeforeInLine(e);
      r
    else if e.line > 0 then
      var r := JoinWithPrevious(e);
      r
    else e
  }

  lemma DeleteBeforeInLine(e: Editor)
    requires Valid(e) && e.col > 0
    ensures var ln := e.lines[e.line];
      var r := e.(lines := e.lines[e.line := ln[..e.col - 1] + ln[e.col..]], col := e.col - 1);
      Valid(r) && Before(e) != "" && Before(r) == Before(e)[..|Before(e)| - 1] && After(r) == After(e)
  {
    var ln := e.lines[e.line];
    var ln' := ln[..e.col - 1] + ln[e.col..];
    var r := e.(lines := e.lines[e.line := ln'], col := e.col - 1);
    assert r.lines[..e.line] == e.lines[..e.line];
    assert r.lines[e.line + 1..] == e.lines[e.line + 1..];
    assert ln'[..e.col - 1] == ln[..e.col - 1];
    assert ln'[e.col - 1..] == ln[e.col..];
    assert ln[..e.col] == ln[..e.col - 1] + [ln[e.col - 1]];
    JoinLast(e.lines[..e.line], ln[..e.col - 1], [ln[e.col - 1]]);
  }

  /** Backspace at the start of a line other than the first. */
  function JoinWithPrevious(e: Editor): (r: Editor)
    requires Valid(e) && e.col == 0 && e.line > 0
    ensures Valid(r) && r.history == e.history && r.histIdx == e.histIdx
    ensures Before(e) != "" && Before(r) == Before(e)[..|Before(e)| - 1] && After(r) == After(e)
  {
    var ln := e.lines[e.line];
    var prev := e.lines[e.line - 1];
    var lines' := e.lines[..e.line - 1] + [prev + ln] + e.lines[e.line + 1..];
    var r := e.(lines := lines', line := e.line - 1, col := |prev|);
    assert lines'[e.line - 1] == prev + ln;
    assert lines'[..e.line - 1] == e.lines[..e.line - 1];
    assert lines'[e.line..] == e.lines[e.line + 1..];
    assert (prev + ln)[..|prev|] == prev;
    assert (prev + ln)[|prev|..] == ln;
    assert e.lines[..e.line - 1] + [prev] == e.lines[..e.line];
    assert ln[..0] == "" && ln[0..] == ln;
    JoinAppend(e.lines[..e.line], "", Nl);
    r
  }

  /** `killLineEnd`: cuts the current line at the cursor. */
  function KillLineEnd(e: Editor): (r: Editor)
    requires Valid(e)
    ensures Valid(r) && r.line == e.line && r.col == e.col && r.history == e.history && r.histIdx == e.histIdx
    ensures Before(r) == Before(e)
    ensures After(e) == e.lines[e.line][e.col..] + After(r)
  {
    var ln := e.lines[e.line];
    var r := e.(lines := e.lines[e.line := ln[..e.col]]);
    assert r.lines[..e.line] == e.lines[..e.line];
    assert r.lines[e.line + 1..] == e.lines[e.line + 1..];
    assert ln[..e.col][..e.col] == ln[..e.col];
    assert ln[..e.col][e.col..] == "";
    assert ln[e.col..] == ln[e.col..] + "";
    JoinFirst(ln[e.col..], "", e.lines[e.line + 1..]);
    r
  }

  /** `killLineBeginning`: drops the current line up to the cursor and
      moves to column 0. */
  function KillLineBeginning(e: Editor): (r: Editor)
    requires Valid(e)
    ensures Valid(r) && r.line == e.line && r.col == 0 && r.history == e.history && r.histIdx == e.histIdx
    ensures Before(e) == Before(r) + e.lines[e.line][..e.col]
    ensures After(r) == After(e)
  {
    var ln := e.lines[e.line];
    var r := e.(lines := e.lines[e.line := ln[e.col..]], col := 0);
    assert r.lines[..e.line] == e.lines[..e.line];
    assert r.lines[e.line + 1..] == e.lines[e.line + 1..];
    assert ln[e.col..][..0] == "";
    assert ln[e.col..][0..] == ln[e.col..];
    assert ln[..e.col] == "" + ln[..e.col];
    JoinLast(e.lines[..e.line], "", ln[..e.col]);
    r
  }

  // ---------------------------------------------------------------------
  // History

  /** `resetBuffer`: one empty line, the cursor at its start. */
  function ResetBuffer(e: Editor): (r: Editor)
    requires Valid(e)
    ensures Valid(r) && Text(r) == "" && r.lines == [""] && r.line == 0 && r.col == 0
    ensures r.history == e.history && r.histIdx == e.histIdx
  {
    e.(lines := [""], line := 0, col := 0)
  }

  /** `loadHistory(idx)`: the buffer shows the entry, split at line feeds,
      with the cursor clamped into it; an index outside the history empties
      the buffer instead. */
  function LoadHistory(e: Editor, idx: int): (r: Editor)
    requires Valid(e)
    ensures Valid(r) && r.history == e.history
    ensures 0 <= idx < |e.history| ==>
      Text(r) == e.history[idx] && r.histIdx == idx && r.line <= e.line && r.col <= e.col
    ensures !(0 <= idx < |e.history|) ==> r == ResetBuffer(e)
  {
    if idx < 0 || idx >= |e.history| then ResetBuffer(e)
    else
      var ls := Split(e.history[idx], '\n');
      JoinSplit(e.history[idx], '\n');
      var line := Min(e.line, |ls| - 1);
      e.(lines := ls, line := line, col := Min(e.col, |ls[line]|), histIdx := idx)
  }

  /** `previousHistory`: the newest entry when none is selected, otherwise
      the one before, stopping at the oldest. */
  function PreviousHistory(e: Editor): (r: Editor)
    requires Valid(e)
    ensures Valid(r) && r.history == e.history
    ensures |e.history| == 0 ==> r == e
    ensures |e.history| > 0 ==>
      r.histIdx == (if e.histIdx == -1 then |e.history| - 1 else if e.histIdx > 0 then e.histIdx - 1 else 0)
      && Text(r) == e.history[r.histIdx]
  {
    if |e.history| == 0 then e
    else
      var idx := if e.histIdx == -1 then |e.history| - 1 else if e.histIdx - 1 > 0 then e.histIdx - 1 else 0;
      LoadHistory(e.(histIdx := idx), idx)
  }

  /** `nextHistory`: the next newer entry; past the newest, an empty
      buffer and no selection. Nothing happens when no entry is
      selected. */
  function NextHistory(e: Editor): (r: Editor)
    requires Valid(e)
    ensures Valid(r) && r.history == e.history
    ensures |e.history| == 0 || e.histIdx == -1 ==> r == e
    ensures 0 <= e.histIdx < |e.history| - 1 ==> r.histIdx == e.histIdx + 1 && Text(r) == e.history[e.histIdx + 1]
    ensures e.histIdx == |e.history| - 1 >= 0 ==> r.histIdx == -1 && r.lines == [""] && r.line == 0 && r.col == 0
  {
    if |e.history| == 0 || e.histIdx == -1 then e
    else if e.histIdx < |e.history| - 1 then LoadHistory(e.(histIdx := e.histIdx + 1), e.histIdx + 1)
    else ResetBuffer(e.(histIdx := -1))
  }

  // ---------------------------------------------------------------------
  // Submitting

  /** What the editor hands on: an accepted command, or the exit code it
      ends the process with. */
  datatype Effect = Accepted(command: string) | Exit(code: int)

  datatype Step = Step(editor: Editor, effect: Option<Effect>)

  predicate EndsWithBackslash(s: string) {
    |s| > 0 && s[|s| - 1] == '\\'
  }

  /** The backslash branch of `submit`: the trailing backslash of the
      cursor's line is dropped and an empty line opens below it, with the
      cursor at its start. */
  function Continue(e: Editor): (r: Editor)
    requires Valid(e) && EndsWithBackslash(e.lines[e.line])
    ensures Valid(r) && r.history == e.history && r.histIdx == e.histIdx
    ensures |r.lines| == |e.lines| + 1 && r.line == e.line + 1 && r.col == 0 && r.lines[r.line] == ""
    ensures r.lines[e.line] + "\\" == e.lines[e.line]
    ensures r.lines[..e.line] == e.lines[..e.line] && r.lines[e.line + 2..] == e.lines[e.line + 1..]
  {
    var ln := e.lines[e.line];
    var lines' := e.lines[..e.line] + [ln[..|ln| - 1], ""] + e.lines[e.line + 1..];
    assert ln[..|ln| - 1] + "\\" == ln;
    assert lines'[..e.line] == e.lines[..e.line];
    assert lines'[e.line + 2..] == e.lines[e.line + 1..];
    e.(lines := lines', line := e.line + 1, col := 0)
  }

  /** `submit`: a line ending in a backslash continues the command;
      otherwise the whole buffer, trailing white space trimmed, is
      accepted, added to the history unless empty (which also clears the
      selection), and the buffer is emptied. */
  function Submit(e: Editor): (r: Step)
    requires Valid(e)
    ensures Valid(r.editor) && e.history <= r.editor.history
    ensures EndsWithBackslash(e.lines[e.line]) ==> r == Step(Continue(e), None)
    ensures !EndsWithBackslash(e.lines[e.line]) ==>
      var full := TrimEnd(Text(e));
      r.effect == Some(Accepted(full))
      && r.editor.lines == [""] && r.editor.line == 0 && r.editor.col == 0
      && (full != "" ==> r.editor.history == e.history + [full] && r.editor.histIdx == -1)
      && (full == "" ==> r.editor.history == e.history && r.editor.histIdx == e.histIdx)
  {
    if EndsWithBackslash(e.lines[e.line]) then Step(Continue(e), None)
    else
      var full := TrimEnd(Text(e));
      var e' := if |full| > 0 then e.(history := e.history + [full], histIdx := -1) else e;
      Step(ResetBuffer(e'), Some(Accepted(full)))
  }

  /** `deleteOrEOF`: on an empty buffer the editor exits with code 0;
      otherwise it deletes like `deleteChar`. */
  function DeleteOrEof(e: Editor): (r: Step)
    requires Valid(e)
    ensures e.lines == [""] ==> r == Step(e, Some(Exit(0)))
    ensures e.lines != [""] ==> r == Step(DeleteChar(e), None)
  {
    if |e.lines| == 1 && |e.lines[0]| == 0 then
      assert e.lines == [""];
      Step(e, Some(Exit(0)))
    else Step(DeleteChar(e), None)
  }

  // ---------------------------------------------------------------------
  // Dispatch

  /** The entries of the actions registry. */
  datatype Action =
    | ExitEditor | DeleteOrEOF | BeginningOfLineAction | EndOfLineAction
    | BackwardChar | ForwardChar | PreviousLineAction | NextLineAction
    | PreviousHistoryAction | NextHistoryAction | DeleteCharAction | BackwardDeleteCharAction
    | AcceptLine | ClearScreen | KillLineEndAction | KillLineBeginningAction

  /** The default key map, from key name to action. */
  function KeyAction(name: string): Option<Action> {
    if name == "ctrl-c" then Some(ExitEditor)
    else if name == "ctrl-d" then Some(DeleteOrEOF)
    else if name == "ctrl-a" then Some(BeginningOfLineAction)
    else if name == "ctrl-b" then Some(BackwardChar)
    else if name == "ctrl-e" then Some(EndOfLineAction)
    else if name == "ctrl-f" then Some(ForwardChar)
    else if name == "ctrl-l" then Some(ClearScreen)
    else if name == "ctrl-k" then Some(KillLineEndAction)
    else if name == "ctrl-u" then Some(KillLineBeginningAction)
    else if name == "left" then Some(BackwardChar)
    else if name == "right" then Some(ForwardChar)
    else if name == "up" then Some(PreviousLineAction)
    else if name == "down" then Some(NextLineAction)
    else if name == "ctrl-p" then Some(PreviousHistoryAction)
    else if name == "ctrl-n" then Some(NextHistoryAction)
    else if name == "home" then Some(BeginningOfLineAction)
    else if name == "end" then Some(EndOfLineAction)
    else if name == "delete" then Some(DeleteCharAction)
    else if name == "backspace" then Some(BackwardDeleteCharAction)
    else if name == "enter" then Some(AcceptLine)
    else None
  }

  /** Running one action. `exitEditor` ends the process with code 130;
      clearing the screen leaves the state as it is. */
  function Apply(e: Editor, a: Action): (r: Step)
    requires Valid(e)
    ensures Valid(r.editor) && e.history <= r.editor.history
    ensures r.effect.Some? && r.effect.value.Accepted? ==> a == AcceptLine
    ensures r.effect.Some? && r.effect.value.Exit? ==> r.editor == e && (a == ExitEditor || a == DeleteOrEOF)
  {
    match a
    case ExitEditor => Step(e, Some(Exit(130)))
    case DeleteOrEOF => DeleteOrEof(e)
    case BeginningOfLineAction => Step(BeginningOfLine(e), None)
    case EndOfLineAction => Step(EndOfLine(e), None)
    case BackwardChar => Step(MoveLeft(e), None)
    case ForwardChar => Step(MoveRight(e), None)
    case PreviousLineAction => Step(PreviousLine(e), None)
    case NextLineAction => Step(NextLine(e), None)
    case PreviousHistoryAction => Step(PreviousHistory(e), None)
    case NextHistoryAction => Step(NextHistory(e), None)
    case DeleteCharAction => Step(DeleteChar(e), None)
    case BackwardDeleteCharAction => Step(BackwardDeleteChar(e), None)
    case AcceptLine => Submit(e)
    case ClearScreen => Step(e, None)
    case KillLineEndAction => Step(KillLineEnd(e), None)
    case KillLineBeginningAction => Step(KillLineBeginning(e), None)
  }

  /** One token: a key runs its mapped action, if any; text is inserted. */
  function HandleToken(e: Editor, t: EditorKeys.Token): (r: Step)
    requires Valid(e)
    ensures Valid(r.editor) && e.history <= r.editor.history
    ensures r.effect.Some? && r.effect.value.Exit? ==> r.editor == e
    ensures t.Text? ==> r == Step(InsertText(e, t.text), None)
  {
    match t
    case Key(name) =>
      (match KeyAction(name)
       case Some(a) => Apply(e, a)
       case None => Step(e, None))
    case Text(text) => Step(InsertText(e, text), None)
  }

  datatype Outcome = Outcome(editor: Editor, effects: seq<Effect>)

  /** The data handler's loop over a chunk's tokens. An exit ends the
      process, so nothing after it is handled. */
  function Run(e: Editor, ts: seq<EditorKeys.Token>): (r: Outcome)
    requires Valid(e)
    ensures Valid(r.editor) && e.history <= r.editor.history
    ensures forall k :: 0 <= k < |r.effects| - 1 ==> r.effects[k].Accepted?
    ensures |r.effects| <= |ts|
    decreases |ts|
  {
    if |ts| == 0 then Outcome(e, [])
    else
      var st := HandleToken(e, ts[0]);
      match st.effect
      case Some(Exit(code)) => Outcome(st.editor, [Exit(code)])
      case Some(Accepted(c)) =>
        var rest := Run(st.editor, ts[1..]);
        Outcome(rest.editor, [Accepted(c)] + rest.effects)
      case None => Run(st.editor, ts[1..])
  }

  /** The `data` handler: tokenize the chunk and handle its tokens. */
  method HandleChunk(e: Editor, chunk: string) returns (r: Outcome)
    requires Valid(e)
    ensures Valid(r.editor) && e.history <= r.editor.history
    ensures forall k :: 0 <= k < |r.effects| - 1 ==> r.effects[k].Accepted?
  {
    var tokens := EditorKeys.Tokenize(chunk);
    r := Run(e, tokens);
  }

  // ---------------------------------------------------------------------
  // Properties

  /** Moving right undoes moving left. */
  lemma RightUndoesLeft(e: Editor)
    requires Valid(e) && Before(e) != ""
    ensures MoveRight(MoveLeft(e)) == e
  {
    var l := MoveLeft(e);
    BeforeEmpty(e);
    if e.col == 0 {
      AfterEmpty(l);
    }
  }

  /** Moving left undoes moving right. */
  lemma LeftUndoesRight(e: Editor)
    requires Valid(e) && After(e) != ""
    ensures MoveLeft(MoveRight(e)) == e
  {
    AfterEmpty(e);
    var r := MoveRight(e);
    if e.col == |e.lines[e.line]| {
      BeforeEmpty(r);
    }
  }

  /** Backspace undoes typing one character. */
  lemma BackspaceUndoesInsert(e: Editor, c: char)
    requires Valid(e)
    ensures BackwardDeleteChar(InsertText(e, [c])) == e
  {
    var i := InsertText(e, [c]);
    var ln := e.lines[e.line];
    var ln' := ln[..e.col] + [c] + ln[e.col..];
    assert i.lines == e.lines[e.line := ln'] && i.col == e.col + 1;
    assert ln'[..e.col] + ln'[e.col + 1..] == ln;
    assert e.lines[e.line := ln] == e.lines;
  }

  /** Killing removes exactly the text between the cursor and the end, or
      the start, of its line and keeps the rest of the buffer. */
  lemma KillsRemoveSpan(e: Editor)
    requires Valid(e)
    ensures var r := KillLineEnd(e);
      Text(e) == Before(r) + e.lines[e.line][e.col..] + After(r) && Text(r) == Before(r) + After(r)
    ensures var r := KillLineBeginning(e);
      Text(e) == Before(r) + e.lines[e.line][..e.col] + After(r) && Text(r) == Before(r) + After(r)
  {
    TextSplits(e);
    TextSplits(KillLineEnd(e));
    TextSplits(KillLineBeginning(e));
  }

  /** Stepping back in the history and forward again returns to the
      selected entry. */
  lemma HistoryBackAndForth(e: Editor)
    requires Valid(e) && e.histIdx >= 1
    ensures NextHistory(PreviousHistory(e)).histIdx == e.histIdx
    ensures Text(NextHistory(PreviousHistory(e))) == e.history[e.histIdx]
  {
  }

  /** From no selection, stepping back shows the newest entry and stepping
      forward again leaves an empty buffer with no selection. */
  lemma HistoryNewestAndBack(e: Editor)
    requires Valid(e) && e.histIdx == -1 && |e.history| > 0
    ensures Text(PreviousHistory(e)) == e.history[|e.history| - 1]
    ensures NextHistory(PreviousHistory(e)).histIdx == -1
    ensures NextHistory(PreviousHistory(e)).lines == [""]
  {
  }

  /** Stepping back from the oldest entry stays there. */
  lemma HistoryClampsAtOldest(e: Editor)
    requires Valid(e) && e.histIdx == 0
    ensures PreviousHistory(e).histIdx == 0 && Text(PreviousHistory(e)) == e.history[0]
  {
  }

  /** Continuing on the last line turns its trailing backslash into a line
      break, with the cursor at the end of the buffer. */
  lemma ContinueOnLastLine(e: Editor)
    requires Valid(e) && e.line == |e.lines| - 1 && EndsWithBackslash(e.lines[e.line])
    ensures |Text(e)| > 0 && Text(e)[|Text(e)| - 1] == '\\'
    ensures Text(Continue(e)) == Text(e)[..|Text(e)| - 1] + Nl
    ensures Before(Continue(e)) == Text(Continue(e))
  {
    var ln := e.lines[e.line];
    var pre := e.lines[..e.line];
    var stem := ln[..|ln| - 1];
    var r := Continue(e);
    assert e.lines == pre + [stem + "\\"];
    JoinLast(pre, stem, "\\");
    assert r.lines == pre + [stem] + [""];
    JoinAppend(pre + [stem], "", Nl);
    assert r.lines[..r.line] == pre + [stem];
    assert r.lines[r.line][..0] == "";
  }

  /** The default key map: only `enter` accepts a line, only `ctrl-c`
      and `ctrl-d` can end the editor, each cursor movement along a line
      has a control key and an arrow or `home`/`end` key, and a key
      outside the map does nothing. */
  lemma KeyBindings(e: Editor, name: string)
    requires Valid(e)
    ensures KeyAction(name) == Some(AcceptLine) <==> name == "enter"
    ensures KeyAction(name) == Some(ExitEditor) <==> name == "ctrl-c"
    ensures KeyAction(name) == Some(DeleteOrEOF) <==> name == "ctrl-d"
    ensures KeyAction(name) == Some(BackwardChar) <==> name == "ctrl-b" || name == "left"
    ensures KeyAction(name) == Some(ForwardChar) <==> name == "ctrl-f" || name == "right"
    ensures KeyAction(name) == Some(BeginningOfLineAction) <==> name == "ctrl-a" || name == "home"
    ensures KeyAction(name) == Some(EndOfLineAction) <==> name == "ctrl-e" || name == "end"
    ensures KeyAction(name).None? ==> HandleToken(e, EditorKeys.Key(name)) == Step(e, None)
    ensures HandleToken(e, EditorKeys.Key(name)).effect.Some? ==> name == "enter" || name == "ctrl-c" || name == "ctrl-d"
  {
  }

  /** Submitting a buffer with text adds it to the history, and stepping
      back then shows it again. */
  lemma SubmitThenRecall(e: Editor)
    requires Valid(e) && !EndsWithBackslash(e.lines[e.line]) && TrimEnd(Text(e)) != ""
    ensures var s := Submit(e).editor;
      Text(PreviousHistory(s)) == TrimEnd(Text(e))
  {
  }
}

=== FILE: editor_keys.dfy ===
/** The key tokenizer of the line editor in src/editor.ts: it cuts a chunk
    of terminal input into known key sequences and runs of text, trying
    the known sequences longest first. */
module EditorKeys {
  import opened Wrappers

  /** A known escape sequence and the key name it stands for. */
  datatype KeySeq = KeySeq(chars: string, name: string)

  /** The known sequences ordered by decreasing length; sequences of equal
      length keep their order in the table, since the sort is stable. */
  const SeqsDesc: seq<KeySeq> := [
    KeySeq("\U{001B}[3~", "delete"),
    KeySeq("\U{001B}[A", "up"),
    KeySeq("\U{001B}[B", "down"),
    KeySeq("\U{001B}[C", "right"),
    KeySeq("\U{001B}[D", "left"),
    KeySeq("\U{001B}[H", "home"),
    KeySeq("\U{001B}[F", "end"),
    KeySeq("\U{001B}OH", "home"),
    KeySeq("\U{001B}OF", "end"),
    KeySeq("\r", "enter"),
    KeySeq("\U{007F}", "backspace"),
    KeySeq("\U{0003}", "ctrl-c"),
    KeySeq("\U{0004}", "ctrl-d"),
    KeySeq("\U{0001}", "ctrl-a"),
    KeySeq("\U{0002}", "ctrl-b"),
    KeySeq("\U{0005}", "ctrl-e"),
    KeySeq("\U{0006}", "ctrl-f"),
    KeySeq("\U{000B}", "ctrl-k"),
    KeySeq("\U{0015}", "ctrl-u"),
    KeySeq("\U{000C}", "ctrl-l"),
    KeySeq("\U{0010}", "ctrl-p"),
    KeySeq("\U{000E}", "ctrl-n")
  ]

  /** A table the tokenizer can use: no empty sequence, and later entries
      never longer than earlier ones. */
  predicate Ordered(table: seq<KeySeq>) {
    (forall a :: 0 <= a < |table| ==> |table[a].chars| > 0)
    && forall a, b :: 0 <= a <= b < |table| ==> |table[b].chars| <= |table[a].chars|
  }

  /** The length class of each table position: one sequence of four
      characters, eight of three, the rest single characters. */
  lemma TableLengths()
    ensures |SeqsDesc| == 22
    ensures forall a :: 0 <= a < |SeqsDesc| ==>
      |SeqsDesc[a].chars| == (if a == 0 then 4 else if a < 9 then 3 else 1)
  {
  }

  lemma TableOrdered()
    ensures Ordered(SeqsDesc)
  {
    TableLengths();
  }

  /** `input.startsWith(q, i)`. */
  predicate StartsAt(s: string, i: nat, q: string) {
    i + |q| <= |s| && s[i..i + |q|] == q
  }

  /** Some sequence of the table starts at `i`. */
  predicate AnyStartsAt(table: seq<KeySeq>, s: string, i: nat) {
    exists m | 0 <= m < |table| :: StartsAt(s, i, table[m].chars)
  }

  /** The first entry at or after `m` that starts at `i`. */
  function FirstMatchFrom(table: seq<KeySeq>, s: string, i: nat, m: nat): (r: Option<nat>)
    requires m <= |table|
    ensures r.Some? ==> m <= r.value < |table| && StartsAt(s, i, table[r.value].chars)
    ensures r.Some? ==> forall k :: m <= k < r.value ==> !StartsAt(s, i, table[k].chars)
    ensures r.None? ==> forall k :: m <= k < |table| ==> !StartsAt(s, i, table[k].chars)
    decreases |table| - m
  {
    if m == |table| then None
    else if StartsAt(s, i, table[m].chars) then Some(m)
    else FirstMatchFrom(table, s, i, m + 1)
  }

  /** The sequence at `i` is the longest one of the table starting there. */
  predicate LongestAt(table: seq<KeySeq>, s: string, i: nat, key: KeySeq) {
    StartsAt(s, i, key.chars)
    && forall m :: 0 <= m < |table| && StartsAt(s, i, table[m].chars) ==>
         |table[m].chars| <= |key.chars|
  }

  /** Scanning an ordered table front to back finds the longest match, and
      finds one exactly when some sequence starts at `i`. */
  lemma FirstIsLongest(table: seq<KeySeq>, s: string, i: nat)
    requires Ordered(table)
    ensures FirstMatchFrom(table, s, i, 0).Some? <==> AnyStartsAt(table, s, i)
    ensures FirstMatchFrom(table, s, i, 0).Some? ==>
      LongestAt(table, s, i, table[FirstMatchFrom(table, s, i, 0).value])
  {
  }

  /** Where a run of text that continues at `j` stops: the end of the
      input or the next position where a sequence starts. */
  function TextEnd(table: seq<KeySeq>, s: string, j: nat): (r: nat)
    requires j <= |s|
    ensures j <= r <= |s|
    ensures forall p :: j <= p < r ==> !AnyStartsAt(table, s, p)
    ensures r == |s| || AnyStartsAt(table, s, r)
    decreases |s| - j
  {
    if j == |s| || AnyStartsAt(table, s, j) then j else TextEnd(table, s, j + 1)
  }

  /** A piece of the input and where it starts. */
  datatype Span = KeySpan(start: nat, key: KeySeq) | TextSpan(start: nat, text: string)

  function Chars(sp: Span): string {
    match sp
    case KeySpan(_, key) => key.chars
    case TextSpan(_, text) => text
  }

  function End(sp: Span): nat {
    sp.start + |Chars(sp)|
  }

  /** `r` cuts `s[i..]` into consecutive non-empty pieces, each holding
      the characters it spans. */
  predicate Covers(s: string, i: nat, r: seq<Span>) {
    (|r| == 0 <==> i == |s|)
    && (|r| > 0 ==> r[0].start == i && End(r[|r| - 1]) == |s|)
    && (forall k :: 0 <= k < |r| - 1 ==> End(r[k]) == r[k + 1].start)
    && forall k :: 0 <= k < |r| ==>
         i <= r[k].start < End(r[k]) <= |s| && s[r[k].start..End(r[k])] == Chars(r[k])
  }

  /** Every key piece is the longest sequence starting at its position. */
  predicate KeysLongest(table: seq<KeySeq>, s: string, r: seq<Span>) {
    forall k :: 0 <= k < |r| && r[k].KeySpan? ==> LongestAt(table, s, r[k].start, r[k].key)
  }

  /** No sequence starts anywhere inside a text piece. */
  predicate TextsClean(table: seq<KeySeq>, s: string, r: seq<Span>) {
    forall k, p :: 0 <= k < |r| && r[k].TextSpan? && r[k].start <= p < End(r[k]) ==>
      !AnyStartsAt(table, s, p)
  }

  /** A text piece is followed by a key piece or by nothing. */
  predicate TextsMaximal(r: seq<Span>) {
    forall k :: 0 <= k < |r| - 1 && r[k].TextSpan? ==> r[k + 1].KeySpan?
  }

  lemma CoversCons(s: string, h: Span, rest: seq<Span>)
    requires h.start < End(h) <= |s| && s[h.start..End(h)] == Chars(h)
    requires Covers(s, End(h), rest)
    ensures Covers(s, h.start, [h] + rest)
  {
    var r := [h] + rest;
    forall k | 0 <= k < |r| - 1
      ensures End(r[k]) == r[k + 1].start
    {
      if k > 0 {
        assert r[k] == rest[k - 1] && r[k + 1] == rest[k];
      }
    }
  }

  lemma KeysLongestCons(table: seq<KeySeq>, s: string, h: Span, rest: seq<Span>)
    requires h.KeySpan? ==> LongestAt(table, s, h.start, h.key)
    requires KeysLongest(table, s, rest)
    ensures KeysLongest(table, s, [h] + rest)
  {
    var r := [h] + rest;
    forall k | 0 <= k < |r| && r[k].KeySpan?
      ensures LongestAt(table, s, r[k].start, r[k].key)
    {
      if k > 0 {
        assert r[k] == rest[k - 1];
      }
    }
  }

  lemma TextsCleanCons(table: seq<KeySeq>, s: string, h: Span, rest: seq<Span>)
    requires h.TextSpan? ==> forall p :: h.start <= p < End(h) ==> !AnyStartsAt(table, s, p)
    requires TextsClean(table, s, rest)
    ensures TextsClean(table, s, [h] + rest)
  {
    var r := [h] + rest;
    forall k, p | 0 <= k < |r| && r[k].TextSpan? && r[k].start <= p < End(r[k])
      ensures !AnyStartsAt(table, s, p)
    {
      if k > 0 {
        assert r[k] == rest[k - 1];
      }
    }
  }

  lemma TextsMaximalCons(h: Span, rest: seq<Span>)
    requires h.TextSpan? && |rest| > 0 ==> rest[0].KeySpan?
    requires TextsMaximal(rest)
    ensures TextsMaximal([h] + rest)
  {
    var r := [h] + rest;
    forall k | 0 <= k < |r| - 1 && r[k].TextSpan?
      ensures r[k + 1].KeySpan?
    {
      if k > 0 {
        assert r[k] == rest[k - 1] && r[k + 1] == rest[k];
      }
    }
  }

  /** The pieces of `s` from position `i` on, as `tokenize` cuts them:
      they cover `s[i..]` in order, key pieces are the longest sequence
      starting at their position, no sequence starts anywhere inside a
      text piece, and two text pieces are never adjacent. */
  function Spans(table: seq<KeySeq>, s: string, i: nat): (r: seq<Span>)
    requires Ordered(table) && i <= |s|
    ensures Covers(s, i, r)
    ensures KeysLongest(table, s, r)
    ensures TextsClean(table, s, r)
    ensures TextsMaximal(r)
    ensures |r| > 0 ==> (r[0].KeySpan? <==> AnyStartsAt(table, s, i))
    decreases |s| - i
  {
    if i == |s| then []
    else
      var h := Head(table, s, i);
      var rest := Spans(table, s, End(h));
      CoversCons(s, h, rest);
      KeysLongestCons(table, s, h, rest);
      TextsCleanCons(table, s, h, rest);
      TextsMaximalCons(h, rest);
      [h] + rest
  }

  /** The piece starting at `i`: the longest sequence starting there, or
      else the text up to the next position where one starts. */
  function Head(table: seq<KeySeq>, s: string, i: nat): (h: Span)
    requires Ordered(table) && i < |s|
    ensures h.start == i < End(h) <= |s| && s[i..End(h)] == Chars(h)
    ensures h.KeySpan? <==> AnyStartsAt(table, s, i)
    ensures h.KeySpan? ==> LongestAt(table, s, i, h.key)
    ensures h.TextSpan? ==> forall p :: i <= p < End(h) ==> !AnyStartsAt(table, s, p)
    ensures h.TextSpan? ==> End(h) == |s| || AnyStartsAt(table, s, End(h))
  {
    FirstIsLongest(table, s, i);
    TextHeadClean(table, s, i);
    match FirstMatchFrom(table, s, i, 0)
    case Some(m) => KeySpan(i, table[m])
    case None => TextSpan(i, s[i..TextEnd(table, s, i + 1)])
  }

  /** Where no sequence starts at `i`, none starts before the end of the
      text run from `i` either. */
  lemma TextHeadClean(table: seq<KeySeq>, s: string, i: nat)
    requires i < |s|
    ensures !AnyStartsAt(table, s, i) ==>
      forall p :: i <= p < TextEnd(table, s, i + 1) ==> !AnyStartsAt(table, s, p)
  {
    if !AnyStartsAt(table, s, i) {
      var e := TextEnd(table, s, i + 1);
      forall p | i <= p < e
        ensures !AnyStartsAt(table, s, p)
      {
        if p > i {
          assert i + 1 <= p < e;
        }
      }
    }
  }

  /** What the editor sees: a key name, or a run of text. */
  datatype Token = Key(name: string) | Text(text: string)

  function ToToken(sp: Span): (t: Token)
    ensures sp.KeySpan? <==> t.Key?
    ensures sp.KeySpan? ==> t.name == sp.key.name
    ensures sp.TextSpan? ==> t.text == sp.text
  {
    match sp
    case KeySpan(_, key) => Key(key.name)
    case TextSpan(_, text) => Text(text)
  }

  function ToTokens(spans: seq<Span>): (ts: seq<Token>)
    ensures |ts| == |spans|
  {
    if |spans| == 0 then [] else [ToToken(spans[0])] + ToTokens(spans[1..])
  }

  lemma {:induction false} ToTokensAt(spans: seq<Span>, k: nat)
    requires k < |spans|
    ensures ToTokens(spans)[k] == ToToken(spans[k])
  {
    if k > 0 {
      ToTokensAt(spans[1..], k - 1);
    }
  }

  /** `tokenize(input)` on a table: the sequences are tried in table
      order at each position; when none matches, text runs up to the next
      position where one starts. The source's text loop may step one past
      the end, which `slice` clamps; stopping at the end is the same cut. */
  method TokenizeWith(table: seq<KeySeq>, input: string) returns (out: seq<Token>)
    requires Ordered(table)
    ensures out == ToTokens(Spans(table, input, 0))
  {
    out := [];
    var i := 0;
    while i < |input|
      invariant i <= |input|
      invariant TokensFrom(table, input, 0) == out + TokensFrom(table, input, i)
      decreases |input| - i
    {
      var h := NextPiece(table, input, i);
      SpansStep(table, input, i);
      AppendAssoc(out, [ToToken(h)], TokensFrom(table, input, End(h)));
      out := out + [ToToken(h)];
      i := End(h);
    }
  }

  /** One pass of the outer loop: the key sequence at `i`, or else the
      text run from `i`. */
  method NextPiece(table: seq<KeySeq>, input: string, i: nat) returns (h: Span)
    requires Ordered(table) && i < |input|
    ensures h == Head(table, input, i)
  {
    var m := FindKey(table, input, i);
    if m < |table| {
      HeadKey(table, input, i, m);
      h := KeySpan(i, table[m]);
    } else {
      var j := TextRunEnd(table, input, i + 1);
      HeadText(table, input, i);
      h := TextSpan(i, input[i..j]);
    }
  }

  /** The inner `for` over the table: the first entry that starts at
      `i`, or the table's length when none does. */
  method FindKey(table: seq<KeySeq>, input: string, i: nat) returns (m: nat)
    ensures m <= |table|
    ensures m < |table| <==> FirstMatchFrom(table, input, i, 0).Some?
    ensures m < |table| ==> FirstMatchFrom(table, input, i, 0) == Some(m)
  {
    m := 0;
    while m < |table| && !StartsAt(input, i, table[m].chars)
      invariant m <= |table|
      invariant FirstMatchFrom(table, input, i, 0) == FirstMatchFrom(table, input, i, m)
    {
      m := m + 1;
    }
  }

  /** The text loop: the first position from `j` on where a sequence
      starts, or the end of the input. */
  method TextRunEnd(table: seq<KeySeq>, input: string, j0: nat) returns (j: nat)
    requires j0 <= |input|
    ensures j == TextEnd(table, input, j0)
  {
    j := j0;
    while j < |input| && !AnyStartsAt(table, input, j)
      invariant j0 <= j <= |input|
      invariant TextEnd(table, input, j0) == TextEnd(table, input, j)
    {
      j := j + 1;
    }
  }

  lemma HeadKey(table: seq<KeySeq>, s: string, i: nat, m: nat)
    requires Ordered(table) && i < |s| && FirstMatchFrom(table, s, i, 0) == Some(m)
    ensures Head(table, s, i) == KeySpan(i, table[m])
  {
  }

  lemma HeadText(table: seq<KeySeq>, s: string, i: nat)
    requires Ordered(table) && i < |s| && FirstMatchFrom(table, s, i, 0).None?
    ensures Head(table, s, i) == TextSpan(i, s[i..TextEnd(table, s, i + 1)])
  {
  }

  /** One step of the cut, as a token sequence. */
  lemma SpansStep(table: seq<KeySeq>, s: string, i: nat)
    requires Ordered(table) && i < |s|
    ensures TokensFrom(table, s, i) == [ToToken(Head(table, s, i))] + TokensFrom(table, s, End(Head(table, s, i)))
  {
  }

  /** The tokens of the pieces from `i` on. */
  function TokensFrom(table: seq<KeySeq>, s: string, i: nat): seq<Token>
    requires Ordered(table) && i <= |s|
  {
    ToTokens(Spans(table, s, i))
  }

  /** `tokenize(input)` with the editor's table. */
  method Tokenize(input: string) returns (out: seq<Token>)
    ensures Ordered(SeqsDesc)
    ensures out == ToTokens(Spans(SeqsDesc, input, 0))
  {
    TableOrdered();
    out := TokenizeWith(SeqsDesc, input);
  }
}

=== FILE: help_flags.dfy ===
/** Help-flag detection for builtins (src/builtins/helpFlags.ts): how many
    `-h` arguments were given, whether a `-hh` cluster was, and whether the
    raw command line spells `-h -h` as two separate words. */
module HelpFlags {
  import opened Strings

  datatype HelpLevel = NoHelp | Single | Double | Cluster

  // ---------------------------------------------------------------------
  // The raw-line pattern `(^|\s)-h\s+-h(\s|$)`

  /** The pattern matches `t` with the first `-h` at `i` and the second at
      `j`. */
  predicate SeparatedAt(t: string, i: int, j: int) {
    0 <= i && i + 2 < j && j + 2 <= |t|
    && (i == 0 || IsWs(t[i - 1]))
    && t[i] == '-' && t[i + 1] == 'h'
    && AllWs(t[i + 2..j])
    && t[j] == '-' && t[j + 1] == 'h'
    && (j + 2 == |t| || IsWs(t[j + 2]))
  }

  /** The pattern matches somewhere in `t`. */
  ghost predicate Separated(t: string) {
    exists i, j :: SeparatedAt(t, i, j)
  }

  /** The only place the second `-h` can start: right after the run of
      white space that follows the first. */
  function SecondAt(t: string, i: nat): (j: nat)
    requires i + 2 <= |t|
    ensures i + 2 <= j <= |t| && AllWs(t[i + 2..j])
    ensures j < |t| ==> !IsWs(t[j])
  {
    var k := WsPrefixLen(t[i + 2..]);
    assert t[i + 2..][..k] == t[i + 2..i + 2 + k];
    i + 2 + k
  }

  /** The matcher's test at one start position. */
  predicate MatchAt(t: string, i: nat) {
    i + 2 <= |t|
    && (i == 0 || IsWs(t[i - 1]))
    && t[i] == '-' && t[i + 1] == 'h'
    && var j := SecondAt(t, i);
       i + 2 < j && j + 2 <= |t| && t[j] == '-' && t[j + 1] == 'h'
       && (j + 2 == |t| || IsWs(t[j + 2]))
  }

  /** Tries every start position from `i` onwards. */
  function ScanFrom(t: string, i: nat): (found: bool)
    requires i <= |t|
    ensures found ==> exists p :: i <= p < |t| && MatchAt(t, p)
    ensures !found ==> forall p :: i <= p < |t| ==> !MatchAt(t, p)
    decreases |t| - i
  {
    if i == |t| then false
    else if MatchAt(t, i) then true
    else ScanFrom(t, i + 1)
  }

  /** A match at `(i, j)` is exactly a successful test at `i`. */
  lemma SeparatedAtIffMatch(t: string, i: nat)
    ensures MatchAt(t, i) <==> (exists j :: SeparatedAt(t, i, j))
  {
    if MatchAt(t, i) {
      assert SeparatedAt(t, i, SecondAt(t, i));
    }
    if j :| SeparatedAt(t, i, j) {
      var s := SecondAt(t, i);
      if s < j {
        assert t[i + 2..j][s - (i + 2)] == t[s];
      } else if j < s {
        assert t[i + 2..s][j - (i + 2)] == t[j];
      }
    }
  }

  /** `rawHasSeparatedDouble`: the trimmed raw line, when non-empty,
      contains `-h`, white space, `-h` as separate words. */
  function RawHasSeparatedDouble(raw: string): (r: bool)
    ensures r <==> Separated(Trim(raw))
  {
    var t := Trim(raw);
    ScanIffSeparated(t);
    if t == "" then false else ScanFrom(t, 0)
  }

  /** The scan from position 0 finds a match exactly when the pattern
      matches. */
  lemma ScanIffSeparated(t: string)
    ensures ScanFrom(t, 0) <==> Separated(t)
  {
    if ScanFrom(t, 0) {
      var p :| 0 <= p < |t| && MatchAt(t, p);
      SeparatedAtIffMatch(t, p);
    }
    if Separated(t) {
      var i, j :| SeparatedAt(t, i, j);
      SeparatedAtIffMatch(t, i);
    }
  }

  // ---------------------------------------------------------------------
  // detectHelpLevel

  /** The loop over `argv`: how many arguments are exactly `-h`, and
      whether one is exactly `-hh`. */
  function Tally(argv: seq<string>): (r: (nat, bool))
    ensures r.0 == multiset(argv)["-h"]
    ensures r.1 <==> "-hh" in argv
  {
    if |argv| == 0 then (0, false)
    else
      var (n, c) := Tally(argv[..|argv| - 1]);
      var arg := argv[|argv| - 1];
      assert argv == argv[..|argv| - 1] + [arg];
      if arg == "-h" then (n + 1, c)
      else if arg == "-hh" then (n, true)
      else (n, c)
  }

  /** `detectHelpLevel`: a cluster wins over everything; two `-h`, or the
      raw line spelling them apart, is "double"; one is "single". */
  function DetectHelpLevel(argv: seq<string>, raw: string): (l: HelpLevel)
    ensures l == Cluster <==> "-hh" in argv
    ensures l == Double <==> ("-hh" !in argv && (multiset(argv)["-h"] >= 2 || Separated(Trim(raw))))
    ensures l == Single <==> ("-hh" !in argv && multiset(argv)["-h"] == 1 && !Separated(Trim(raw)))
    ensures l == NoHelp <==> ("-hh" !in argv && multiset(argv)["-h"] == 0 && !Separated(Trim(raw)))
  {
    var (singles, cluster) := Tally(argv);
    if cluster then Cluster
    else if singles >= 2 || RawHasSeparatedDouble(raw) then Double
    else if singles == 1 then Single
    else NoHelp
  }

  predicate IsSingleHelp(l: HelpLevel) {
    l == Single
  }

  predicate IsDoubleHelp(l: HelpLevel) {
    l == Double || l == Cluster
  }

  /** Help was asked for at all. */
  predicate AnyHelp(l: HelpLevel) {
    l != NoHelp
  }

  /** `isDoubleHelp` of the detected level holds exactly when a cluster,
      two `-h` or a separated raw `-h -h` was given; `isSingleHelp` exactly
      when one `-h` and nothing more. */
  lemma HelpPredicates(argv: seq<string>, raw: string)
    ensures IsDoubleHelp(DetectHelpLevel(argv, raw))
      <==> ("-hh" in argv || multiset(argv)["-h"] >= 2 || Separated(Trim(raw)))
    ensures IsSingleHelp(DetectHelpLevel(argv, raw))
      <==> ("-hh" !in argv && multiset(argv)["-h"] == 1 && !Separated(Trim(raw)))
  {
  }

  /** A `-hh` anywhere gives "cluster" whatever else is present. */
  lemma ClusterDominates(before: seq<string>, after: seq<string>, raw: string)
    ensures DetectHelpLevel(before + ["-hh"] + after, raw) == Cluster
  {
    assert (before + ["-hh"] + after)[|before|] == "-hh";
  }

  /** One `-h` argument with `-h  -h` on the raw line reads as "double";
      without the raw repetition it is "single". */
  lemma RawSeparatedExample()
    ensures DetectHelpLevel(["-h"], "-h  -h") == Double
    ensures DetectHelpLevel(["-h"], "-h") == Single
    ensures DetectHelpLevel([], "") == NoHelp
  {
    assert multiset(["-h"])["-h"] == 1;
    var t := "-h  -h";
    assert Trim(t) == t by {
      assert WsSuffixStart(t) == |t|;
      assert WsPrefixLen(t) == 0;
    }
    assert SeparatedAt(t, 0, 4) by {
      assert t[2..4] == "  ";
    }
    assert Trim("-h") == "-h" by {
      assert WsSuffixStart("-h") == 2;
      assert WsPrefixLen("-h") == 0;
    }
    assert !Separated("-h");
    assert Trim("") == "";
  }
}

=== FILE: helpers.dfy ===
/** The variable-name recogniser of src/helpers.ts: an optional sigil
    (`$`, `@` or `%`), an optional twigil `*`, then one or more word
    characters. */
module Helpers {

  predicate IsSigil(c: char) {
    c == '$' || c == '@' || c == '%'
  }

  /** `[A-Za-z0-9_]`, by character code. */
  predicate IsWordChar(c: char) {
    ('0' <= c <= '9') || ('A' <= c <= 'Z') || ('a' <= c <= 'z') || c == '_'
  }

  predicate AllWord(s: string) {
    forall i :: 0 <= i < |s| ==> IsWordChar(s[i])
  }

  /** The prefixes a variable name may start with. */
  const Prefixes: seq<string> := ["", "$", "@", "%", "*", "$*", "@*", "%*"]

  /** The declarative shape: one of the prefixes, then a non-empty run of
      word characters. */
  predicate VariableShape(s: string) {
    exists k :: 0 <= k < |Prefixes| && |Prefixes[k]| < |s| && s[..|Prefixes[k]|] == Prefixes[k]
      && AllWord(s[|Prefixes[k]|..])
  }

  /** How many characters the sigil and twigil take up at the start of
      `s`: the index the scan of `isStrVariable` starts from. */
  function SigilLen(s: string): (n: nat)
    ensures n <= 2 && n <= |s|
    ensures s[..n] in Prefixes
  {
    if |s| > 0 && IsSigil(s[0]) then
      if 1 < |s| && s[1] == '*' then
        assert s[..2] == [s[0], '*'];
        assert s[0] == '$' ==> s[..2] == Prefixes[5];
        assert s[0] == '@' ==> s[..2] == Prefixes[6];
        assert s[0] == '%' ==> s[..2] == Prefixes[7];
        2
      else
        assert s[..1] == [s[0]];
        assert s[0] == '$' ==> s[..1] == Prefixes[1];
        assert s[0] == '@' ==> s[..1] == Prefixes[2];
        assert s[0] == '%' ==> s[..1] == Prefixes[3];
        1
    else if 0 < |s| && s[0] == '*' then
      assert s[..1] == "*" == Prefixes[4];
      1
    else
      assert s[..0] == Prefixes[0];
      0
  }

  /** `isStrVariable`: the scan of src/helpers.ts, character by
      character. */
  method IsStrVariable(s: string) returns (ok: bool)
    ensures ok <==> VariableShape(s)
    ensures s == "" ==> !ok
  {
    if |s| == 0 {
      NotShapeEmpty();
      return false;
    }
    var idx := SigilLen(s);
    if idx >= |s| {
      ShapeIffScan(s);
      return false;
    }
    while idx < |s|
      invariant SigilLen(s) <= idx <= |s|
      invariant AllWord(s[SigilLen(s)..idx])
    {
      if !IsWordChar(s[idx]) {
        ShapeIffScan(s);
        assert s[SigilLen(s)..][idx - SigilLen(s)] == s[idx];
        return false;
      }
      assert s[SigilLen(s)..idx + 1] == s[SigilLen(s)..idx] + [s[idx]];
      idx := idx + 1;
    }
    assert s[SigilLen(s)..] == s[SigilLen(s)..idx];
    ShapeIffScan(s);
    return true;
  }

  /** The scan's verdict as a function: something is left after the
      prefix and all of it is word characters. */
  predicate IsVariable(s: string) {
    SigilLen(s) < |s| && AllWord(s[SigilLen(s)..])
  }

  lemma NotShapeEmpty()
    ensures !VariableShape("")
  {
  }

  /** The scan and the declarative shape agree on every string. */
  lemma ShapeIffScan(s: string)
    ensures VariableShape(s) <==> IsVariable(s)
  {
    var n := SigilLen(s);
    if IsVariable(s) {
      var k :| 0 <= k < |Prefixes| && Prefixes[k] == s[..n];
      assert VariableShape(s);
    }
    if VariableShape(s) {
      var k :| 0 <= k < |Prefixes| && |Prefixes[k]| < |s| && s[..|Prefixes[k]|] == Prefixes[k]
        && AllWord(s[|Prefixes[k]|..]);
      PrefixIsSigilLen(s, k);
    }
  }

  /** A prefix followed by a word character is exactly what `SigilLen`
      skips. */
  lemma PrefixIsSigilLen(s: string, k: nat)
    requires k < |Prefixes| && |Prefixes[k]| < |s| && s[..|Prefixes[k]|] == Prefixes[k]
    requires IsWordChar(s[|Prefixes[k]|])
    ensures SigilLen(s) == |Prefixes[k]|
  {
    var p := Prefixes[k];
    assert forall i :: 0 <= i < |p| ==> s[i] == p[i] by {
      forall i | 0 <= i < |p| ensures s[i] == p[i] {
        assert s[..|p|][i] == s[i];
      }
    }
  }

  /** `stripSigils`: a variable loses its leading sigil and twigil; any
      other string comes back unchanged. */
  function StripSigils(s: string): (r: string)
    ensures !VariableShape(s) ==> r == s
    ensures VariableShape(s) ==> 0 < |r| <= |s| && AllWord(r) && s == s[..|s| - |r|] + r && s[..|s| - |r|] in Prefixes
  {
    ShapeIffScan(s);
    if !IsVariable(s) then s else s[SigilLen(s)..]
  }

  /** A word-character string is a variable with nothing to strip. */
  lemma WordIsVariable(w: string)
    requires |w| > 0 && AllWord(w)
    ensures VariableShape(w) && StripSigils(w) == w
  {
    assert w[0] == w[0..][0];
    assert SigilLen(w) == 0;
    ShapeIffScan(w);
  }

  /** Stripping twice strips no more than stripping once. */
  lemma StripSigilsIdempotent(s: string)
    ensures StripSigils(StripSigils(s)) == StripSigils(s)
  {
    if VariableShape(s) {
      WordIsVariable(StripSigils(s));
    }
  }

  /** A sigil and a twigil are both removed. */
  lemma StripSigilAndTwigil()
    ensures StripSigils("$*foo") == "foo"
  {
    ShapeIffScan("$*foo");
  }

  /** A sigil alone, or a twigil alone, is removed. */
  lemma StripOneSigil()
    ensures StripSigils("@bar") == "bar" && StripSigils("*baz") == "baz"
  {
    ShapeIffScan("@bar");
    ShapeIffScan("*baz");
  }

  /** A non-variable is returned as it is. */
  lemma StripNonVariable()
    ensures StripSigils("not-var!") == "not-var!"
  {
    ShapeIffScan("not-var!");
    assert "not-var!"[0..][3] == '-';
  }

  /** A bare sigil and a bare twigil are rejected. */
  lemma BareSigilRejected()
    ensures !VariableShape("$") && !VariableShape("*") && !VariableShape("$*")
  {
    ShapeIffScan("$");
    ShapeIffScan("*");
    ShapeIffScan("$*");
  }

  /** A trailing non-word character is rejected. */
  lemma TrailingDashRejected()
    ensures !VariableShape("$foo-")
  {
    ShapeIffScan("$foo-");
    assert "$foo-"[1..][3] == '-';
  }

  /** Plain names, and names behind a sigil and twigil, are accepted. */
  lemma AcceptedExamples()
    ensures VariableShape("foo_bar") && VariableShape("$*foo") && VariableShape("*foo")
  {
    AcceptedExample("foo_bar");
    AcceptedExample("$*foo");
    AcceptedExample("*foo");
  }

  lemma AcceptedExample(s: string)
    requires s in {"foo_bar", "$*foo", "*foo"}
    ensures VariableShape(s)
  {
    ShapeIffScan(s);
  }
}

=== FILE: history_builtin.dfy ===
/** The `history` builtin of src/builtins/history.ts: numbered listing of
    the most recent commands, with an optional positive count. */
module HistoryBuiltin {
  import opened Wrappers
  import opened Strings
  import opened HelpFlags
  import opened Html

  const SingleHelp := "Show recent commands; optionally pass a count."
  const DetailedHelp := "usage: history [count]\nDisplays the most recent commands recorded by the shell."

  /** The width the entry number is right-aligned to. */
  const NumberWidth: nat := 5

  /** One listing line: the number right-aligned to five columns, two
      spaces, the command. */
  function HistoryLine(number: nat, command: string): string {
    PadStart(NatToString(number), NumberWidth, ' ') + "  " + command
  }

  /** The lines for `es`, numbered on from `start`. */
  function NumberedLines(es: seq<HistoryEntry>, start: nat): (ls: seq<string>)
    ensures |ls| == |es|
    ensures forall k :: 0 <= k < |es| ==> ls[k] == HistoryLine(start + k + 1, es[k].command)
  {
    if |es| == 0 then [] else [HistoryLine(start + 1, es[0].command)] + NumberedLines(es[1..], start + 1)
  }

  /** `formatHistory`: the newest `count` entries, each numbered by its
      1-based position in the whole history. */
  function FormatHistory(entries: seq<HistoryEntry>, count: nat): string
    requires count >= 1
  {
    var slice := LastEntries(entries, count);
    Join(NumberedLines(slice, |entries| - |slice|), "\n")
  }

  /** How many entries a valid argument asks for, or `None` when it does
      not parse to a positive integer. */
  function PositiveCount(arg: string): (r: Option<nat>)
    ensures r.Some? <==> ParseInt(arg).Some? && ParseInt(arg).value > 0
    ensures r.Some? ==> r.value == ParseInt(arg).value && r.value >= 1
  {
    match ParseInt(arg)
    case Some(p) => if p > 0 then Some(p) else None
    case None => None
  }

  /** The builtin's handler: the text it writes. */
  function HistoryCommand(argv: seq<string>, raw: string, history: seq<HistoryEntry>): (out: string)
    ensures DetectHelpLevel(argv, raw) in {Cluster, Double} ==> out == DetailedHelp + "\n"
    ensures DetectHelpLevel(argv, raw) == Single ==> out == SingleHelp + "\n"
    ensures !AnyHelp(DetectHelpLevel(argv, raw)) && |argv| > 1 ==> out == "history: expected at most one argument\n"
    ensures !AnyHelp(DetectHelpLevel(argv, raw)) && |argv| <= 1 && |history| == 0 ==>
      out == "history: no recorded commands\n"
    ensures !AnyHelp(DetectHelpLevel(argv, raw)) && |argv| == 1 && |history| > 0 && PositiveCount(argv[0]).None? ==>
      out == "history: invalid count '" + argv[0] + "'\n"
  {
    var level := DetectHelpLevel(argv, raw);
    if level == Cluster || level == Double then DetailedHelp + "\n"
    else if level == Single then SingleHelp + "\n"
    else HistoryReply(argv, history)
  }

  /** The handler's answer once no help flag is present. */
  function HistoryReply(argv: seq<string>, history: seq<HistoryEntry>): (out: string)
    ensures |argv| > 1 ==> out == "history: expected at most one argument\n"
    ensures |argv| <= 1 && |history| == 0 ==> out == "history: no recorded commands\n"
    ensures |argv| == 1 && |history| > 0 && PositiveCount(argv[0]).None? ==>
      out == "history: invalid count '" + argv[0] + "'\n"
  {
    if |argv| > 1 then "history: expected at most one argument\n"
    else if |history| == 0 then "history: no recorded commands\n"
    else if |argv| == 1 then
      match PositiveCount(argv[0])
      case None => "history: invalid count '" + argv[0] + "'\n"
      case Some(p) => FormatHistory(history, if p < |history| then p else |history|) + "\n"
    else FormatHistory(history, |history|) + "\n"
  }

  // ---------------------------------------------------------------------
  // Properties

  /** With a valid request the listing holds the newest `n` entries in
      order, `n` the smaller of the count and the history length, the last
      one numbered with the history length. */
  lemma ListsNewest(argv: seq<string>, raw: string, history: seq<HistoryEntry>)
    requires !AnyHelp(DetectHelpLevel(argv, raw)) && |history| > 0
    requires |argv| == 0 || (|argv| == 1 && PositiveCount(argv[0]).Some?)
    ensures var n := if |argv| == 0 || PositiveCount(argv[0]).value >= |history| then |history|
                     else PositiveCount(argv[0]).value;
      HistoryCommand(argv, raw, history)
        == Join(NumberedLines(history[|history| - n..], |history| - n), "\n") + "\n"
  {
    var n := if |argv| == 0 || PositiveCount(argv[0]).value >= |history| then |history|
             else PositiveCount(argv[0]).value;
    var listing := Join(NumberedLines(history[|history| - n..], |history| - n), "\n");
    ReplyLists(argv, history, n);
    FormatHistoryNewest(history, n);
    assert HistoryReply(argv, history) == listing + "\n";
    NoHelpReply(argv, raw, history);
  }

  lemma NoHelpReply(argv: seq<string>, raw: string, history: seq<HistoryEntry>)
    requires !AnyHelp(DetectHelpLevel(argv, raw))
    ensures HistoryCommand(argv, raw, history) == HistoryReply(argv, history)
  {
    var level := DetectHelpLevel(argv, raw);
    assert level == NoHelp;
  }

  lemma ReplyLists(argv: seq<string>, history: seq<HistoryEntry>, n: nat)
    requires |history| > 0
    requires |argv| == 0 || (|argv| == 1 && PositiveCount(argv[0]).Some?)
    requires n == if |argv| == 0 || PositiveCount(argv[0]).value >= |history| then |history|
                 else PositiveCount(argv[0]).value
    ensures HistoryReply(argv, history) == FormatHistory(history, n) + "\n"
  {
  }

  /** `formatHistory` of a count within the history shows its last
      `count` entries. */
  lemma FormatHistoryNewest(history: seq<HistoryEntry>, n: nat)
    requires 1 <= n <= |history|
    ensures FormatHistory(history, n) == Join(NumberedLines(history[|history| - n..], |history| - n), "\n")
  {
    if n == |history| {
      assert history[|history| - n..] == history;
    }
    assert LastEntries(history, n) == history[|history| - n..];
  }

  /** The numbers run consecutively and end at the history length: line
      `k` of the `n` shown carries number `|history| - n + k + 1`. */
  lemma NumbersConsecutive(history: seq<HistoryEntry>, n: nat, k: nat)
    requires 1 <= n <= |history| && k < n
    ensures NumberedLines(history[|history| - n..], |history| - n)[k]
      == HistoryLine(|history| - n + k + 1, history[|history| - n + k].command)
    ensures k == n - 1 ==> |history| - n + k + 1 == |history|
  {
  }

  /** A line splits back into its parts: below 100000 the number fills
      the first five columns, so the command starts at column seven, and
      `parseInt` of the line reads the number back. */
  lemma HistoryLineParts(number: nat, command: string)
    requires number < 100000
    ensures |HistoryLine(number, command)| == 7 + |command|
    ensures HistoryLine(number, command)[7..] == command
    ensures ParseInt(HistoryLine(number, command)) == Some(number)
  {
    HistoryLineShape(number, command);
    HistoryLineNumber(number, command);
  }

  lemma HistoryLineShape(number: nat, command: string)
    requires number < 100000
    ensures |HistoryLine(number, command)| == 7 + |command|
    ensures HistoryLine(number, command)[7..] == command
  {
    NatToStringShort(number);
    var pad := PadStart(NatToString(number), NumberWidth, ' ');
    assert |pad| == 5;
    var line := HistoryLine(number, command);
    assert line == pad + "  " + command;
    assert line[7..] == command;
  }

  lemma HistoryLineNumber(number: nat, command: string)
    requires number < 100000
    ensures ParseInt(HistoryLine(number, command)) == Some(number)
  {
    var d := NatToString(number);
    LineTrim(number, command);
    LeadingDigitsPrefix(d, "  " + command);
    ParseLeadingDigits(HistoryLine(number, command), d, "  " + command);
    DigitsValueOfNatToString(number);
  }

  /** `trimStart` of a line drops exactly the padding. */
  lemma LineTrim(number: nat, command: string)
    ensures TrimStart(HistoryLine(number, command)) == NatToString(number) + ("  " + command)
  {
    var d := NatToString(number);
    var t := d + ("  " + command);
    var pad := PadStart(d, NumberWidth, ' ');
    var k :| 0 <= k <= |pad| && pad == Repeat(' ', k) + d;
    assert HistoryLine(number, command) == Repeat(' ', k) + t;
    SkipSpaces(k, t);
  }

  /** `parseInt` of a string whose trimmed text starts with a run of
      digits reads that run. */
  lemma ParseLeadingDigits(s: string, d: string, rest: string)
    requires |d| > 0 && AllDigits(d) && TrimStart(s) == d + rest
    requires LeadingDigits(d + rest) == d
    ensures ParseInt(s) == Some(DigitsValue(d))
  {
    assert IsDigit(d[0]);
    assert (d + rest)[0] == d[0];
  }

  lemma NatToStringShort(n: nat)
    requires n < 100000
    ensures |NatToString(n)| <= 5
  {
    if n >= 10 {
      NatToStringShortStep(n);
    }
  }

  lemma {:induction false} NatToStringShortStep(n: nat)
    ensures n < 10 ==> |NatToString(n)| == 1
    ensures 10 <= n < 100 ==> |NatToString(n)| == 2
    ensures 100 <= n < 1000 ==> |NatToString(n)| == 3
    ensures 1000 <= n < 10000 ==> |NatToString(n)| == 4
    ensures 10000 <= n < 100000 ==> |NatToString(n)| == 5
  {
    if n >= 10 {
      NatToStringShortStep(n / 10);
    }
  }

  /** Leading spaces are what `trimStart` removes before a non-space. */
  lemma {:induction false} SkipSpaces(k: nat, s: string)
    requires |s| > 0 && !IsWs(s[0])
    ensures TrimStart(Repeat(' ', k) + s) == s
  {
    if k > 0 {
      SkipSpaces(k - 1, s);
      assert Repeat(' ', k) + s == [' '] + (Repeat(' ', k - 1) + s);
      assert (Repeat(' ', k) + s)[1..] == Repeat(' ', k - 1) + s;
    } else {
      assert Repeat(' ', k) + s == s;
    }
  }

  /** The leading digit run stops where the digits do. */
  lemma {:induction false} LeadingDigitsPrefix(d: string, rest: string)
    requires AllDigits(d)
    requires |rest| > 0 && !IsDigit(rest[0])
    ensures LeadingDigits(d + rest) == d
  {
    if |d| > 0 {
      LeadingDigitsPrefix(d[1..], rest);
      assert (d + rest)[1..] == d[1..] + rest;
    } else {
      assert d + rest == rest;
    }
  }

  /** Three entries and the argument `2`: the last two, numbered 2 and 3. */
  lemma CountExample(raw: string, a: HistoryEntry, b: HistoryEntry, c: HistoryEntry)
    requires !AnyHelp(DetectHelpLevel(["2"], raw))
    ensures HistoryCommand(["2"], raw, [a, b, c])
      == HistoryLine(2, b.command) + "\n" + HistoryLine(3, c.command) + "\n"
  {
    assert PositiveCount("2") == Some(2) by {
      ParseIntOfNatToString(2);
      assert NatToString(2) == [DigitChar(2)];
    }
    ListsNewest(["2"], raw, [a, b, c]);
    var ls := NumberedLines([b, c], 1);
    assert [a, b, c][1..] == [b, c];
    assert ls == [HistoryLine(2, b.command), HistoryLine(3, c.command)];
    JoinAppend([HistoryLine(2, b.command)], HistoryLine(3, c.command), "\n");
    assert [HistoryLine(2, b.command)] + [HistoryLine(3, c.command)] == ls;
  }

  /** A number right-aligned in five columns: entry 42 reads `   42`. */
  lemma PadExample()
    ensures HistoryLine(42, "ls") == "   42  ls"
  {
    assert NatToString(42) == NatToString(4) + [DigitChar(2)];
    assert NatToString(42) == "42";
    assert Repeat(' ', 3) == "   ";
  }
}

=== FILE: html.dfy ===
/** HTML rendering of terminal output: `escapeHtml` and `chalkHtml` of
    src/builtins/html.ts (repeated verbatim in src/builtins.ts), which turn
    the SGR escape sequences of ECMA-48 section 8.3.117 that the shell
    emits (reset, italic on/off, red, green, default colour) into `<i>` and
    `<span>` tags; and the `html` history builtin of src/builtins.ts. */
module Html {
  import opened Wrappers
  import opened Strings
  import opened HelpFlags

  // ---------------------------------------------------------------------
  // escapeHtml

  /** The entity one character escapes to. */
  function EscapeChar(c: char): string {
    if c == '&' then "&amp;"
    else if c == '<' then "&lt;"
    else if c == '>' then "&gt;"
    else if c == '"' then "&quot;"
    else if c == '\'' then "&#39;"
    else [c]
  }

  /** Every character escaped on its own. */
  function EscapeEach(s: string): string {
    if |s| == 0 then "" else EscapeChar(s[0]) + EscapeEach(s[1..])
  }

  /** `s.replace(/c/g, rep)` for a one-character pattern. */
  function ReplaceAll(s: string, c: char, rep: string): string {
    if |s| == 0 then "" else (if s[0] == c then rep else [s[0]]) + ReplaceAll(s[1..], c, rep)
  }

  lemma {:induction false} ReplaceAllAppend(a: string, b: string, c: char, rep: string)
    ensures ReplaceAll(a + b, c, rep) == ReplaceAll(a, c, rep) + ReplaceAll(b, c, rep)
  {
    if |a| > 0 {
      assert (a + b)[1..] == a[1..] + b;
      ReplaceAllAppend(a[1..], b, c, rep);
    } else {
      assert a + b == b;
    }
  }

  /** The five replacements in the order the source applies them. */
  function Chain(s: string): string {
    ReplaceAll(ReplaceAll(ReplaceAll(ReplaceAll(ReplaceAll(s, '&', "&amp;"), '<', "&lt;"), '>', "&gt;"), '"', "&quot;"), '\'', "&#39;")
  }

  lemma ChainAppend(a: string, b: string)
    ensures Chain(a + b) == Chain(a) + Chain(b)
  {
    var a1, b1 := ReplaceAll(a, '&', "&amp;"), ReplaceAll(b, '&', "&amp;");
    ReplaceAllAppend(a, b, '&', "&amp;");
    var a2, b2 := ReplaceAll(a1, '<', "&lt;"), ReplaceAll(b1, '<', "&lt;");
    ReplaceAllAppend(a1, b1, '<', "&lt;");
    var a3, b3 := ReplaceAll(a2, '>', "&gt;"), ReplaceAll(b2, '>', "&gt;");
    ReplaceAllAppend(a2, b2, '>', "&gt;");
    var a4, b4 := ReplaceAll(a3, '"', "&quot;"), ReplaceAll(b3, '"', "&quot;");
    ReplaceAllAppend(a3, b3, '"', "&quot;");
    ReplaceAllAppend(a4, b4, '\'', "&#39;");
  }

  /** A replacement leaves a string without the pattern character alone. */
  lemma {:induction false} ReplaceAbsent(s: string, c: char, rep: string)
    requires c !in s
    ensures ReplaceAll(s, c, rep) == s
  {
    if |s| > 0 {
      assert s[0] in s;
      assert forall x :: x in s[1..] ==> x in s;
      ReplaceAbsent(s[1..], c, rep);
      assert [s[0]] + s[1..] == s;
    }
  }

  lemma ReplaceSingle(c: char, p: char, rep: string)
    ensures ReplaceAll([c], p, rep) == if c == p then rep else [c]
  {
    assert [c][1..] == [];
  }

  /** The tail of the chain after the replacement of `&`. */
  function ChainAfterAmp(s: string): string {
    ReplaceAll(ReplaceAll(ReplaceAll(ReplaceAll(s, '<', "&lt;"), '>', "&gt;"), '"', "&quot;"), '\'', "&#39;")
  }

  /** An entity holds none of the later pattern characters. */
  lemma EntityFixed(e: string)
    requires '<' !in e && '>' !in e && '"' !in e && '\'' !in e
    ensures ChainAfterAmp(e) == e
  {
    ReplaceAbsent(e, '<', "&lt;");
    ReplaceAbsent(e, '>', "&gt;");
    ReplaceAbsent(e, '"', "&quot;");
    ReplaceAbsent(e, '\'', "&#39;");
  }

  lemma ChainAmp(c: char)
    requires c == '&'
    ensures Chain([c]) == "&amp;"
  {
    ReplaceSingle(c, '&', "&amp;");
    EntityFixed("&amp;");
  }

  lemma ChainLt(c: char)
    requires c == '<'
    ensures Chain([c]) == "&lt;"
  {
    ReplaceSingle(c, '&', "&amp;");
    ReplaceSingle(c, '<', "&lt;");
    LtPlain();
    ReplaceAbsent("&lt;", '>', "&gt;");
    ReplaceAbsent("&lt;", '"', "&quot;");
    ReplaceAbsent("&lt;", '\'', "&#39;");
  }

  lemma LtPlain()
    ensures '>' !in "&lt;" && '"' !in "&lt;" && '\'' !in "&lt;"
  {
  }

  lemma ChainGt(c: char)
    requires c == '>'
    ensures Chain([c]) == "&gt;"
  {
    ReplaceSingle(c, '&', "&amp;");
    ReplaceSingle(c, '<', "&lt;");
    ReplaceSingle(c, '>', "&gt;");
    ReplaceAbsent("&gt;", '"', "&quot;");
    ReplaceAbsent("&gt;", '\'', "&#39;");
  }

  lemma ChainQuot(c: char)
    requires c == '"'
    ensures Chain([c]) == "&quot;"
  {
    ReplaceSingle(c, '&', "&amp;");
    ReplaceSingle(c, '<', "&lt;");
    ReplaceSingle(c, '>', "&gt;");
    ReplaceSingle(c, '"', "&quot;");
    ReplaceAbsent("&quot;", '\'', "&#39;");
  }

  lemma ChainApos(c: char)
    requires c == '\''
    ensures Chain([c]) == "&#39;"
  {
    ReplaceSingle(c, '&', "&amp;");
    ReplaceSingle(c, '<', "&lt;");
    ReplaceSingle(c, '>', "&gt;");
    ReplaceSingle(c, '"', "&quot;");
    ReplaceSingle(c, '\'', "&#39;");
  }

  lemma ChainOther(c: char)
    requires c != '&' && c != '<' && c != '>' && c != '"' && c != '\''
    ensures Chain([c]) == [c]
  {
    ReplaceSingle(c, '&', "&amp;");
    ReplaceSingle(c, '<', "&lt;");
    ReplaceSingle(c, '>', "&gt;");
    ReplaceSingle(c, '"', "&quot;");
    ReplaceSingle(c, '\'', "&#39;");
  }

  /** One character through the chain: the entities inserted by an early
      replacement hold none of the later patterns. */
  lemma ChainChar(c: char)
    ensures Chain([c]) == EscapeChar(c)
  {
    if c == '&' {
      ChainAmp(c);
    } else if c == '<' {
      ChainLt(c);
    } else if c == '>' {
      ChainGt(c);
    } else if c == '"' {
      ChainQuot(c);
    } else if c == '\'' {
      ChainApos(c);
    } else {
      ChainOther(c);
    }
  }

  /** `escapeHtml`: the replacements, `&` first; the result is each
      character escaped on its own, so no entity is escaped twice. */
  function EscapeHtml(s: string): (r: string)
    ensures r == EscapeEach(s)
  {
    EscapeHtmlIsPerChar(s);
    Chain(s)
  }

  lemma {:induction false} EscapeHtmlIsPerChar(s: string)
    ensures Chain(s) == EscapeEach(s)
  {
    if |s| > 0 {
      assert s == [s[0]] + s[1..];
      ChainAppend([s[0]], s[1..]);
      ChainChar(s[0]);
      EscapeHtmlIsPerChar(s[1..]);
    }
  }

  /** The inverse of escaping: the five entities back to their characters. */
  function Unescape(s: string): string
    decreases |s|
  {
    if |s| == 0 then ""
    else if StartsWith(s, "&amp;") then "&" + Unescape(s[5..])
    else if StartsWith(s, "&lt;") then "<" + Unescape(s[4..])
    else if StartsWith(s, "&gt;") then ">" + Unescape(s[4..])
    else if StartsWith(s, "&quot;") then "\"" + Unescape(s[6..])
    else if StartsWith(s, "&#39;") then "'" + Unescape(s[5..])
    else [s[0]] + Unescape(s[1..])
  }

  /** The entity at the front of `e` decides the branch Unescape takes. */
  lemma UnescapeAmp(rest: string)
    ensures Unescape("&amp;" + rest) == "&" + Unescape(rest)
  {
    var e := "&amp;" + rest;
    assert e[..5] == "&amp;" && e[5..] == rest;
  }

  lemma UnescapeLt(rest: string)
    ensures Unescape("&lt;" + rest) == "<" + Unescape(rest)
  {
    var e := "&lt;" + rest;
    assert e[..4] == "&lt;" && e[4..] == rest;
    assert !StartsWith(e, "&amp;") by { assert e[1] == 'l'; }
  }

  lemma UnescapeGt(rest: string)
    ensures Unescape("&gt;" + rest) == ">" + Unescape(rest)
  {
    var e := "&gt;" + rest;
    assert e[..4] == "&gt;" && e[4..] == rest;
    assert !StartsWith(e, "&amp;") && !StartsWith(e, "&lt;") by { assert e[1] == 'g'; }
  }

  lemma UnescapeQuot(rest: string)
    ensures Unescape("&quot;" + rest) == "\"" + Unescape(rest)
  {
    var e := "&quot;" + rest;
    assert e[..6] == "&quot;" && e[6..] == rest;
    assert !StartsWith(e, "&amp;") && !StartsWith(e, "&lt;") && !StartsWith(e, "&gt;") by { assert e[1] == 'q'; }
  }

  lemma UnescapeApos(rest: string)
    ensures Unescape("&#39;" + rest) == "'" + Unescape(rest)
  {
    var e := "&#39;" + rest;
    assert e[..5] == "&#39;" && e[5..] == rest;
    assert !StartsWith(e, "&amp;") && !StartsWith(e, "&lt;") && !StartsWith(e, "&gt;") && !StartsWith(e, "&quot;") by {
      assert e[1] == '#';
    }
  }

  lemma UnescapeOther(c: char, rest: string)
    requires c != '&'
    ensures Unescape([c] + rest) == [c] + Unescape(rest)
  {
    var e := [c] + rest;
    assert e[0] == c && e[1..] == rest;
  }

  /** Unescaping undoes the escape of one leading character. */
  lemma UnescapeChar(c: char, rest: string)
    ensures Unescape(EscapeChar(c) + rest) == [c] + Unescape(rest)
  {
    if c == '&' {
      UnescapeAmp(rest);
    } else if c == '<' {
      UnescapeLt(rest);
    } else if c == '>' {
      UnescapeGt(rest);
    } else if c == '"' {
      UnescapeQuot(rest);
    } else if c == '\'' {
      UnescapeApos(rest);
    } else {
      UnescapeOther(c, rest);
    }
  }

  /** Escaping loses nothing: unescaping gives the input back. */
  lemma {:induction false} UnescapeEscape(s: string)
    ensures Unescape(EscapeHtml(s)) == s
  {
    if |s| > 0 {
      assert EscapeEach(s) == EscapeChar(s[0]) + EscapeEach(s[1..]);
      UnescapeChar(s[0], EscapeEach(s[1..]));
      UnescapeEscape(s[1..]);
      assert [s[0]] + s[1..] == s;
    }
  }

  // ---------------------------------------------------------------------
  // chalkHtml

  /** A piece of the output: a tag or literal HTML text. */
  datatype Piece = OpenItalic | CloseItalic | OpenSpan(color: string) | CloseSpan | Text(html: string)

  function PieceHtml(p: Piece): string {
    match p
    case OpenItalic => "<i>"
    case CloseItalic => "</i>"
    case OpenSpan(c) => "<span style=\"color:" + c + "\">"
    case CloseSpan => "</span>"
    case Text(h) => h
  }

  function Render(ps: seq<Piece>): string {
    if |ps| == 0 then "" else Render(ps[..|ps| - 1]) + PieceHtml(ps[|ps| - 1])
  }

  function ItalicDelta(p: Piece): int {
    if p == OpenItalic then 1 else if p == CloseItalic then -1 else 0
  }

  function SpanDelta(p: Piece): int {
    if p.OpenSpan? then 1 else if p == CloseSpan then -1 else 0
  }

  /** How many `<i>` are open after the pieces. */
  function ItalicDepth(ps: seq<Piece>): int {
    if |ps| == 0 then 0 else ItalicDepth(ps[..|ps| - 1]) + ItalicDelta(ps[|ps| - 1])
  }

  /** How many `<span>` are open after the pieces. */
  function SpanDepth(ps: seq<Piece>): int {
    if |ps| == 0 then 0 else SpanDepth(ps[..|ps| - 1]) + SpanDelta(ps[|ps| - 1])
  }

  /** After every prefix at most one `<i>` and at most one `<span>` are
      open, and no tag is closed that was not opened. */
  predicate Shallow(ps: seq<Piece>) {
    |ps| == 0 || (Shallow(ps[..|ps| - 1]) && 0 <= ItalicDepth(ps) <= 1 && 0 <= SpanDepth(ps) <= 1)
  }

  /** Shallow, and every tag closed at the end. */
  predicate Balanced(ps: seq<Piece>) {
    Shallow(ps) && ItalicDepth(ps) == 0 && SpanDepth(ps) == 0
  }

  lemma AppendPiece(ps: seq<Piece>, p: Piece)
    ensures (ps + [p])[..|ps|] == ps
    ensures ItalicDepth(ps + [p]) == ItalicDepth(ps) + ItalicDelta(p)
    ensures SpanDepth(ps + [p]) == SpanDepth(ps) + SpanDelta(p)
    ensures Render(ps + [p]) == Render(ps) + PieceHtml(p)
    ensures Shallow(ps + [p]) <==> (Shallow(ps) && 0 <= ItalicDepth(ps + [p]) <= 1 && 0 <= SpanDepth(ps + [p]) <= 1)
  {
    assert (ps + [p])[..|ps|] == ps;
  }

  /** `longer` starts with `shorter`: output is only ever appended. */
  predicate Extends(longer: seq<Piece>, shorter: seq<Piece>) {
    |shorter| <= |longer| && longer[..|shorter|] == shorter
  }

  lemma ExtendsTrans(a: seq<Piece>, b: seq<Piece>, c: seq<Piece>)
    requires Extends(a, b) && Extends(b, c)
    ensures Extends(a, c)
  {
    assert a[..|c|] == a[..|b|][..|c|];
  }

  /** The converter's state: the pieces so far, the colour stack and
      whether `<i>` is open. */
  datatype Sgr = Sgr(pieces: seq<Piece>, stack: seq<string>, italic: bool)

  /** The state agrees with the pieces it has emitted. */
  predicate Tracks(st: Sgr) {
    |st.stack| <= 1
    && Shallow(st.pieces)
    && ItalicDepth(st.pieces) == (if st.italic then 1 else 0)
    && SpanDepth(st.pieces) == |st.stack|
  }

  function Emit(st: Sgr, p: Piece): Sgr {
    st.(pieces := st.pieces + [p])
  }

  /** The colour map: 31 red, 32 green. */
  function Color(code: int): Option<string> {
    if code == 31 then Some("#cc0000") else if code == 32 then Some("#00aa00") else None
  }

  /** The colour stack after one pop. */
  function Popped(stack: seq<string>): seq<string> {
    if |stack| > 0 then stack[..|stack| - 1] else []
  }

  /** Closes the top span, if any. */
  function PopSpan(st: Sgr): (r: Sgr)
    ensures r.stack == Popped(st.stack) && r.italic == st.italic
    ensures r.pieces == if |st.stack| > 0 then st.pieces + [CloseSpan] else st.pieces
    ensures Tracks(st) ==> Tracks(r)
    ensures Extends(r.pieces, st.pieces)
  {
    if |st.stack| > 0 then
      AppendPiece(st.pieces, CloseSpan);
      Emit(st, CloseSpan).(stack := st.stack[..|st.stack| - 1])
    else st
  }

  /** Closes every open span. */
  function PopAll(st: Sgr): (r: Sgr)
    ensures r.stack == [] && r.italic == st.italic
    ensures Tracks(st) ==> Tracks(r)
    ensures Extends(r.pieces, st.pieces)
    decreases |st.stack|
  {
    if |st.stack| == 0 then st
    else
      var s1 := PopSpan(st);
      var r := PopAll(s1);
      ExtendsTrans(r.pieces, s1.pieces, st.pieces);
      r
  }

  /** Closes `<i>` if it is open. */
  function CloseItalicTag(st: Sgr): (r: Sgr)
    ensures !r.italic && r.stack == st.stack
    ensures r.pieces == if st.italic then st.pieces + [CloseItalic] else st.pieces
    ensures Tracks(st) ==> Tracks(r)
    ensures Extends(r.pieces, st.pieces)
  {
    if st.italic then
      AppendPiece(st.pieces, CloseItalic);
      Emit(st, CloseItalic).(italic := false)
    else st
  }

  /** Opens `<i>` unless it is open already. */
  function OpenItalicTag(st: Sgr): (r: Sgr)
    ensures r.italic && r.stack == st.stack
    ensures r.pieces == if st.italic then st.pieces else st.pieces + [OpenItalic]
    ensures Tracks(st) ==> Tracks(r)
    ensures Extends(r.pieces, st.pieces)
  {
    if st.italic then st
    else
      AppendPiece(st.pieces, OpenItalic);
      Emit(st, OpenItalic).(italic := true)
  }

  /** Code 0: italic closed, then every span. */
  function ResetAll(st: Sgr): (r: Sgr)
    ensures !r.italic && r.stack == []
    ensures Tracks(st) ==> Tracks(r)
    ensures Extends(r.pieces, st.pieces)
  {
    var s1 := CloseItalicTag(st);
    var r := PopAll(s1);
    ExtendsTrans(r.pieces, s1.pieces, st.pieces);
    r
  }

  /** A colour code: the open span, if any, is replaced by one in colour
      `c`. */
  function SetColor(st: Sgr, c: string): (r: Sgr)
    ensures r.italic == st.italic && r.stack == Popped(st.stack) + [c]
    ensures |r.pieces| > 0 && r.pieces[|r.pieces| - 1] == OpenSpan(c)
    ensures Tracks(st) ==> Tracks(r)
    ensures Extends(r.pieces, st.pieces)
  {
    var s1 := PopSpan(st);
    AppendPiece(s1.pieces, OpenSpan(c));
    var r := Emit(s1, OpenSpan(c)).(stack := s1.stack + [c]);
    ExtendsTrans(r.pieces, s1.pieces, st.pieces);
    r
  }

  /** One SGR parameter. 0 resets everything, 3 opens italic, 23 closes
      it, 39 closes one span, 31/32 replace the span by a coloured one;
      any other code is ignored. */
  function ApplyCode(st: Sgr, code: int): (r: Sgr)
    ensures Tracks(st) ==> Tracks(r)
    ensures Extends(r.pieces, st.pieces)
    ensures code == 0 ==> !r.italic && r.stack == []
    ensures code == 3 ==> r.italic && r.stack == st.stack
    ensures code == 3 && st.italic ==> r == st
    ensures code == 23 ==> !r.italic && r.stack == st.stack
    ensures code == 39 ==> r.italic == st.italic && r.stack == Popped(st.stack)
    ensures Color(code).Some? ==> (
      r.italic == st.italic && r.stack == Popped(st.stack) + [Color(code).value]
      && |r.pieces| > 0 && r.pieces[|r.pieces| - 1] == OpenSpan(Color(code).value))
    ensures code !in {0, 3, 23, 39} && Color(code).None? ==> r == st
  {
    if code == 0 then ResetAll(st)
    else if code == 3 then OpenItalicTag(st)
    else if code == 23 then CloseItalicTag(st)
    else if code == 39 then PopSpan(st)
    else
      match Color(code)
      case None => st
      case Some(c) => SetColor(st, c)
  }

  function ApplyCodes(st: Sgr, codes: seq<int>): (r: Sgr)
    ensures Tracks(st) ==> Tracks(r)
    ensures Extends(r.pieces, st.pieces)
    decreases |codes|
  {
    if |codes| == 0 then st
    else
      var s1 := ApplyCode(st, codes[0]);
      var r := ApplyCodes(s1, codes[1..]);
      ExtendsTrans(r.pieces, s1.pieces, st.pieces);
      r
  }

  /** The parameters of a sequence: split at `;`, parsed, non-numbers
      dropped. */
  function ParseCodes(parts: seq<string>): seq<int> {
    if |parts| == 0 then []
    else (match ParseInt(parts[0]) case Some(n) => [n] case None => []) + ParseCodes(parts[1..])
  }

  function Codes(sequence: string): seq<int> {
    ParseCodes(Split(sequence, ';'))
  }

  /** `ESC [` at `i`. */
  predicate CsiAt(input: string, i: nat) {
    i + 1 < |input| && input[i] == '\U{001B}' && input[i + 1] == '['
  }

  /** The HTML of one plain character: a line break for `\n`, nothing for
      `\r`, and otherwise the character escaped (CharIsEscaped). */
  function CharHtml(c: char): string {
    if c == '\n' then "<br>\n" else if c == '\r' then "" else EscapeChar(c)
  }

  /** A plain character goes through `escapeHtml` on its own. */
  lemma CharIsEscaped(c: char)
    requires c != '\n' && c != '\r'
    ensures CharHtml(c) == EscapeHtml([c])
  {
    assert EscapeEach([c]) == EscapeChar(c) + EscapeEach([c][1..]);
  }

  /** The main loop from index `i`. */
  function Convert(input: string, i: nat, st: Sgr): (r: Sgr)
    requires i <= |input|
    ensures Tracks(st) ==> Tracks(r)
    ensures Extends(r.pieces, st.pieces)
    decreases |input| - i
  {
    if i == |input| then st
    else if CsiAt(input, i) then
      match IndexOfFrom(input, 'm', i)
      case None => st
      case Some(end) =>
        var s1 := ApplyCodes(st, Codes(input[i + 2..end]));
        var r := Convert(input, end + 1, s1);
        ExtendsTrans(r.pieces, s1.pieces, st.pieces);
        r
    else if input[i] == '\r' then Convert(input, i + 1, st)
    else
      var s1 := Emit(st, Text(CharHtml(input[i])));
      AppendPiece(st.pieces, Text(CharHtml(input[i])));
      var r := Convert(input, i + 1, s1);
      ExtendsTrans(r.pieces, s1.pieces, st.pieces);
      r
  }

  /** The closing after the loop: italic first, then every span. */
  function CloseAll(st: Sgr): (r: Sgr)
    ensures Tracks(st) ==> Tracks(r) && Balanced(r.pieces)
    ensures Extends(r.pieces, st.pieces)
    ensures !st.italic && st.stack == [] ==> r == st
  {
    ResetAll(st)
  }

  const Start: Sgr := Sgr([], [], false)

  /** The pieces `chalkHtml` emits: balanced, never nested deeper than one
      `<i>` and one `<span>`. */
  function ChalkPieces(input: string): (ps: seq<Piece>)
    ensures Balanced(ps)
  {
    assert Tracks(Start);
    CloseAll(Convert(input, 0, Start)).pieces
  }

  /** `chalkHtml`. */
  function ChalkHtml(input: string): string {
    Render(ChalkPieces(input))
  }

  // ---------------------------------------------------------------------
  // Properties of chalkHtml

  /** An escape sequence: its parameters are applied and the loop goes on
      after the `m`. */
  lemma ConvertCsi(input: string, i: nat, st: Sgr, end: nat)
    requires i <= |input| && CsiAt(input, i) && IndexOfFrom(input, 'm', i) == Some(end)
    ensures i + 2 <= end
    ensures Convert(input, i, st) == Convert(input, end + 1, ApplyCodes(st, Codes(input[i + 2..end])))
  {
  }

  /** A plain character: its HTML is emitted, a carriage return is
      dropped. */
  lemma ConvertChar(input: string, i: nat, st: Sgr)
    requires i < |input| && input[i] != '\U{001B}'
    ensures input[i] == '\r' ==> Convert(input, i, st) == Convert(input, i + 1, st)
    ensures input[i] != '\r' ==> Convert(input, i, st) == Convert(input, i + 1, Emit(st, Text(CharHtml(input[i]))))
  {
    assert !CsiAt(input, i);
  }

  /** The text pieces of a run of plain characters. */
  function TextPieces(s: string): seq<Piece> {
    if |s| == 0 then []
    else (if s[0] == '\r' then [] else [Text(CharHtml(s[0]))]) + TextPieces(s[1..])
  }

  /** The HTML of a run of plain characters: each escaped on its own, `\n`
      as `<br>` and a newline, `\r` dropped. */
  function PlainHtml(s: string): string {
    if |s| == 0 then "" else CharHtml(s[0]) + PlainHtml(s[1..])
  }

  /** A run of characters without ESC only adds their text pieces. */
  lemma {:induction false} ConvertRun(input: string, i: nat, j: nat, st: Sgr)
    requires i <= j <= |input|
    requires forall k :: i <= k < j ==> input[k] != '\U{001B}'
    ensures Convert(input, i, st) == Convert(input, j, st.(pieces := st.pieces + TextPieces(input[i..j])))
    decreases j - i
  {
    if i == j {
      assert st.pieces + TextPieces(input[i..j]) == st.pieces;
    } else {
      assert input[i..j][1..] == input[i + 1..j];
      ConvertChar(input, i, st);
      assert input[i..j][0] == input[i];
      if input[i] == '\r' {
        ConvertRun(input, i + 1, j, st);
        assert TextPieces(input[i..j]) == TextPieces(input[i + 1..j]);
        assert Convert(input, i, st) == Convert(input, i + 1, st);
      } else {
        var s1 := Emit(st, Text(CharHtml(input[i])));
        ConvertRun(input, i + 1, j, s1);
        assert s1.pieces + TextPieces(input[i + 1..j]) == st.pieces + TextPieces(input[i..j]);
      }
    }
  }

  lemma {:induction false} RenderAppend(a: seq<Piece>, b: seq<Piece>)
    ensures Render(a + b) == Render(a) + Render(b)
    decreases |b|
  {
    if |b| > 0 {
      var b0 := b[..|b| - 1];
      assert a + b == (a + b0) + [b[|b| - 1]];
      AppendPiece(a + b0, b[|b| - 1]);
      AppendPiece(b0, b[|b| - 1]);
      RenderAppend(a, b0);
    } else {
      assert a + b == a;
    }
  }

  lemma RenderOne(p: Piece)
    ensures Render([p]) == PieceHtml(p)
  {
    assert [p][..0] == [];
  }

  lemma {:induction false} TextPiecesRender(s: string)
    ensures Render(TextPieces(s)) == PlainHtml(s)
  {
    if |s| > 0 {
      TextPiecesRender(s[1..]);
      if s[0] != '\r' {
        RenderAppend([Text(CharHtml(s[0]))], TextPieces(s[1..]));
        RenderOne(Text(CharHtml(s[0])));
      } else {
        assert [] + TextPieces(s[1..]) == TextPieces(s[1..]);
      }
    }
  }

  /** Text without ESC is converted character by character, and no tag is
      emitted at all. */
  lemma PlainText(input: string)
    requires forall k :: 0 <= k < |input| ==> input[k] != '\U{001B}'
    ensures ChalkPieces(input) == TextPieces(input)
    ensures ChalkHtml(input) == PlainHtml(input)
  {
    ConvertRun(input, 0, |input|, Start);
    assert input[0..|input|] == input;
    assert Start.pieces + TextPieces(input) == TextPieces(input);
    TextPiecesRender(input);
  }

  /** An `ESC [` with no `m` after it ends the conversion: the rest of
      the input is dropped. */
  lemma Unterminated(input: string, i: nat, st: Sgr)
    requires i <= |input| && CsiAt(input, i)
    requires forall k :: i <= k < |input| ==> input[k] != 'm'
    ensures Convert(input, i, st) == st
  {
  }

  /** The SGR escape sequence with parameters `codes`. */
  function SgrSeq(codes: string): string {
    "\U{001B}[" + codes + "m"
  }

  /** The layout of an escape sequence: ESC, `[`, the parameters, `m`. */
  lemma SgrSeqShape(codes: string)
    requires forall k :: 0 <= k < |codes| ==> codes[k] != 'm'
    ensures var q := SgrSeq(codes);
      |q| == |codes| + 3 && q[0] == '\U{001B}' && q[1] == '[' && q[|codes| + 2] == 'm'
      && q[2..|codes| + 2] == codes
      && forall k :: 0 <= k < |codes| + 2 ==> q[k] != 'm'
  {
    var q := SgrSeq(codes);
    assert q == "\U{001B}[" + codes + "m";
    forall k | 0 <= k < |codes| + 2
      ensures q[k] != 'm'
    {
      if k >= 2 {
        assert q[k] == codes[k - 2];
      }
    }
  }

  /** An escape sequence at `i` whose parameters hold no `m`. */
  lemma ConvertSgrAt(input: string, i: nat, codes: string, st: Sgr)
    requires forall k :: 0 <= k < |codes| ==> codes[k] != 'm'
    requires i + |codes| + 3 <= |input| && input[i..i + |codes| + 3] == SgrSeq(codes)
    ensures Convert(input, i, st) == Convert(input, i + |codes| + 3, ApplyCodes(st, Codes(codes)))
  {
    var n := |codes| + 3;
    var e := i + |codes| + 2;
    var q := input[i..i + n];
    SgrSeqShape(codes);
    assert input[i] == q[0] && input[i + 1] == q[1] && input[e] == q[n - 1];
    assert CsiAt(input, i);
    forall k | i <= k < e
      ensures input[k] != 'm'
    {
      assert input[k] == q[k - i];
    }
    assert IndexOfFrom(input, 'm', i) == Some(e);
    assert input[i + 2..e] == q[2..n - 1];
    ConvertCsi(input, i, st, e);
  }

  /** The state after `ESC [ open m`, a run `s` of plain text and
      `ESC [ close m`, from state `st`. */
  function WrapState(st: Sgr, open: string, s: string, close: string): Sgr {
    ApplyCodes(RunState(st, open, s), Codes(close))
  }

  /** The state after `ESC [ open m` and a run `s` of plain text. */
  function RunState(st: Sgr, open: string, s: string): Sgr {
    var s1 := ApplyCodes(st, Codes(open));
    s1.(pieces := s1.pieces + TextPieces(s))
  }

  /** Text between two escape sequences: the first sequence's codes, then
      the text, then the second sequence's codes. */
  lemma Wrapped(open: string, s: string, close: string, st: Sgr)
    requires forall k :: 0 <= k < |open| ==> open[k] != 'm'
    requires forall k :: 0 <= k < |close| ==> close[k] != 'm'
    requires forall k :: 0 <= k < |s| ==> s[k] != '\U{001B}'
    ensures Convert(SgrSeq(open) + s + SgrSeq(close), 0, st) == WrapState(st, open, s, close)
  {
    WrapOpen(open, s, close, st);
    WrapClose(open, s, close, RunState(st, open, s));
  }

  /** The opening sequence and the text of a wrapped run. */
  lemma WrapOpen(open: string, s: string, close: string, st: Sgr)
    requires forall k :: 0 <= k < |open| ==> open[k] != 'm'
    requires forall k :: 0 <= k < |s| ==> s[k] != '\U{001B}'
    ensures Convert(SgrSeq(open) + s + SgrSeq(close), 0, st)
      == Convert(SgrSeq(open) + s + SgrSeq(close), |SgrSeq(open) + s|, RunState(st, open, s))
  {
    Slices(SgrSeq(open), s, SgrSeq(close));
    OpenThenRun(SgrSeq(open) + s + SgrSeq(close), open, s, st, |SgrSeq(open) + s|);
  }

  /** The closing sequence of a wrapped run. */
  lemma WrapClose(open: string, s: string, close: string, st: Sgr)
    requires forall k :: 0 <= k < |close| ==> close[k] != 'm'
    ensures Convert(SgrSeq(open) + s + SgrSeq(close), |SgrSeq(open) + s|, st) == ApplyCodes(st, Codes(close))
  {
    CloseAfter(SgrSeq(open) + s, close, st);
  }

  /** An escape sequence that ends the input. */
  lemma CloseAfter(p: string, close: string, st: Sgr)
    requires forall k :: 0 <= k < |close| ==> close[k] != 'm'
    ensures Convert(p + SgrSeq(close), |p|, st) == ApplyCodes(st, Codes(close))
  {
    var q := SgrSeq(close);
    assert (p + q)[|p|..|p| + |close| + 3] == q;
    ConvertSgrAt(p + q, |p|, close, st);
  }

  lemma OpenThenRun(input: string, open: string, s: string, st: Sgr, j: nat)
    requires forall k :: 0 <= k < |open| ==> open[k] != 'm'
    requires j == |open| + 3 + |s| <= |input|
    requires input[0..|open| + 3] == SgrSeq(open)
    requires input[|open| + 3..|open| + 3 + |s|] == s
    requires forall k :: |open| + 3 <= k < |open| + 3 + |s| ==> input[k] != '\U{001B}'
    ensures Convert(input, 0, st) == Convert(input, j, RunState(st, open, s))
  {
    var m := |open| + 3;
    var s1 := ApplyCodes(st, Codes(open));
    ConvertSgrAt(input, 0, open, st);
    assert Convert(input, 0, st) == Convert(input, m, s1);
    assert input[m..j] == s;
    ConvertRun(input, m, j, s1);
    assert RunState(st, open, s) == s1.(pieces := s1.pieces + TextPieces(input[m..j]));
  }

  /** The three parts of a concatenation, as slices. */
  lemma Slices(a: string, s: string, b: string)
    requires forall k :: 0 <= k < |s| ==> s[k] != '\U{001B}'
    ensures (a + s + b)[0..|a|] == a
    ensures (a + s + b)[|a|..|a| + |s|] == s
    ensures (a + s + b)[|a| + |s|..|a| + |s| + |b|] == b
    ensures forall k :: |a| <= k < |a| + |s| ==> (a + s + b)[k] != '\U{001B}'
  {
    var input := a + s + b;
    forall k | |a| <= k < |a| + |s|
      ensures input[k] != '\U{001B}'
    {
      assert input[k] == s[k - |a|];
    }
  }

  /** `chalk.italic(s)` for text `s` without ESC renders as `<i>`, the
      text's HTML, `</i>`. */
  lemma ItalicWrap(s: string)
    requires forall k :: 0 <= k < |s| ==> s[k] != '\U{001B}'
    ensures ChalkHtml(SgrSeq("3") + s + SgrSeq("23")) == "<i>" + PlainHtml(s) + "</i>"
  {
    Wrapped("3", s, "23", Start);
    CodesOf3();
    CodesOf23();
    var ps := [OpenItalic] + TextPieces(s) + [CloseItalic];
    assert WrapState(Start, "3", s, "23") == Sgr(ps, [], false);
    assert ChalkPieces(SgrSeq("3") + s + SgrSeq("23")) == ps;
    RenderAround(OpenItalic, TextPieces(s), CloseItalic);
    TextPiecesRender(s);
  }

  /** `chalk.red(s)` for text `s` without ESC renders as a red span around
      the text's HTML. */
  lemma RedWrap(s: string)
    requires forall k :: 0 <= k < |s| ==> s[k] != '\U{001B}'
    ensures ChalkHtml(SgrSeq("31") + s + SgrSeq("39"))
      == "<span style=\"color:#cc0000\">" + PlainHtml(s) + "</span>"
  {
    Wrapped("31", s, "39", Start);
    CodesOf31();
    CodesOf39();
    var red := Sgr([OpenSpan("#cc0000")], ["#cc0000"], false);
    assert ApplyCodes(Start, [31]) == red by {
      assert ApplyCode(Start, 31) == SetColor(Start, "#cc0000");
      assert PopSpan(Start) == Start;
    }
    var run := red.(pieces := red.pieces + TextPieces(s));
    assert ApplyCodes(run, [39]) == PopSpan(run);
    var ps := [OpenSpan("#cc0000")] + TextPieces(s) + [CloseSpan];
    assert WrapState(Start, "31", s, "39") == Sgr(ps, [], false);
    assert ChalkPieces(SgrSeq("31") + s + SgrSeq("39")) == ps;
    RenderAround(OpenSpan("#cc0000"), TextPieces(s), CloseSpan);
    TextPiecesRender(s);
    RedSpanTag();
  }

  lemma RedSpanTag()
    ensures PieceHtml(OpenSpan("#cc0000")) == "<span style=\"color:#cc0000\">"
  {
  }

  lemma RenderAround(p: Piece, ts: seq<Piece>, q: Piece)
    ensures Render([p] + ts + [q]) == PieceHtml(p) + Render(ts) + PieceHtml(q)
  {
    RenderAppend([p] + ts, [q]);
    RenderAppend([p], ts);
    RenderOne(p);
    RenderOne(q);
  }

  lemma CodesOf3()
    ensures Codes("3") == [3]
  {
    SplitNoSep("3", ';');
    assert ParseInt("3") == Some(3) by {
      ParseIntOfNatToString(3);
      assert NatToString(3) == [DigitChar(3)];
    }
  }

  lemma CodesOf31()
    ensures Codes("31") == [31]
  {
    SplitNoSep("31", ';');
    assert ParseInt("31") == Some(31) by {
      ParseIntOfNatToString(31);
      assert NatToString(31) == NatToString(3) + [DigitChar(1)];
      assert NatToString(3) == [DigitChar(3)];
    }
  }

  lemma CodesOf39()
    ensures Codes("39") == [39]
  {
    SplitNoSep("39", ';');
    assert ParseInt("39") == Some(39) by {
      ParseIntOfNatToString(39);
      assert NatToString(39) == NatToString(3) + [DigitChar(9)];
      assert NatToString(3) == [DigitChar(3)];
    }
  }

  lemma CodesOf23()
    ensures Codes("23") == [23]
  {
    SplitNoSep("23", ';');
    assert ParseInt("23") == Some(23) by {
      ParseIntOfNatToString(23);
      assert NatToString(23) == NatToString(2) + [DigitChar(3)];
      assert NatToString(2) == [DigitChar(2)];
    }
  }

  // ---------------------------------------------------------------------
  // Selecting history entries

  datatype HistoryEntry = HistoryEntry(command: string, output: string)

  /** How many entries `html` shows: 1 by default, or a positive integer
      first argument; anything else is ignored. */
  function HtmlCount(argv: seq<string>): (n: nat)
    ensures n >= 1
    ensures (|argv| == 0 || argv[0] == "") ==> n == 1
    ensures |argv| > 0 && ParseInt(argv[0]).Some? && ParseInt(argv[0]).value > 0 ==> n == ParseInt(argv[0]).value
    ensures |argv| > 0 && (ParseInt(argv[0]).None? || ParseInt(argv[0]).value <= 0) ==> n == 1
  {
    if |argv| == 0 || argv[0] == "" then 1
    else match ParseInt(argv[0])
      case Some(p) => if p > 0 then p else 1
      case None => 1
  }

  /** `history.slice(-count)`: the newest `count` entries in their order,
      or all of them when there are fewer. */
  function LastEntries<T>(h: seq<T>, count: nat): (r: seq<T>)
    requires count >= 1
    ensures |r| == (if count < |h| then count else |h|)
    ensures h == h[..|h| - |r|] + r
  {
    if count < |h| then h[|h| - count..] else h
  }

  // ---------------------------------------------------------------------
  // formatCommandHtml

  /** The characters `.` does not match in a JavaScript regular expression. */
  predicate LineTerminator(c: char) {
    c == '\n' || c == '\r' || c == '\U{2028}' || c == '\U{2029}'
  }

  predicate NoTerminator(s: string) {
    forall k :: 0 <= k < |s| ==> !LineTerminator(s[k])
  }

  /** The length of the run of non-white-space characters at the front. */
  function WordLen(s: string): (n: nat)
    ensures n <= |s|
    ensures forall k :: 0 <= k < n ==> !IsWs(s[k])
    ensures n < |s| ==> IsWs(s[n])
  {
    if |s| > 0 && !IsWs(s[0]) then 1 + WordLen(s[1..]) else 0
  }

  /** `line.match(/^(\S+)(.*)$/)`: the first word and the rest of the line.
      The match fails on an empty line, on one that starts with white
      space, and on one holding a line terminator anywhere. */
  function FirstWord(line: string): (r: Option<(string, string)>)
    ensures r.None? <==> (|line| == 0 || IsWs(line[0]) || !NoTerminator(line))
    ensures r.Some? ==> r.value.0 + r.value.1 == line && |r.value.0| > 0
    ensures r.Some? ==> forall k :: 0 <= k < |r.value.0| ==> !IsWs(r.value.0[k])
    ensures r.Some? && |r.value.1| > 0 ==> IsWs(r.value.1[0])
  {
    if |line| == 0 || IsWs(line[0]) || !NoTerminator(line) then None
    else
      var n := WordLen(line);
      assert line[..n] + line[n..] == line;
      Some((line[..n], line[n..]))
  }

  /** The later lines of a command, each escaped. */
  function EscapeLines(lines: seq<string>): (r: seq<string>)
    ensures |r| == |lines|
    ensures forall k :: 0 <= k < |lines| ==> r[k] == EscapeHtml(lines[k])
  {
    if |lines| == 0 then [] else [EscapeHtml(lines[0])] + EscapeLines(lines[1..])
  }

  /** The first line of a command: its first word styled by `italic` and
      converted, the rest escaped; escaped whole when it has no first
      word. */
  function FirstLineHtml(line: string, italic: string -> string): string {
    match FirstWord(line)
    case Some((w, rest)) => ChalkHtml(italic(w)) + EscapeHtml(rest)
    case None => EscapeHtml(line)
  }

  /** `formatCommandHtml`, with chalk's italic styling as a parameter: the
      lines of the command, the first one with its first word styled,
      joined by `<br>` and a newline. */
  function FormatCommandHtml(command: string, italic: string -> string): string {
    var lines := Split(command, '\n');
    Join([FirstLineHtml(lines[0], italic)] + EscapeLines(lines[1..]), "<br>\n")
  }

  /** chalk's italic styling when colours are on. */
  function ChalkItalic(w: string): string {
    SgrSeq("3") + w + SgrSeq("23")
  }

  /** On text without line breaks the converter is `escapeHtml`. */
  lemma {:induction false} PlainHtmlEscapes(s: string)
    requires forall k :: 0 <= k < |s| ==> s[k] != '\n' && s[k] != '\r'
    ensures PlainHtml(s) == EscapeHtml(s)
  {
    if |s| > 0 {
      PlainHtmlEscapes(s[1..]);
      assert EscapeEach(s) == EscapeChar(s[0]) + EscapeEach(s[1..]);
    }
  }

  /** A one-line command whose first word holds no ESC: the word in `<i>`,
      the rest escaped. */
  lemma CommandLineItalic(line: string, w: string, rest: string)
    requires '\n' !in line && FirstWord(line) == Some((w, rest))
    requires forall k :: 0 <= k < |w| ==> w[k] != '\U{001B}'
    ensures FormatCommandHtml(line, ChalkItalic) == "<i>" + EscapeHtml(w) + "</i>" + EscapeHtml(rest)
  {
    SplitNoSep(line, '\n');
    ItalicWrap(w);
    PlainHtmlEscapes(w);
    assert EscapeLines([line][1..]) == [];
  }

  /** Only the first line is styled: every later line is escaped whole. */
  lemma CommandMultiLine(first: string, more: string, italic: string -> string)
    requires '\n' !in first
    ensures FormatCommandHtml(first + "\n" + more, italic)
      == FirstLineHtml(first, italic) + "<br>\n" + Join(EscapeLines(Split(more, '\n')), "<br>\n")
  {
    SplitPrefix(first, more, '\n');
    var lines := [first] + Split(more, '\n');
    assert lines[1..] == Split(more, '\n');
    var parts := [FirstLineHtml(first, italic)] + EscapeLines(lines[1..]);
    assert parts[1..] == EscapeLines(Split(more, '\n'));
  }

  // ---------------------------------------------------------------------
  // The `html` builtin

  /** `formatOutputHtml`: empty output is marked as such. */
  function FormatOutputHtml(output: string): (r: string)
    ensures output == "" ==> r == "<em>No output</em>"
    ensures output != "" ==> r == ChalkHtml(output)
  {
    if output == "" then "<em>No output</em>" else ChalkHtml(output)
  }

  function Section(commandHtml: string, outputHtml: string): string {
    "<section><pre class=\"command\">&gt; " + commandHtml + "</pre><pre class=\"output\">" + outputHtml + "</pre></section>"
  }

  /** The section of one history entry. */
  function EntrySection(e: HistoryEntry, italic: string -> string): string {
    Section(FormatCommandHtml(e.command, italic), FormatOutputHtml(e.output))
  }

  /** One section per entry, in order. */
  function Sections(es: seq<HistoryEntry>, italic: string -> string): (r: seq<string>)
    ensures |r| == |es|
    ensures forall k :: 0 <= k < |es| ==> r[k] == EntrySection(es[k], italic)
  {
    if |es| == 0 then [] else [EntrySection(es[0], italic)] + Sections(es[1..], italic)
  }

  /** `htmlHistoryCommand`, with chalk's italic styling as a parameter.
      Help comes first, then the empty-history paragraph, then one section
      for each of the newest `count` entries, oldest first. */
  function HtmlHistory(argv: seq<string>, raw: string, history: seq<HistoryEntry>,
                       italic: string -> string): (r: string)
    ensures IsDoubleHelp(DetectHelpLevel(argv, raw)) ==> r == "TBD -h -h\n"
    ensures IsSingleHelp(DetectHelpLevel(argv, raw)) ==> r == "TBD -h\n"
    ensures !AnyHelp(DetectHelpLevel(argv, raw)) && |history| == 0 ==> r == "<p><em>No history available</em></p>\n"
  {
    var level := DetectHelpLevel(argv, raw);
    if level == Cluster || level == Double then "TBD -h -h\n"
    else if level == Single then "TBD -h\n"
    else if |history| == 0 then "<p><em>No history available</em></p>\n"
    else Join(Sections(LastEntries(history, HtmlCount(argv)), italic), "\n") + "\n"
  }

  /** Without help and with some history, the output is one section for
      each of the last `n` entries, `n` the smaller of the count and the
      history length, joined by newlines. */
  lemma HtmlShowsNewest(argv: seq<string>, raw: string, history: seq<HistoryEntry>, italic: string -> string)
    requires !AnyHelp(DetectHelpLevel(argv, raw)) && |history| > 0
    ensures var n := if HtmlCount(argv) < |history| then HtmlCount(argv) else |history|;
      HtmlHistory(argv, raw, history, italic) == Join(Sections(history[|history| - n..], italic), "\n") + "\n"
  {
    var n := if HtmlCount(argv) < |history| then HtmlCount(argv) else |history|;
    var es := LastEntries(history, HtmlCount(argv));
    assert es == history[|history| - n..];
  }

  /** With three entries and the argument `2`, the last two are shown. */
  lemma HtmlCountExample<T>(a: T, b: T, c: T)
    ensures LastEntries([a, b, c], HtmlCount(["2"])) == [b, c]
    ensures LastEntries([a, b, c], HtmlCount([])) == [c]
    ensures LastEntries([a, b, c], HtmlCount(["10"])) == [a, b, c]
  {
    CountTwo();
    CountTen();
    assert [a, b, c][1..] == [b, c];
    assert [a, b, c][2..] == [c];
  }

  /** `html 2` shows two entries. */
  lemma CountTwo()
    ensures HtmlCount(["2"]) == 2
  {
    ParseIntOfNatToString(2);
    assert NatToString(2) == [DigitChar(2)];
  }

  /** `html 10` shows ten entries. */
  lemma CountTen()
    ensures HtmlCount(["10"]) == 10
  {
    ParseIntOfNatToString(10);
    assert NatToString(10) == NatToString(1) + [DigitChar(0)];
    assert NatToString(1) == [DigitChar(1)];
  }
}

=== FILE: job_builtins.dfy ===
/** The job-control builtins of src/builtins/jobControl.ts (`jobs`, `fg`,
    `bg`, `kill`, `wait`, `suspend`, `disown`, `suspend-job`) over the job
    table. What a builtin writes through `ctx.write` is returned as `out`;
    the job table's own hook calls stay in its trace. Signal delivery is an
    input: `sent` for SIGTSTP, and `deliver` for `kill`. */
module JobBuiltins {
  import opened Wrappers
  import opened Strings
  import opened HelpFlags
  import opened JobControl

  /** What one builtin call leaves behind: the new table, the text written,
      the jobs whose completion it awaits, and an error that escapes it.
      `wait` returns the table as it is once those jobs have ended; `fg`
      returns it as it is when the await begins. */
  datatype Reply = Reply(table: Table, out: string, awaits: seq<nat>, escaped: Option<string>)

  function Wrote(t: Table, out: string): Reply {
    Reply(t, out, [], None)
  }

  datatype Builtin = JobsCmd | FgCmd | BgCmd | KillCmd | WaitCmd | SuspendCmd | DisownCmd | SuspendJobCmd

  /** The cluster-help caption each builtin passes to `respondHelp`. */
  function Caption(b: Builtin): string {
    match b
    case JobsCmd => "List active jobs"
    case FgCmd => "Resume the most recent job in the foreground"
    case BgCmd => "Resume a stopped job in the background"
    case KillCmd => "Send a signal to a job or pid"
    case WaitCmd => "Wait for jobs to finish"
    case SuspendCmd => "Suspend the shell"
    case DisownCmd => "Forget about a job"
    case SuspendJobCmd => "Suspend the current foreground job"
  }

  /** `respondHelp`: the help text for the detected level, if any. */
  function RespondHelp(argv: seq<string>, raw: string, caption: string): (r: Option<string>)
    ensures r.None? <==> !AnyHelp(DetectHelpLevel(argv, raw))
    ensures DetectHelpLevel(argv, raw) == Cluster ==> r == Some(caption + "\n")
    ensures DetectHelpLevel(argv, raw) == Double ==> r == Some("TBD -h -h\n")
    ensures DetectHelpLevel(argv, raw) == Single ==> r == Some("TBD -h\n")
  {
    match DetectHelpLevel(argv, raw)
    case Cluster => Some(caption + "\n")
    case Double => Some("TBD -h -h\n")
    case Single => Some("TBD -h\n")
    case NoHelp => None
  }

  /** The first argument, if any: the spec `fg` and `bg` look up. */
  function FirstArg(argv: seq<string>): Option<string> {
    if |argv| == 0 then None else Some(argv[0])
  }

  // ---------------------------------------------------------------------
  // jobs, fg, bg

  /** `lines.join("\n")` over the formatted jobs. */
  function JobLines(js: seq<Job>): (r: string)
    ensures |js| == 1 ==> r == FormatJob(js[0])
  {
    if |js| == 0 then "" else if |js| == 1 then FormatJob(js[0]) else FormatJob(js[0]) + "\n" + JobLines(js[1..])
  }

  /** Each job's formatted line, each ended by a newline. */
  function TerminatedLines(js: seq<Job>): string {
    if |js| == 0 then "" else FormatJob(js[0]) + "\n" + TerminatedLines(js[1..])
  }

  /** Joining the lines with newlines and ending with one more newline
      terminates every line. */
  lemma {:induction false} JoinedThenNewline(js: seq<Job>)
    requires |js| > 0
    ensures JobLines(js) + "\n" == TerminatedLines(js)
    decreases |js|
  {
    if |js| > 1 {
      JoinedThenNewline(js[1..]);
      assert JobLines(js) + "\n" == FormatJob(js[0]) + "\n" + (JobLines(js[1..]) + "\n");
    }
  }

  /** `jobs` only writes: the table is untouched, nothing is awaited and
      nothing escapes. */
  function Jobs(t: Table, argv: seq<string>, raw: string): (r: Reply)
    ensures r.table == t && r.awaits == [] && r.escaped.None?
    ensures r.out != ""
  {
    match RespondHelp(argv, raw, Caption(JobsCmd))
    case Some(h) => Wrote(t, h)
    case None =>
      var entries := ListJobs(t);
      if |entries| == 0 then Wrote(t, "jobs: no active jobs\n")
      else Wrote(t, JobLines(entries) + "\n")
  }

  /** The name `fg`/`bg` report for a spec they could not resolve. */
  function Target(spec: Option<string>): string {
    if spec.None? then "%+" else spec.value
  }

  /** `fg` awaits at most the job it resumed, and only a resumed job
      changes the table. */
  function Fg(t: Table, argv: seq<string>, raw: string): (r: Reply)
    ensures r.escaped.None?
    ensures r.awaits == [] ==> r.table == t
    ensures r.awaits != [] ==>
      FindJob(t, FirstArg(argv)) == Some(r.awaits[0]) && |r.awaits| == 1
      && t.jobs[r.awaits[0]].status != Done && r.table.foreground == Some(t.jobs[r.awaits[0]].id)
    ensures Valid(t) ==> Valid(r.table)
  {
    match RespondHelp(argv, raw, Caption(FgCmd))
    case Some(h) => Wrote(t, h)
    case None =>
      var spec := FirstArg(argv);
      match FindJob(t, spec)
      case None => Wrote(t, "fg: no such job " + Target(spec) + "\n")
      case Some(k) =>
        if t.jobs[k].status == Done then Wrote(t, "fg: job already complete " + t.jobs[k].command + "\n")
        else Reply(ResumeJobInForeground(t, k), t.jobs[k].command + "\n", [k], None)
  }

  /** `bg` awaits nothing, lets nothing escape and keeps the table
      reachable. */
  function Bg(t: Table, argv: seq<string>, raw: string): (r: Reply)
    ensures r.awaits == [] && r.escaped.None?
    ensures |r.table.jobs| == |t.jobs| && r.table.foreground == t.foreground
    ensures Valid(t) ==> Valid(r.table)
  {
    match RespondHelp(argv, raw, Caption(BgCmd))
    case Some(h) => Wrote(t, h)
    case None =>
      var spec := FirstArg(argv);
      match FindJob(t, spec)
      case None => Wrote(t, "bg: no such job " + Target(spec) + "\n")
      case Some(k) =>
        if t.jobs[k].status != Stopped then Wrote(t, "bg: job not stopped (" + JobStatusLabel(t.jobs[k]) + ")\n")
        else Wrote(ResumeJobInBackground(t, k), "")
  }

  // ---------------------------------------------------------------------
  // kill

  datatype Signal = SigNum(n: int) | SigName(name: string)

  /** What the kill target resolved to. */
  datatype KillTarget = JobTarget(k: nat) | PidTarget(pid: int)

  /** The result of one delivery: the signal went out, `kill` returned
      false, or it threw with a message. */
  datatype Delivery = Sent | NotSent | Failed(message: string)

  /** The signal a leading `-…` argument selects: a number when the rest
      parses as one, else the rest upper-cased, else none. */
  function ParseSignal(value: string): (r: Option<Signal>)
    ensures ParseInt(value).Some? ==> r == Some(SigNum(ParseInt(value).value))
    ensures ParseInt(value).None? && value != "" ==> r == Some(SigName(ToUpper(value)))
    ensures ParseInt(value).None? && value == "" ==> r.None?
  {
    match ParseInt(value)
    case Some(n) => Some(SigNum(n))
    case None => if |value| > 0 then Some(SigName(ToUpper(value))) else None
  }

  /** The targets and signal `kill` is left with after its option. */
  function KillArgs(argv: seq<string>): (r: (seq<string>, Option<Signal>))
    requires |argv| > 0
    ensures StartsWith(argv[0], "-") ==> r == (argv[1..], ParseSignal(argv[0][1..]))
    ensures !StartsWith(argv[0], "-") ==> r == (argv, None)
  {
    if StartsWith(argv[0], "-") then (argv[1..], ParseSignal(argv[0][1..])) else (argv, None)
  }

  /** What `kill` writes for one target, and the error that escapes when
      signalling a job throws. */
  function KillOne(t: Table, spec: string, signal: Option<Signal>,
                   deliver: (KillTarget, Option<Signal>) -> Delivery): (r: (string, Option<string>))
    ensures FindJob(t, Some(spec)).Some? ==>
      var d := deliver(JobTarget(FindJob(t, Some(spec)).value), signal);
      r == (if d == Sent then ("", None) else if d == NotSent then ("kill: failed for " + spec + "\n", None)
            else ("", Some(d.message)))
    ensures FindJob(t, Some(spec)).None? && ParseInt(spec).None? ==> r == ("kill: invalid target " + spec + "\n", None)
    ensures FindJob(t, Some(spec)).None? && ParseInt(spec).Some? ==>
      var d := deliver(PidTarget(ParseInt(spec).value), signal);
      r == (if d.Failed? then ("kill: " + d.message + "\n", None) else ("", None))
  {
    match FindJob(t, Some(spec))
    case Some(k) =>
      (match deliver(JobTarget(k), signal)
       case Sent => ("", None)
       case NotSent => ("kill: failed for " + spec + "\n", None)
       case Failed(m) => ("", Some(m)))
    case None =>
      match ParseInt(spec)
      case None => ("kill: invalid target " + spec + "\n", None)
      case Some(pid) =>
        match deliver(PidTarget(pid), signal)
        case Failed(m) => ("kill: " + m + "\n", None)
        case _ => ("", None)
  }

  /** The first target from index `i` on whose signalling throws, or
      `|specs|` when none does (see `FirstThrowIsFirst`). */
  function FirstThrow(t: Table, specs: seq<string>, i: nat, signal: Option<Signal>,
                      deliver: (KillTarget, Option<Signal>) -> Delivery): (r: nat)
    requires i <= |specs|
    ensures i <= r <= |specs|
    decreases |specs| - i
  {
    if i == |specs| then i
    else if KillOne(t, specs[i], signal, deliver).1.Some? then i
    else FirstThrow(t, specs, i + 1, signal, deliver)
  }

  /** No target before `FirstThrow` throws, and the target it names, if
      any, does. */
  lemma {:induction false} FirstThrowIsFirst(t: Table, specs: seq<string>, i: nat, signal: Option<Signal>,
                                             deliver: (KillTarget, Option<Signal>) -> Delivery)
    requires i <= |specs|
    ensures var n := FirstThrow(t, specs, i, signal, deliver);
      (forall j :: i <= j < n ==> KillOne(t, specs[j], signal, deliver).1.None?)
      && (n < |specs| ==> KillOne(t, specs[n], signal, deliver).1.Some?)
    decreases |specs| - i
  {
    if i < |specs| && KillOne(t, specs[i], signal, deliver).1.None? {
      var n := FirstThrow(t, specs, i + 1, signal, deliver);
      assert FirstThrow(t, specs, i, signal, deliver) == n;
      FirstThrowIsFirst(t, specs, i + 1, signal, deliver);
      forall j | i <= j < n ensures KillOne(t, specs[j], signal, deliver).1.None? {
        if j > i {
          assert i + 1 <= j < n;
        }
      }
    }
  }

  /** What the targets at indices `lo` up to `hi` write, one after another. */
  function KillText(t: Table, specs: seq<string>, lo: nat, hi: nat, signal: Option<Signal>,
                    deliver: (KillTarget, Option<Signal>) -> Delivery): string
    requires lo <= hi <= |specs|
    decreases hi - lo
  {
    if lo == hi then "" else KillOne(t, specs[lo], signal, deliver).0 + KillText(t, specs, lo + 1, hi, signal, deliver)
  }

  /** The targets `kill` gets to from index `i` on: all of them, or those
      up to and including the first whose signalling throws. */
  function Reached(t: Table, specs: seq<string>, i: nat, signal: Option<Signal>,
                   deliver: (KillTarget, Option<Signal>) -> Delivery): (r: nat)
    requires i <= |specs|
    ensures i <= r <= |specs|
  {
    var n := FirstThrow(t, specs, i, signal, deliver);
    if n < |specs| then n + 1 else n
  }

  /** The target loop from target `i` on. Every target reached writes its
      line in order; the loop stops after the first target whose
      signalling throws, and that error escapes. */
  function KillEach(t: Table, specs: seq<string>, i: nat, signal: Option<Signal>,
                    deliver: (KillTarget, Option<Signal>) -> Delivery): (r: (string, Option<string>))
    requires i <= |specs|
    ensures r.0 == KillText(t, specs, i, Reached(t, specs, i, signal, deliver), signal, deliver)
    ensures var n := FirstThrow(t, specs, i, signal, deliver);
      r.1 == if n < |specs| then KillOne(t, specs[n], signal, deliver).1 else None
    decreases |specs| - i
  {
    if i == |specs| then ("", None)
    else
      var (line, escaped) := KillOne(t, specs[i], signal, deliver);
      if escaped.Some? then
        assert FirstThrow(t, specs, i, signal, deliver) == i;
        assert KillText(t, specs, i + 1, i + 1, signal, deliver) == "" && line + "" == line;
        (line, escaped)
      else
        var (rest, e) := KillEach(t, specs, i + 1, signal, deliver);
        var m := Reached(t, specs, i + 1, signal, deliver);
        assert FirstThrow(t, specs, i, signal, deliver) == FirstThrow(t, specs, i + 1, signal, deliver);
        assert Reached(t, specs, i, signal, deliver) == m;
        assert KillText(t, specs, i, m, signal, deliver) == line + KillText(t, specs, i + 1, m, signal, deliver);
        (line + rest, e)
  }

  /** No error escapes the loop exactly when no target's signalling
      throws; otherwise the error is that of the first target that
      throws. */
  lemma KillEachEscapes(t: Table, specs: seq<string>, signal: Option<Signal>,
                        deliver: (KillTarget, Option<Signal>) -> Delivery)
    ensures KillEach(t, specs, 0, signal, deliver).1.None? <==>
      forall i :: 0 <= i < |specs| ==> KillOne(t, specs[i], signal, deliver).1.None?
    ensures KillEach(t, specs, 0, signal, deliver).1.Some? ==> exists i :: (0 <= i < |specs|
      && KillEach(t, specs, 0, signal, deliver).1 == KillOne(t, specs[i], signal, deliver).1
      && forall j :: 0 <= j < i ==> KillOne(t, specs[j], signal, deliver).1.None?)
  {
    var n := FirstThrow(t, specs, 0, signal, deliver);
    FirstThrowIsFirst(t, specs, 0, signal, deliver);
    if n < |specs| {
      assert KillOne(t, specs[n], signal, deliver).1.Some?;
    }
  }

  /** `kill` never changes the table or awaits anything; an error escapes
      only from signalling a target. */
  function Kill(t: Table, argv: seq<string>, raw: string,
                deliver: (KillTarget, Option<Signal>) -> Delivery): (r: Reply)
    ensures r.table == t && r.awaits == []
    ensures r.escaped.Some? ==> |argv| > 0 && exists i :: (0 <= i < |KillArgs(argv).0| &&
      r.escaped == KillOne(t, KillArgs(argv).0[i], KillArgs(argv).1, deliver).1)
    ensures !AnyHelp(DetectHelpLevel(argv, raw)) && |argv| > 0 && |KillArgs(argv).0| > 0 ==>
      var (targets, signal) := KillArgs(argv);
      r.out == KillText(t, targets, 0, Reached(t, targets, 0, signal, deliver), signal, deliver)
      && var n := FirstThrow(t, targets, 0, signal, deliver);
         r.escaped == if n < |targets| then KillOne(t, targets[n], signal, deliver).1 else None
  {
    match RespondHelp(argv, raw, Caption(KillCmd))
    case Some(h) => Wrote(t, h)
    case None =>
      if |argv| == 0 then Wrote(t, "kill: missing target\n")
      else
        var (targets, signal) := KillArgs(argv);
        if |targets| == 0 then Wrote(t, "kill: missing target\n")
        else
          var (out, escaped) := KillEach(t, targets, 0, signal, deliver);
          Reply(t, out, [], escaped)
  }

  // ---------------------------------------------------------------------
  // wait, suspend, disown, suspend-job

  /** The indices of the listed jobs, in order. */
  function VisibleIndices(t: Table, hi: nat): (r: seq<nat>)
    requires hi <= |t.jobs|
    ensures forall k :: k in r <==> (k < hi && Visible(t, k))
    ensures forall i :: 0 <= i < |r| ==> r[i] < hi
    decreases hi
  {
    if hi == 0 then [] else VisibleIndices(t, hi - 1) + (if Visible(t, hi - 1) then [hi - 1] else [])
  }

  /** How an awaited child ends: its `exit` event, with the exit code and
      the signal, or its `error` event. */
  datatype Ending = Exited(code: Option<int>, signal: Option<string>) | Errored

  /** `await waitForJob(job)` for the job at index `k`: a settled waiter
      returns at once; a pending one returns once the child's ending has
      run its handler, which marks the job Done and resolves the waiter. */
  function Settle(t: Table, k: nat, e: Ending): (r: Table)
    requires k < |t.jobs|
    ensures |r.jobs| == |t.jobs| && forall i :: 0 <= i < |t.jobs| && i != k ==> r.jobs[i] == t.jobs[i]
    ensures r.jobs[k].id == t.jobs[k].id && forall i :: Visible(r, i) <==> Visible(t, i)
    ensures WaitResolved(t, t.jobs[k]) ==> r == t
    ensures !WaitResolved(t, t.jobs[k]) ==>
      r.jobs[k].status == Done && r.waiters == ResolveJob(t.waiters, r.jobs[k])
    ensures WaitResolved(r, r.jobs[k])
    ensures forall i :: 0 <= i < |t.jobs| && WaitResolved(t, t.jobs[i]) ==> WaitResolved(r, r.jobs[i])
    ensures Valid(t) ==> Valid(r)
  {
    if WaitResolved(t, t.jobs[k]) then t
    else
      match e
      case Exited(code, signal) => OnExit(t, k, code, signal)
      case Errored => OnError(t, k)
  }

  /** `r` is `t` after the jobs at `ks` were awaited one after another:
      no other job changed, each awaited job is unchanged or Done, no
      settled waiter became pending again, and every awaited job's waiter
      is settled. */
  predicate SettledFrom(t: Table, ks: seq<nat>, r: Table) {
    |r.jobs| == |t.jobs|
    && (forall i :: 0 <= i < |t.jobs| && i !in ks ==> r.jobs[i] == t.jobs[i])
    && (forall k :: k in ks && k < |t.jobs| ==> r.jobs[k] == t.jobs[k] || r.jobs[k].status == Done)
    && (forall i :: 0 <= i < |t.jobs| && WaitResolved(t, t.jobs[i]) ==> WaitResolved(r, r.jobs[i]))
    && Finished(r, ks)
  }

  /** Every awaited job whose waiter was pending in `t` is Done in `r`. */
  predicate Ended(t: Table, ks: seq<nat>, r: Table) {
    |r.jobs| == |t.jobs|
    && forall k :: k in ks && k < |t.jobs| && !WaitResolved(t, t.jobs[k]) ==> r.jobs[k].status == Done
  }

  /** `wait`'s spec loop. Each spec is looked up in the table as it stands
      once the jobs awaited before it have ended; a found job is awaited
      until it ends the way `ends` says, an unknown spec is reported.
      The result is the table afterwards, the text written and the jobs
      awaited, in order. */
  function WaitEach(t: Table, specs: seq<string>, ends: nat -> Ending): (r: (Table, string, seq<nat>))
    ensures forall k :: k in r.2 ==> Visible(t, k)
    ensures SettledFrom(t, r.2, r.0)
    ensures Valid(t) ==> Valid(r.0) && Ended(t, r.2, r.0)
    decreases |specs|
  {
    if |specs| == 0 then (t, "", [])
    else
      match FindJob(t, Some(specs[0]))
      case None =>
        var (t', out, ks) := WaitEach(t, specs[1..], ends);
        (t', "wait: no such job " + specs[0] + "\n" + out, ks)
      case Some(k) =>
        var (t', out, ks) := WaitEach(Settle(t, k, ends(k)), specs[1..], ends);
        SettleThenRest(t, k, ends(k), t', ks);
        (t', out, [k] + ks)
  }

  /** `waitForAllJobs`: every job at `ks` is awaited. The jobs end
      concurrently; the model lets them end in the order of `ks`. */
  function SettleEach(t: Table, ks: seq<nat>, ends: nat -> Ending): (r: Table)
    requires forall i :: 0 <= i < |ks| ==> ks[i] < |t.jobs|
    ensures SettledFrom(t, ks, r)
    ensures Valid(t) ==> Valid(r) && Ended(t, ks, r)
    decreases |ks|
  {
    if |ks| == 0 then t
    else
      var t' := SettleEach(Settle(t, ks[0], ends(ks[0])), ks[1..], ends);
      SettleThenRest(t, ks[0], ends(ks[0]), t', ks[1..]);
      assert ks == [ks[0]] + ks[1..];
      t'
  }

  /** One awaited job followed by the rest of the loop: settling job `k`
      and then awaiting `ks` awaits `[k] + ks`. */
  lemma SettleThenRest(t: Table, k: nat, e: Ending, t2: Table, ks: seq<nat>)
    requires k < |t.jobs|
    requires SettledFrom(Settle(t, k, e), ks, t2)
    requires Valid(Settle(t, k, e)) ==> Valid(t2) && Ended(Settle(t, k, e), ks, t2)
    ensures SettledFrom(t, [k] + ks, t2)
    ensures Valid(t) ==> Valid(t2) && Ended(t, [k] + ks, t2)
  {
    SettleThenRestKeeps(t, k, e, t2, ks);
    if Valid(t) {
      SettleThenRestEnds(t, k, e, t2, ks);
    }
  }

  /** The `SettledFrom` half of `SettleThenRest`. */
  lemma SettleThenRestKeeps(t: Table, k: nat, e: Ending, t2: Table, ks: seq<nat>)
    requires k < |t.jobs|
    requires SettledFrom(Settle(t, k, e), ks, t2)
    ensures SettledFrom(t, [k] + ks, t2)
  {
    var t1 := Settle(t, k, e);
    var all := [k] + ks;
    forall i | 0 <= i < |t.jobs| && i !in all ensures t2.jobs[i] == t.jobs[i] {
      assert i != k && i !in ks;
    }
    forall j | j in all && j < |t.jobs| ensures t2.jobs[j] == t.jobs[j] || t2.jobs[j].status == Done {
      if j != k {
        assert j in ks;
      }
    }
    forall i | 0 <= i < |t.jobs| && WaitResolved(t, t.jobs[i]) ensures WaitResolved(t2, t2.jobs[i]) {
      assert WaitResolved(t1, t1.jobs[i]);
    }
    forall i | 0 <= i < |all| && all[i] < |t2.jobs| ensures WaitResolved(t2, t2.jobs[all[i]]) {
      if i == 0 {
        assert WaitResolved(t1, t1.jobs[k]);
      } else {
        assert all[i] == ks[i - 1];
      }
    }
  }

  /** The `Ended` half of `SettleThenRest`: with distinct ids, settling
      one job leaves every other job's waiter as it was. */
  lemma SettleThenRestEnds(t: Table, k: nat, e: Ending, t2: Table, ks: seq<nat>)
    requires k < |t.jobs| && Valid(t)
    requires SettledFrom(Settle(t, k, e), ks, t2)
    requires Valid(Settle(t, k, e)) ==> Valid(t2) && Ended(Settle(t, k, e), ks, t2)
    ensures Valid(t2) && Ended(t, [k] + ks, t2)
  {
    var t1 := Settle(t, k, e);
    var all := [k] + ks;
    forall j | j in all && j < |t.jobs| && !WaitResolved(t, t.jobs[j]) ensures t2.jobs[j].status == Done {
      if j != k {
        assert j in ks && t1.jobs[j] == t.jobs[j];
        assert t.jobs[j].id != t.jobs[k].id;
        assert !WaitResolved(t1, t1.jobs[j]);
      }
    }
  }

  /** `wait` awaits the listed jobs, or the jobs its specs find, reports
      unknown specs and lets nothing escape; the table it returns is the
      one left once the awaited jobs have ended. */
  function Wait(t: Table, argv: seq<string>, raw: string, ends: nat -> Ending): (r: Reply)
    ensures r.escaped.None?
    ensures forall k :: k in r.awaits ==> Visible(t, k)
    ensures SettledFrom(t, r.awaits, r.table)
    ensures Valid(t) ==> Valid(r.table) && Ended(t, r.awaits, r.table)
  {
    match RespondHelp(argv, raw, Caption(WaitCmd))
    case Some(h) => Wrote(t, h)
    case None =>
      if |argv| == 0 then
        var ks := VisibleIndices(t, |t.jobs|);
        Reply(SettleEach(t, ks, ends), "", ks, None)
      else
        var (t', out, ks) := WaitEach(t, argv, ends);
        Reply(t', out, ks, None)
  }

  /** A builtin that awaits jobs finishes once all their waiters are
      settled. */
  predicate Finished(t: Table, awaits: seq<nat>) {
    forall i :: 0 <= i < |awaits| && awaits[i] < |t.jobs| ==> WaitResolved(t, t.jobs[awaits[i]])
  }

  /** `suspendShell`: input pauses and the shell stops itself. */
  function Suspend(t: Table, argv: seq<string>, raw: string): (r: Reply)
    ensures r.table.jobs == t.jobs && r.table.foreground == t.foreground && r.awaits == [] && r.escaped.None?
    ensures r.table != t ==> r.table.trace == t.trace + [PauseInput] && r.out == ""
  {
    match RespondHelp(argv, raw, Caption(SuspendCmd))
    case Some(h) => Wrote(t, h)
    case None => Wrote(t.(trace := t.trace + [PauseInput]), "")
  }

  /** How many job objects are disowned. */
  function DisownedCount(js: seq<Job>): (n: nat)
    ensures n <= |js|
  {
    if |js| == 0 then 0 else DisownedCount(js[..|js| - 1]) + (if js[|js| - 1].disowned then 1 else 0)
  }

  /** Disowning one visible job raises the count by exactly one. */
  lemma {:induction false} DisownedCountStep(js: seq<Job>, k: nat, j: Job)
    requires k < |js| && !js[k].disowned && j.disowned
    ensures DisownedCount(js[k := j]) == DisownedCount(js) + 1
    decreases |js|
  {
    var n := |js| - 1;
    if k < n {
      assert js[k := j][..n] == js[..n][k := j];
      DisownedCountStep(js[..n], k, j);
    } else {
      assert js[k := j][..n] == js[..n];
    }
  }

  /** The spec loop of `disown`: each spec is resolved against the table
      as the earlier specs left it; found jobs are disowned and unknown
      specs are reported, one line each. `missing` lists the unknown specs
      in order. */
  function DisownEach(t: Table, specs: seq<string>): (r: (Table, string, seq<string>))
    ensures |r.0.jobs| == |t.jobs| && r.0.trace == t.trace && r.0.foreground == t.foreground
    ensures forall k :: 0 <= k < |t.jobs| && t.jobs[k].disowned ==> r.0.jobs[k].disowned
    ensures DisownedCount(r.0.jobs) == DisownedCount(t.jobs) + (|specs| - |r.2|)
    ensures |r.2| <= |specs| && forall s :: s in r.2 ==> s in specs
    ensures r.1 == NoSuchLines(r.2)
    ensures Valid(t) ==> Valid(r.0)
    decreases |specs|
  {
    if |specs| == 0 then (t, "", [])
    else
      match FindJob(t, Some(specs[0]))
      case None =>
        var (t2, out, missing) := DisownEach(t, specs[1..]);
        (t2, "disown: no such job " + specs[0] + "\n" + out, [specs[0]] + missing)
      case Some(k) =>
        var t1 := DisownJob(t, k);
        DisownedCountStep(t.jobs, k, t1.jobs[k]);
        assert t1.jobs == t.jobs[k := t1.jobs[k]];
        DisownEach(t1, specs[1..])
  }

  /** One "no such job" line per unknown spec. */
  function NoSuchLines(missing: seq<string>): string {
    if |missing| == 0 then "" else "disown: no such job " + missing[0] + "\n" + NoSuchLines(missing[1..])
  }

  /** `disown` only disowns jobs: it awaits nothing, lets nothing escape,
      keeps every earlier disowned job disowned and the table reachable. */
  function Disown(t: Table, argv: seq<string>, raw: string): (r: Reply)
    ensures r.awaits == [] && r.escaped.None?
    ensures |r.table.jobs| == |t.jobs| && r.table.foreground == t.foreground && r.table.trace == t.trace
    ensures forall k :: 0 <= k < |t.jobs| && t.jobs[k].disowned ==> r.table.jobs[k].disowned
    ensures DisownedCount(r.table.jobs) <= DisownedCount(t.jobs) + |argv|
    ensures Valid(t) ==> Valid(r.table)
  {
    match RespondHelp(argv, raw, Caption(DisownCmd))
    case Some(h) => Wrote(t, h)
    case None =>
      if |argv| == 0 then Wrote(t, "disown: missing job spec\n")
      else
        var (t2, out, _) := DisownEach(t, argv);
        Wrote(t2, out)
  }

  /** `suspend-job` changes the table only by stopping the foreground
      job, and then writes nothing. */
  function SuspendJob(t: Table, argv: seq<string>, raw: string, sent: bool): (r: Reply)
    ensures r.awaits == [] && r.escaped.None?
    ensures r.table != t ==> (ForegroundJob(t).Some? && sent && r.out == "" && r.table.foreground == None
      && |r.table.jobs| == |t.jobs| && r.table.jobs[ForegroundJob(t).value].status == Stopped)
    ensures Valid(t) ==> Valid(r.table)
  {
    match RespondHelp(argv, raw, Caption(SuspendJobCmd))
    case Some(h) => Wrote(t, h)
    case None =>
      var (t2, ok) := SuspendForegroundJob(t, sent);
      if ok then Wrote(t2, "") else Wrote(t, "suspend-job: no foreground job\n")
  }

  /** Runs builtin `b`. Only `kill` lets an error escape, only `fg` and
      `wait` await jobs, and every builtin keeps the table reachable. */
  function Run(b: Builtin, t: Table, argv: seq<string>, raw: string, sent: bool,
               deliver: (KillTarget, Option<Signal>) -> Delivery, ends: nat -> Ending): (r: Reply)
    ensures b != KillCmd ==> r.escaped.None?
    ensures b != FgCmd && b != WaitCmd ==> r.awaits == []
    ensures Valid(t) ==> Valid(r.table)
  {
    match b
    case JobsCmd => Jobs(t, argv, raw)
    case FgCmd => Fg(t, argv, raw)
    case BgCmd => Bg(t, argv, raw)
    case KillCmd => Kill(t, argv, raw, deliver)
    case WaitCmd => Wait(t, argv, raw, ends)
    case SuspendCmd => Suspend(t, argv, raw)
    case DisownCmd => Disown(t, argv, raw)
    case SuspendJobCmd => SuspendJob(t, argv, raw, sent)
  }

  // ---------------------------------------------------------------------
  // Properties

  /** Any help flag answers with the help text and leaves the job table,
      and everything else, alone. */
  lemma HelpShortCircuits(b: Builtin, t: Table, argv: seq<string>, raw: string, sent: bool,
                          deliver: (KillTarget, Option<Signal>) -> Delivery, ends: nat -> Ending)
    requires AnyHelp(DetectHelpLevel(argv, raw))
    ensures Run(b, t, argv, raw, sent, deliver, ends) == Wrote(t, RespondHelp(argv, raw, Caption(b)).value)
  {
    match b
    case JobsCmd =>
    case FgCmd =>
    case BgCmd =>
    case KillCmd =>
    case WaitCmd =>
    case SuspendCmd =>
    case DisownCmd =>
    case SuspendJobCmd =>
  }

  /** Without help flags, `jobs` reports an empty listing, and otherwise
      writes one formatted line per listed job, in listing order. */
  lemma JobsReply(t: Table, argv: seq<string>, raw: string)
    requires !AnyHelp(DetectHelpLevel(argv, raw))
    ensures Jobs(t, argv, raw).table == t
    ensures ListJobs(t) == [] ==> Jobs(t, argv, raw).out == "jobs: no active jobs\n"
    ensures ListJobs(t) != [] ==> Jobs(t, argv, raw).out == TerminatedLines(ListJobs(t))
    ensures |ListJobs(t)| == 1 ==> Jobs(t, argv, raw).out == FormatJob(ListJobs(t)[0]) + "\n"
  {
    if ListJobs(t) != [] {
      JoinedThenNewline(ListJobs(t));
    }
  }

  /** What `wait` does for one spec: the table once the job it finds has
      ended, what it writes, and what it awaits. */
  function WaitStep(t: Table, spec: string, ends: nat -> Ending): (Table, string, seq<nat>) {
    match FindJob(t, Some(spec))
    case None => (t, "wait: no such job " + spec + "\n", [])
    case Some(k) => (Settle(t, k, ends(k)), "", [k])
  }

  /** Two stretches of the spec loop in a row: the later table, and the
      texts and the awaited jobs of both, in order. */
  function Then(a: (Table, string, seq<nat>), b: (Table, string, seq<nat>)): (Table, string, seq<nat>) {
    (b.0, a.1 + b.1, a.2 + b.2)
  }

  lemma ThenAssoc(a: (Table, string, seq<nat>), b: (Table, string, seq<nat>), c: (Table, string, seq<nat>))
    ensures Then(a, Then(b, c)) == Then(Then(a, b), c)
  {
    AppendAssoc(a.1, b.1, c.1);
    AppendAssoc(a.2, b.2, c.2);
  }

  /** The first spec is handled on its own, and the rest of the specs
      start from the table it leaves. */
  lemma WaitEachCons(t: Table, spec: string, rest: seq<string>, ends: nat -> Ending)
    ensures WaitEach(t, [spec] + rest, ends) == Then(WaitStep(t, spec, ends), WaitEach(WaitStep(t, spec, ends).0, rest, ends))
  {
    assert ([spec] + rest)[0] == spec && ([spec] + rest)[1..] == rest;
    match FindJob(t, Some(spec))
    case None =>
      var w := WaitEach(t, rest, ends);
      assert [] + w.2 == w.2;
    case Some(k) =>
      var w := WaitEach(Settle(t, k, ends(k)), rest, ends);
      assert "" + w.1 == w.1;
  }

  /** `wait`'s spec loop handles the specs one after another: for `a + b`
      it does what it does for `a`, and then, from the table that leaves,
      what it does for `b`. */
  lemma {:induction false} WaitEachAppend(t: Table, a: seq<string>, b: seq<string>, ends: nat -> Ending)
    ensures WaitEach(t, a + b, ends) == Then(WaitEach(t, a, ends), WaitEach(WaitEach(t, a, ends).0, b, ends))
    decreases |a|
  {
    if |a| > 0 {
      var x, xs := a[0], a[1..];
      assert a == [x] + xs && a + b == [x] + (xs + b);
      var s := WaitStep(t, x, ends);
      WaitEachCons(t, x, xs, ends);
      WaitEachCons(t, x, xs + b, ends);
      WaitEachAppend(s.0, xs, b, ends);
      var r := WaitEach(s.0, xs, ends);
      ThenAssoc(s, r, WaitEach(r.0, b, ends));
    } else {
      assert a + b == b;
      var w := WaitEach(t, b, ends);
      assert "" + w.1 == w.1 && [] + w.2 == w.2;
    }
  }

  /** For one spec, `wait` awaits the job it finds, writes nothing and
      returns the table once that job has ended; or it reports that there
      is no such job, awaits nothing and changes nothing. */
  lemma WaitEachOne(t: Table, spec: string, ends: nat -> Ending)
    ensures FindJob(t, Some(spec)).Some? ==>
      var k := FindJob(t, Some(spec)).value;
      WaitEach(t, [spec], ends) == (Settle(t, k, ends(k)), "", [k])
    ensures FindJob(t, Some(spec)).None? ==> WaitEach(t, [spec], ends) == (t, "wait: no such job " + spec + "\n", [])
  {
    assert [spec][0] == spec && [spec][1..] == [];
    match FindJob(t, Some(spec))
    case Some(k) =>
      assert [k] + [] == [k];
    case None =>
      var line := "wait: no such job " + spec + "\n";
      assert line + "" == line;
  }

  /** `wait %+ %-` with three running jobs whose waiters are pending awaits
      the newest job and then the oldest: once the newest has ended, `%-`
      no longer counts it, although looked up beforehand `%-` names the
      middle job. */
  lemma WaitCurrentThenPrevious(t: Table, ends: nat -> Ending)
    requires |t.jobs| == 3
    requires forall k :: 0 <= k < 3 ==> Visible(t, k) && t.jobs[k].status != Done && !WaitResolved(t, t.jobs[k])
    ensures FindJob(t, Some("%-")) == Some(1)
    ensures WaitEach(t, ["%+", "%-"], ends).2 == [2, 0]
  {
    assert Meets(t, 2, NotDone) && Meets(t, 1, NotDone) && Meets(t, 0, NotDone);
    assert FindJob(t, Some("%+")) == Some(2);
    var t1 := Settle(t, 2, ends(2));
    assert !Meets(t1, 2, NotDone) && Meets(t1, 1, NotDone) && Meets(t1, 0, NotDone);
    assert FindJob(t1, Some("%-")) == Some(0);
    WaitEachCons(t, "%+", ["%-"], ends);
    WaitEachOne(t1, "%-", ends);
  }

  /** `fg` refuses an unknown spec (naming `%+` when none was given) and a
      Done job, leaving the table alone; any other job is resumed in the
      foreground and awaited. */
  lemma FgReply(t: Table, argv: seq<string>, raw: string)
    requires !AnyHelp(DetectHelpLevel(argv, raw))
    ensures FindJob(t, FirstArg(argv)).None? ==>
      Fg(t, argv, raw) == Wrote(t, "fg: no such job " + Target(FirstArg(argv)) + "\n")
    ensures FindJob(t, FirstArg(argv)).Some? && t.jobs[FindJob(t, FirstArg(argv)).value].status == Done ==>
      Fg(t, argv, raw).table == t
    ensures FindJob(t, FirstArg(argv)).Some? && t.jobs[FindJob(t, FirstArg(argv)).value].status != Done ==>
      var k := FindJob(t, FirstArg(argv)).value;
      Fg(t, argv, raw).table.foreground == Some(t.jobs[k].id)
      && Fg(t, argv, raw).table.jobs[k].status == Running
      && Fg(t, argv, raw).awaits == [k]
  {
  }

  /** `bg` changes the table only for a Stopped job, which then runs in
      the background; any other job is reported with its status label. */
  lemma BgOnlyStopped(t: Table, argv: seq<string>, raw: string)
    requires !AnyHelp(DetectHelpLevel(argv, raw))
    ensures Bg(t, argv, raw).table != t ==> (
      FindJob(t, FirstArg(argv)).Some?
      && t.jobs[FindJob(t, FirstArg(argv)).value].status == Stopped
      && Bg(t, argv, raw).table.jobs[FindJob(t, FirstArg(argv)).value].status == Running
      && Bg(t, argv, raw).table.jobs[FindJob(t, FirstArg(argv)).value].background)
    ensures FindJob(t, FirstArg(argv)).Some? && t.jobs[FindJob(t, FirstArg(argv)).value].status != Stopped ==>
      Bg(t, argv, raw).out == "bg: job not stopped (" + JobStatusLabel(t.jobs[FindJob(t, FirstArg(argv)).value]) + ")\n"
  {
    var spec := FirstArg(argv);
    if FindJob(t, spec).Some? {
      var k := FindJob(t, spec).value;
      if t.jobs[k].status == Stopped {
        var r := ResumeJobInBackground(t, k);
        assert r.jobs[k].status == Running;
      }
    }
  }

  /** `kill` with nothing to signal says so; a leading option is consumed
      as the signal. */
  lemma KillMissingTarget(t: Table, raw: string, opt: string,
                          deliver: (KillTarget, Option<Signal>) -> Delivery)
    requires !AnyHelp(DetectHelpLevel([], raw)) && !AnyHelp(DetectHelpLevel(["-" + opt], raw))
    ensures Kill(t, [], raw, deliver) == Wrote(t, "kill: missing target\n")
    ensures Kill(t, ["-" + opt], raw, deliver) == Wrote(t, "kill: missing target\n")
  {
    assert StartsWith(["-" + opt][0], "-");
    assert ["-" + opt][1..] == [];
  }

  /** `-9` selects signal 9, `-term` selects TERM, and a bare `-` none. */
  lemma SignalExamples()
    ensures ParseSignal("9") == Some(SigNum(9))
    ensures ParseSignal("term") == Some(SigName("TERM"))
    ensures ParseSignal("") == None
  {
    assert ParseInt("9") == Some(9) by {
      ParseIntOfNatToString(9);
      assert NatToString(9) == [DigitChar(9)];
    }
    assert ParseInt("term") == None by {
      assert TrimStart("term") == "term" by {
        assert WsPrefixLen("term") == 0;
      }
      assert LeadingDigits("term") == "";
    }
    var u := ToUpper("term");
    assert u[0] == 'T' && u[1] == 'E' && u[2] == 'R' && u[3] == 'M';
    assert u == "TERM";
  }

  /** `disown` with no argument is an error and changes nothing. */
  lemma DisownNeedsSpec(t: Table, raw: string)
    requires !AnyHelp(DetectHelpLevel([], raw))
    ensures Disown(t, [], raw) == Wrote(t, "disown: missing job spec\n")
  {
  }

  /** `disown` disowns one job per resolvable spec and reports each other
      spec on a line of its own; already disowned jobs stay disowned. */
  lemma DisownReport(t: Table, argv: seq<string>, raw: string)
    requires !AnyHelp(DetectHelpLevel(argv, raw)) && |argv| > 0
    ensures var (t2, out, missing) := DisownEach(t, argv);
      Disown(t, argv, raw) == Wrote(t2, out)
      && DisownedCount(t2.jobs) + |missing| == DisownedCount(t.jobs) + |argv|
      && out == NoSuchLines(missing)
  {
  }

  /** `suspend-job` without a stoppable foreground job reports it and
      changes nothing. */
  lemma SuspendJobFails(t: Table, argv: seq<string>, raw: string, sent: bool)
    requires !AnyHelp(DetectHelpLevel(argv, raw))
    requires ForegroundJob(t).None? || !sent
    ensures SuspendJob(t, argv, raw, sent) == Wrote(t, "suspend-job: no foreground job\n")
  {
  }

  /** `wait` without arguments awaits every listed job, writes nothing,
      and returns once all of them have settled. */
  lemma WaitAll(t: Table, raw: string, ends: nat -> Ending)
    requires !AnyHelp(DetectHelpLevel([], raw))
    ensures forall k :: k in Wait(t, [], raw, ends).awaits <==> Visible(t, k)
    ensures Wait(t, [], raw, ends).out == ""
    ensures forall k :: Visible(t, k) ==> WaitResolved(Wait(t, [], raw, ends).table, Wait(t, [], raw, ends).table.jobs[k])
  {
    var r := Wait(t, [], raw, ends);
    forall k | Visible(t, k) ensures WaitResolved(r.table, r.table.jobs[k]) {
      var i :| 0 <= i < |r.awaits| && r.awaits[i] == k;
    }
  }

  /** On a fresh table `jobs` reports no jobs and a bare `fg` reports
      `%+`. */
  lemma FreshShellExamples()
    ensures Jobs(Initial, [], "").out == "jobs: no active jobs\n"
    ensures Fg(Initial, [], "").out == "fg: no such job " + "%+" + "\n"
  {
    RawSeparatedExample();
    InitialValid();
    assert RespondHelp([], "", Caption(FgCmd)).None?;
    assert FirstArg([]).None?;
  }
}

=== FILE: job_control.dfy ===
/** The job table of src/jobControl.ts as an explicit state value.
    The module-level variables (`nextJobId`, `jobs`, `doneResolvers`,
    `foregroundJobId`) become fields of `Table`; the child-process
    callbacks become the event functions `OnSpawn`, `OnError` and `OnExit`;
    `process.kill` becomes a boolean input saying whether the signal was
    delivered; and the hook calls are appended to an output trace. */
module JobControl {
  import opened Wrappers
  import opened Strings

  datatype Status = Running | Stopped | Done

  /** A job object. `stoppedAt` records only whether the timestamp is set.
      `spawnedInBackground` is the `background` argument of `registerJob`,
      which the `spawn` handler captures; `background` is the field that
      `fg`, `bg` and `suspend-job` later rewrite. */
  datatype Job = Job(
    id: nat,
    pid: Option<int>,
    command: string,
    status: Status,
    background: bool,
    spawnedInBackground: bool,
    exitCode: Option<int>,
    signal: Option<string>,
    stoppedAt: bool,
    disowned: bool)

  /** One call of a job-control hook. */
  datatype Effect = PauseInput | ResumeInput | RenderPrompt | WriteOut(text: string)

  /** The module state. `jobs` holds every job object ever registered, in
      registration order; the source's `jobs` array is its non-disowned
      part, because `disownJob` prunes a job in the same call that marks it.
      `waiters` maps a job id with a done-promise to whether that promise
      has been resolved. */
  datatype Table = Table(
    nextId: nat,
    jobs: seq<Job>,
    waiters: map<nat, bool>,
    foreground: Option<nat>,
    trace: seq<Effect>)

  const Initial: Table := Table(1, [], map[], None, [])

  /** Every reachable table: ids are 1, 2, 3, … in registration order and
      only registered ids have waiters. */
  ghost predicate Valid(t: Table) {
    t.nextId == |t.jobs| + 1
    && (forall k :: 0 <= k < |t.jobs| ==> t.jobs[k].id == k + 1)
    && (forall id :: id in t.waiters ==> 1 <= id < t.nextId)
  }

  /** JavaScript truthiness of an optional signal name. */
  predicate Truthy(s: Option<string>) {
    s.Some? && s.value != ""
  }

  // ---------------------------------------------------------------------
  // Small steps

  /** `updateJobStatus`: the status changes, `stoppedAt` is set on Stopped
      and cleared on Running, and nothing else changes. */
  function UpdateJobStatus(j: Job, s: Status): (r: Job)
    ensures r.status == s
    ensures s == Stopped ==> r.stoppedAt
    ensures s == Running ==> !r.stoppedAt
    ensures s == Done ==> r.stoppedAt == j.stoppedAt
    ensures r.(status := j.status, stoppedAt := j.stoppedAt) == j
  {
    j.(status := s, stoppedAt := if s == Stopped then true else if s == Running then false else j.stoppedAt)
  }

  /** `jobMessage`: `[id] label command` and a newline. */
  function JobMessage(j: Job, caption: string): string {
    "[" + NatToString(j.id) + "] " + caption + " " + j.command + "\n"
  }

  /** Replaces the job object at index `k`. */
  function SetJob(t: Table, k: nat, j: Job): (r: Table)
    requires k < |t.jobs|
    ensures |r.jobs| == |t.jobs| && r.jobs[k] == j
    ensures forall i :: 0 <= i < |t.jobs| && i != k ==> r.jobs[i] == t.jobs[i]
    ensures r.nextId == t.nextId && r.waiters == t.waiters && r.foreground == t.foreground && r.trace == t.trace
  {
    t.(jobs := t.jobs[k := j])
  }

  /** `resolveJob`: a pending waiter is resolved, and forgotten when the job
      is disowned or done. */
  function ResolveJob(waiters: map<nat, bool>, j: Job): (r: map<nat, bool>)
    ensures j.id !in waiters ==> r == waiters
    ensures j.id in waiters && (j.disowned || j.status == Done) ==> j.id !in r
    ensures j.id in waiters && !j.disowned && j.status != Done ==> j.id in r && r[j.id]
    ensures forall id :: id != j.id ==> (id in r <==> id in waiters)
    ensures forall id :: id != j.id && id in r ==> r[id] == waiters[id]
    ensures forall id :: (id !in waiters || waiters[id]) ==> (id !in r || r[id])
  {
    if j.id !in waiters then waiters
    else if j.disowned || j.status == Done then waiters - {j.id}
    else waiters[j.id := true]
  }

  /** `waitForJob` returns a settled promise: the job has no waiter any
      more, or its waiter was resolved. */
  predicate WaitResolved(t: Table, j: Job) {
    j.id !in t.waiters || t.waiters[j.id]
  }

  // ---------------------------------------------------------------------
  // Registration and the child-process events

  /** `registerJob`: a new Running job with the next id, no exit code and
      no signal, with a pending waiter; a foreground job pauses input and
      takes the foreground slot. */
  function RegisterJob(t: Table, command: string, pid: Option<int>, background: bool): (r: (Table, Job))
    ensures r.1 == Job(t.nextId, pid, command, Running, background, background, None, None, false, false)
    ensures r.0.jobs == t.jobs + [r.1] && r.0.nextId == t.nextId + 1
    ensures r.0.waiters == t.waiters[t.nextId := false]
    ensures !background ==> r.0.foreground == Some(t.nextId) && r.0.trace == t.trace + [PauseInput]
    ensures background ==> r.0.foreground == t.foreground && r.0.trace == t.trace
    ensures Valid(t) ==> Valid(r.0)
  {
    var job := Job(t.nextId, pid, command, Running, background, background, None, None, false, false);
    var t1 := Table(t.nextId + 1, t.jobs + [job], t.waiters[job.id := false], t.foreground,
                    if background then t.trace else t.trace + [PauseInput]);
    (if background then t1 else t1.(foreground := Some(job.id)), job)
  }

  /** The `spawn` handler of the job at index `k`: the pid is refreshed
      when the child reports one, and a job registered in the background
      announces itself, whatever its `background` field says by now. */
  function OnSpawn(t: Table, k: nat, childPid: Option<int>): (r: Table)
    requires k < |t.jobs|
    ensures |r.jobs| == |t.jobs| && forall i :: 0 <= i < |t.jobs| && i != k ==> r.jobs[i] == t.jobs[i]
    ensures r.jobs[k] == t.jobs[k].(pid := if childPid.Some? then childPid else t.jobs[k].pid)
    ensures t.jobs[k].spawnedInBackground ==> r.trace == t.trace + [WriteOut(JobMessage(t.jobs[k], "Started")), RenderPrompt]
    ensures !t.jobs[k].spawnedInBackground ==> r.trace == t.trace
    ensures r.foreground == t.foreground && r.waiters == t.waiters
    ensures Valid(t) ==> Valid(r)
  {
    var j := t.jobs[k].(pid := if childPid.Some? then childPid else t.jobs[k].pid);
    var t1 := SetJob(t, k, j);
    if j.spawnedInBackground then t1.(trace := t1.trace + [WriteOut(JobMessage(j, "Started")), RenderPrompt]) else t1
  }

  /** The `error` handler: the job is Done with exit code 1 and no signal;
      the foreground job gives back the slot and resumes input, any other
      job only re-renders the prompt; the waiter is resolved. */
  function OnError(t: Table, k: nat): (r: Table)
    requires k < |t.jobs|
    ensures |r.jobs| == |t.jobs| && forall i :: 0 <= i < |t.jobs| && i != k ==> r.jobs[i] == t.jobs[i]
    ensures r.jobs[k].status == Done && r.jobs[k].exitCode == Some(1) && r.jobs[k].signal == None
    ensures r.jobs[k].id == t.jobs[k].id && r.jobs[k].command == t.jobs[k].command
    ensures r.jobs[k].disowned == t.jobs[k].disowned
    ensures t.foreground == Some(t.jobs[k].id) ==> r.foreground == None && r.trace == t.trace + [ResumeInput]
    ensures t.foreground != Some(t.jobs[k].id) ==> r.foreground == t.foreground && r.trace == t.trace + [RenderPrompt]
    ensures WaitResolved(r, r.jobs[k]) && r.waiters == ResolveJob(t.waiters, r.jobs[k])
    ensures Valid(t) ==> Valid(r)
  {
    var j := UpdateJobStatus(t.jobs[k], Done).(exitCode := Some(1), signal := None);
    var t1 := SetJob(t, k, j);
    var t2 := if t.foreground == Some(j.id) then t1.(foreground := None, trace := t1.trace + [ResumeInput])
              else t1.(trace := t1.trace + [RenderPrompt]);
    t2.(waiters := ResolveJob(t2.waiters, j))
  }

  /** The label `exit` reports for a job that was not in the foreground. */
  function ExitLabel(signal: Option<string>): string {
    if Truthy(signal) then "Stopped (" + signal.value + ")" else "Done"
  }

  /** The `exit` handler: the exit code (if numeric) and signal are
      recorded and the job is Done; the foreground job gives back the slot
      and resumes input; any other job, unless disowned, writes a Done or
      Stopped message and re-renders; the waiter is resolved. */
  function OnExit(t: Table, k: nat, code: Option<int>, signal: Option<string>): (r: Table)
    requires k < |t.jobs|
    ensures |r.jobs| == |t.jobs| && forall i :: 0 <= i < |t.jobs| && i != k ==> r.jobs[i] == t.jobs[i]
    ensures r.jobs[k].status == Done && r.jobs[k].exitCode == code && r.jobs[k].signal == signal
    ensures r.jobs[k].id == t.jobs[k].id && r.jobs[k].command == t.jobs[k].command
    ensures r.jobs[k].disowned == t.jobs[k].disowned
    ensures t.foreground == Some(t.jobs[k].id) ==> r.foreground == None && r.trace == t.trace + [ResumeInput]
    ensures t.foreground != Some(t.jobs[k].id) && !t.jobs[k].disowned ==>
      r.foreground == t.foreground
      && r.trace == t.trace + [WriteOut(JobMessage(t.jobs[k], ExitLabel(signal))), RenderPrompt]
    ensures t.foreground != Some(t.jobs[k].id) && t.jobs[k].disowned ==>
      r.foreground == t.foreground && r.trace == t.trace
    ensures WaitResolved(r, r.jobs[k]) && r.waiters == ResolveJob(t.waiters, r.jobs[k])
    ensures Valid(t) ==> Valid(r)
  {
    var j := UpdateJobStatus(t.jobs[k].(exitCode := code, signal := signal), Done);
    var t1 := SetJob(t, k, j);
    var wasForeground := t.foreground == Some(j.id);
    var t2 := if wasForeground then t1.(foreground := None, trace := t1.trace + [ResumeInput]) else t1;
    var t3 := if !wasForeground && !j.disowned
              then t2.(trace := t2.trace + [WriteOut(JobMessage(j, ExitLabel(signal))), RenderPrompt])
              else t2;
    t3.(waiters := ResolveJob(t3.waiters, j))
  }

  // ---------------------------------------------------------------------
  // Queries

  /** The job at index `k` is in the source's `jobs` array. */
  predicate Visible(t: Table, k: int) {
    0 <= k < |t.jobs| && !t.jobs[k].disowned
  }

  /** `listJobs`: the non-disowned jobs in registration order. */
  function ListJobs(t: Table): (r: seq<Job>)
    ensures |r| <= |t.jobs|
    ensures forall j :: j in r <==> (j in t.jobs && !j.disowned)
    decreases |t.jobs|
  {
    if |t.jobs| == 0 then []
    else
      var last := t.jobs[|t.jobs| - 1];
      var front := ListJobs(t.(jobs := t.jobs[..|t.jobs| - 1]));
      assert t.jobs == t.jobs[..|t.jobs| - 1] + [last];
      if last.disowned then front else front + [last]
  }

  /** The ways `findJob` picks a job. */
  datatype Criterion = NotDone | AnyJob | WithId(n: int) | WithPid(n: int) | CommandPrefix(p: string)

  predicate Meets(t: Table, k: int, c: Criterion) {
    Visible(t, k)
    && match c
       case NotDone => t.jobs[k].status != Done
       case AnyJob => true
       case WithId(n) => t.jobs[k].id == n
       case WithPid(n) => t.jobs[k].pid == Some(n)
       case CommandPrefix(p) => StartsWith(t.jobs[k].command, p)
  }

  /** The newest visible job below index `hi` meeting `c`. */
  function Newest(t: Table, hi: nat, c: Criterion): (r: Option<nat>)
    requires hi <= |t.jobs|
    ensures r.Some? ==> r.value < hi && Meets(t, r.value, c)
    ensures r.Some? ==> forall k :: r.value < k < hi ==> !Meets(t, k, c)
    ensures r.None? ==> forall k :: 0 <= k < hi ==> !Meets(t, k, c)
    decreases hi
  {
    if hi == 0 then None
    else if Meets(t, hi - 1, c) then Some(hi - 1)
    else Newest(t, hi - 1, c)
  }

  /** The oldest visible job from index `lo` on meeting `c`. */
  function Oldest(t: Table, lo: nat, c: Criterion): (r: Option<nat>)
    requires lo <= |t.jobs|
    ensures r.Some? ==> lo <= r.value < |t.jobs| && Meets(t, r.value, c)
    ensures r.Some? ==> forall k :: lo <= k < r.value ==> !Meets(t, k, c)
    ensures r.None? ==> forall k :: lo <= k < |t.jobs| ==> !Meets(t, k, c)
    decreases |t.jobs| - lo
  {
    if lo == |t.jobs| then None
    else if Meets(t, lo, c) then Some(lo)
    else Oldest(t, lo + 1, c)
  }

  /** `getForegroundJob`: the visible job whose id is in the slot. */
  function ForegroundJob(t: Table): (r: Option<nat>)
    ensures t.foreground.None? ==> r.None?
    ensures r.Some? ==> Visible(t, r.value) && t.foreground == Some(t.jobs[r.value].id)
    ensures t.foreground.Some? && r.None? ==> forall k :: Visible(t, k) ==> t.jobs[k].id != t.foreground.value
  {
    match t.foreground
    case None => None
    case Some(id) =>
      var r := Oldest(t, 0, WithId(id));
      NoneMeetsNone(t, WithId(id));
      r
  }

  /** When the forward search from 0 finds nothing, no visible job meets
      the criterion. */
  lemma NoneMeetsNone(t: Table, c: Criterion)
    ensures Oldest(t, 0, c).None? ==> forall k :: Visible(t, k) ==> !Meets(t, k, c)
  {
    if Oldest(t, 0, c).None? {
      forall k | Visible(t, k) ensures !Meets(t, k, c) {
        assert 0 <= k < |t.jobs|;
      }
    }
  }

  /** A spec meaning "the current job": absent, empty, `%` or `%+`. */
  predicate CurrentSpec(spec: Option<string>) {
    spec.None? || spec.value == "" || spec.value == "%" || spec.value == "%+"
  }

  /** The spec with one leading `%` removed. */
  function Normalized(spec: string): (r: string)
    ensures StartsWith(spec, "%") ==> spec == "%" + r
    ensures !StartsWith(spec, "%") ==> r == spec
  {
    if StartsWith(spec, "%") then spec[1..] else spec
  }

  /** `findJob`. The result is an index into the table. */
  function FindJob(t: Table, spec: Option<string>): (r: Option<nat>)
    ensures r.Some? ==> Visible(t, r.value)
  {
    var n := |t.jobs|;
    if CurrentSpec(spec) then
      var a := Newest(t, n, NotDone);
      if a.Some? then a else Newest(t, n, AnyJob)
    else if spec.value == "%-" then
      match Newest(t, n, NotDone)
      case None => None
      case Some(m) => Newest(t, m, NotDone)
    else
      var norm := Normalized(spec.value);
      match ParseInt(norm)
      case Some(id) =>
        var a := Oldest(t, 0, WithId(id));
        if a.Some? then a else Oldest(t, 0, WithPid(id))
      case None => Oldest(t, 0, CommandPrefix(norm))
  }

  /** The current-job spec picks the newest job that is not Done, and the
      newest job of all when every job is Done; nothing only when there are
      no visible jobs. */
  lemma FindCurrent(t: Table, spec: Option<string>)
    requires CurrentSpec(spec)
    ensures (exists k :: Meets(t, k, NotDone)) ==> (
      FindJob(t, spec).Some? && Meets(t, FindJob(t, spec).value, NotDone)
      && forall k :: FindJob(t, spec).value < k ==> !Meets(t, k, NotDone))
    ensures (forall k :: !Meets(t, k, NotDone)) ==> (
      (FindJob(t, spec).Some? <==> exists k :: Visible(t, k))
      && (FindJob(t, spec).Some? ==> forall k :: FindJob(t, spec).value < k ==> !Visible(t, k)))
  {
    var b := Newest(t, |t.jobs|, AnyJob);
    forall k | b.Some? && b.value < k ensures !Visible(t, k) {
      assert !Meets(t, k, AnyJob) || k >= |t.jobs|;
    }
    forall k | b.None? ensures !Visible(t, k) {
      assert !Meets(t, k, AnyJob) || k >= |t.jobs| || k < 0;
    }
  }

  /** `%-` picks the second-newest job that is not Done: exactly one
      not-Done job is newer. With fewer than two such jobs it finds
      nothing. */
  lemma FindPrevious(t: Table)
    ensures FindJob(t, Some("%-")).Some? ==> (
      var k := FindJob(t, Some("%-")).value;
      Meets(t, k, NotDone)
      && exists m :: k < m && Meets(t, m, NotDone) && forall i :: k < i && i != m ==> !Meets(t, i, NotDone))
    ensures FindJob(t, Some("%-")).None? ==>
      forall a, b :: Meets(t, a, NotDone) && Meets(t, b, NotDone) ==> a == b
  {
    assert !CurrentSpec(Some("%-"));
    var r := FindJob(t, Some("%-"));
    var top := Newest(t, |t.jobs|, NotDone);
    if r.None? {
      forall a, b | Meets(t, a, NotDone) && Meets(t, b, NotDone) ensures a == b {
        assert top.Some?;
        assert a <= top.value && b <= top.value;
      }
    }
  }

  /** A spec that parses as an integer `n` (after one optional `%`)
      matches the oldest job with id `n`, else the oldest with pid `n`. */
  lemma FindNumeric(t: Table, spec: string, n: int)
    requires !CurrentSpec(Some(spec)) && spec != "%-"
    requires ParseInt(Normalized(spec)) == Some(n)
    ensures FindJob(t, Some(spec)).Some? ==> (
      var k := FindJob(t, Some(spec)).value;
      (t.jobs[k].id == n && forall i :: 0 <= i < k ==> !Meets(t, i, WithId(n)))
      || (t.jobs[k].pid == Some(n) && (forall i :: !Meets(t, i, WithId(n)))
          && forall i :: 0 <= i < k ==> !Meets(t, i, WithPid(n))))
    ensures FindJob(t, Some(spec)).None? ==> forall i :: Visible(t, i) ==> t.jobs[i].id != n && t.jobs[i].pid != Some(n)
  {
    var a := Oldest(t, 0, WithId(n));
    var b := Oldest(t, 0, WithPid(n));
    if a.None? {
      assert forall i :: !Meets(t, i, WithId(n)) by {
        forall i ensures !Meets(t, i, WithId(n)) {
          if 0 <= i < |t.jobs| {
          }
        }
      }
      if b.None? {
        forall i | Visible(t, i) ensures t.jobs[i].id != n && t.jobs[i].pid != Some(n) {
          assert !Meets(t, i, WithId(n)) && !Meets(t, i, WithPid(n));
        }
      }
    }
  }

  /** Any other spec matches the oldest job whose command starts with it
      (one leading `%` removed). */
  lemma FindByPrefix(t: Table, spec: string)
    requires !CurrentSpec(Some(spec)) && spec != "%-"
    requires ParseInt(Normalized(spec)).None?
    ensures FindJob(t, Some(spec)).Some? ==> (
      var k := FindJob(t, Some(spec)).value;
      StartsWith(t.jobs[k].command, Normalized(spec))
      && forall i :: 0 <= i < k ==> !Meets(t, i, CommandPrefix(Normalized(spec))))
    ensures FindJob(t, Some(spec)).None? ==>
      forall i :: Visible(t, i) ==> !StartsWith(t.jobs[i].command, Normalized(spec))
  {
    if FindJob(t, Some(spec)).None? {
      forall i | Visible(t, i) ensures !StartsWith(t.jobs[i].command, Normalized(spec)) {
        assert !Meets(t, i, CommandPrefix(Normalized(spec)));
      }
    }
  }

  // ---------------------------------------------------------------------
  // Commands

  /** `suspendForegroundJob`, where `sent` says whether SIGTSTP was
      delivered. Without a foreground job, or when delivery fails, nothing
      changes and the result is false. Otherwise the job is Stopped and in
      the foreground no more, the slot is cleared, input resumes, the
      Stopped message is written on a fresh line and the prompt re-renders. */
  function SuspendForegroundJob(t: Table, sent: bool): (r: (Table, bool))
    ensures (ForegroundJob(t).None? || !sent) ==> r == (t, false)
    ensures ForegroundJob(t).Some? && sent ==> (
      var k := ForegroundJob(t).value;
      var j := t.jobs[k];
      r.1
      && |r.0.jobs| == |t.jobs| && (forall i :: 0 <= i < |t.jobs| && i != k ==> r.0.jobs[i] == t.jobs[i])
      && r.0.jobs[k] == j.(status := Stopped, stoppedAt := true, background := false)
      && r.0.foreground == None && r.0.waiters == t.waiters
      && r.0.trace == t.trace + [ResumeInput, WriteOut("\n" + JobMessage(j, "Stopped")), RenderPrompt])
    ensures Valid(t) ==> Valid(r.0)
  {
    match ForegroundJob(t)
    case None => (t, false)
    case Some(k) =>
      if !sent then (t, false)
      else
        var j := UpdateJobStatus(t.jobs[k], Stopped).(background := false);
        var t1 := SetJob(t, k, j);
        (t1.(foreground := None,
             trace := t1.trace + [ResumeInput, WriteOut("\n" + JobMessage(j, "Stopped")), RenderPrompt]),
         true)
  }

  /** `resumeJobInForeground`: a Done job is left alone; any other job
      pauses input, takes the slot and runs in the foreground. */
  function ResumeJobInForeground(t: Table, k: nat): (r: Table)
    requires k < |t.jobs|
    ensures t.jobs[k].status == Done ==> r == t
    ensures t.jobs[k].status != Done ==> (
      |r.jobs| == |t.jobs| && (forall i :: 0 <= i < |t.jobs| && i != k ==> r.jobs[i] == t.jobs[i])
      && r.jobs[k] == t.jobs[k].(status := Running, stoppedAt := false, background := false)
      && r.foreground == Some(t.jobs[k].id) && r.waiters == t.waiters
      && r.trace == t.trace + [PauseInput])
    ensures Valid(t) ==> Valid(r)
  {
    if t.jobs[k].status == Done then t
    else
      var j := UpdateJobStatus(t.jobs[k], Running).(background := false);
      var t1 := SetJob(t, k, j);
      t1.(foreground := Some(j.id), trace := t1.trace + [PauseInput])
  }

  /** `resumeJobInBackground`: a Done job is left alone; any other job runs
      in the background and announces that it continued. */
  function ResumeJobInBackground(t: Table, k: nat): (r: Table)
    requires k < |t.jobs|
    ensures t.jobs[k].status == Done ==> r == t
    ensures t.jobs[k].status != Done ==> (
      |r.jobs| == |t.jobs| && (forall i :: 0 <= i < |t.jobs| && i != k ==> r.jobs[i] == t.jobs[i])
      && r.jobs[k] == t.jobs[k].(status := Running, stoppedAt := false, background := true)
      && r.foreground == t.foreground && r.waiters == t.waiters
      && r.trace == t.trace + [WriteOut(JobMessage(t.jobs[k], "Continued")), RenderPrompt])
    ensures Valid(t) ==> Valid(r)
  {
    if t.jobs[k].status == Done then t
    else
      var j := UpdateJobStatus(t.jobs[k], Running).(background := true);
      var t1 := SetJob(t, k, j);
      t1.(trace := t1.trace + [WriteOut(JobMessage(j, "Continued")), RenderPrompt])
  }

  /** `disownJob`: the job is marked disowned (and so leaves the listing)
      and its waiter is resolved and forgotten. */
  function DisownJob(t: Table, k: nat): (r: Table)
    requires k < |t.jobs|
    ensures |r.jobs| == |t.jobs| && (forall i :: 0 <= i < |t.jobs| && i != k ==> r.jobs[i] == t.jobs[i])
    ensures r.jobs[k] == t.jobs[k].(disowned := true)
    ensures !Visible(r, k) && t.jobs[k].id !in r.waiters && WaitResolved(r, r.jobs[k])
    ensures r.foreground == t.foreground && r.trace == t.trace
    ensures Valid(t) ==> Valid(r)
  {
    var j := t.jobs[k].(disowned := true);
    var t1 := SetJob(t, k, j);
    t1.(waiters := ResolveJob(t1.waiters, j))
  }

  // ---------------------------------------------------------------------
  // Formatting

  /** `jobStatusLabel`. */
  function JobStatusLabel(j: Job): (r: string)
    ensures j.status == Running && j.background ==> r == "Running"
    ensures j.status == Running && !j.background ==> r == "Foreground"
    ensures j.status == Stopped ==> r == "Stopped"
    ensures j.status == Done && Truthy(j.signal) ==> r == "Terminated (" + j.signal.value + ")"
    ensures j.status == Done && !Truthy(j.signal) && j.exitCode == Some(0) ==> r == "Done"
    ensures j.status == Done && !Truthy(j.signal) && j.exitCode.Some? && j.exitCode != Some(0) ==>
      r == "Exit " + IntToString(j.exitCode.value)
    ensures j.status == Done && !Truthy(j.signal) && j.exitCode.None? ==> r == "Exit ?"
  {
    match j.status
    case Running => if j.background then "Running" else "Foreground"
    case Stopped => "Stopped"
    case Done =>
      if Truthy(j.signal) then "Terminated (" + j.signal.value + ")"
      else if j.exitCode == Some(0) then "Done"
      else "Exit " + (if j.exitCode.Some? then IntToString(j.exitCode.value) else "?")
  }

  /** `formatJob`: `[id] pid label command`, with `?` for a missing pid. */
  function FormatJob(j: Job): (r: string)
    ensures j.pid.None? ==> r == "[" + NatToString(j.id) + "] ? " + JobStatusLabel(j) + " " + j.command
    ensures j.pid.Some? ==> r == "[" + NatToString(j.id) + "] " + IntToString(j.pid.value) + " " + JobStatusLabel(j) + " " + j.command
  {
    var pid := if j.pid.None? then "?" else IntToString(j.pid.value);
    "[" + NatToString(j.id) + "] " + pid + " " + JobStatusLabel(j) + " " + j.command
  }

  /** The status label tells the four kinds of state apart: a label never
      belongs to two different statuses. */
  lemma LabelDeterminesStatus(a: Job, b: Job)
    requires JobStatusLabel(a) == JobStatusLabel(b)
    ensures a.status == b.status
    ensures a.status == Running ==> a.background == b.background
  {
    LabelShape(a);
    LabelShape(b);
    assert "Running"[..4] == "Runn" && "Foreground"[..4] == "Fore" && "Stopped"[..4] == "Stop";
  }

  /** What the first characters of each label are. */
  lemma LabelShape(j: Job)
    ensures j.status == Running ==> JobStatusLabel(j) == "Running" || JobStatusLabel(j) == "Foreground"
    ensures j.status == Stopped ==> JobStatusLabel(j) == "Stopped"
    ensures j.status == Done ==> (
      |JobStatusLabel(j)| >= 4
      && (JobStatusLabel(j)[..4] == "Term" || JobStatusLabel(j)[..4] == "Done" || JobStatusLabel(j)[..4] == "Exit"))
  {
  }

  // ---------------------------------------------------------------------
  // Properties across several calls

  /** Registering from the initial table numbers the jobs 1, 2, … */
  lemma RegisteredIds(t: Table, k: nat)
    requires Valid(t) && k < |t.jobs|
    ensures t.jobs[k].id == k + 1
  {
  }

  /** A fresh table holds no jobs and is reachable. */
  lemma InitialValid()
    ensures Valid(Initial) && ListJobs(Initial) == [] && FindJob(Initial, None).None?
  {
  }

  /** Suspending the foreground job and bringing it back to the foreground
      restores it as a Running foreground job holding the slot again; the
      trace records the resume-input/message/prompt of the suspend and the
      pause of the resume. */
  lemma SuspendThenForeground(t: Table)
    requires ForegroundJob(t).Some?
    ensures var (t1, ok) := SuspendForegroundJob(t, true);
      var k := ForegroundJob(t).value;
      var t2 := ResumeJobInForeground(t1, k);
      ok && t2.foreground == t.foreground
      && t2.jobs[k] == t.jobs[k].(status := Running, stoppedAt := false, background := false)
      && |t2.trace| == |t.trace| + 4 && t2.trace[|t2.trace| - 1] == PauseInput
  {
  }

  /** The `spawn` handler decides by the `background` argument of
      `registerJob`: a job registered in the background and moved to the
      foreground before its child reports `spawn` still announces that it
      started, and a job registered in the foreground never does. */
  lemma SpawnUsesRegistration(t: Table, command: string, pid: Option<int>, background: bool,
                              childPid: Option<int>)
    ensures var (t1, j) := RegisterJob(t, command, pid, background);
      var k := |t.jobs|;
      var t2 := ResumeJobInForeground(t1, k);
      var t3 := OnSpawn(t2, k, childPid);
      !t2.jobs[k].background
      && (background ==> t3.trace == t2.trace + [WriteOut(JobMessage(t2.jobs[k], "Started")), RenderPrompt])
      && (!background ==> t3.trace == t2.trace)
  {
  }

  /** Once disowned, a job is no longer listed while every other listed
      job still is, no spec finds it, and waiting on it returns at once. */
  lemma DisownHides(t: Table, k: nat, spec: Option<string>)
    requires Valid(t) && k < |t.jobs|
    ensures forall j :: j in ListJobs(DisownJob(t, k)) ==> j.id != t.jobs[k].id
    ensures forall i :: Visible(t, i) && i != k ==> t.jobs[i] in ListJobs(DisownJob(t, k))
    ensures FindJob(DisownJob(t, k), spec) != Some(k)
    ensures WaitResolved(DisownJob(t, k), DisownJob(t, k).jobs[k])
  {
    var r := DisownJob(t, k);
    forall j | j in ListJobs(r) ensures j.id != t.jobs[k].id {
      var i :| 0 <= i < |r.jobs| && r.jobs[i] == j;
      assert i != k;
    }
    forall i | Visible(t, i) && i != k ensures t.jobs[i] in ListJobs(r) {
      assert r.jobs[i] == t.jobs[i];
    }
  }

  /** An exit or error of a job that does not hold the slot never touches
      the slot; an exit of the slot holder frees it. */
  lemma ExitFreesSlot(t: Table, k: nat, code: Option<int>, signal: Option<string>)
    requires k < |t.jobs| && t.foreground == Some(t.jobs[k].id)
    ensures OnExit(t, k, code, signal).foreground.None?
    ensures OnError(t, k).foreground.None?
    ensures ForegroundJob(OnExit(t, k, code, signal)).None?
  {
  }

  /** Example labels: exit 0 is Done, exit 2 is `Exit 2`, a signal wins. */
  lemma LabelExamples()
    ensures JobStatusLabel(Job(1, None, "sleep", Done, true, true, Some(0), None, false, false)) == "Done"
    ensures JobStatusLabel(Job(1, None, "sleep", Done, true, true, Some(2), None, false, false)) == "Exit 2"
    ensures JobStatusLabel(Job(1, None, "sleep", Done, true, true, None, Some("SIGTERM"), false, false)) == "Terminated (SIGTERM)"
  {
    assert IntToString(2) == "2" by {
      assert NatToString(2) == [DigitChar(2)];
    }
  }

  /** Example listing line of a running background job. */
  lemma FormatExample()
    ensures FormatJob(Job(3, Some(7), "sleep 5", Running, true, true, None, None, false, false)) == "[3] 7 Running sleep 5"
  {
    assert NatToString(3) == "3" by {
      assert NatToString(3) == [DigitChar(3)];
    }
    assert IntToString(7) == "7" by {
      assert NatToString(7) == [DigitChar(7)];
    }
  }

  /** A job that exited with code 0 is reported as `[3] Done sleep 5`. */
  lemma DoneMessageExample()
    ensures JobMessage(Job(3, Some(7), "sleep 5", Done, true, true, Some(0), None, false, false), "Done") == "[3] Done sleep 5\n"
  {
    assert NatToString(3) == "3" by {
      assert NatToString(3) == [DigitChar(3)];
    }
  }
}

=== FILE: multiline_enter.dfy ===
/** When Enter on an empty last line submits a multi-line buffer
    (src/multilineEnter.ts). */
module MultilineEnter {
  import opened TokenTree
  import Strings

  /** `lineHasContent`: the line's text is not all white space. */
  predicate HasContent(line: Line) {
    Strings.Trim(Concat(line)) != ""
  }

  /** `shouldSubmitOnEmptyLastLine`. */
  method ShouldSubmit(lines: seq<Line>, active: int) returns (submit: bool)
    ensures |lines| == 0 ==> !submit
    ensures !(0 <= active < |lines|) ==> !submit
    ensures active != |lines| - 1 ==> !submit
    ensures 0 <= active < |lines| && |Concat(lines[active])| > 0 ==> !submit
    ensures submit <==>
      0 <= active == |lines| - 1 && Concat(lines[active]) == "" &&
      exists i :: 0 <= i < |lines| && i != active && HasContent(lines[i])
  {
    if |lines| == 0 {
      return false;
    }
    if active < 0 || active >= |lines| {
      return false;
    }
    if active != |lines| - 1 {
      return false;
    }
    if |Concat(lines[active])| > 0 {
      return false;
    }
    for i := 0 to |lines|
      invariant forall j :: 0 <= j < i && j != active ==> !HasContent(lines[j])
    {
      if i == active {
        continue;
      }
      if HasContent(lines[i]) {
        return true;
      }
    }
    return false;
  }

  /** A line holding only white space does not count as content, so a
      buffer of blank lines never submits. */
  lemma BlankLinesNeverSubmit(line: Line)
    requires Strings.AllWs(Concat(line))
    ensures !HasContent(line)
  {
    Strings.TrimEmptyIffAllWs(Concat(line));
  }
}

=== FILE: number_literal.dfy ===
/** The Number token validator of src/tokens.ts: a whole-string match of a
    numeric literal in the sense of ECMA-262 section 12.9.3 (Numeric
    Literals), without the legacy octal and leading-zero forms.

    `NumberLiteral` transcribes the grammar alternative by alternative;
    `IsValid` is a left-to-right scanner; `ValidIffGrammar` proves that the
    two agree on every string. */
module NumberLiteral {
  import opened Wrappers

  datatype Radix = Bin | Oct | Dec | Hex

  predicate IsDigitOf(r: Radix, c: char) {
    match r
    case Bin => c == '0' || c == '1'
    case Oct => '0' <= c <= '7'
    case Dec => '0' <= c <= '9'
    case Hex => '0' <= c <= '9' || 'a' <= c <= 'f' || 'A' <= c <= 'F'
  }

  /** `[d](?:_?[d])*`: digits of radix `r`, where a `_` may stand
      between two digits. */
  predicate Digits(r: Radix, s: string) {
    |s| > 0 && IsDigitOf(r, s[0]) && IsDigitOf(r, s[|s| - 1]) &&
    forall i {:trigger s[i]} :: 0 <= i < |s| ==>
      IsDigitOf(r, s[i]) || (s[i] == '_' && 0 < i < |s| - 1 && IsDigitOf(r, s[i - 1]) && IsDigitOf(r, s[i + 1]))
  }

  // ---------------------------------------------------------------------
  // The grammar

  /** `0|[1-9](?:_?[0-9])*` */
  predicate DecimalInteger(s: string) {
    s == "0" || (Digits(Dec, s) && s[0] != '0')
  }

  predicate IsSign(c: char) { c == '+' || c == '-' }

  predicate IsExponentMark(c: char) { c == 'e' || c == 'E' }

  /** `[eE][+-]?digits` */
  predicate Exponent(s: string) {
    |s| > 0 && IsExponentMark(s[0]) &&
    (Digits(Dec, s[1..]) || (|s| > 1 && IsSign(s[1]) && Digits(Dec, s[2..])))
  }

  predicate OptExponent(s: string) {
    s == [] || Exponent(s)
  }

  /** `int.digits?exp?`, split after the integer part at `i` and after
      the fraction at `j`. */
  predicate FractionForm(s: string, i: nat, j: nat) {
    0 < i < j <= |s| && DecimalInteger(s[..i]) && s[i] == '.' &&
    (j == i + 1 || Digits(Dec, s[i + 1..j])) && OptExponent(s[j..])
  }

  /** `.digits exp?`, the fraction ending at `j`. */
  predicate LeadingDotForm(s: string, j: nat) {
    1 < j <= |s| && s[0] == '.' && Digits(Dec, s[1..j]) && OptExponent(s[j..])
  }

  /** `int exp?`, the integer part ending at `i`. */
  predicate IntegerForm(s: string, i: nat) {
    0 < i <= |s| && DecimalInteger(s[..i]) && OptExponent(s[i..])
  }

  /** The three decimal alternatives. */
  predicate DecimalLiteral(s: string) {
    (exists i: nat, j: nat | i < j <= |s| :: FractionForm(s, i, j)) ||
    (exists j: nat | j <= |s| :: LeadingDotForm(s, j)) ||
    (exists i: nat | i <= |s| :: IntegerForm(s, i))
  }

  /** The radix announced by the letter after a leading `0`. */
  function PrefixRadix(c: char): (r: Option<Radix>)
    ensures r.Some? ==> r.value != Dec
  {
    if c == 'x' || c == 'X' then Some(Hex)
    else if c == 'o' || c == 'O' then Some(Oct)
    else if c == 'b' || c == 'B' then Some(Bin)
    else None
  }

  /** `0[xX]hex`, `0[oO]octal`, `0[bB]binary`. */
  predicate PrefixedLiteral(s: string) {
    |s| >= 3 && s[0] == '0' && PrefixRadix(s[1]).Some? && Digits(PrefixRadix(s[1]).value, s[2..])
  }

  /** An integer form followed by `n`. */
  predicate BigIntLiteral(s: string) {
    |s| >= 2 && s[|s| - 1] == 'n' &&
    (DecimalInteger(s[..|s| - 1]) || PrefixedLiteral(s[..|s| - 1]))
  }

  /** `NUMBER_LITERAL_PATTERN` */
  predicate NumberLiteral(s: string) {
    DecimalLiteral(s) || PrefixedLiteral(s) || BigIntLiteral(s)
  }

  // ---------------------------------------------------------------------
  // The scanner

  /** The end of the longest run of `r`-digits (with inner `_`) starting at
      `i`, or `i` when there is none. */
  function ScanDigits(r: Radix, s: string, i: nat): (e: nat)
    requires i <= |s|
    ensures i <= e <= |s|
    ensures e == i <==> !(i < |s| && IsDigitOf(r, s[i]))
    ensures e > i ==> Digits(r, s[i..e]) && Stops(r, s, e)
  {
    if i < |s| && IsDigitOf(r, s[i]) then
      assert Digits(r, s[i..i + 1]);
      ScanRest(r, s, i, i + 1)
    else i
  }

  /** Position `e` cannot continue a digit run. */
  predicate Stops(r: Radix, s: string, e: nat) {
    e == |s| || (e < |s| && !IsDigitOf(r, s[e]) && !(s[e] == '_' && e + 1 < |s| && IsDigitOf(r, s[e + 1])))
  }

  function ScanRest(r: Radix, s: string, start: nat, i: nat): (e: nat)
    requires start < i <= |s| && Digits(r, s[start..i])
    ensures i <= e <= |s| && Digits(r, s[start..e]) && Stops(r, s, e)
    decreases |s| - i
  {
    if i < |s| && IsDigitOf(r, s[i]) then
      DigitsExtend(r, s, start, i);
      ScanRest(r, s, start, i + 1)
    else if i + 1 < |s| && s[i] == '_' && IsDigitOf(r, s[i + 1]) then
      DigitsExtendSep(r, s, start, i);
      ScanRest(r, s, start, i + 2)
    else i
  }

  lemma DigitsExtend(r: Radix, s: string, start: nat, i: nat)
    requires start < i < |s| && Digits(r, s[start..i]) && IsDigitOf(r, s[i])
    ensures Digits(r, s[start..i + 1])
  {
    var a, b := s[start..i], s[start..i + 1];
    forall k | 0 <= k < |b|
      ensures IsDigitOf(r, b[k]) || (b[k] == '_' && 0 < k < |b| - 1 && IsDigitOf(r, b[k - 1]) && IsDigitOf(r, b[k + 1]))
    {
      if k < |a| {
        assert b[k] == a[k];
        if k > 0 { assert b[k - 1] == a[k - 1]; }
        if k + 1 < |a| { assert b[k + 1] == a[k + 1]; }
      }
    }
  }

  lemma DigitsExtendSep(r: Radix, s: string, start: nat, i: nat)
    requires start < i && i + 1 < |s| && Digits(r, s[start..i]) && s[i] == '_' && IsDigitOf(r, s[i + 1])
    ensures Digits(r, s[start..i + 2])
  {
    var a, b := s[start..i], s[start..i + 2];
    forall k | 0 <= k < |b|
      ensures IsDigitOf(r, b[k]) || (b[k] == '_' && 0 < k < |b| - 1 && IsDigitOf(r, b[k - 1]) && IsDigitOf(r, b[k + 1]))
    {
      if k < |a| {
        assert b[k] == a[k];
        if k > 0 { assert b[k - 1] == a[k - 1]; }
        if k + 1 < |a| { assert b[k + 1] == a[k + 1]; }
      }
      if k == |a| { assert b[k - 1] == a[k - 1]; }
    }
  }

  lemma DigitsAt(r: Radix, t: string, k: nat)
    requires Digits(r, t) && k < |t|
    ensures IsDigitOf(r, t[k]) || (t[k] == '_' && 0 < k < |t| - 1 && IsDigitOf(r, t[k - 1]) && IsDigitOf(r, t[k + 1]))
  {
  }

  /** A digit run that cannot be continued is the one the scanner finds. */
  lemma ScanUnique(r: Radix, s: string, start: nat, j: nat)
    requires start < j <= |s| && Digits(r, s[start..j])
    requires j == |s| || (!IsDigitOf(r, s[j]) && s[j] != '_')
    ensures ScanDigits(r, s, start) == j
  {
    assert s[start..j][0] == s[start];
    assert Digits(r, s[start..start + 1]);
    ScanRestUnique(r, s, start, start + 1, j);
  }

  lemma {:induction false} ScanRestUnique(r: Radix, s: string, start: nat, i: nat, j: nat)
    requires start < i <= j <= |s| && Digits(r, s[start..i]) && Digits(r, s[start..j])
    requires j == |s| || (!IsDigitOf(r, s[j]) && s[j] != '_')
    ensures ScanRest(r, s, start, i) == j
    decreases j - i
  {
    if i < j {
      var t := s[start..j];
      assert t[i - start] == s[i];
      if IsDigitOf(r, s[i]) {
        DigitsExtend(r, s, start, i);
        ScanRestUnique(r, s, start, i + 1, j);
      } else {
        var k := i - start;
        DigitsAt(r, t, k);
        assert t[k + 1] == s[i + 1];
        DigitsExtendSep(r, s, start, i);
        ScanRestUnique(r, s, start, i + 2, j);
      }
    }
  }

  /** The whole tail from `i` is a digit run exactly when the scanner
      reaches the end. */
  lemma DigitsToEnd(r: Radix, s: string, i: nat)
    requires i <= |s|
    ensures Digits(r, s[i..]) <==> ScanDigits(r, s, i) == |s| > i
  {
    assert s[i..|s|] == s[i..];
    if Digits(r, s[i..]) {
      ScanUnique(r, s, i, |s|);
    }
  }

  /** The end of the leading decimal integer (`0` or `[1-9]` digits), or 0. */
  function IntegerEnd(s: string): (ip: nat)
    requires |s| > 0
    ensures ip <= |s|
    ensures ip == 0 <==> !IsDigitOf(Dec, s[0])
    ensures ip > 0 ==> DecimalInteger(s[..ip])
  {
    if s[0] == '0' then
      assert s[..1] == "0";
      1
    else if '1' <= s[0] <= '9' then
      var e := ScanDigits(Dec, s, 0);
      assert s[0..e] == s[..e];
      e
    else 0
  }

  /** An optional exponent starting at `k` runs to the end of `s`. */
  predicate ExponentAt(s: string, k: nat)
    requires k <= |s|
  {
    k == |s| ||
    (IsExponentMark(s[k]) &&
      var d := if k + 1 < |s| && IsSign(s[k + 1]) then k + 2 else k + 1;
      ScanDigits(Dec, s, d) == |s| > d)
  }

  /** `isValidJsNumberLiteral` */
  predicate IsValid(s: string) {
    if |s| == 0 then false
    else if |s| >= 2 && s[0] == '0' && PrefixRadix(s[1]).Some? then
      var e := ScanDigits(PrefixRadix(s[1]).value, s, 2);
      e > 2 && (e == |s| || (e == |s| - 1 && s[e] == 'n'))
    else
      var ip := IntegerEnd(s);
      if ip == |s| then true
      else if s[ip] == 'n' then ip > 0 && ip == |s| - 1
      else if s[ip] == '.' then
        var f := ScanDigits(Dec, s, ip + 1);
        (ip > 0 || f > ip + 1) && ExponentAt(s, f)
      else ip > 0 && ExponentAt(s, ip)
  }

  // ---------------------------------------------------------------------
  // Scanner and grammar agree

  lemma ExponentAtIff(s: string, k: nat)
    requires k <= |s|
    ensures ExponentAt(s, k) <==> OptExponent(s[k..])
  {
    if k < |s| && IsExponentMark(s[k]) {
      var t := s[k..];
      assert t[1..] == s[k + 1..];
      if k + 1 < |s| && IsSign(s[k + 1]) {
        assert t[2..] == s[k + 2..];
        DigitsToEnd(Dec, s, k + 2);
        assert !Digits(Dec, t[1..]) by { assert t[1..][0] == s[k + 1]; }
      } else {
        DigitsToEnd(Dec, s, k + 1);
      }
    }
  }

  /** A decimal integer followed by the end or by `.`, `e`, `E` or `n`
      ends where `IntegerEnd` says. */
  lemma IntegerEndUnique(s: string, i: nat)
    requires 0 < i <= |s| && DecimalInteger(s[..i])
    requires i == |s| || s[i] == '.' || IsExponentMark(s[i]) || s[i] == 'n'
    ensures IntegerEnd(s) == i
  {
    assert s[..i][0] == s[0];
    if s[..i] != "0" {
      assert s[0..i] == s[..i];
      ScanUnique(Dec, s, 0, i);
    }
  }

  /** After `0x`, `0o` or `0b` no decimal alternative can match. */
  lemma PrefixedNotDecimal(s: string)
    requires |s| >= 2 && s[0] == '0' && PrefixRadix(s[1]).Some?
    ensures !DecimalLiteral(s)
    ensures |s| >= 2 && s[|s| - 1] == 'n' ==> !DecimalInteger(s[..|s| - 1])
  {
    forall i | 0 < i <= |s| && DecimalInteger(s[..i]) ensures i == 1 && s[i..][0] == s[1] {
      assert s[..i][0] == s[0];
    }
    assert forall i: nat, j: nat :: !FractionForm(s, i, j);
    assert forall i: nat :: !IntegerForm(s, i);
  }

  /** The scanner accepts exactly the strings the grammar describes. */
  lemma ValidIffGrammar(s: string)
    ensures IsValid(s) <==> NumberLiteral(s)
  {
    if |s| == 0 {
    } else if |s| >= 2 && s[0] == '0' && PrefixRadix(s[1]).Some? {
      PrefixedValid(s);
    } else {
      DecimalValid(s);
    }
  }

  lemma PrefixedValid(s: string)
    requires |s| >= 2 && s[0] == '0' && PrefixRadix(s[1]).Some?
    ensures IsValid(s) <==> NumberLiteral(s)
  {
    var r := PrefixRadix(s[1]).value;
    var e := ScanDigits(r, s, 2);
    PrefixedNotDecimal(s);
    DigitsToEnd(r, s, 2);
    if |s| >= 3 && s[|s| - 1] == 'n' {
      var u := s[..|s| - 1];
      assert u[2..] == s[2..|s| - 1];
      assert u[0] == s[0] && u[1] == s[1];
      if Digits(r, s[2..|s| - 1]) {
        ScanUnique(r, s, 2, |s| - 1);
      }
      if e == |s| - 1 && e > 2 {
        assert PrefixedLiteral(u);
      }
    }
  }

  lemma DecimalValid(s: string)
    requires |s| > 0 && !(|s| >= 2 && s[0] == '0' && PrefixRadix(s[1]).Some?)
    ensures IsValid(s) <==> NumberLiteral(s)
  {
    var ip := IntegerEnd(s);
    assert !PrefixedLiteral(s);
    assert !(|s| >= 2 && PrefixedLiteral(s[..|s| - 1]));
    if IsValid(s) {
      ScanToGrammar(s);
    }
    if NumberLiteral(s) {
      GrammarToScan(s);
    }
  }

  lemma ScanToGrammar(s: string)
    requires |s| > 0 && !(|s| >= 2 && s[0] == '0' && PrefixRadix(s[1]).Some?)
    requires IsValid(s)
    ensures NumberLiteral(s)
  {
    var ip := IntegerEnd(s);
    if ip == |s| {
      assert s[ip..] == [];
      assert IntegerForm(s, ip);
    } else if s[ip] == 'n' {
      assert s[..|s| - 1] == s[..ip];
      assert BigIntLiteral(s);
    } else if s[ip] == '.' {
      var f := ScanDigits(Dec, s, ip + 1);
      ExponentAtIff(s, f);
      if ip > 0 {
        assert FractionForm(s, ip, f);
      } else {
        assert LeadingDotForm(s, f);
      }
    } else {
      ExponentAtIff(s, ip);
      assert IntegerForm(s, ip);
    }
  }

  lemma GrammarToScan(s: string)
    requires |s| > 0 && !(|s| >= 2 && s[0] == '0' && PrefixRadix(s[1]).Some?)
    requires NumberLiteral(s)
    requires !PrefixedLiteral(s) && !(|s| >= 2 && PrefixedLiteral(s[..|s| - 1]))
    ensures IsValid(s)
  {
    if i: nat, j: nat :| FractionForm(s, i, j) {
      FractionFormValid(s, i, j);
    } else if j: nat :| LeadingDotForm(s, j) {
      LeadingDotFormValid(s, j);
    } else if i: nat :| IntegerForm(s, i) {
      IntegerFormValid(s, i);
    } else {
      assert BigIntLiteral(s);
      IntegerEndUnique(s, |s| - 1);
    }
  }

  lemma FractionFormValid(s: string, i: nat, j: nat)
    requires FractionForm(s, i, j)
    requires !(|s| >= 2 && s[0] == '0' && PrefixRadix(s[1]).Some?)
    ensures IsValid(s)
  {
    IntegerEndUnique(s, i);
    FractionEnd(s, i + 1, j);
    ExponentAtIff(s, j);
  }

  lemma LeadingDotFormValid(s: string, j: nat)
    requires LeadingDotForm(s, j)
    ensures IsValid(s)
  {
    FractionEnd(s, 1, j);
    ExponentAtIff(s, j);
  }

  lemma IntegerFormValid(s: string, i: nat)
    requires IntegerForm(s, i)
    requires !(|s| >= 2 && s[0] == '0' && PrefixRadix(s[1]).Some?)
    ensures IsValid(s)
  {
    assert i < |s| ==> s[i..][0] == s[i];
    IntegerEndUnique(s, i);
    ExponentAtIff(s, i);
  }

  /** The optional fraction digits from `k` end at `j`, followed by the end
      or an exponent mark. */
  lemma FractionEnd(s: string, k: nat, j: nat)
    requires 0 < k <= j <= |s| && (j == k || Digits(Dec, s[k..j]))
    requires OptExponent(s[j..])
    ensures ScanDigits(Dec, s, k) == j
  {
    assert j < |s| ==> s[j..][0] == s[j];
    if j > k {
      ScanUnique(Dec, s, k, j);
    }
  }

  // ---------------------------------------------------------------------
  // Properties

  /** The empty string is never a number literal. */
  lemma EmptyIsNotLiteral()
    ensures !NumberLiteral("")
  {
    ValidIffGrammar("");
  }

  /** The radix whose digits a literal is written in. */
  function LiteralRadix(s: string): Radix {
    if |s| >= 2 && s[0] == '0' && PrefixRadix(s[1]).Some? then PrefixRadix(s[1]).value else Dec
  }

  /** Every `_` of `s` stands between two digits of radix `r`. */
  predicate SeparatorsInside(r: Radix, s: string) {
    SeparatorsIn(r, s, 0, |s|)
  }

  /** Every `_` of `s[lo..hi]` stands between two digits of radix `r`
      inside that range. */
  predicate SeparatorsIn(r: Radix, s: string, lo: nat, hi: nat)
    requires lo <= hi <= |s|
  {
    forall i :: lo <= i < hi && s[i] == '_' ==>
      lo < i < hi - 1 && IsDigitOf(r, s[i - 1]) && IsDigitOf(r, s[i + 1])
  }

  lemma SeparatorsJoin(r: Radix, s: string, lo: nat, mid: nat, hi: nat)
    requires lo <= mid <= hi <= |s|
    requires SeparatorsIn(r, s, lo, mid) && SeparatorsIn(r, s, mid, hi)
    ensures SeparatorsIn(r, s, lo, hi)
  {
  }

  lemma DigitsSeparators(r: Radix, s: string, lo: nat, hi: nat)
    requires lo <= hi <= |s| && Digits(r, s[lo..hi])
    ensures SeparatorsIn(r, s, lo, hi)
  {
    forall i | lo <= i < hi && s[i] == '_'
      ensures lo < i < hi - 1 && IsDigitOf(r, s[i - 1]) && IsDigitOf(r, s[i + 1])
    {
      var t := s[lo..hi];
      assert t[i - lo] == s[i];
      DigitsAt(r, t, i - lo);
      assert t[i - lo - 1] == s[i - 1] && t[i - lo + 1] == s[i + 1];
    }
  }

  /** The `_` of a valid literal only ever sits between two digits of the
      literal's radix. */
  lemma SeparatorsBetweenDigits(s: string)
    requires NumberLiteral(s)
    ensures SeparatorsInside(LiteralRadix(s), s)
  {
    ValidIffGrammar(s);
    if |s| >= 2 && s[0] == '0' && PrefixRadix(s[1]).Some? {
      PrefixedSeparators(s);
    } else {
      DecimalSeparators(s);
    }
  }

  lemma PrefixedSeparators(s: string)
    requires IsValid(s) && |s| >= 2 && s[0] == '0' && PrefixRadix(s[1]).Some?
    ensures SeparatorsInside(LiteralRadix(s), s)
  {
    var r := LiteralRadix(s);
    var e := ScanDigits(r, s, 2);
    DigitsSeparators(r, s, 2, e);
    SeparatorsJoin(r, s, 0, 2, e);
    SeparatorsJoin(r, s, 0, e, |s|);
  }

  lemma DecimalSeparators(s: string)
    requires IsValid(s) && !(|s| >= 2 && s[0] == '0' && PrefixRadix(s[1]).Some?)
    ensures SeparatorsInside(Dec, s)
  {
    var ip := IntegerEnd(s);
    if ip > 0 && s[..ip] != "0" {
      assert s[0..ip] == s[..ip];
      DigitsSeparators(Dec, s, 0, ip);
    }
    assert SeparatorsIn(Dec, s, 0, ip);
    if ip == |s| {
    } else if s[ip] == 'n' {
      SeparatorsJoin(Dec, s, 0, ip, |s|);
    } else if s[ip] == '.' {
      var f := ScanDigits(Dec, s, ip + 1);
      if f > ip + 1 {
        DigitsSeparators(Dec, s, ip + 1, f);
      }
      ExponentSeparators(s, f);
      SeparatorsJoin(Dec, s, 0, ip, ip + 1);
      SeparatorsJoin(Dec, s, 0, ip + 1, f);
      SeparatorsJoin(Dec, s, 0, f, |s|);
    } else {
      ExponentSeparators(s, ip);
      SeparatorsJoin(Dec, s, 0, ip, |s|);
    }
  }

  lemma ExponentSeparators(s: string, k: nat)
    requires k <= |s| && ExponentAt(s, k)
    ensures SeparatorsIn(Dec, s, k, |s|)
  {
    if k < |s| {
      var d := if k + 1 < |s| && IsSign(s[k + 1]) then k + 2 else k + 1;
      assert SeparatorsIn(Dec, s, k, d);
      DigitsSeparators(Dec, s, d, |s|);
      SeparatorsJoin(Dec, s, k, d, |s|);
    }
  }

  /** An `n` suffix only ever follows a pure integer form: no fraction
      and no exponent. */
  lemma BigIntIsInteger(s: string)
    requires NumberLiteral(s) && |s| > 0 && s[|s| - 1] == 'n'
    ensures DecimalInteger(s[..|s| - 1]) || PrefixedLiteral(s[..|s| - 1])
    ensures forall i :: 0 <= i < |s| ==> s[i] != '.'
    ensures LiteralRadix(s) != Hex ==> forall i :: 0 <= i < |s| ==> !IsExponentMark(s[i])
  {
    ValidIffGrammar(s);
    if |s| >= 2 && s[0] == '0' && PrefixRadix(s[1]).Some? {
      PrefixedBigInt(s);
    } else {
      DecimalBigInt(s);
    }
  }

  lemma PrefixedBigInt(s: string)
    requires IsValid(s) && |s| >= 2 && s[0] == '0' && PrefixRadix(s[1]).Some? && s[|s| - 1] == 'n'
    ensures PrefixedLiteral(s[..|s| - 1])
    ensures forall i :: 0 <= i < |s| ==> s[i] != '.'
    ensures LiteralRadix(s) != Hex ==> forall i :: 0 <= i < |s| ==> !IsExponentMark(s[i])
  {
    var r := LiteralRadix(s);
    var e := ScanDigits(r, s, 2);
    assert e == |s| - 1;
    var u := s[..|s| - 1];
    assert u[2..] == s[2..e];
    forall i | 2 <= i < e ensures IsDigitOf(r, s[i]) || s[i] == '_' {
      DigitsAt(r, s[2..e], i - 2);
      assert s[2..e][i - 2] == s[i];
    }
  }

  lemma DecimalBigInt(s: string)
    requires IsValid(s) && |s| > 0 && !(|s| >= 2 && s[0] == '0' && PrefixRadix(s[1]).Some?) && s[|s| - 1] == 'n'
    ensures DecimalInteger(s[..|s| - 1])
    ensures forall i :: 0 <= i < |s| ==> s[i] != '.' && !IsExponentMark(s[i])
  {
    var ip := IntegerEnd(s);
    NotEndingInN(s);
    assert ip == |s| - 1;
    var t := s[..ip];
    forall i | 0 <= i < ip ensures IsDigitOf(Dec, s[i]) || s[i] == '_' {
      assert t[i] == s[i];
      if t != "0" {
        DigitsAt(Dec, t, i);
      }
    }
  }

  /** In the decimal alternatives, a literal that ends in `n` took the
      `n` branch of the scanner. */
  lemma NotEndingInN(s: string)
    requires |s| > 0 && !(|s| >= 2 && s[0] == '0' && PrefixRadix(s[1]).Some?)
    requires IsValid(s) && s[|s| - 1] == 'n'
    ensures IntegerEnd(s) < |s| && s[IntegerEnd(s)] == 'n'
  {
    var ip := IntegerEnd(s);
    if ip < |s| && s[ip] == '.' {
      var f := ScanDigits(Dec, s, ip + 1);
      if f < |s| {
        ExponentLastDigit(s, f);
      }
    } else if ip < |s| && s[ip] != 'n' {
      ExponentLastDigit(s, ip);
    }
  }

  lemma ExponentLastDigit(s: string, k: nat)
    requires k < |s| && ExponentAt(s, k)
    ensures IsDigitOf(Dec, s[|s| - 1])
  {
    var d := if k + 1 < |s| && IsSign(s[k + 1]) then k + 2 else k + 1;
    assert s[d..|s|][|s| - 1 - d] == s[|s| - 1];
  }

  // ---------------------------------------------------------------------
  // Examples

  lemma AcceptedDecimalExamples()
    ensures IsValid("0")
    ensures IsValid("1_234")
    ensures IsValid("1.")
    ensures IsValid(".5")
  {
  }

  lemma AcceptedExponentExample()
    ensures IsValid("1.23e+10")
  {
  }

  lemma AcceptedPrefixedExamples()
    ensures IsValid("0xA_B")
    ensures IsValid("0b10_01")
    ensures IsValid("0o7_1")
  {
  }

  lemma AcceptedBigIntExamples()
    ensures IsValid("123n")
    ensures IsValid("0x1Fn")
    ensures IsValid("0o77n")
  {
  }

  lemma RejectedDecimalExamples()
    ensures !IsValid("_1")
    ensures !IsValid("1__0")
    ensures !IsValid("01")
    ensures !IsValid("-1")
    ensures !IsValid("+1")
    ensures !IsValid("1._0")
    ensures !IsValid(".")
  {
  }

  lemma RejectedExponentExamples()
    ensures !IsValid("1e")
    ensures !IsValid("1e+")
  {
  }

  lemma RejectedPrefixedExamples()
    ensures !IsValid("0x")
    ensures !IsValid("0xG")
    ensures !IsValid("0b2")
    ensures !IsValid("0o8")
  {
  }

  lemma RejectedBigIntExamples()
    ensures !IsValid("1.2n")
    ensures !IsValid("1e2n")
    ensures !IsValid("123n0")
    ensures !IsValid("0xFn0")
  {
  }
}

=== FILE: operators.dfy ===
/** The operator registry of src/expr/expr.ts: a primary table from
    `"Type:s"` to one operator or a list of them, and a detail table of
    circumfix operators keyed by `"Type:s:s1"`, filled from an already
    parsed operator file. The two module-level maps become one value;
    an operation that throws returns the tables as they stood at the
    throw together with the message. */
module Operators {
  import opened Wrappers
  import opened Strings
  import TokenRegistry

  datatype OprType = Infix | Prefix | Postfix | Circumfix | PostCircumfix | Meta

  /** The enum's string value, equal to its member name. */
  function TypeName(t: OprType): string {
    match t
    case Infix => "Infix"
    case Prefix => "Prefix"
    case Postfix => "Postfix"
    case Circumfix => "Circumfix"
    case PostCircumfix => "PostCircumfix"
    case Meta => "Meta"
  }

  datatype Opr = Opr(oprType: OprType, s: string, s1: Option<string>)

  /** A primary-table value: one operator, or the list that a second
      registration under the same key turns it into. */
  datatype Slot = Single(opr: Opr) | Group(oprs: seq<Opr>)

  /** The operators a slot holds, in registration order. */
  function Entries(slot: Slot): (os: seq<Opr>)
    ensures slot.Single? ==> os == [slot.opr]
    ensures slot.Group? ==> os == slot.oprs
  {
    match slot
    case Single(o) => [o]
    case Group(os) => os
  }

  datatype Tables = Tables(primary: map<string, Slot>, circum: map<string, Opr>)

  const EmptyTables := Tables(map[], map[])

  /** What `registerOpr` leaves behind: the tables, and the message of the
      error it threw, if any. */
  datatype Outcome = Outcome(tables: Tables, error: Option<string>)

  // ---------------------------------------------------------------------
  // Keys

  /** `buildPrimaryKey`. */
  function PrimaryKey(t: OprType, s: string): (k: string)
    ensures k == TypeName(t) + [':'] + s
  {
    TypeName(t) + ":" + s
  }

  /** `buildOprKey`: the primary key, extended by `":" + s1` when `s1` is
      a non-empty string. */
  function OprKey(s: string, t: OprType, s1: Option<string>): (k: string)
    ensures TokenRegistry.Truthy(s1) ==> k == PrimaryKey(t, s) + ":" + s1.value
    ensures !TokenRegistry.Truthy(s1) ==> k == PrimaryKey(t, s)
  {
    var body := if TokenRegistry.Truthy(s1) then s + ":" + s1.value else s;
    TypeName(t) + ":" + body
  }

  predicate IsCircumfix(t: OprType) {
    t == Circumfix || t == PostCircumfix
  }

  // ---------------------------------------------------------------------
  // Registration

  /** The primary table with `next` added under `key`: stored alone the
      first time, paired with the earlier one the second time, appended
      after that. */
  function AddPrimary(primary: map<string, Slot>, key: string, next: Opr): (p: map<string, Slot>)
    ensures key in p
    ensures Entries(p[key]) == (if key in primary then Entries(primary[key]) else []) + [next]
    ensures key !in primary ==> p[key] == Single(next)
    ensures key in primary && primary[key].Single? ==> p[key] == Group([primary[key].opr, next])
    ensures forall k :: k != key ==> (k in p <==> k in primary)
    ensures forall k :: k != key && k in primary ==> p[k] == primary[k]
  {
    if key !in primary then primary[key := Single(next)]
    else match primary[key]
      case Group(os) => primary[key := Group(os + [next])]
      case Single(o) => primary[key := Group([o, next])]
  }

  function MissingSecondary(key: string): string {
    "Circumfix operators must provide a secondary token for \"" + key + "\""
  }

  function DuplicateCircumfix(key: string): string {
    "Duplicate circumfix operator \"" + key + "\" detected"
  }

  /** `registerOpr`. The primary table is updated first; a circumfix
      operator without a secondary symbol then throws, and so does one
      whose detail key is taken, leaving the detail table as it was. */
  function RegisterOpr(t: Tables, s: string, oprType: OprType, s1: Option<string>): (o: Outcome)
    ensures o.tables.primary == AddPrimary(t.primary, PrimaryKey(oprType, s), Opr(oprType, s, s1))
    ensures !IsCircumfix(oprType) ==> o.error == None && o.tables.circum == t.circum
    ensures IsCircumfix(oprType) && !TokenRegistry.Truthy(s1) ==>
      o.error == Some(MissingSecondary(PrimaryKey(oprType, s))) && o.tables.circum == t.circum
    ensures IsCircumfix(oprType) && TokenRegistry.Truthy(s1) && OprKey(s, oprType, s1) in t.circum ==>
      o.error == Some(DuplicateCircumfix(OprKey(s, oprType, s1))) && o.tables.circum == t.circum
    ensures IsCircumfix(oprType) && TokenRegistry.Truthy(s1) && OprKey(s, oprType, s1) !in t.circum ==>
      o.error == None && o.tables.circum == t.circum[OprKey(s, oprType, s1) := Opr(oprType, s, s1)]
  {
    var next := Opr(oprType, s, s1);
    var primaryKey := PrimaryKey(oprType, s);
    var primary := AddPrimary(t.primary, primaryKey, next);
    if !IsCircumfix(oprType) then Outcome(Tables(primary, t.circum), None)
    else if !TokenRegistry.Truthy(s1) then Outcome(Tables(primary, t.circum), Some(MissingSecondary(primaryKey)))
    else
      var detailKey := OprKey(s, oprType, s1);
      if detailKey in t.circum then Outcome(Tables(primary, t.circum), Some(DuplicateCircumfix(detailKey)))
      else Outcome(Tables(primary, t.circum[detailKey := next]), None)
  }

  // ---------------------------------------------------------------------
  // Loading an operator file

  /** One operator description as parsed: a type name and optional
      overrides of the symbols derived from its key. */
  datatype RawEntry = RawEntry(oprType: string, s: Option<string>, s1: Option<string>)

  /** A value of the parsed file: a missing or null value, one entry, or a
      list of entries. */
  datatype RawValue = Missing | One(entry: RawEntry) | Many(entries: seq<RawEntry>)

  /** The parsed file: anything that is not an object, or its entries in
      `Object.entries` order. */
  datatype Parsed = NotAnObject | Config(pairs: seq<(string, RawValue)>)

  /** `normalizeEntries`. */
  function NormalizeEntries(raw: RawValue): (es: seq<RawEntry>)
    ensures raw.Missing? ==> es == []
    ensures raw.One? ==> es == [raw.entry]
    ensures raw.Many? ==> es == raw.entries
  {
    match raw
    case Missing => []
    case One(e) => [e]
    case Many(es) => es
  }

  /** `assertOprType`, as intended: exactly the six member names. */
  function AssertOprType(value: string): (r: Result<OprType>)
    ensures r.Ok? ==> TypeName(r.value) == value
    ensures r.Err? ==> r.message == UnknownType(value)
    ensures r.Err? <==> forall t: OprType :: TypeName(t) != value
  {
    if value == "Infix" then Ok(Infix)
    else if value == "Prefix" then Ok(Prefix)
    else if value == "Postfix" then Ok(Postfix)
    else if value == "Circumfix" then Ok(Circumfix)
    else if value == "PostCircumfix" then Ok(PostCircumfix)
    else if value == "Meta" then Ok(Meta)
    else Err(UnknownType(value))
  }

  function UnknownType(value: string): string {
    "Unknown operator type \"" + value + "\" in data/oprs.yml"
  }

  /** The names `value in OprType` also finds on the enum object's
      prototype chain: the properties of the Object prototype object
      (section 20.1.3 of ECMA-262) and the legacy accessors of its annex
      B.2.2. */
  const InheritedNames: set<string> := {
    "constructor", "hasOwnProperty", "isPrototypeOf", "propertyIsEnumerable",
    "toLocaleString", "toString", "valueOf",
    "__proto__", "__defineGetter__", "__defineSetter__", "__lookupGetter__", "__lookupSetter__"
  }

  /** What `OprType[value]` can be: a member, or an inherited property. */
  datatype TypeLookup = Member(t: OprType) | Inherited(name: string)

  /** `assertOprType` as written: the `in` test also accepts the inherited
      names, for which the lookup yields a property of the prototype
      rather than an operator type. */
  function AssertOprTypeAsWritten(value: string): (r: Result<TypeLookup>)
    ensures r.Ok? && r.value.Member? ==> TypeName(r.value.t) == value
    ensures r.Ok? && r.value.Inherited? ==> value in InheritedNames && r.value.name == value
    ensures r.Err? <==> value !in InheritedNames && forall t: OprType :: TypeName(t) != value
  {
    match AssertOprType(value)
    case Ok(t) => Ok(Member(t))
    case Err(m) => if value in InheritedNames then Ok(Inherited(value)) else Err(m)
  }

  /** The symbols a key stands for. */
  datatype Symbols = Symbols(s: string, s1: Option<string>)

  /** `splitSymbol`: the non-empty space-separated parts; the first is
      the primary symbol and the rest, joined by single spaces, the
      secondary one. */
  function SplitSymbol(symbol: string): (r: Result<Symbols>)
    ensures r.Err? <==> |NonEmpty(Split(symbol, ' '))| == 0
    ensures r.Ok? ==> r.value.s == NonEmpty(Split(symbol, ' '))[0]
    ensures r.Ok? && |NonEmpty(Split(symbol, ' '))| == 1 ==> r.value.s1 == None
    ensures r.Ok? && |NonEmpty(Split(symbol, ' '))| > 1 ==>
      r.value.s1 == Some(Join(NonEmpty(Split(symbol, ' '))[1..], " "))
  {
    var parts := NonEmpty(Split(symbol, ' '));
    if |parts| == 0 then Err("Operator key must contain at least one symbol token")
    else if |parts| == 1 then Ok(Symbols(parts[0], None))
    else Ok(Symbols(parts[0], Some(Join(parts[1..], " "))))
  }

  /** One entry with its key's symbols filled in: the type checked, and
      `s` and `s1` taken from the entry when it gives them (`??`), from
      the key otherwise. */
  function Resolve(defaults: Symbols, e: RawEntry): (r: Result<Opr>)
    ensures r.Err? ==> r.message == UnknownType(e.oprType)
    ensures r.Ok? ==>
      TypeName(r.value.oprType) == e.oprType && r.value.s == e.s.GetOr(defaults.s)
      && r.value.s1 == (if e.s1.Some? then e.s1 else defaults.s1)
  {
    match AssertOprType(e.oprType)
    case Err(m) => Err(m)
    case Ok(oprType) => Ok(Opr(oprType, e.s.GetOr(defaults.s), if e.s1.Some? then e.s1 else defaults.s1))
  }

  /** The inner loop: register each entry of one key in turn, stopping at
      the first error. The count is the number registered. Types go through
      the corrected `AssertOprType`; see the finding in README. */
  function RegisterEntries(t: Tables, defaults: Symbols, es: seq<RawEntry>): (r: (Tables, Result<nat>))
    ensures r.1.Ok? ==> r.1.value == |es|
    decreases |es|
  {
    if |es| == 0 then (t, Ok(0))
    else
      match Resolve(defaults, es[0])
      case Err(m) => (t, Err(m))
      case Ok(opr) =>
        var o := RegisterOpr(t, opr.s, opr.oprType, opr.s1);
        if o.error.Some? then (o.tables, Err(o.error.value))
        else
          var rest := RegisterEntries(o.tables, defaults, es[1..]);
          (rest.0, if rest.1.Ok? then Ok(rest.1.value + 1) else rest.1)
  }

  /** The number of entries a configuration lists. */
  function EntryCount(pairs: seq<(string, RawValue)>): nat {
    if |pairs| == 0 then 0 else |NormalizeEntries(pairs[0].1)| + EntryCount(pairs[1..])
  }

  /** The outer loop over the keys of the file. */
  function RegisterPairs(t: Tables, pairs: seq<(string, RawValue)>): (r: (Tables, Result<nat>))
    ensures r.1.Ok? ==> r.1.value == EntryCount(pairs)
    decreases |pairs|
  {
    if |pairs| == 0 then (t, Ok(0))
    else match SplitSymbol(pairs[0].0)
      case Err(m) => (t, Err(m))
      case Ok(defaults) =>
        var first := RegisterEntries(t, defaults, NormalizeEntries(pairs[0].1));
        if first.1.Err? then (first.0, Err(first.1.message))
        else
          var rest := RegisterPairs(first.0, pairs[1..]);
          (rest.0, if rest.1.Ok? then Ok(first.1.value + rest.1.value) else rest.1)
  }

  /** `registerOperatorsFromFile` over the parsed file: both tables are
      cleared, then every entry is registered; the result is the count of
      entries or the first error. */
  function LoadOperators(parsed: Parsed): (r: (Tables, Result<nat>))
    ensures parsed.NotAnObject? ==> r == (EmptyTables, Err("Expected operator definitions in data/oprs.yml"))
    ensures parsed.Config? && r.1.Ok? ==> r.1.value == EntryCount(parsed.pairs)
  {
    match parsed
    case NotAnObject => (EmptyTables, Err("Expected operator definitions in data/oprs.yml"))
    case Config(pairs) => RegisterPairs(EmptyTables, pairs)
  }

  // ---------------------------------------------------------------------
  // What a file stands for

  /** The operators the entries of one key stand for, in order. An entry
      of unknown type, which stops a load, stands for none. */
  function Resolved(defaults: Symbols, es: seq<RawEntry>): seq<Opr>
    decreases |es|
  {
    if |es| == 0 then []
    else (match Resolve(defaults, es[0]) case Ok(o) => [o] case Err(_) => []) + Resolved(defaults, es[1..])
  }

  /** The operators a whole file stands for, key after key. */
  function FileOprs(pairs: seq<(string, RawValue)>): seq<Opr>
    decreases |pairs|
  {
    if |pairs| == 0 then []
    else
      (match SplitSymbol(pairs[0].0) case Ok(d) => Resolved(d, NormalizeEntries(pairs[0].1)) case Err(_) => [])
      + FileOprs(pairs[1..])
  }

  /** Those of `os` that belong under primary key `k`, in order. */
  function Keyed(os: seq<Opr>, k: string): seq<Opr>
    decreases |os|
  {
    if |os| == 0 then []
    else (if PrimaryKey(os[0].oprType, os[0].s) == k then [os[0]] else []) + Keyed(os[1..], k)
  }

  /** The operators a primary table holds under `k`. */
  function Listed(p: map<string, Slot>, k: string): seq<Opr> {
    if k in p then Entries(p[k]) else []
  }

  /** The detail table `os` fill on their own: each circumfix operator
      under its detail key, the first one winning a shared key. */
  function Detail(os: seq<Opr>): map<string, Opr>
    decreases |os|
  {
    if |os| == 0 then map[]
    else
      var rest := Detail(os[1..]);
      if IsCircumfix(os[0].oprType) then rest[OprKey(os[0].s, os[0].oprType, os[0].s1) := os[0]] else rest
  }

  lemma {:induction false} KeyedAppend(a: seq<Opr>, b: seq<Opr>, k: string)
    ensures Keyed(a + b, k) == Keyed(a, k) + Keyed(b, k)
    decreases |a|
  {
    if |a| == 0 {
      assert a + b == b;
    } else {
      var ab := a + b;
      assert ab[0] == a[0] && ab[1..] == a[1..] + b;
      var here := if PrimaryKey(a[0].oprType, a[0].s) == k then [a[0]] else [];
      assert Keyed(ab, k) == here + Keyed(a[1..] + b, k);
      assert Keyed(a, k) == here + Keyed(a[1..], k);
      KeyedAppend(a[1..], b, k);
      AppendAssoc(here, Keyed(a[1..], k), Keyed(b, k));
    }
  }

  lemma {:induction false} DetailAppend(a: seq<Opr>, b: seq<Opr>)
    ensures Detail(a + b) == Detail(b) + Detail(a)
    decreases |a|
  {
    if |a| == 0 {
      assert a + b == b;
      assert Detail(b) + map[] == Detail(b);
    } else {
      assert (a + b)[0] == a[0] && (a + b)[1..] == a[1..] + b;
      DetailAppend(a[1..], b);
    }
  }

  /** Registering `opr` and then `rest` adds `[opr] + rest` to every
      primary key's list. */
  lemma PrimaryStep(p0: map<string, Slot>, p1: map<string, Slot>, p2: map<string, Slot>, opr: Opr, rest: seq<Opr>)
    requires p1 == AddPrimary(p0, PrimaryKey(opr.oprType, opr.s), opr)
    requires forall k :: Listed(p2, k) == Listed(p1, k) + Keyed(rest, k)
    ensures forall k :: Listed(p2, k) == Listed(p0, k) + Keyed([opr] + rest, k)
  {
    var pk := PrimaryKey(opr.oprType, opr.s);
    assert ([opr] + rest)[0] == opr && ([opr] + rest)[1..] == rest;
    forall k ensures Listed(p2, k) == Listed(p0, k) + Keyed([opr] + rest, k) {
      var here := if pk == k then [opr] else [];
      assert Listed(p1, k) == Listed(p0, k) + here;
      assert Keyed([opr] + rest, k) == here + Keyed(rest, k);
      AppendAssoc(Listed(p0, k), here, Keyed(rest, k));
    }
  }

  /** Registering `opr` into a free detail key, or not at all when it is
      not circumfix, and then `rest` adds `Detail([opr] + rest)`. */
  lemma CircumStep(c0: map<string, Opr>, c1: map<string, Opr>, c2: map<string, Opr>, opr: Opr, rest: seq<Opr>)
    requires IsCircumfix(opr.oprType) ==>
      OprKey(opr.s, opr.oprType, opr.s1) !in c0 && c1 == c0[OprKey(opr.s, opr.oprType, opr.s1) := opr]
    requires !IsCircumfix(opr.oprType) ==> c1 == c0
    requires forall k :: k in Detail(rest) ==> k !in c1
    requires c2 == c1 + Detail(rest)
    ensures forall k :: k in Detail([opr] + rest) ==> k !in c0
    ensures c2 == c0 + Detail([opr] + rest)
  {
    assert ([opr] + rest)[0] == opr && ([opr] + rest)[1..] == rest;
    if IsCircumfix(opr.oprType) {
      var k0 := OprKey(opr.s, opr.oprType, opr.s1);
      assert Detail([opr] + rest) == Detail(rest)[k0 := opr];
      assert k0 !in Detail(rest);
    } else {
      assert Detail([opr] + rest) == Detail(rest);
    }
  }

  /** A successful run of one key's entries adds, under every primary
      key, the operators of that key in order, and to the detail table
      every circumfix operator under a detail key that was free. */
  lemma {:induction false} RegisterEntriesContents(t: Tables, defaults: Symbols, es: seq<RawEntry>)
    requires RegisterEntries(t, defaults, es).1.Ok?
    ensures var r := RegisterEntries(t, defaults, es).0;
      var os := Resolved(defaults, es);
      |os| == |es|
      && (forall k :: Listed(r.primary, k) == Listed(t.primary, k) + Keyed(os, k))
      && (forall k :: k in Detail(os) ==> k !in t.circum)
      && r.circum == t.circum + Detail(os)
    decreases |es|
  {
    var r := RegisterEntries(t, defaults, es).0;
    if |es| == 0 {
      assert Resolved(defaults, es) == [];
      forall k ensures Listed(r.primary, k) == Listed(t.primary, k) + Keyed([], k) {
        assert Listed(t.primary, k) + [] == Listed(t.primary, k);
      }
      assert t.circum + map[] == t.circum;
    } else {
      var opr := Resolve(defaults, es[0]).value;
      var o := RegisterOpr(t, opr.s, opr.oprType, opr.s1);
      var rest := Resolved(defaults, es[1..]);
      assert Resolved(defaults, es) == [opr] + rest;
      assert r == RegisterEntries(o.tables, defaults, es[1..]).0;
      RegisterEntriesContents(o.tables, defaults, es[1..]);
      PrimaryStep(t.primary, o.tables.primary, r.primary, opr, rest);
      CircumStep(t.circum, o.tables.circum, r.circum, opr, rest);
    }
  }

  /** Registering `a` and then `b` adds `a + b` to every primary key's list. */
  lemma PrimaryAppend(p0: map<string, Slot>, p1: map<string, Slot>, p2: map<string, Slot>, a: seq<Opr>, b: seq<Opr>)
    requires forall k :: Listed(p1, k) == Listed(p0, k) + Keyed(a, k)
    requires forall k :: Listed(p2, k) == Listed(p1, k) + Keyed(b, k)
    ensures forall k :: Listed(p2, k) == Listed(p0, k) + Keyed(a + b, k)
  {
    forall k ensures Listed(p2, k) == Listed(p0, k) + Keyed(a + b, k) {
      KeyedAppend(a, b, k);
      AppendAssoc(Listed(p0, k), Keyed(a, k), Keyed(b, k));
    }
  }

  /** Adding `Detail(a)` and then `Detail(b)`, each into free keys, adds
      `Detail(a + b)`. */
  lemma CircumAppend(c0: map<string, Opr>, c1: map<string, Opr>, c2: map<string, Opr>, a: seq<Opr>, b: seq<Opr>)
    requires forall k :: k in Detail(a) ==> k !in c0
    requires c1 == c0 + Detail(a)
    requires forall k :: k in Detail(b) ==> k !in c1
    requires c2 == c1 + Detail(b)
    ensures forall k :: k in Detail(a + b) ==> k !in c0
    ensures c2 == c0 + Detail(a + b)
  {
    DetailAppend(a, b);
    assert c0 + (Detail(b) + Detail(a)) == (c0 + Detail(a)) + Detail(b);
  }

  /** The outer loop, likewise, key after key. */
  lemma {:induction false} RegisterPairsContents(t: Tables, pairs: seq<(string, RawValue)>)
    requires RegisterPairs(t, pairs).1.Ok?
    ensures var r := RegisterPairs(t, pairs).0;
      var os := FileOprs(pairs);
      |os| == EntryCount(pairs)
      && (forall k :: Listed(r.primary, k) == Listed(t.primary, k) + Keyed(os, k))
      && (forall k :: k in Detail(os) ==> k !in t.circum)
      && r.circum == t.circum + Detail(os)
    decreases |pairs|
  {
    var r := RegisterPairs(t, pairs).0;
    if |pairs| == 0 {
      assert FileOprs(pairs) == [];
      forall k ensures Listed(r.primary, k) == Listed(t.primary, k) + Keyed([], k) {
        assert Listed(t.primary, k) + [] == Listed(t.primary, k);
      }
      assert t.circum + map[] == t.circum;
    } else {
      var d := SplitSymbol(pairs[0].0).value;
      var es := NormalizeEntries(pairs[0].1);
      var t1 := RegisterEntries(t, d, es).0;
      var a, b := Resolved(d, es), FileOprs(pairs[1..]);
      assert FileOprs(pairs) == a + b;
      assert r == RegisterPairs(t1, pairs[1..]).0;
      RegisterEntriesContents(t, d, es);
      RegisterPairsContents(t1, pairs[1..]);
      PrimaryAppend(t.primary, t1.primary, r.primary, a, b);
      CircumAppend(t.circum, t1.circum, r.circum, a, b);
    }
  }

  // ---------------------------------------------------------------------
  // Properties

  /** A successful load fills the tables with exactly what the file
      lists: under every primary key the operators of that key in file
      order, each with the entry's own `s` and `s1` where it gives them
      and the key's symbols otherwise, and in the detail table every
      circumfix operator under its own detail key. The count is the
      number of those operators. */
  lemma LoadOperatorsContents(parsed: Parsed)
    requires LoadOperators(parsed).1.Ok?
    ensures parsed.Config?
    ensures var r := LoadOperators(parsed);
      var os := FileOprs(parsed.pairs);
      r.1.value == |os|
      && (forall k :: Listed(r.0.primary, k) == Keyed(os, k))
      && r.0.circum == Detail(os)
  {
    RegisterPairsContents(EmptyTables, parsed.pairs);
    var os := FileOprs(parsed.pairs);
    forall k ensures Listed(LoadOperators(parsed).0.primary, k) == Keyed(os, k) {
      assert Listed(EmptyTables.primary, k) == [];
      assert [] + Keyed(os, k) == Keyed(os, k);
    }
    assert EmptyTables.circum + Detail(os) == Detail(os);
  }

  /** Registering a run of operators under one primary key, starting
      from a key not yet present, leaves them all there in order: one
      alone, two or more as a list. */
  lemma {:induction false} RegisterRun(t: Tables, oprType: OprType, s: string, s1s: seq<Option<string>>)
    requires !IsCircumfix(oprType) && |s1s| > 0
    requires PrimaryKey(oprType, s) !in t.primary
    ensures var pk := PrimaryKey(oprType, s);
      var p := RunTables(t, oprType, s, s1s).primary;
      pk in p && |Entries(p[pk])| == |s1s|
      && (forall k :: 0 <= k < |s1s| ==> Entries(p[pk])[k] == Opr(oprType, s, s1s[k]))
      && (|s1s| == 1 <==> p[pk].Single?)
  {
    var pk := PrimaryKey(oprType, s);
    var n := |s1s|;
    var prev := RunTables(t, oprType, s, s1s[..n - 1]);
    var p := AddPrimary(prev.primary, pk, Opr(oprType, s, s1s[n - 1]));
    assert RunTables(t, oprType, s, s1s).primary == p;
    if n == 1 {
      assert prev == t;
    } else {
      RegisterRun(t, oprType, s, s1s[..n - 1]);
      assert s1s[..n - 1][..n - 2] == s1s[..n - 2];
      assert pk in prev.primary && |Entries(prev.primary[pk])| == n - 1;
      assert Entries(p[pk]) == Entries(prev.primary[pk]) + [Opr(oprType, s, s1s[n - 1])];
      forall k | 0 <= k < n ensures Entries(p[pk])[k] == Opr(oprType, s, s1s[k]) {
        if k < n - 1 {
          assert s1s[..n - 1][k] == s1s[k];
        }
      }
    }
  }

  /** The tables after registering `s` with each secondary symbol of
      `s1s` in turn (no errors arise for non-circumfix types). */
  function RunTables(t: Tables, oprType: OprType, s: string, s1s: seq<Option<string>>): Tables
    decreases |s1s|
  {
    if |s1s| == 0 then t
    else RegisterOpr(RunTables(t, oprType, s, s1s[..|s1s| - 1]), s, oprType, s1s[|s1s| - 1]).tables
  }

  /** Registering under one primary key leaves every other key's slot as
      it was. */
  lemma RegisterOther(t: Tables, s: string, oprType: OprType, s1: Option<string>, key: string)
    requires key != PrimaryKey(oprType, s)
    ensures var p := RegisterOpr(t, s, oprType, s1).tables.primary;
      (key in p <==> key in t.primary) && (key in t.primary ==> p[key] == t.primary[key])
  {
  }

  /** `assertOprType` reads back every type name and nothing else. */
  lemma AssertOprTypeName(t: OprType, value: string)
    ensures AssertOprType(TypeName(t)) == Ok(t)
    ensures AssertOprType(value).Ok? <==> exists u: OprType :: TypeName(u) == value
  {
    if AssertOprType(value).Ok? {
      assert TypeName(AssertOprType(value).value) == value;
    }
  }

  /** As written, `toString` passes the type check instead of being
      reported as unknown. */
  lemma AsWrittenAcceptsToString()
    ensures AssertOprTypeAsWritten("toString") == Ok(Inherited("toString"))
    ensures AssertOprType("toString") == Err(UnknownType("toString"))
  {
  }

  /** On the six member names the two agree. */
  lemma AsWrittenOnMembers(t: OprType)
    ensures AssertOprTypeAsWritten(TypeName(t)) == Ok(Member(t))
  {
    AssertOprTypeName(t, TypeName(t));
  }

  /** Every part of a key of non-empty, space-free parts joined by
      single spaces comes back from `splitSymbol`. */
  lemma SplitSymbolJoin(parts: seq<string>)
    requires |parts| > 0
    requires forall i :: 0 <= i < |parts| ==> |parts[i]| > 0 && ' ' !in parts[i]
    ensures SplitSymbol(Join(parts, " ")) ==
      Ok(Symbols(parts[0], if |parts| == 1 then None else Some(Join(parts[1..], " "))))
  {
    SplitJoin(parts, ' ');
    NonEmptyAll(parts);
  }

  lemma {:induction false} NonEmptyAll(parts: seq<string>)
    requires forall i :: 0 <= i < |parts| ==> |parts[i]| > 0
    ensures NonEmpty(parts) == parts
  {
    if |parts| > 0 {
      NonEmptyAll(parts[1..]);
      assert [parts[0]] + parts[1..] == parts;
    }
  }

  /** Runs of spaces collapse: `"[  ]"` splits as `"[ ]"` does. */
  lemma SplitSymbolSpaces(a: string, b: string)
    requires |a| > 0 && |b| > 0 && ' ' !in a && ' ' !in b
    ensures SplitSymbol(a + "  " + b) == Ok(Symbols(a, Some(b)))
    ensures SplitSymbol(a + " " + b) == Ok(Symbols(a, Some(b)))
  {
    SplitPrefix(a, " " + b, ' ');
    assert a + "  " + b == a + [' '] + (" " + b);
    SplitPrefix("", b, ' ');
    assert " " + b == "" + [' '] + b;
    SplitNoSep(b, ' ');
    assert Split(a + "  " + b, ' ') == [a, "", b];
    assert NonEmpty([a, "", b]) == [a, b] by {
      assert [a, "", b][1..] == ["", b];
      assert ["", b][1..] == [b];
      assert [b][1..] == [];
      assert NonEmpty([b]) == [b] + NonEmpty([]);
      assert NonEmpty(["", b]) == NonEmpty([b]);
      assert NonEmpty([a, "", b]) == [a] + NonEmpty(["", b]);
    }
    SplitSymbolJoin([a, b]);
    assert Join([a, b], " ") == a + " " + b;
  }

  /** A blank key is an error. */
  lemma SplitSymbolBlank(symbol: string)
    requires AllChar(symbol, ' ')
    ensures SplitSymbol(symbol).Err?
  {
    BlankParts(symbol);
  }

  lemma {:induction false} BlankParts(symbol: string)
    requires AllChar(symbol, ' ')
    ensures |NonEmpty(Split(symbol, ' '))| == 0
  {
    if |symbol| > 0 {
      BlankParts(symbol[1..]);
      assert Split(symbol, ' ') == [""] + Split(symbol[1..], ' ');
      assert ([""] + Split(symbol[1..], ' '))[1..] == Split(symbol[1..], ' ');
    }
  }

  /** Two keys sharing their first symbol, such as `"[ ]"` and `"[ ["`,
      both land under the primary key of that symbol, in file order, and
      each gets its own detail key. */
  lemma LoadSharedOpener(a: string, b: string, c: string)
    requires |a| > 0 && |b| > 0 && |c| > 0 && ' ' !in a && ' ' !in b && ' ' !in c && b != c
    ensures var e := One(RawEntry("Circumfix", None, None));
      var r := LoadOperators(Config([(a + " " + b, e), (a + " " + c, e)]));
      r.1 == Ok(2)
      && r.0.primary == map[PrimaryKey(Circumfix, a) := Group([Opr(Circumfix, a, Some(b)), Opr(Circumfix, a, Some(c))])]
      && r.0.circum == map[OprKey(a, Circumfix, Some(b)) := Opr(Circumfix, a, Some(b)),
                           OprKey(a, Circumfix, Some(c)) := Opr(Circumfix, a, Some(c))]
  {
    SplitSymbolSpaces(a, b);
    SplitSymbolSpaces(a, c);
    var p := PrimaryKey(Circumfix, a) + ":";
    var k1, k2 := OprKey(a, Circumfix, Some(b)), OprKey(a, Circumfix, Some(c));
    assert k1 != k2 by {
      assert (p + b)[|p|..] == b && (p + c)[|p|..] == c;
    }
    var e := One(RawEntry("Circumfix", None, None));
    var pairs := [(a + " " + b, e), (a + " " + c, e)];
    var pk := PrimaryKey(Circumfix, a);
    var o1, o2 := Opr(Circumfix, a, Some(b)), Opr(Circumfix, a, Some(c));
    var t1 := Tables(map[pk := Single(o1)], map[k1 := o1]);
    var t2 := Tables(map[pk := Group([o1, o2])], map[k1 := o1, k2 := o2]);
    assert AssertOprType("Circumfix") == Ok(Circumfix);
    assert RegisterOpr(EmptyTables, a, Circumfix, Some(b)) == Outcome(t1, None);
    assert RegisterEntries(EmptyTables, Symbols(a, Some(b)), [e.entry]) == (t1, Ok(1));
    assert RegisterOpr(t1, a, Circumfix, Some(c)) == Outcome(t2, None);
    assert RegisterEntries(t1, Symbols(a, Some(c)), [e.entry]) == (t2, Ok(1));
    assert pairs[1..][1..] == [];
    assert RegisterPairs(t1, pairs[1..]) == (t2, Ok(1));
  }
}

=== FILE: prompt.dfy ===
/** The prompt of src/prompt.ts: the history number zero-padded to four
    digits, a space, the working directory and `"> "`. The working
    directory (`process.cwd()`) is a parameter. */
module Prompt {
  import opened Wrappers
  import opened Strings

  const HistoryWidth: nat := 4

  /** The argument: an integral finite number, or a non-finite one (`NaN`
      or an infinity). */
  datatype HistoryNumber = Finite(value: int) | NonFinite

  /** The counter's value: negative and non-finite numbers become 0. */
  function SafeNumber(n: HistoryNumber): (r: nat)
    ensures n.Finite? && n.value >= 0 ==> r == n.value
    ensures n.NonFinite? || n.value < 0 ==> r == 0
  {
    match n
    case Finite(v) => if v > 0 then v else 0
    case NonFinite => 0
  }

  /** The counter: the decimal number left-padded with zeros to four
      digits, never cut. */
  function Counter(n: nat): (c: string)
  {
    PadStart(NatToString(n), HistoryWidth, '0')
  }

  /** `prompt(historyNumber)`; `None` is the omitted argument, which
      defaults to 0. */
  function PromptText(historyNumber: Option<HistoryNumber>, cwd: string): (p: string)
  {
    var counter := Counter(SafeNumber(historyNumber.GetOr(Finite(0))));
    counter + " " + cwd + "> "
  }

  // ---------------------------------------------------------------------
  // Properties

  /** The counter is all digits, at least four of them, reads back as the
      number, and is the plain decimal rendering once that has four or
      more digits. */
  lemma CounterReadsBack(n: nat)
    ensures AllDigits(Counter(n)) && DigitsValue(Counter(n)) == n
    ensures |Counter(n)| >= HistoryWidth
    ensures |NatToString(n)| >= HistoryWidth ==> Counter(n) == NatToString(n)
  {
    var d := NatToString(n);
    var k :| 0 <= k <= |Counter(n)| && Counter(n) == Repeat('0', k) + d;
    DigitsValueLeadingZeros(k, d);
    DigitsValueOfNatToString(n);
  }

  /** The counter of a number below 10000 is exactly four characters
      long. */
  lemma CounterWidth(n: nat)
    requires n < 10000
    ensures |Counter(n)| == HistoryWidth
  {
    ShortNumber(n);
  }

  lemma {:induction false} ShortNumber(n: nat)
    ensures n < 10 ==> |NatToString(n)| == 1
    ensures n < 100 ==> |NatToString(n)| <= 2
    ensures n < 1000 ==> |NatToString(n)| <= 3
    ensures n < 10000 ==> |NatToString(n)| <= 4
  {
    if n >= 10 {
      ShortNumber(n / 10);
    }
  }

  /** Two counters are equal exactly when the numbers are. */
  lemma CounterInjective(m: nat, n: nat)
    ensures Counter(m) == Counter(n) <==> m == n
  {
    CounterReadsBack(m);
    CounterReadsBack(n);
  }

  /** Omitted, zero, negative and non-finite arguments give the same
      prompt. */
  lemma DefaultsToZero(cwd: string, v: int)
    requires v <= 0
    ensures PromptText(None, cwd) == PromptText(Some(Finite(v)), cwd)
    ensures PromptText(Some(NonFinite), cwd) == PromptText(None, cwd)
  {
  }

  /** `prompt(12)` starts `0012 ` and `prompt()` starts `0000 `, each
      followed by the directory and `> `. */
  lemma PromptExamples(cwd: string)
    ensures PromptText(Some(Finite(12)), cwd) == "0012 " + cwd + "> "
    ensures PromptText(None, cwd) == "0000 " + cwd + "> "
  {
    Counter12();
    Counter0();
  }

  lemma Counter12()
    ensures Counter(12) == "0012"
  {
    assert NatToString(12) == NatToString(1) + [DigitChar(2)];
    assert NatToString(12) == "12";
    assert Repeat('0', 2) == "00";
  }

  lemma Counter0()
    ensures Counter(0) == "0000"
  {
    assert NatToString(0) == "0";
    assert Repeat('0', 3) == "000";
  }

  /** Five-digit counters are kept whole: `prompt(12345)` starts with
      `12345`. */
  lemma LongCounter(cwd: string)
    ensures PromptText(Some(Finite(12345)), cwd) == NatToString(12345) + " " + cwd + "> "
  {
    assert |NatToString(12345)| >= 5 by {
      LongNumber(12345);
    }
  }

  lemma {:induction false} LongNumber(n: nat)
    ensures n >= 10000 ==> |NatToString(n)| >= 5
    ensures n >= 1000 ==> |NatToString(n)| >= 4
    ensures n >= 100 ==> |NatToString(n)| >= 3
    ensures n >= 10 ==> |NatToString(n)| >= 2
  {
    if n >= 10 {
      LongNumber(n / 10);
    }
  }
}

=== FILE: strenum.dfy ===
/** The string enum generator of templates/strenum/gen.ts: it builds the
    syntax tree of one TypeScript `enum` whose bare members are given
    their own names as values. A literal's raw text is `JSON.stringify`
    of its value, the QuoteJSONString operation of section 25.5.2.3 of
    ECMA-262. */
module StrEnum {
  import opened Wrappers

  // ---------------------------------------------------------------------
  // JSON string quoting

  function HexDigit(d: nat): (c: char)
    requires d < 16
  {
    "0123456789abcdef"[d]
  }

  function HexValue(c: char): (r: Option<nat>)
    ensures r.Some? ==> r.value < 16
  {
    if '0' <= c <= '9' then Some(c as int - '0' as int)
    else if 'a' <= c <= 'f' then Some(c as int - 'a' as int + 10)
    else if 'A' <= c <= 'F' then Some(c as int - 'A' as int + 10)
    else None
  }

  lemma HexRoundTrip(d: nat)
    requires d < 16
    ensures HexValue(HexDigit(d)) == Some(d)
  {
  }

  const Backspace: char := '\U{0008}'
  const FormFeed: char := '\U{000C}'

  /** The escape `JSON.stringify` writes for one character. */
  function EscapeChar(c: char): (e: string)
    ensures |e| >= 1
    ensures c >= ' ' && c != '"' && c != '\\' ==> e == [c]
  {
    if c == '"' then "\\\""
    else if c == '\\' then "\\\\"
    else if c == Backspace then "\\b"
    else if c == '\t' then "\\t"
    else if c == '\n' then "\\n"
    else if c == FormFeed then "\\f"
    else if c == '\r' then "\\r"
    else if c < ' ' then "\\u00" + [HexDigit(c as int / 16), HexDigit(c as int % 16)]
    else [c]
  }

  function Escape(s: string): (e: string)
    ensures |e| >= |s|
  {
    if |s| == 0 then "" else EscapeChar(s[0]) + Escape(s[1..])
  }

  /** `JSON.stringify(value)` of a string. */
  function Quote(value: string): (raw: string)
    ensures |raw| >= 2 && raw[0] == '"' && raw[|raw| - 1] == '"'
  {
    "\"" + Escape(value) + "\""
  }

  /** The contents of a JSON string literal, decoded; `None` when they are
      not well formed. The reference decoder the quoting is checked
      against. */
  function Decode(t: string): (r: Option<string>)
    decreases |t|
  {
    if |t| == 0 then Some("")
    else if t[0] == '\\' then
      if |t| < 2 then None
      else if t[1] == 'u' then DecodeUnicode(t)
      else
        var c := t[1];
        var d := if c == '"' then Some('"') else if c == '\\' then Some('\\') else if c == '/' then Some('/')
          else if c == 'b' then Some(Backspace) else if c == 'f' then Some(FormFeed)
          else if c == 'n' then Some('\n') else if c == 'r' then Some('\r') else if c == 't' then Some('\t')
          else None;
        match d
        case None => None
        case Some(x) => Prepend(x, Decode(t[2..]))
    else if t[0] == '"' || t[0] < ' ' then None
    else Prepend(t[0], Decode(t[1..]))
  }

  /** A `\uXXXX` escape at the start of `t`. */
  function DecodeUnicode(t: string): (r: Option<string>)
    requires |t| >= 2 && t[0] == '\\' && t[1] == 'u'
    decreases |t|, 0
  {
    if |t| < 6 then None
    else match (HexValue(t[2]), HexValue(t[3]), HexValue(t[4]), HexValue(t[5]))
      case (Some(a), Some(b), Some(c), Some(d)) =>
        var v := ((a * 16 + b) * 16 + c) * 16 + d;
        if 0xD800 <= v < 0xE000 then None
        else Prepend(v as char, Decode(t[6..]))
      case _ => None
  }

  function Prepend(c: char, r: Option<string>): (p: Option<string>)
    ensures r.None? <==> p.None?
    ensures r.Some? ==> p.value == [c] + r.value
  {
    match r
    case None => None
    case Some(s) => Some([c] + s)
  }

  /** `JSON.parse` of a string literal. */
  function Unquote(raw: string): (r: Option<string>) {
    if |raw| >= 2 && raw[0] == '"' && raw[|raw| - 1] == '"' then Decode(raw[1..|raw| - 1]) else None
  }

  // ---------------------------------------------------------------------
  // The syntax tree

  datatype Literal = Literal(value: string, raw: string)

  /** An input member: a bare name, or a name with an optional
      initializer. */
  datatype Member = Bare(name: string) | Tuple(name: string, init: Option<Literal>)

  datatype EnumMember = EnumMember(id: string, initializer: Literal)
  datatype EnumDeclaration = EnumDeclaration(id: string, members: seq<EnumMember>)
  datatype Program = Program(body: seq<EnumDeclaration>)

  /** `str(value)`. */
  function Str(value: string): (l: Literal)
    ensures l.value == value && l.raw == Quote(value)
  {
    Literal(value, Quote(value))
  }

  /** The initializer a member ends up with. */
  function InitializerOf(m: Member): (l: Literal)
    ensures m.Bare? ==> l == Str(m.name)
    ensures m.Tuple? && m.init.Some? ==> l == m.init.value
    ensures m.Tuple? && m.init.None? ==> l == Str(m.name)
  {
    match m
    case Bare(n) => Str(n)
    case Tuple(n, init) => if init.Some? then init.value else Str(n)
  }

  function Build(ms: seq<Member>): (out: seq<EnumMember>)
    ensures |out| == |ms|
    ensures forall k :: 0 <= k < |ms| ==> out[k] == EnumMember(ms[k].name, InitializerOf(ms[k]))
  {
    if |ms| == 0 then [] else [EnumMember(ms[0].name, InitializerOf(ms[0]))] + Build(ms[1..])
  }

  /** `createStringEnumAST`: exactly one declaration, named `name`, with
      the members in their order. */
  function CreateStringEnumAst(name: string, ms: seq<Member>): (p: Program)
    ensures |p.body| == 1 && p.body[0].id == name
    ensures |p.body[0].members| == |ms|
    ensures forall k :: 0 <= k < |ms| ==> p.body[0].members[k].id == ms[k].name
    ensures forall k :: 0 <= k < |ms| && ms[k].Tuple? && ms[k].init.Some? ==>
      p.body[0].members[k].initializer == ms[k].init.value
    ensures forall k :: 0 <= k < |ms| && (ms[k].Bare? || ms[k].init.None?) ==>
      p.body[0].members[k].initializer.value == ms[k].name
  {
    Program([EnumDeclaration(name, Build(ms))])
  }

  // ---------------------------------------------------------------------
  // Properties

  /** Parsing the raw text of a generated literal gives back its value. */
  lemma UnquoteQuote(value: string)
    ensures Unquote(Quote(value)) == Some(value)
  {
    var raw := Quote(value);
    assert raw[1..|raw| - 1] == Escape(value);
    DecodeEscape(value);
  }

  lemma {:induction false} DecodeEscape(s: string)
    ensures Decode(Escape(s)) == Some(s)
  {
    if |s| > 0 {
      DecodeEscape(s[1..]);
      DecodeChar(s[0], Escape(s[1..]));
      assert [s[0]] + s[1..] == s;
    }
  }

  /** Decoding one escape and what follows it. */
  lemma DecodeChar(c: char, rest: string)
    ensures Decode(EscapeChar(c) + rest) == Prepend(c, Decode(rest))
  {
    if c == '"' || c == '\\' || c == Backspace || c == '\t' || c == '\n' || c == FormFeed || c == '\r' {
      DecodeShort(c, rest);
    } else if c < ' ' {
      DecodeControl(c, rest);
    } else {
      assert (EscapeChar(c) + rest)[1..] == rest;
    }
  }

  lemma DecodeShort(c: char, rest: string)
    requires c == '"' || c == '\\' || c == Backspace || c == '\t' || c == '\n' || c == FormFeed || c == '\r'
    ensures Decode(EscapeChar(c) + rest) == Prepend(c, Decode(rest))
  {
    var t := EscapeChar(c) + rest;
    assert |EscapeChar(c)| == 2 && t[0] == '\\';
    assert t[2..] == rest;
  }

  lemma DecodeControl(c: char, rest: string)
    requires c < ' ' && c != Backspace && c != '\t' && c != '\n' && c != FormFeed && c != '\r'
    ensures Decode(EscapeChar(c) + rest) == Prepend(c, Decode(rest))
  {
    var hi, lo := c as int / 16, c as int % 16;
    var t := EscapeChar(c) + rest;
    assert EscapeChar(c) == "\\u00" + [HexDigit(hi), HexDigit(lo)];
    assert t[0] == '\\' && t[1] == 'u' && t[2] == '0' && t[3] == '0';
    assert t[4] == HexDigit(hi) && t[5] == HexDigit(lo);
    HexRoundTrip(hi);
    HexRoundTrip(lo);
    assert t[6..] == rest;
    assert ((0 * 16 + 0) * 16 + hi) * 16 + lo == c as int;
  }

  /** Plain names are quoted as they are. */
  lemma QuotePlain(value: string)
    requires forall i :: 0 <= i < |value| ==> value[i] >= ' ' && value[i] != '"' && value[i] != '\\'
    ensures Quote(value) == "\"" + value + "\""
  {
    EscapePlain(value);
  }

  lemma {:induction false} EscapePlain(s: string)
    requires forall i :: 0 <= i < |s| ==> s[i] >= ' ' && s[i] != '"' && s[i] != '\\'
    ensures Escape(s) == s
  {
    if |s| > 0 {
      EscapePlain(s[1..]);
      assert [s[0]] + s[1..] == s;
    }
  }

  /** Every generated literal's raw text parses back to its value: for a
      bare member or a missing initializer, to the member's own name. */
  lemma DefaultsParse(name: string, ms: seq<Member>, k: nat)
    requires k < |ms| && (ms[k].Bare? || ms[k].init.None?)
    ensures Unquote(CreateStringEnumAst(name, ms).body[0].members[k].initializer.raw) == Some(ms[k].name)
  {
    UnquoteQuote(ms[k].name);
  }

  /** A bare member with a plain name gets its name, in double quotes, as
      its initializer. */
  lemma BarePlain(name: string, ms: seq<Member>, k: nat)
    requires k < |ms| && ms[k].Bare?
    requires forall i :: 0 <= i < |ms[k].name| ==> ms[k].name[i] >= ' ' && ms[k].name[i] != '"' && ms[k].name[i] != '\\'
    ensures CreateStringEnumAst(name, ms).body[0].members[k]
      == EnumMember(ms[k].name, Literal(ms[k].name, "\"" + ms[k].name + "\""))
  {
    QuotePlain(ms[k].name);
  }

  /** The generator's own example: `North`, `South`, `East = "E"`,
      `West`. */
  lemma DirectionExample(ms: seq<Member>)
    requires ms == [Bare("North"), Bare("South"), Tuple("East", Some(Literal("E", "\"E\""))), Bare("West")]
    ensures var out := CreateStringEnumAst("Direction", ms).body[0].members;
      out[0] == EnumMember("North", Literal("North", "\"North\""))
      && out[2] == EnumMember("East", Literal("E", "\"E\""))
      && out[3] == EnumMember("West", Literal("West", "\"West\""))
  {
    DirectionNorth(ms);
    DirectionWest(ms);
  }

  lemma DirectionNorth(ms: seq<Member>)
    requires |ms| > 0 && ms[0] == Bare("North")
    ensures CreateStringEnumAst("Direction", ms).body[0].members[0] == EnumMember("North", Literal("North", "\"North\""))
  {
    PlainNorth(ms[0].name);
    BarePlain("Direction", ms, 0);
    assert "\"" + "North" + "\"" == "\"North\"";
  }

  lemma DirectionWest(ms: seq<Member>)
    requires |ms| > 3 && ms[3] == Bare("West")
    ensures CreateStringEnumAst("Direction", ms).body[0].members[3] == EnumMember("West", Literal("West", "\"West\""))
  {
    PlainWest(ms[3].name);
    BarePlain("Direction", ms, 3);
    assert "\"" + "West" + "\"" == "\"West\"";
  }

  lemma PlainNorth(n: string)
    requires n == "North"
    ensures forall i :: 0 <= i < |n| ==> n[i] >= ' ' && n[i] != '"' && n[i] != '\\'
  {
  }

  lemma PlainWest(n: string)
    requires n == "West"
    ensures forall i :: 0 <= i < |n| ==> n[i] >= ' ' && n[i] != '"' && n[i] != '\\'
  {
  }
}

=== FILE: strings.dfy ===
/** String helpers for the JavaScript built-ins the shell relies on.
    A JavaScript string is modelled as a sequence of Unicode scalar
    values, one `char` per character; `trim`, `\s` and case mapping are
    restricted to ASCII. */
module Strings {
  import opened Wrappers

  // ---------------------------------------------------------------------
  // Characters

  /** ASCII members of JavaScript's white-space class. */
  predicate IsWs(c: char) {
    c == ' ' || c == '\t' || c == '\n' || c == '\r' || c == '\U{000B}' || c == '\U{000C}'
  }

  predicate IsDigit(c: char) {
    '0' <= c <= '9'
  }

  predicate AllWs(s: string) {
    forall i :: 0 <= i < |s| ==> IsWs(s[i])
  }

  predicate AllChar(s: string, c: char) {
    forall i :: 0 <= i < |s| ==> s[i] == c
  }

  /** ASCII `toLowerCase` on one character. */
  function LowerChar(c: char): (r: char)
    ensures 'A' <= c <= 'Z' ==> r as int == c as int + 32
    ensures !('A' <= c <= 'Z') ==> r == c
    ensures !('A' <= r <= 'Z')
  {
    if 'A' <= c <= 'Z' then (c as int + 32) as char else c
  }

  function UpperChar(c: char): (r: char)
    ensures 'a' <= c <= 'z' ==> r as int == c as int - 32
    ensures !('a' <= c <= 'z') ==> r == c
  {
    if 'a' <= c <= 'z' then (c as int - 32) as char else c
  }

  function ToLower(s: string): (r: string)
    ensures |r| == |s|
    ensures forall i :: 0 <= i < |s| ==> r[i] == LowerChar(s[i])
  {
    if |s| == 0 then "" else [LowerChar(s[0])] + ToLower(s[1..])
  }

  function ToUpper(s: string): (r: string)
    ensures |r| == |s|
    ensures forall i :: 0 <= i < |s| ==> r[i] == UpperChar(s[i])
  {
    if |s| == 0 then "" else [UpperChar(s[0])] + ToUpper(s[1..])
  }

  lemma ToLowerAppend(a: string, b: string)
    ensures ToLower(a + b) == ToLower(a) + ToLower(b)
  {
    assert forall i :: 0 <= i < |a + b| ==> ToLower(a + b)[i] == (ToLower(a) + ToLower(b))[i];
  }

  // ---------------------------------------------------------------------
  // Prefixes, searching

  predicate StartsWith(s: string, p: string) {
    |p| <= |s| && s[..|p|] == p
  }

  predicate EndsWith(s: string, p: string) {
    |p| <= |s| && s[|s| - |p|..] == p
  }

  predicate OccursAt(s: string, sub: string, i: int) {
    0 <= i && i + |sub| <= |s| && s[i..i + |sub|] == sub
  }

  /** `s.includes(sub)`. */
  predicate Contains(s: string, sub: string) {
    exists i :: 0 <= i <= |s| - |sub| && OccursAt(s, sub, i)
  }

  /** `s.indexOf(c, from)`: the first position at or after `from` holding `c`. */
  function IndexOfFrom(s: string, c: char, from: nat): (r: Option<nat>)
    decreases |s| - from
    ensures r.Some? ==> from <= r.value < |s| && s[r.value] == c
    ensures r.Some? ==> forall k :: from <= k < r.value ==> s[k] != c
    ensures r.None? ==> forall k :: from <= k < |s| ==> s[k] != c
  {
    if from >= |s| then None
    else if s[from] == c then Some(from)
    else IndexOfFrom(s, c, from + 1)
  }

  /** `s.lastIndexOf(c)`. */
  function LastIndexOf(s: string, c: char): (r: Option<nat>)
    ensures r.Some? ==> r.value < |s| && s[r.value] == c
    ensures r.Some? ==> forall k :: r.value < k < |s| ==> s[k] != c
    ensures r.None? ==> forall k :: 0 <= k < |s| ==> s[k] != c
  {
    if |s| == 0 then None
    else if s[|s| - 1] == c then Some(|s| - 1)
    else LastIndexOf(s[..|s| - 1], c)
  }

  // ---------------------------------------------------------------------
  // Trimming

  /** Length of the leading white-space run. */
  function WsPrefixLen(s: string): (k: nat)
    ensures k <= |s| && AllWs(s[..k])
    ensures k < |s| ==> !IsWs(s[k])
  {
    if |s| > 0 && IsWs(s[0]) then
      var k := WsPrefixLen(s[1..]);
      assert s[..k + 1] == [s[0]] + s[1..][..k];
      k + 1
    else 0
  }

  /** Start of the trailing white-space run. */
  function WsSuffixStart(s: string): (k: nat)
    ensures k <= |s| && AllWs(s[k..])
    ensures k > 0 ==> !IsWs(s[k - 1])
  {
    if |s| > 0 && IsWs(s[|s| - 1]) then
      var k := WsSuffixStart(s[..|s| - 1]);
      assert s[k..] == s[..|s| - 1][k..] + [s[|s| - 1]];
      k
    else |s|
  }

  /** `s.trimStart()`. */
  function TrimStart(s: string): (r: string)
    ensures |r| > 0 ==> !IsWs(r[0])
  {
    s[WsPrefixLen(s)..]
  }

  /** `s.trimEnd()`. */
  function TrimEnd(s: string): (r: string)
    ensures |r| > 0 ==> !IsWs(r[|r| - 1])
  {
    s[..WsSuffixStart(s)]
  }

  /** `s.trim()`. */
  function Trim(s: string): (r: string)
    ensures |r| > 0 ==> !IsWs(r[0]) && !IsWs(r[|r| - 1])
    ensures |r| <= |s|
  {
    TrimStart(TrimEnd(s))
  }

  /** A string trims to "" exactly when it is all white space. */
  lemma TrimEmptyIffAllWs(s: string)
    ensures Trim(s) == "" <==> AllWs(s)
  {
    var k := WsSuffixStart(s);
    var e := s[..k];
    var j := WsPrefixLen(e);
    if Trim(s) == "" {
      assert j == |e|;
      assert s[k..] == s;
    } else {
      assert j < |e|;
      assert !IsWs(s[j]);
    }
  }

  // ---------------------------------------------------------------------
  // Joining and splitting

  /** `parts.join(sep)`. */
  function Join(parts: seq<string>, sep: string): (r: string)
    ensures |parts| == 1 ==> r == parts[0]
    ensures |parts| == 0 ==> r == ""
  {
    if |parts| == 0 then ""
    else if |parts| == 1 then parts[0]
    else parts[0] + sep + Join(parts[1..], sep)
  }

  lemma JoinAppend(parts: seq<string>, last: string, sep: string)
    requires |parts| > 0
    ensures Join(parts + [last], sep) == Join(parts, sep) + sep + last
  {
    if |parts| == 1 {
      assert parts + [last] == [parts[0], last];
    } else {
      assert (parts + [last])[1..] == parts[1..] + [last];
      JoinAppend(parts[1..], last, sep);
    }
  }

  /** `s.split(c)` for a one-unit separator: the pieces between
      occurrences of `c`, never an empty list. */
  function Split(s: string, c: char): (r: seq<string>)
    ensures |r| >= 1
    ensures forall i :: 0 <= i < |r| ==> c !in r[i]
  {
    if |s| == 0 then [""]
    else
      var rest := Split(s[1..], c);
      if s[0] == c then [""] + rest
      else [[s[0]] + rest[0]] + rest[1..]
  }

  /** Splitting undoes joining with the same one-unit separator. */
  lemma {:induction false} SplitJoin(parts: seq<string>, c: char)
    requires |parts| >= 1
    requires forall i :: 0 <= i < |parts| ==> c !in parts[i]
    ensures Split(Join(parts, [c]), c) == parts
  {
    if |parts| == 1 {
      SplitNoSep(parts[0], c);
    } else {
      SplitJoin(parts[1..], c);
      SplitPrefix(parts[0], Join(parts[1..], [c]), c);
      assert Join(parts, [c]) == parts[0] + [c] + Join(parts[1..], [c]);
    }
  }

  lemma {:induction false} SplitNoSep(s: string, c: char)
    requires c !in s
    ensures Split(s, c) == [s]
  {
    if |s| > 0 {
      SplitNoSep(s[1..], c);
      assert [s[0]] + s[1..] == s;
    }
  }

  lemma {:induction false} SplitPrefix(p: string, rest: string, c: char)
    requires c !in p
    ensures Split(p + [c] + rest, c) == [p] + Split(rest, c)
  {
    if |p| == 0 {
      assert p + [c] + rest == [c] + rest;
      assert ([c] + rest)[1..] == rest;
    } else {
      assert (p + [c] + rest)[1..] == p[1..] + [c] + rest;
      SplitPrefix(p[1..], rest, c);
      assert [p[0]] + p[1..] == p;
    }
  }

  /** Joining undoes splitting. */
  lemma {:induction false} JoinSplit(s: string, c: char)
    ensures Join(Split(s, c), [c]) == s
  {
    if |s| > 0 {
      JoinSplit(s[1..], c);
      var rest := Split(s[1..], c);
      if s[0] == c {
        assert Split(s, c) == [""] + rest;
        assert ([""] + rest)[1..] == rest;
      } else {
        var r := Split(s, c);
        assert r == [[s[0]] + rest[0]] + rest[1..];
        if |rest| == 1 {
        } else {
          assert r[1..] == rest[1..];
          assert Join(rest, [c]) == rest[0] + [c] + Join(rest[1..], [c]);
        }
      }
    }
  }

  /** `s.split(c).filter(Boolean)`: the non-empty pieces. */
  function NonEmpty(parts: seq<string>): (r: seq<string>)
    ensures forall i :: 0 <= i < |r| ==> |r[i]| > 0
    ensures |r| <= |parts|
    ensures forall x :: x in r ==> x in parts
  {
    if |parts| == 0 then []
    else if |parts[0]| == 0 then NonEmpty(parts[1..])
    else [parts[0]] + NonEmpty(parts[1..])
  }

  // ---------------------------------------------------------------------
  // Padding

  function Repeat(c: char, n: nat): (r: string)
    ensures |r| == n && AllChar(r, c)
  {
    if n == 0 then "" else [c] + Repeat(c, n - 1)
  }

  /** `s.padStart(width, c)`. */
  function PadStart(s: string, width: nat, c: char): (r: string)
    ensures |s| >= width ==> r == s
    ensures |s| < width ==> |r| == width
    ensures exists k :: 0 <= k <= |r| && r == Repeat(c, k) + s
  {
    if |s| >= width then
      assert s == Repeat(c, 0) + s;
      s
    else Repeat(c, width - |s|) + s
  }

  /** `s.padEnd(width, c)`. */
  function PadEnd(s: string, width: nat, c: char): (r: string)
    ensures |s| >= width ==> r == s
    ensures |s| < width ==> |r| == width
    ensures r[..|s|] == s && AllChar(r[|s|..], c)
  {
    if |s| >= width then s else s + Repeat(c, width - |s|)
  }

  // ---------------------------------------------------------------------
  // Decimal numbers

  function DigitChar(d: nat): (r: char)
    requires d < 10
    ensures IsDigit(r) && r as int - '0' as int == d
  {
    ('0' as int + d) as char
  }

  /** `String(n)` for a non-negative integer. */
  function NatToString(n: nat): (r: string)
    ensures |r| > 0
    ensures forall i :: 0 <= i < |r| ==> IsDigit(r[i])
    ensures |r| > 1 ==> r[0] != '0'
  {
    if n < 10 then [DigitChar(n)] else NatToString(n / 10) + [DigitChar(n % 10)]
  }

  /** `String(i)` for any integer. */
  function IntToString(i: int): (r: string)
    ensures i >= 0 ==> r == NatToString(i)
    ensures i < 0 ==> r == "-" + NatToString(-i)
  {
    if i >= 0 then NatToString(i) else "-" + NatToString(-i)
  }

  predicate AllDigits(s: string) {
    forall i :: 0 <= i < |s| ==> IsDigit(s[i])
  }

  /** The value of a run of decimal digits. */
  function DigitsValue(s: string): nat
    requires AllDigits(s)
  {
    if |s| == 0 then 0 else DigitsValue(s[..|s| - 1]) * 10 + (s[|s| - 1] as int - '0' as int)
  }

  /** Reading back the decimal rendering of `n` gives `n`. */
  lemma {:induction false} DigitsValueOfNatToString(n: nat)
    ensures DigitsValue(NatToString(n)) == n
  {
    if n >= 10 {
      DigitsValueOfNatToString(n / 10);
      var s := NatToString(n);
      assert s[..|s| - 1] == NatToString(n / 10);
    }
  }

  /** Leading zeros do not change the value of a digit run. */
  lemma {:induction false} DigitsValueLeadingZeros(k: nat, s: string)
    requires AllDigits(s)
    ensures AllDigits(Repeat('0', k) + s)
    ensures DigitsValue(Repeat('0', k) + s) == DigitsValue(s)
  {
    var t := Repeat('0', k) + s;
    assert AllDigits(t) by {
      forall i | 0 <= i < |t| ensures IsDigit(t[i]) {
        if i < k { assert t[i] == Repeat('0', k)[i]; } else { assert t[i] == s[i - k]; }
      }
    }
    if |s| == 0 {
      assert t == Repeat('0', k);
      ZerosValue(k);
    } else {
      assert t[..|t| - 1] == Repeat('0', k) + s[..|s| - 1];
      DigitsValueLeadingZeros(k, s[..|s| - 1]);
    }
  }

  lemma {:induction false} ZerosValue(k: nat)
    ensures AllDigits(Repeat('0', k))
    ensures DigitsValue(Repeat('0', k)) == 0
  {
    if k > 0 {
      var z := Repeat('0', k);
      assert z[..k - 1] == Repeat('0', k - 1) by {
        assert z == [ '0' ] + Repeat('0', k - 1);
        ZerosLast(k);
      }
      ZerosValue(k - 1);
    }
  }

  lemma ZerosLast(k: nat)
    requires k > 0
    ensures Repeat('0', k) == Repeat('0', k - 1) + ['0']
  {
    var a := Repeat('0', k);
    var b := Repeat('0', k - 1) + ['0'];
    assert |a| == |b|;
    assert forall i :: 0 <= i < |a| ==> a[i] == '0' == b[i];
  }

  /** The longest prefix of `s` made of decimal digits. */
  function LeadingDigits(s: string): (r: string)
    ensures |r| <= |s| && AllDigits(r) && r == s[..|r|]
    ensures |r| < |s| ==> !IsDigit(s[|r|])
  {
    if |s| > 0 && IsDigit(s[0]) then [s[0]] + LeadingDigits(s[1..]) else ""
  }

  /** `Number.parseInt(s, 10)` when the result is finite: leading white
      space is skipped, one optional sign is read, then at least one digit
      must follow; `None` stands for `NaN`. */
  function ParseInt(s: string): (r: Option<int>)
    ensures r.Some? ==> |TrimStart(s)| > 0
  {
    var t := TrimStart(s);
    var neg := |t| > 0 && t[0] == '-';
    var body := if |t| > 0 && (t[0] == '-' || t[0] == '+') then t[1..] else t;
    var digits := LeadingDigits(body);
    if |digits| == 0 then None
    else if neg then Some(-(DigitsValue(digits) as int))
    else Some(DigitsValue(digits))
  }

  /** A plain decimal rendering parses back to its value. */
  lemma ParseIntOfNatToString(n: nat)
    ensures ParseInt(NatToString(n)) == Some(n)
  {
    var s := NatToString(n);
    assert !IsWs(s[0]) && s[0] != '-' && s[0] != '+';
    LeadingDigitsAll(s);
    DigitsValueOfNatToString(n);
  }

  lemma {:induction false} LeadingDigitsAll(s: string)
    requires AllDigits(s)
    ensures LeadingDigits(s) == s
  {
    if |s| > 0 {
      LeadingDigitsAll(s[1..]);
      assert [s[0]] + s[1..] == s;
    }
  }

  // ---------------------------------------------------------------------
  // Character order (JavaScript's `<` on strings and the default `sort`)

  /** `a < b` on JavaScript strings: lexicographic on characters, each
      compared by its scalar value. */
  predicate Less(a: string, b: string)
    decreases |a|
  {
    if |a| == 0 then |b| > 0
    else if |b| == 0 then false
    else if a[0] != b[0] then a[0] < b[0]
    else Less(a[1..], b[1..])
  }

  predicate LessEq(a: string, b: string) {
    a == b || Less(a, b)
  }

  lemma {:induction false} LessIrreflexive(a: string)
    ensures !Less(a, a)
  {
    if |a| > 0 { LessIrreflexive(a[1..]); }
  }

  lemma {:induction false} LessTransitive(a: string, b: string, c: string)
    requires Less(a, b) && Less(b, c)
    ensures Less(a, c)
  {
    if |a| > 0 && |b| > 0 && |c| > 0 && a[0] == b[0] && b[0] == c[0] {
      LessTransitive(a[1..], b[1..], c[1..]);
    }
  }

  lemma {:induction false} LessTotal(a: string, b: string)
    ensures a == b || Less(a, b) || Less(b, a)
  {
    if |a| > 0 && |b| > 0 && a[0] == b[0] {
      LessTotal(a[1..], b[1..]);
      if a[1..] == b[1..] {
        assert a == [a[0]] + a[1..] && b == [b[0]] + b[1..];
      }
    }
  }

  lemma {:induction false} LessAsymmetric(a: string, b: string)
    requires Less(a, b)
    ensures !Less(b, a)
  {
    if |a| > 0 && |b| > 0 && a[0] == b[0] {
      LessAsymmetric(a[1..], b[1..]);
    }
  }

  predicate SortedStrict(s: seq<string>) {
    forall i, j :: 0 <= i < j < |s| ==> Less(s[i], s[j])
  }

  lemma SortedTail(a: seq<string>)
    requires |a| > 0 && SortedStrict(a)
    ensures SortedStrict(a[1..])
  {
    forall i, j | 0 <= i < j < |a| - 1
      ensures Less(a[1..][i], a[1..][j])
    {
      assert a[1..][i] == a[i + 1] && a[1..][j] == a[j + 1];
    }
  }

  /** A strictly ascending list is determined by its elements. */
  lemma {:induction false} SortedUnique(a: seq<string>, b: seq<string>)
    requires SortedStrict(a) && SortedStrict(b) && multiset(a) == multiset(b)
    ensures a == b
  {
    if |a| > 0 {
      SortedSameFirst(a, b);
      MultisetTail(a, b);
      SortedTail(a);
      SortedTail(b);
      SortedUnique(a[1..], b[1..]);
    } else {
      assert |b| == |multiset(b)|;
    }
  }

  /** Two strictly sorted permutations start with the same string. */
  lemma SortedSameFirst(a: seq<string>, b: seq<string>)
    requires SortedStrict(a) && SortedStrict(b) && multiset(a) == multiset(b) && |a| > 0
    ensures |b| > 0 && a[0] == b[0]
  {
    assert a[0] in multiset(b);
    var j :| 0 <= j < |b| && b[j] == a[0];
    assert b[0] in multiset(a);
    var i :| 0 <= i < |a| && a[i] == b[0];
    if j > 0 {
      assert Less(b[0], b[j]);
      if i > 0 {
        LessAsymmetric(a[0], a[i]);
      } else {
        LessIrreflexive(a[0]);
      }
    }
  }

  /** Permutations with the same first element are permutations after it. */
  lemma MultisetTail<T>(a: seq<T>, b: seq<T>)
    requires |a| > 0 && |b| > 0 && a[0] == b[0] && multiset(a) == multiset(b)
    ensures multiset(a[1..]) == multiset(b[1..])
  {
    assert a == [a[0]] + a[1..] && b == [b[0]] + b[1..];
    assert multiset(a) == multiset{a[0]} + multiset(a[1..]);
    assert multiset(b) == multiset{a[0]} + multiset(b[1..]);
    assert multiset(a[1..]) == multiset(a) - multiset{a[0]};
    assert multiset(b[1..]) == multiset(b) - multiset{a[0]};
  }

  /** Inserts `x` into an ascending list. */
  function InsertSorted(x: string, s: seq<string>): (r: seq<string>)
    requires SortedStrict(s) && x !in s
    ensures SortedStrict(r)
    ensures multiset(r) == multiset(s) + multiset{x}
  {
    if |s| == 0 then [x]
    else if Less(x, s[0]) then
      assert forall j :: 0 < j < |s| ==> Less(x, s[j]) by {
        forall j | 0 < j < |s| ensures Less(x, s[j]) { LessTransitive(x, s[0], s[j]); }
      }
      [x] + s
    else
      LessTotal(x, s[0]);
      var t := InsertSorted(x, s[1..]);
      assert s == [s[0]] + s[1..];
      assert forall k :: 0 <= k < |t| ==> Less(s[0], t[k]) by {
        forall k | 0 <= k < |t| ensures Less(s[0], t[k]) {
          assert t[k] in multiset(t);
          assert t[k] == x || t[k] in s[1..];
        }
      }
      [s[0]] + t
  }

  /** `Array.from(keys).sort()` for distinct keys: ascending character order. */
  function SortStrings(s: seq<string>): (r: seq<string>)
    requires forall i, j :: 0 <= i < j < |s| ==> s[i] != s[j]
    ensures SortedStrict(r)
    ensures multiset(r) == multiset(s)
  {
    if |s| == 0 then []
    else
      assert s == s[..|s| - 1] + [s[|s| - 1]];
      var t := SortStrings(s[..|s| - 1]);
      assert s[|s| - 1] !in t by {
        assert s[|s| - 1] !in multiset(s[..|s| - 1]);
      }
      InsertSorted(s[|s| - 1], t)
  }
}

=== FILE: token_edit.dfy ===
/** Editing a token line (src/tokenEdit.ts): inserting characters,
    deleting characters and ranges, and splitting a line at a column. Every
    edit works on the leaf under the column and then normalises the line. */
module TokenEdit {
  import opened Wrappers
  import opened TokenTree
  import opened TokenNormalize

  const SpaceKind: string := "Space"
  const DefaultKind: string := "NakedString"

  /** `createSpaceToken`. */
  function SpaceToken(s: string): Token {
    Leaf(SpaceKind, 0, 0, s)
  }

  /** `createDefaultTextToken`. */
  function TextToken(s: string): Token {
    Leaf(DefaultKind, 0, 0, s)
  }

  /** `cloneTokenMetadata`: the type and positions, with no text and no
      children. */
  function Metadata(t: Token): (r: Token)
    ensures Text(r) == "" && r.kind == t.kind && r.tokenIdx == t.tokenIdx && r.x == t.x
  {
    Leaf(t.kind, t.tokenIdx, t.x, "")
  }

  function Clamp(v: int, lo: int, hi: int): int
    requires lo <= hi
  {
    if v < lo then lo else if v > hi then hi else v
  }

  // ---------------------------------------------------------------------
  // locateLeaf

  /** The token of a list that holds a column: its index and the column
      at which it starts. */
  datatype Hit = Hit(index: nat, start: int)

  /** One level of `locateLeaf`: the first token whose end is past
      `col`, or whose end equals `col` when boundaries go to the earlier
      token (`prefer`) or the token is the last one. */
  function Locate(ts: seq<Token>, col: int, prefer: bool): (r: Option<Hit>)
    decreases |ts|
    ensures r.None? <==> |ts| == 0 || col > |Concat(ts)|
    ensures r.Some? ==> r.value.index < |ts|
    ensures r.Some? ==> r.value.start == |Concat(ts[..r.value.index])|
    ensures r.Some? ==> col <= r.value.start + |Text(ts[r.value.index])|
    ensures r.Some? && r.value.index > 0 ==> r.value.start <= col
    ensures r.Some? && !prefer && col < |Concat(ts)| ==> col < r.value.start + |Text(ts[r.value.index])|
  {
    if |ts| == 0 then None
    else
      var len := |Text(ts[0])|;
      if col < len || (col == len && (prefer || |ts| == 1)) then
        assert ts[..0] == [];
        Some(Hit(0, 0))
      else
        match Locate(ts[1..], col - len, prefer)
        case None => None
        case Some(h) =>
          assert ts[..h.index + 1] == [ts[0]] + ts[1..][..h.index];
          assert ts[h.index + 1] == ts[1..][h.index];
          Some(Hit(h.index + 1, h.start + len))
  }

  /** Where a column falls inside the token `Locate` found: the clamped
      offset plus the token's start is the column clamped to the line. */
  lemma LocateOffset(ts: seq<Token>, col: int, prefer: bool)
    requires Locate(ts, col, prefer).Some?
    ensures var h := Locate(ts, col, prefer).value;
      h.start + Clamp(col - h.start, 0, |Text(ts[h.index])|) == Clamp(col, 0, |Concat(ts)|)
  {
    var h := Locate(ts, col, prefer).value;
    ConcatAround(ts, h.index);
  }

  // ---------------------------------------------------------------------
  // insertSpace / insertNonSpace

  /** The tokens that replace leaf `t` when `ch` is inserted at `off`. */
  function LeafInsert(t: Token, off: nat, ch: string): seq<Token>
    requires !IsBranch(t) && off <= |Text(t)|
  {
    var s := Text(t);
    var before := s[..off];
    var after := s[off..];
    if ch == " " then
      if t.kind == SpaceKind then [WithText(t, before + " " + after)]
      else if |before| == 0 then [SpaceToken(" "), t]
      else if |after| == 0 then [t, SpaceToken(" ")]
      else [WithText(t, before), SpaceToken(" "), WithText(t, after)]
    else if t.kind == SpaceKind then
      if |before| == 0 then [TextToken(ch), WithText(t, after)]
      else [WithText(t, before), TextToken(ch)] + (if |after| > 0 then [SpaceToken(after)] else [])
    else [WithText(t, before + ch + after)]
  }

  lemma Concat2(a: Token, b: Token)
    ensures Concat([a, b]) == Text(a) + Text(b)
  {
    ConcatAppend([a], [b]);
    ConcatSingle(a);
    ConcatSingle(b);
  }

  lemma Concat3(a: Token, b: Token, c: Token)
    ensures Concat([a, b, c]) == Text(a) + Text(b) + Text(c)
  {
    ConcatAppend([a, b], [c]);
    Concat2(a, b);
    ConcatSingle(c);
  }

  /** The replacement tokens hold the leaf's text with `ch` at `off`. */
  lemma LeafInsertText(t: Token, off: nat, ch: string)
    requires !IsBranch(t) && off <= |Text(t)|
    ensures Concat(LeafInsert(t, off, ch)) == Text(t)[..off] + ch + Text(t)[off..]
  {
    assert Text(t) == Text(t)[..off] + Text(t)[off..];
    if ch == " " {
      LeafInsertSpaceText(t, off);
    } else {
      LeafInsertCharText(t, off, ch);
    }
  }

  lemma LeafInsertSpaceText(t: Token, off: nat)
    requires !IsBranch(t) && off <= |Text(t)|
    requires Text(t) == Text(t)[..off] + Text(t)[off..]
    ensures Concat(LeafInsert(t, off, " ")) == Text(t)[..off] + " " + Text(t)[off..]
  {
    var before, after := Text(t)[..off], Text(t)[off..];
    if t.kind == SpaceKind {
      ConcatSingle(WithText(t, before + " " + after));
    } else if |before| == 0 {
      Concat2(SpaceToken(" "), t);
    } else if |after| == 0 {
      Concat2(t, SpaceToken(" "));
    } else {
      Concat3(WithText(t, before), SpaceToken(" "), WithText(t, after));
    }
  }

  lemma LeafInsertCharText(t: Token, off: nat, ch: string)
    requires !IsBranch(t) && off <= |Text(t)| && ch != " "
    requires Text(t) == Text(t)[..off] + Text(t)[off..]
    ensures Concat(LeafInsert(t, off, ch)) == Text(t)[..off] + ch + Text(t)[off..]
  {
    var before, after := Text(t)[..off], Text(t)[off..];
    if t.kind != SpaceKind {
      ConcatSingle(WithText(t, before + ch + after));
    } else if |before| == 0 {
      Concat2(TextToken(ch), WithText(t, after));
    } else if |after| > 0 {
      assert [WithText(t, before), TextToken(ch)] + [SpaceToken(after)]
        == [WithText(t, before), TextToken(ch), SpaceToken(after)];
      Concat3(WithText(t, before), TextToken(ch), SpaceToken(after));
    } else {
      assert [WithText(t, before), TextToken(ch)] + [] == [WithText(t, before), TextToken(ch)];
      Concat2(WithText(t, before), TextToken(ch));
    }
  }

  /** Types after inserting into a leaf: a space lengthens a Space token;
      a space strictly inside another leaf splits it into two clones of its
      type around a new one-space Space token; any other character keeps a
      non-Space leaf's type, and inside a Space token it becomes a
      NakedString token with the remaining white space kept as Space. */
  lemma LeafInsertKinds(t: Token, off: nat, ch: string)
    requires !IsBranch(t) && off <= |Text(t)|
    ensures var r := LeafInsert(t, off, ch);
      (ch == " " && t.kind == SpaceKind ==>
        |r| == 1 && r[0].kind == SpaceKind && |Text(r[0])| == |Text(t)| + 1) &&
      (ch == " " && t.kind != SpaceKind && 0 < off < |Text(t)| ==>
        |r| == 3 && r[0].kind == t.kind && r[2].kind == t.kind && r[1] == SpaceToken(" ") &&
        Text(r[0]) == Text(t)[..off] && Text(r[2]) == Text(t)[off..]) &&
      (ch != " " && t.kind != SpaceKind ==> |r| == 1 && r[0].kind == t.kind) &&
      (ch != " " && t.kind == SpaceKind ==>
        TextToken(ch) in r && forall i :: 0 <= i < |r| && r[i] != TextToken(ch) ==> r[i].kind == SpaceKind)
  {
  }

  /** The token a character becomes when no token holds the column. */
  function NewToken(ch: string): Token {
    if ch == " " then SpaceToken(" ") else TextToken(ch)
  }

  /** `locateLeaf(line, col, true)` followed by the insertion into the leaf
      it finds, before normalisation. */
  function InsertIn(ts: seq<Token>, col: int, ch: string): (r: seq<Token>)
    decreases ts, 1
  {
    match Locate(ts, col, true)
    case None => ts + [NewToken(ch)]
    case Some(h) => InsertAt(ts, col, ch, h)
  }

  /** The insertion into the token `Locate` found. */
  function InsertAt(ts: seq<Token>, col: int, ch: string, h: Hit): (r: seq<Token>)
    requires h.index < |ts|
    decreases ts, 0
  {
    var t := ts[h.index];
    if IsBranch(t) then
      ts[h.index := Composite(t.kind, t.tokenIdx, t.x, InsertIn(t.subs, col - h.start, ch))]
    else
      ts[..h.index] + LeafInsert(t, Clamp(col - h.start, 0, |Text(t)|), ch) + ts[h.index + 1..]
  }

  /** Inserting into `A + S + B` inside `S`. */
  lemma InsertInside(A: string, S: string, B: string, off: nat, ch: string)
    requires off <= |S|
    ensures (A + S + B)[..|A| + off] + ch + (A + S + B)[|A| + off..] == A + (S[..off] + ch + S[off..]) + B
  {
    assert (A + S + B)[..|A| + off] == A + S[..off];
    assert (A + S + B)[|A| + off..] == S[off..] + B;
  }

  /** The text after inserting `ch` at `col` has `ch` at the column
      clamped to the line. */
  predicate InsertsAt(ts: seq<Token>, col: int, ch: string) {
    var k := Clamp(col, 0, |Concat(ts)|);
    Concat(InsertIn(ts, col, ch)) == Concat(ts)[..k] + ch + Concat(ts)[k..]
  }

  /** Inserting puts `ch` at the column clamped to the line. */
  lemma {:induction false} InsertInText(ts: seq<Token>, col: int, ch: string)
    ensures InsertsAt(ts, col, ch)
    decreases ts
  {
    match Locate(ts, col, true)
    case None =>
      InsertEndStep(ts, col, ch);
    case Some(h) =>
      if IsBranch(ts[h.index]) {
        InsertInText(ts[h.index].subs, col - h.start, ch);
        InsertBranchStep(ts, col, ch, h);
      } else {
        InsertLeafStep(ts, col, ch, h);
      }
  }

  /** No token holds the column: the new token goes at the end. */
  lemma InsertEndStep(ts: seq<Token>, col: int, ch: string)
    requires Locate(ts, col, true).None?
    ensures InsertsAt(ts, col, ch)
  {
    var T := Concat(ts);
    var x := NewToken(ch);
    assert InsertIn(ts, col, ch) == ts + [x];
    assert Concat(ts + [x]) == T + ch by {
      ConcatAppend(ts, [x]);
      ConcatSingle(x);
    }
    assert Clamp(col, 0, |T|) == |T|;
    assert T[..|T|] + ch + T[|T|..] == T + ch;
  }

  /** The column falls inside a composite: the insertion into its children
      splices into the line. */
  lemma InsertBranchStep(ts: seq<Token>, col: int, ch: string, h: Hit)
    requires Locate(ts, col, true).Some? && Locate(ts, col, true).value == h && IsBranch(ts[h.index])
    requires InsertsAt(ts[h.index].subs, col - h.start, ch)
    ensures InsertsAt(ts, col, ch)
  {
    var i := h.index;
    var t := ts[i];
    var c := col - h.start;
    var x := Composite(t.kind, t.tokenIdx, t.x, InsertIn(t.subs, c, ch));
    LocateOffset(ts, col, true);
    assert InsertIn(ts, col, ch) == ts[i := x];
    ReplaceInserts(ts, i, [x], Clamp(c, 0, |Text(t)|), Clamp(col, 0, |Concat(ts)|), ch);
  }

  /** The column falls inside a leaf, which takes the character. */
  lemma InsertLeafStep(ts: seq<Token>, col: int, ch: string, h: Hit)
    requires Locate(ts, col, true).Some? && Locate(ts, col, true).value == h && !IsBranch(ts[h.index])
    ensures InsertsAt(ts, col, ch)
  {
    var i := h.index;
    var t := ts[i];
    var off := Clamp(col - h.start, 0, |Text(t)|);
    LocateOffset(ts, col, true);
    LeafInsertText(t, off, ch);
    assert InsertIn(ts, col, ch) == ts[..i] + LeafInsert(t, off, ch) + ts[i + 1..];
    SpliceInserts(ts, i, LeafInsert(t, off, ch), off, Clamp(col, 0, |Concat(ts)|), ch);
  }

  /** Replacing token `i` by tokens whose text is its own with `ch` at
      `off` puts `ch` at the token's start plus `off` in the line. */
  lemma SpliceInserts(ts: seq<Token>, i: nat, mid: seq<Token>, off: int, k: int, ch: string)
    requires i < |ts| && 0 <= off <= |Text(ts[i])|
    requires Concat(mid) == Text(ts[i])[..off] + ch + Text(ts[i])[off..]
    requires k == |Concat(ts[..i])| + off
    ensures k <= |Concat(ts)| && Concat(ts[..i] + mid + ts[i + 1..]) == Concat(ts)[..k] + ch + Concat(ts)[k..]
  {
    ConcatAround(ts, i);
    ConcatSplice(ts, i, mid);
    InsertInside(Concat(ts[..i]), Text(ts[i]), Concat(ts[i + 1..]), off, ch);
  }

  /** The same, for one token put in place of token `i`. */
  lemma ReplaceInserts(ts: seq<Token>, i: nat, mid: seq<Token>, off: int, k: int, ch: string)
    requires i < |ts| && |mid| == 1 && 0 <= off <= |Text(ts[i])|
    requires Text(mid[0]) == Text(ts[i])[..off] + ch + Text(ts[i])[off..]
    requires k == |Concat(ts[..i])| + off
    ensures k <= |Concat(ts)| && Concat(ts[i := mid[0]]) == Concat(ts)[..k] + ch + Concat(ts)[k..]
  {
    ConcatSingle(mid[0]);
    assert ts[i := mid[0]] == ts[..i] + mid + ts[i + 1..];
    SpliceInserts(ts, i, mid, off, k, ch);
  }

  // ---------------------------------------------------------------------
  // insertCharacter / insertTextIntoTokenLine

  /** `insertCharacter`: insert, then normalise. */
  function InsertChar(line: Line, col: int, ch: string): (r: Line)
    ensures Normal(r)
    ensures var k := Clamp(col, 0, |Concat(line)|);
      Concat(r) == Concat(line)[..k] + ch + Concat(line)[k..]
  {
    InsertInText(line, col, ch);
    NormalizeSound(InsertIn(line, col, ch));
    Normalize(InsertIn(line, col, ch))
  }

  /** `insertTextIntoTokenLine`: one character at a time, advancing the
      column by one each time. */
  function InsertText(line: Line, col: int, s: string): (r: Line)
    decreases |s|
  {
    if |s| == 0 then line
    else InsertText(InsertChar(line, col, s[..1]), col + 1, s[1..])
  }

  /** `after` is `before` with `s` at `col`, or at the end when `col` is
      past it. */
  predicate InsertsText(before: string, col: nat, s: string, after: string) {
    var k := if col < |before| then col else |before|;
    after == before[..k] + s + before[k..]
  }

  /** From a non-negative column, the text lands at that column, or at the
      end when the column is past it. */
  lemma {:induction false} InsertTextText(line: Line, col: nat, s: string)
    ensures InsertsText(Concat(line), col, s, Concat(InsertText(line, col, s)))
    decreases |s|
  {
    var T := Concat(line);
    if |s| == 0 {
      var k := if col < |T| then col else |T|;
      assert T[..k] + s + T[k..] == T;
    } else {
      var line' := InsertChar(line, col, s[..1]);
      InsertTextText(line', col + 1, s[1..]);
      TextStep(T, Concat(line'), col, s, Concat(InsertText(line', col + 1, s[1..])));
      assert InsertText(line, col, s) == InsertText(line', col + 1, s[1..]);
    }
  }

  /** Inserting the first character of `s` at `col` and the rest one column
      further inserts all of `s` at `col`. */
  lemma TextStep(T: string, T': string, col: nat, s: string, R: string)
    requires |s| > 0
    requires var k := Clamp(col, 0, |T|); T' == T[..k] + s[..1] + T[k..]
    requires InsertsText(T', col + 1, s[1..], R)
    ensures InsertsText(T, col, s, R)
  {
    var k := if col < |T| then col else |T|;
    assert T'[..k + 1] == T[..k] + s[..1];
    assert T'[k + 1..] == T[k..];
    assert s == s[..1] + s[1..];
  }

  /** `s` backwards. */
  function Reversed(s: string): (r: string)
    ensures |r| == |s|
  {
    if |s| == 0 then "" else Reversed(s[1..]) + [s[0]]
  }

  /** From a column at or below 0, each of the first `m = min(|s|, 1 - col)`
      characters is inserted at column 0, in front of the ones before it,
      so they end up reversed; the `m`-th lands first and the rest of `s`
      follows it from column 1. */
  lemma {:induction false} InsertTextBelowZero(line: Line, col: int, s: string)
    requires col <= 0 && |s| > 0
    ensures var m := if |s| < 1 - col then |s| else 1 - col;
      Concat(InsertText(line, col, s)) == [s[m - 1]] + s[m..] + Reversed(s[..m - 1]) + Concat(line)
  {
    InsertTextChars(line, col, s);
    TextInsertBelowZero(Concat(line), col, s, if |s| < 1 - col then |s| else 1 - col);
  }

  /** The text `InsertText` leaves, computed on the text alone: each
      character goes in at the clamped column, which then advances. */
  function TextInsert(T: string, col: int, s: string): (r: string)
    decreases |s|
    ensures |r| == |T| + |s|
  {
    if |s| == 0 then T
    else
      var k := Clamp(col, 0, |T|);
      TextInsert(T[..k] + s[..1] + T[k..], col + 1, s[1..])
  }

  lemma {:induction false} InsertTextChars(line: Line, col: int, s: string)
    ensures Concat(InsertText(line, col, s)) == TextInsert(Concat(line), col, s)
    decreases |s|
  {
    if |s| > 0 {
      InsertTextChars(InsertChar(line, col, s[..1]), col + 1, s[1..]);
    }
  }

  /** From a column inside the text, the characters land in order. */
  lemma {:induction false} TextInsertInside(T: string, k: int, s: string)
    requires 0 <= k <= |T|
    ensures TextInsert(T, k, s) == T[..k] + s + T[k..]
    decreases |s|
  {
    if |s| == 0 {
      assert T[..k] + s + T[k..] == T;
    } else {
      var T' := T[..k] + s[..1] + T[k..];
      TextInsertInside(T', k + 1, s[1..]);
      assert T'[..k + 1] == T[..k] + s[..1] && T'[k + 1..] == T[k..];
      assert s[..1] + s[1..] == s;
    }
  }

  /** `m` is the smaller of `|s|` and `1 - col`. */
  lemma {:induction false} TextInsertBelowZero(T: string, col: int, s: string, m: nat)
    requires col <= 0 && 1 <= m <= |s| && m <= 1 - col && (m == |s| || m == 1 - col)
    ensures TextInsert(T, col, s) == [s[m - 1]] + s[m..] + Reversed(s[..m - 1]) + T
    decreases |s|
  {
    if col == 0 {
      TextInsertInside(T, 0, s);
      FrontLast(s, T);
    } else {
      var T' := s[..1] + T;
      TextInsertFront(T, col, s);
      if |s| == 1 {
        FrontLast(s, T);
      } else {
        TextInsertBelowZero(T', col + 1, s[1..], m - 1);
        ReversedStep(s, m, T, T');
      }
    }
  }

  /** A column at or below 0 puts the first character in front. */
  lemma TextInsertFront(T: string, col: int, s: string)
    requires col <= 0 && |s| > 0
    ensures TextInsert(T, col, s) == TextInsert(s[..1] + T, col + 1, s[1..])
  {
    assert T[..0] + s[..1] + T[0..] == s[..1] + T;
  }

  /** The form the reversal takes when only one character is reversed. */
  lemma FrontLast(s: string, T: string)
    requires |s| > 0
    ensures [s[0]] + s[1..] + Reversed(s[..0]) + T == s + T
    ensures |s| == 1 ==> TextInsert(s[..1] + T, 0, s[1..]) == s + T
  {
    assert Reversed(s[..0]) == "";
    assert [s[0]] + s[1..] == s;
    if |s| == 1 {
      assert s[..1] == s && s[1..] == "";
    }
  }

  /** One more character in front: the text the inductive step of
      `InsertTextBelowZero` produces, regrouped. */
  lemma ReversedStep(s: string, m: nat, T: string, L: string)
    requires 2 <= m <= |s| && L == s[..1] + T
    ensures [s[1..][m - 2]] + s[1..][m - 1..] + Reversed(s[1..][..m - 2]) + L
      == [s[m - 1]] + s[m..] + Reversed(s[..m - 1]) + T
  {
    assert s[1..][m - 2] == s[m - 1] && s[1..][m - 1..] == s[m..];
    assert s[..m - 1][1..] == s[1..][..m - 2];
    assert Reversed(s[..m - 1]) == Reversed(s[1..][..m - 2]) + s[..1];
  }

  /** A line normalised beforehand stays normal after inserting text. */
  lemma {:induction false} InsertTextNormal(line: Line, col: int, s: string)
    requires Normal(line)
    ensures Normal(InsertText(line, col, s))
    decreases |s|
  {
    if |s| > 0 {
      InsertTextNormal(InsertChar(line, col, s[..1]), col + 1, s[1..]);
    }
  }

  // ---------------------------------------------------------------------
  // deleteCharacter / deleteRange

  /** `locateLeaf(line, col)` and the removal of the character at the
      offset it finds; `None` when there is no token or the offset is at
      the leaf's end. */
  function DeleteIn(ts: seq<Token>, col: int): (r: Option<seq<Token>>)
    decreases ts, 1
  {
    match Locate(ts, col, false)
    case None => None
    case Some(h) => DeleteAt(ts, col, h)
  }

  /** The removal in the token `Locate` found. */
  function DeleteAt(ts: seq<Token>, col: int, h: Hit): (r: Option<seq<Token>>)
    requires h.index < |ts|
    decreases ts, 0
  {
    var t := ts[h.index];
    if IsBranch(t) then
      match DeleteIn(t.subs, col - h.start)
      case None => None
      case Some(kids) => Some(ts[h.index := Composite(t.kind, t.tokenIdx, t.x, kids)])
    else
      var s := Text(t);
      var off := Clamp(col - h.start, 0, |s|);
      if off >= |s| then None
      else Some(ts[h.index := WithText(t, s[..off] + s[off + 1..])])
  }

  /** Deleting from `A + S + B` inside `S`. */
  lemma DeleteInside(A: string, S: string, B: string, off: nat)
    requires off < |S|
    ensures (A + S + B)[..|A| + off] + (A + S + B)[|A| + off + 1..] == A + (S[..off] + S[off + 1..]) + B
  {
    assert (A + S + B)[..|A| + off] == A + S[..off];
    assert (A + S + B)[|A| + off + 1..] == S[off + 1..] + B;
  }

  /** A deletion removes exactly the character at the column (clamped at
      0), and one happens whenever the column is inside the text. */
  predicate DeletesOne(ts: seq<Token>, col: int) {
    (DeleteIn(ts, col).Some? ==>
      RemovesAt(Concat(ts), if col < 0 then 0 else col, Concat(DeleteIn(ts, col).value)))
    && (0 <= col < |Concat(ts)| ==> DeleteIn(ts, col).Some?)
  }

  lemma {:induction false} DeleteInText(ts: seq<Token>, col: int)
    ensures DeletesOne(ts, col)
    decreases ts
  {
    match Locate(ts, col, false)
    case None =>
    case Some(h) =>
      if IsBranch(ts[h.index]) {
        DeleteInText(ts[h.index].subs, col - h.start);
        DeleteBranchStep(ts, col, h);
      } else {
        DeleteLeafStep(ts, col, h);
      }
  }

  /** The column falls inside a composite: the deletion in its children
      splices into the line. */
  lemma DeleteBranchStep(ts: seq<Token>, col: int, h: Hit)
    requires Locate(ts, col, false).Some? && Locate(ts, col, false).value == h && IsBranch(ts[h.index])
    requires DeletesOne(ts[h.index].subs, col - h.start)
    ensures DeletesOne(ts, col)
  {
    match DeleteIn(ts[h.index].subs, col - h.start)
    case None =>
      DeleteBranchNone(ts, col, h);
    case Some(kids) =>
      DeleteBranchSome(ts, col, h, kids);
  }

  /** The children have nothing to delete at the column: neither has the
      line, and the column is past its end. */
  lemma DeleteBranchNone(ts: seq<Token>, col: int, h: Hit)
    requires Locate(ts, col, false).Some? && Locate(ts, col, false).value == h && IsBranch(ts[h.index])
    requires DeletesOne(ts[h.index].subs, col - h.start)
    requires DeleteIn(ts[h.index].subs, col - h.start).None?
    ensures DeletesOne(ts, col)
  {
    DeleteBranchMiss(ts, col, h);
    BranchOutside(ts, col, h);
  }

  lemma DeleteBranchMiss(ts: seq<Token>, col: int, h: Hit)
    requires Locate(ts, col, false).Some? && Locate(ts, col, false).value == h && IsBranch(ts[h.index])
    requires DeleteIn(ts[h.index].subs, col - h.start).None?
    ensures DeleteIn(ts, col).None?
  {
  }

  /** Children with nothing to delete put the column outside the line. */
  lemma BranchOutside(ts: seq<Token>, col: int, h: Hit)
    requires Locate(ts, col, false).Some? && Locate(ts, col, false).value == h && IsBranch(ts[h.index])
    requires DeletesOne(ts[h.index].subs, col - h.start)
    requires DeleteIn(ts[h.index].subs, col - h.start).None?
    ensures !(0 <= col < |Concat(ts)|)
  {
    var t := ts[h.index];
    LocateColumn(ts, col, h);
    assert Text(t) == Concat(t.subs);
  }

  /** The children lose the character: so does the line. */
  lemma DeleteBranchSome(ts: seq<Token>, col: int, h: Hit, kids: seq<Token>)
    requires Locate(ts, col, false).Some? && Locate(ts, col, false).value == h && IsBranch(ts[h.index])
    requires DeleteIn(ts[h.index].subs, col - h.start).Some? && DeleteIn(ts[h.index].subs, col - h.start).value == kids
    requires var c := col - h.start;
      RemovesAt(Concat(ts[h.index].subs), if c < 0 then 0 else c, Concat(kids))
    ensures DeleteIn(ts, col).Some?
    ensures RemovesAt(Concat(ts), if col < 0 then 0 else col, Concat(DeleteIn(ts, col).value))
  {
    var i := h.index;
    var t := ts[i];
    var c := col - h.start;
    var x := Composite(t.kind, t.tokenIdx, t.x, kids);
    assert DeleteIn(ts, col).Some? && DeleteIn(ts, col).value == ts[i := x];
    LocateColumn(ts, col, h);
    ReplaceRemoves(ts, i, x, if c < 0 then 0 else c, if col < 0 then 0 else col);
  }

  /** The column falls inside a leaf, which loses the character there. */
  lemma DeleteLeafStep(ts: seq<Token>, col: int, h: Hit)
    requires Locate(ts, col, false).Some? && Locate(ts, col, false).value == h && !IsBranch(ts[h.index])
    ensures DeletesOne(ts, col)
  {
    var i := h.index;
    var t := ts[i];
    var S := Text(t);
    var off := Clamp(col - h.start, 0, |S|);
    LocateColumn(ts, col, h);
    if off < |S| {
      var x := WithText(t, S[..off] + S[off + 1..]);
      assert DeleteIn(ts, col).Some? && DeleteIn(ts, col).value == ts[i := x];
      ReplaceRemoves(ts, i, x, off, if col < 0 then 0 else col);
    } else {
      assert DeleteIn(ts, col).None?;
    }
  }

  /** `after` is `before` without its character at `k`. */
  predicate RemovesAt(before: string, k: int, after: string) {
    0 <= k < |before| && after == before[..k] + before[k + 1..]
  }

  /** Where the column falls in the token `Locate` finds: a column inside
      the line is inside that token, and an offset short of the token's end
      is the column (clamped at 0) less the token's start. */
  lemma LocateColumn(ts: seq<Token>, col: int, h: Hit)
    requires Locate(ts, col, false).Some? && Locate(ts, col, false).value == h
    ensures var S := Text(ts[h.index]);
      0 <= col < |Concat(ts)| ==> 0 <= col - h.start < |S|
    ensures var S := Text(ts[h.index]); var off := Clamp(col - h.start, 0, |S|);
      off < |S| ==> (if col < 0 then 0 else col) == h.start + off
  {
    if h.index == 0 {
      assert ts[..0] == [];
    }
  }

  /** Replacing token `i` by one whose text lacks the character at `off`
      removes the character at the token's start plus `off` from the line. */
  lemma ReplaceRemoves(ts: seq<Token>, i: nat, x: Token, off: int, k: int)
    requires i < |ts| && RemovesAt(Text(ts[i]), off, Text(x))
    requires k == |Concat(ts[..i])| + off
    ensures RemovesAt(Concat(ts), k, Concat(ts[i := x]))
  {
    ConcatAround(ts, i);
    ConcatReplace(ts, i, x);
    DeleteInside(Concat(ts[..i]), Text(ts[i]), Concat(ts[i + 1..]), off);
  }

  /** `deleteCharacter`: the edited line and whether a character went. */
  function DeleteChar(line: Line, col: int): (r: (Line, bool))
    ensures !r.1 ==> r.0 == line
    ensures r.1 ==> Normal(r.0)
    ensures var T := Concat(line); var k := if col < 0 then 0 else col;
      r.1 ==> k < |T| && Concat(r.0) == T[..k] + T[k + 1..]
    ensures 0 <= col < |Concat(line)| ==> r.1
  {
    DeleteInText(line, col);
    match DeleteIn(line, col)
    case None => (line, false)
    case Some(edited) =>
      NormalizeSound(edited);
      (Normalize(edited), true)
  }

  /** The loop of `deleteRange`: up to `n` deletions at `col`, stopping at
      the first one that finds nothing. */
  function DeleteRun(line: Line, col: int, n: nat): Line
    decreases n
  {
    if n == 0 then line
    else
      var (next, deleted) := DeleteChar(line, col);
      if !deleted then line else DeleteRun(next, col, n - 1)
  }

  /** `deleteRangeFromTokenLine`: nothing when `end <= start`, else
      `end - start` rounds of the loop. */
  function DeleteRange(line: Line, start: int, end: int): Line {
    DeleteRun(line, start, if end <= start then 0 else end - start)
  }

  /** `after` is `before` without the `n` characters from `col`, or
      without what remains from there. */
  predicate RemovesRun(before: string, col: nat, n: nat, after: string) {
    var s := if col < |before| then col else |before|;
    var e := if s + n < |before| then s + n else |before|;
    after == before[..s] + before[e..]
  }

  /** `n` deletions at `col` remove the next `n` characters, or what
      remains of the text. */
  lemma {:induction false} DeleteRunText(line: Line, col: nat, n: nat)
    ensures RemovesRun(Concat(line), col, n, Concat(DeleteRun(line, col, n)))
    decreases n
  {
    var T := Concat(line);
    if n == 0 {
      assert T[..if col < |T| then col else |T|] + T[if col < |T| then col else |T|..] == T;
    } else if col >= |T| {
      DeleteCharPast(line, col);
      assert T[..|T|] + T[|T|..] == T;
    } else {
      var next := DeleteChar(line, col).0;
      DeleteCharInside(line, col);
      DeleteRunText(next, col, n - 1);
      RunStep(T, Concat(next), col, n, Concat(DeleteRun(next, col, n - 1)));
      assert DeleteRun(line, col, n) == DeleteRun(next, col, n - 1);
    }
  }

  /** Past the end of the text, `deleteCharacter` leaves the line alone. */
  lemma DeleteCharPast(line: Line, col: int)
    requires col >= |Concat(line)|
    ensures !DeleteChar(line, col).1 && DeleteChar(line, col).0 == line
  {
  }

  /** Inside the text, `deleteCharacter` removes the character at `col`. */
  lemma DeleteCharInside(line: Line, col: nat)
    requires col < |Concat(line)|
    ensures DeleteChar(line, col).1
    ensures Concat(DeleteChar(line, col).0) == Concat(line)[..col] + Concat(line)[col + 1..]
  {
  }

  /** Deleting one character at `col` and then `n - 1` more from the same
      column deletes `n` characters from there. */
  lemma RunStep(T: string, T': string, col: nat, n: nat, R: string)
    requires col < |T| && n > 0 && T' == T[..col] + T[col + 1..]
    requires RemovesRun(T', col, n - 1, R)
    ensures RemovesRun(T, col, n, R)
  {
    var e' := if col + n - 1 < |T'| then col + n - 1 else |T'|;
    assert T'[..col] == T[..col];
    assert T'[e'..] == T[e' + 1..];
  }

  lemma DeleteRangeText(line: Line, start: nat, end: int)
    ensures var T := Concat(line); var s := if start < |T| then start else |T|;
      var e := if end <= s then s else if end < |T| then end else |T|;
      Concat(DeleteRange(line, start, end)) == T[..s] + T[e..]
  {
    DeleteRunText(line, start, if end <= start then 0 else end - start);
  }

  /** A token list with no empty token has text. */
  lemma {:induction false} SolidHasText(ts: seq<Token>)
    requires Solid(ts) && |ts| > 0
    ensures |Concat(ts)| > 0
    decreases ts
  {
    SolidTokenHasText(ts[0]);
  }

  lemma {:induction false} SolidTokenHasText(t: Token)
    requires SolidToken(t)
    ensures |Text(t)| > 0
    decreases t
  {
    if t.Composite? {
      SolidHasText(t.subs);
    }
  }

  /** Below column 0 `locateLeaf` finds the first token at offset 0, as
      at column 0, so with no empty token the deletion is the one at 0. */
  lemma {:induction false} DeleteInBelowZero(ts: seq<Token>, col: int)
    requires Solid(ts) && col < 0
    ensures DeleteIn(ts, col) == DeleteIn(ts, 0)
    decreases ts
  {
    if |ts| > 0 {
      SolidTokenHasText(ts[0]);
      assert Locate(ts, col, false).Some? && Locate(ts, col, false).value == Hit(0, 0);
      assert Locate(ts, 0, false).Some? && Locate(ts, 0, false).value == Hit(0, 0);
      if IsBranch(ts[0]) {
        DeleteInBelowZero(ts[0].subs, col);
      }
    }
  }

  /** On a line with no empty token, deleting from below column 0 deletes
      from column 0, as many times. */
  lemma {:induction false} DeleteRunBelowZero(line: Line, col: int, n: nat)
    requires Solid(line) && col < 0
    ensures DeleteRun(line, col, n) == DeleteRun(line, 0, n)
    decreases n
  {
    if n > 0 {
      DeleteInBelowZero(line, col);
      assert DeleteChar(line, col) == DeleteChar(line, 0);
      var (next, deleted) := DeleteChar(line, 0);
      if deleted {
        DeleteRunBelowZero(next, col, n - 1);
      }
    }
  }

  /** A range starting below column 0 on a line with no empty token still
      makes `end - start` deletions, all at column 0: it removes the first
      `end - start` characters, or all of them, not the range's overlap
      with the text. */
  lemma DeleteRangeBelowZero(line: Line, start: int, end: int)
    requires Solid(line) && start < 0
    ensures var T := Concat(line); var n := if end <= start then 0 else end - start;
      Concat(DeleteRange(line, start, end)) == T[(if n < |T| then n else |T|)..]
  {
    var n := if end <= start then 0 else end - start;
    DeleteRunBelowZero(line, start, n);
    DeleteRunText(line, 0, n);
  }

  /** A range deletion of a normal line leaves it normal. */
  lemma {:induction false} DeleteRunNormal(line: Line, col: int, n: nat)
    requires Normal(line)
    ensures Normal(DeleteRun(line, col, n))
    decreases n
  {
    if n > 0 {
      var (next, deleted) := DeleteChar(line, col);
      if deleted {
        DeleteRunNormal(next, col, n - 1);
      }
    }
  }

  // ---------------------------------------------------------------------
  // splitToken / splitTokenLine

  /** `splitToken`: the token as left behind, and the token split off to
      its right, if any. */
  function SplitToken(t: Token, off: int): (r: (Token, Option<Token>))
    decreases t
    ensures off <= 0 ==> r.0 == t && r.1 == Some(Metadata(t))
    ensures 0 < off && off >= |Text(t)| ==> r.0 == t && r.1.None?
    // Strictly inside, the token splits into its first `off` characters
    // and the rest, both keeping the token's type.
    ensures 0 < off < |Text(t)| ==>
      Text(r.0) == Text(t)[..off] && r.0.kind == t.kind &&
      r.1.Some? && Text(r.1.value) == Text(t)[off..] && r.1.value.kind == t.kind
  {
    var len := |Text(t)|;
    if off <= 0 then (t, Some(Metadata(t)))
    else if off >= len then (t, None)
    else if IsBranch(t) then
      var (left, right) := SplitKids(t.subs, off, 0);
      assert |right| > 0;
      (Composite(t.kind, t.tokenIdx, t.x, left),
       if |right| > 0 then Some(Composite(t.kind, t.tokenIdx, t.x, right)) else None)
    else
      var s := Text(t);
      var right := s[off..];
      (WithText(t, s[..off]), if |right| == 0 then None else Some(WithText(t, right)))
  }

  /** The loop over the children in `splitToken`; `cursor` is the column
      of `subs[0]` within the parent. */
  function SplitKids(subs: seq<Token>, off: int, cursor: int): (r: (seq<Token>, seq<Token>))
    decreases subs
    ensures var S := Concat(subs); var k := Clamp(off - cursor, 0, |S|);
      Concat(r.0) == S[..k] && Concat(r.1) == S[k..]
  {
    if |subs| == 0 then ([], [])
    else
      var sub := subs[0];
      var len := |Text(sub)|;
      var (l, r) := SplitKids(subs[1..], off, cursor + len);
      assert Concat(subs) == Text(sub) + Concat(subs[1..]);
      if off <= cursor then
        ConcatAppend([sub], r);
        ConcatSingle(sub);
        SplitBeforeText(Text(sub), Concat(subs[1..]), off, cursor, Concat(l), Concat(r));
        (l, [sub] + r)
      else if off >= cursor + len then
        ConcatAppend([sub], l);
        ConcatSingle(sub);
        SplitAfterText(Text(sub), Concat(subs[1..]), off, cursor, Concat(l), Concat(r));
        (([sub] + l), r)
      else
        var (a, b) := SplitToken(sub, off - cursor);
        var right := if b.Some? then [b.value] else [];
        ConcatAppend([a], l);
        ConcatSingle(a);
        ConcatAppend(right, r);
        ConcatSingle(b.value);
        SplitInsideText(Text(sub), Concat(subs[1..]), off, cursor, Concat(l), Concat(r),
                        Text(a), Text(b.value));
        ([a] + l, right + r)
  }

  /** `SplitKids` when the split column lies at or before the first child. */
  lemma SplitBeforeText(t: string, rest: string, off: int, cursor: int, l: string, r: string)
    requires off <= cursor
    requires var k := Clamp(off - cursor - |t|, 0, |rest|); l == rest[..k] && r == rest[k..]
    ensures var S := t + rest; var k := Clamp(off - cursor, 0, |S|);
      l == S[..k] && t + r == S[k..]
  {
  }

  /** `SplitKids` when the split column lies at or past the end of the first child. */
  lemma SplitAfterText(t: string, rest: string, off: int, cursor: int, l: string, r: string)
    requires off >= cursor + |t|
    requires var k := Clamp(off - cursor - |t|, 0, |rest|); l == rest[..k] && r == rest[k..]
    ensures var S := t + rest; var k := Clamp(off - cursor, 0, |S|);
      t + l == S[..k] && r == S[k..]
  {
    var S := t + rest;
    var k := Clamp(off - cursor, 0, |S|);
    assert S[..k] == t + rest[..k - |t|];
  }

  /** `SplitKids` when the split column lies strictly inside the first child,
      which splits into `a` and `b`. */
  lemma SplitInsideText(t: string, rest: string, off: int, cursor: int, l: string, r: string,
                        a: string, b: string)
    requires cursor < off < cursor + |t|
    requires var k := Clamp(off - cursor - |t|, 0, |rest|); l == rest[..k] && r == rest[k..]
    requires a == t[..off - cursor] && b == t[off - cursor..]
    ensures var S := t + rest; var k := Clamp(off - cursor, 0, |S|);
      a + l == S[..k] && b + r == S[k..]
  {
  }

  /** The loop of `splitTokenLine`; `offset` is the column of `ts[0]`. */
  function SplitAt(ts: seq<Token>, col: int, offset: int): (r: (seq<Token>, seq<Token>))
    decreases ts
    ensures var T := Concat(ts); var k := Clamp(col - offset, 0, |T|);
      Concat(r.0) == T[..k] && Concat(r.1) == T[k..]
  {
    if |ts| == 0 then ([], [])
    else
      var t := ts[0];
      var len := |Text(t)|;
      var T := Concat(ts);
      var k := Clamp(col - offset, 0, |T|);
      assert T == Text(t) + Concat(ts[1..]);
      if col <= offset then
        var (l, r) := SplitAt(ts[1..], col, offset);
        ConcatAppend([t], r);
        ConcatSingle(t);
        (l, [t] + r)
      else if col >= offset + len then
        var (l, r) := SplitAt(ts[1..], col, offset + len);
        ConcatAppend([t], l);
        ConcatSingle(t);
        assert T[..k] == Text(t) + Concat(ts[1..])[..k - len];
        ([t] + l, r)
      else
        var (a, b) := SplitToken(t, col - offset);
        var left := if |Text(a)| == 0 then [] else [a];
        var right := (if b.Some? && |Text(b.value)| > 0 then [b.value] else []) + ts[1..];
        ConcatSingle(a);
        ConcatSingle(b.value);
        ConcatAppend([b.value], ts[1..]);
        (left, right)
  }

  /** `splitTokenLineAt`: the line up to the column and the rest, both
      normalised. Their texts are the first `col` characters (clamped to
      the line) and the remainder, so together they give back the text. */
  function SplitLine(line: Line, col: int): (r: (Line, Line))
    ensures var T := Concat(line); var k := Clamp(col, 0, |T|);
      Concat(r.0) == T[..k] && Concat(r.1) == T[k..]
    ensures Normal(r.0) && Normal(r.1)
  {
    var (left, right) := SplitAt(line, col, 0);
    NormalizeSound(left);
    NormalizeSound(right);
    (Normalize(left), Normalize(right))
  }
}

=== FILE: token_line.dfy ===
/** Plain-text helpers for token lines (src/tokenLine.ts): run-based
    tokenising, the double-space gesture and argument collection. */
module TokenLine {
  import opened Wrappers
  import opened TokenTree

  const SpaceKind: string := "Space"
  const AnyStringKind: string := "AnyString"

  /** The kind of run a character belongs to. */
  function RunKind(c: char): string {
    if c == ' ' then SpaceKind else AnyStringKind
  }

  /** Every character of `s` is of the run kind `k`. */
  predicate OneRun(s: string, k: string) {
    forall j :: 0 <= j < |s| ==> RunKind(s[j]) == k
  }

  /** Token `i` of the result covers `text[x..x + |text_i|]` as one leaf. */
  predicate RunsOf(text: string, ts: seq<Token>) {
    forall i :: 0 <= i < |ts| ==>
      ts[i].Leaf? && ts[i].tokenIdx == i && |ts[i].text| > 0 &&
      0 <= ts[i].x && ts[i].x + |ts[i].text| <= |text| &&
      text[ts[i].x..ts[i].x + |ts[i].text|] == ts[i].text &&
      OneRun(ts[i].text, ts[i].kind)
  }

  /** Neighbouring tokens are adjacent in the text and of different kinds. */
  predicate Chained(ts: seq<Token>) {
    forall i :: 0 < i < |ts| ==>
      ts[i].x == ts[i - 1].x + |Text(ts[i - 1])| && ts[i].kind != ts[i - 1].kind
  }

  /** The end of the run of kind `RunKind(text[start])` from `start`. */
  method ScanRun(text: string, start: nat) returns (end: nat)
    requires start < |text|
    ensures start < end <= |text|
    ensures OneRun(text[start..end], RunKind(text[start]))
    ensures end < |text| ==> RunKind(text[end]) != RunKind(text[start])
  {
    var kind := RunKind(text[start]);
    end := start;
    while end < |text| && RunKind(text[end]) == kind
      invariant start <= end <= |text|
      invariant forall j :: start <= j < end ==> RunKind(text[j]) == kind
    {
      end := end + 1;
    }
    assert OneRun(text[start..end], kind) by {
      forall j | 0 <= j < end - start ensures RunKind(text[start..end][j]) == kind {
        assert text[start..end][j] == text[start + j];
      }
    }
  }

  /** The loop invariant of `tokenizeLine`: `ts` tokenises `text[..idx]`. */
  predicate TokenizedUpTo(text: string, ts: seq<Token>, idx: nat) {
    idx <= |text| &&
    Concat(ts) == text[..idx] && RunsOf(text, ts) && Chained(ts) &&
    (|ts| == 0 <==> idx == 0) &&
    (|ts| > 0 ==> ts[|ts| - 1].x + |Text(ts[|ts| - 1])| == idx) &&
    (0 < idx < |text| ==> RunKind(text[idx]) != ts[|ts| - 1].kind)
  }

  lemma RunsOfAppend(text: string, ts: seq<Token>, tok: Token)
    requires RunsOf(text, ts)
    requires tok.Leaf? && tok.tokenIdx == |ts| && |tok.text| > 0 && 0 <= tok.x
    requires tok.x + |tok.text| <= |text| && text[tok.x..tok.x + |tok.text|] == tok.text
    requires OneRun(tok.text, tok.kind)
    ensures RunsOf(text, ts + [tok])
  {
    var ts' := ts + [tok];
    forall i | 0 <= i < |ts'|
      ensures ts'[i].Leaf? && ts'[i].tokenIdx == i && |ts'[i].text| > 0 &&
        0 <= ts'[i].x && ts'[i].x + |ts'[i].text| <= |text| &&
        text[ts'[i].x..ts'[i].x + |ts'[i].text|] == ts'[i].text &&
        OneRun(ts'[i].text, ts'[i].kind)
    {
      if i < |ts| { assert ts'[i] == ts[i]; }
    }
  }

  lemma ChainedAppend(ts: seq<Token>, tok: Token)
    requires Chained(ts)
    requires |ts| > 0 ==> tok.x == ts[|ts| - 1].x + |Text(ts[|ts| - 1])| && tok.kind != ts[|ts| - 1].kind
    ensures Chained(ts + [tok])
  {
    var ts' := ts + [tok];
    forall i | 0 < i < |ts'|
      ensures ts'[i].x == ts'[i - 1].x + |Text(ts'[i - 1])| && ts'[i].kind != ts'[i - 1].kind
    {
      if i < |ts| { assert ts'[i] == ts[i] && ts'[i - 1] == ts[i - 1]; }
    }
  }

  /** One round of the loop keeps the invariant. */
  lemma TokenizeStep(text: string, ts: seq<Token>, start: nat, end: nat)
    requires TokenizedUpTo(text, ts, start) && start < |text|
    requires start < end <= |text| && OneRun(text[start..end], RunKind(text[start]))
    requires end < |text| ==> RunKind(text[end]) != RunKind(text[start])
    ensures TokenizedUpTo(text, ts + [Leaf(RunKind(text[start]), |ts|, start, text[start..end])], end)
  {
    var tok := Leaf(RunKind(text[start]), |ts|, start, text[start..end]);
    ConcatAppend(ts, [tok]);
    ConcatSingle(tok);
    assert text[..end] == text[..start] + text[start..end];
    RunsOfAppend(text, ts, tok);
    assert start > 0 ==> RunKind(text[start]) != ts[|ts| - 1].kind;
    ChainedAppend(ts, tok);
  }

  /** `tokenizeLine`: maximal runs of U+0020 become Space tokens and
      maximal runs of anything else AnyString tokens, numbered from 0 and
      placed at their start offsets. */
  method Tokenize(text: string) returns (ts: seq<Token>)
    ensures Concat(ts) == text
    ensures RunsOf(text, ts)
    ensures Chained(ts)
    ensures text == "" ==> ts == []
  {
    ts := [];
    var idx := 0;
    while idx < |text|
      invariant TokenizedUpTo(text, ts, idx)
    {
      var start := idx;
      idx := ScanRun(text, start);
      TokenizeStep(text, ts, start, idx);
      ts := ts + [Leaf(RunKind(text[start]), |ts|, start, text[start..idx])];
    }
    assert text[..idx] == text;
  }

  /** JavaScript's `s[i]`: the character, or `undefined` off the ends. */
  function CharAt(s: string, i: int): Option<char> {
    if 0 <= i < |s| then Some(s[i]) else None
  }

  /** `handleDoubleSpace(text, cursor)`: makes sure a space precedes the
      (clamped) cursor, then moves the cursor back to the start of the run
      of spaces before it. */
  method HandleDoubleSpace(text: string, cursor: int) returns (newText: string, newCursor: int)
    ensures var c := if cursor < 0 then 0 else cursor;
      var inserted := c == 0 || CharAt(text, c - 1) != Some(' ');
      var cut := if c < |text| then c else |text|;
      (inserted ==> newText == text[..cut] + " " + text[cut..]) &&
      (!inserted ==> newText == text)
    ensures var c := if cursor < 0 then 0 else cursor;
      0 <= newCursor <= c &&
      (forall j :: newCursor <= j < c ==> CharAt(newText, j) == Some(' ')) &&
      (newCursor > 0 ==> CharAt(newText, newCursor - 1) != Some(' '))
  {
    var safe := if cursor < 0 then 0 else cursor;
    newText := text;
    var next := safe;
    if safe == 0 || CharAt(newText, safe - 1) != Some(' ') {
      var cut := if safe < |text| then safe else |text|;
      newText := text[..cut] + " " + text[cut..];
      next := safe + 1;
    }
    var start := if next - 1 < 0 then 0 else next - 1;
    ghost var top := start;
    assert top == safe || (top == safe - 1 && CharAt(newText, safe - 1) == Some(' '));
    while start > 0 && CharAt(newText, start - 1) == Some(' ')
      invariant 0 <= start <= top
      invariant forall j :: start <= j < top ==> CharAt(newText, j) == Some(' ')
    {
      start := start - 1;
    }
    newCursor := start;
  }

  /** The texts `collectArgumentTexts` gathers from one line. */
  function LineArguments(line: Line): (r: seq<string>)
    ensures forall i :: 0 <= i < |r| ==> |r[i]| > 0
  {
    if |line| == 0 then []
    else
      var t := line[0];
      (if t.kind != SpaceKind && |Text(t)| > 0 then [Text(t)] else []) + LineArguments(line[1..])
  }

  /** The texts gathered from every line, in order. */
  function Arguments(lines: seq<Line>): (r: seq<string>)
    ensures forall i :: 0 <= i < |r| ==> |r[i]| > 0
  {
    if |lines| == 0 then [] else LineArguments(lines[0]) + Arguments(lines[1..])
  }

  lemma ArgumentsAppend(lines: seq<Line>, line: Line)
    ensures Arguments(lines + [line]) == Arguments(lines) + LineArguments(line)
  {
    if |lines| == 0 {
      assert lines + [line] == [line];
    } else {
      assert (lines + [line])[1..] == lines[1..] + [line];
      ArgumentsAppend(lines[1..], line);
    }
  }

  lemma LineArgumentsAppend(line: Line, t: Token)
    ensures LineArguments(line + [t]) ==
      LineArguments(line) + (if t.kind != SpaceKind && |Text(t)| > 0 then [Text(t)] else [])
  {
    if |line| == 0 {
      assert [t][1..] == [];
      assert line + [t] == [t];
    } else {
      assert (line + [t])[1..] == line[1..] + [t];
      LineArgumentsAppend(line[1..], t);
    }
  }

  /** The inner loop of `collectArgumentTexts` over one line. */
  method CollectLine(line: Line) returns (out: seq<string>)
    ensures out == LineArguments(line)
  {
    out := [];
    for j := 0 to |line|
      invariant out == LineArguments(line[..j])
    {
      var t := line[j];
      LineArgumentsAppend(line[..j], t);
      assert line[..j + 1] == line[..j] + [t];
      if t.kind != SpaceKind {
        var s := Text(t);
        if |s| > 0 {
          out := out + [s];
        }
      }
    }
    assert line[..|line|] == line;
  }

  /** `collectArgumentTexts`: the text of every non-Space token whose
      text is not empty, line by line and token by token; a composite's
      text is taken whole. */
  method CollectArguments(lines: seq<Line>) returns (out: seq<string>)
    ensures out == Arguments(lines)
  {
    out := [];
    for i := 0 to |lines|
      invariant out == Arguments(lines[..i])
    {
      var found := CollectLine(lines[i]);
      ArgumentsAppend(lines[..i], lines[i]);
      assert lines[..i + 1] == lines[..i] + [lines[i]];
      out := out + found;
    }
    assert lines[..|lines|] == lines;
  }

  /** Every collected text is the whole text of some non-Space token. */
  lemma ArgumentsFromTokens(lines: seq<Line>, s: string)
    requires s in Arguments(lines)
    ensures exists i, j ::
      (0 <= i < |lines| && 0 <= j < |lines[i]| && lines[i][j].kind != SpaceKind && Text(lines[i][j]) == s)
  {
    if s in LineArguments(lines[0]) {
      var j := LineArgumentIndex(lines[0], s);
      assert lines[0][j].kind != SpaceKind && Text(lines[0][j]) == s;
    } else {
      ArgumentsFromTokens(lines[1..], s);
      var i, j :| 0 <= i < |lines[1..]| && 0 <= j < |lines[1..][i]| &&
        lines[1..][i][j].kind != SpaceKind && Text(lines[1..][i][j]) == s;
      assert lines[i + 1][j].kind != SpaceKind && Text(lines[i + 1][j]) == s;
    }
  }

  lemma LineArgumentIndex(line: Line, s: string) returns (j: nat)
    requires s in LineArguments(line)
    ensures j < |line| && line[j].kind != SpaceKind && Text(line[j]) == s
  {
    var t := line[0];
    if t.kind != SpaceKind && |Text(t)| > 0 && s == Text(t) {
      j := 0;
    } else {
      var k := LineArgumentIndex(line[1..], s);
      j := k + 1;
    }
  }
}

=== FILE: token_normalize.dfy ===
/** Normalisation of a token line (src/tokenEdit.ts): empty tokens are
    pruned, adjacent leaves of the same type are merged, the line is pruned
    again and every token's `tokenIdx` and `x` are recomputed. */
module TokenNormalize {
  import opened TokenTree

  /** A leaf-like token (a leaf, or a childless composite) with the same
      type and metadata as `t` and the given text. */
  function WithText(t: Token, s: string): (r: Token)
    ensures !IsBranch(r) && Text(r) == s && r.kind == t.kind
  {
    Leaf(t.kind, t.tokenIdx, t.x, s)
  }

  // ---------------------------------------------------------------------
  // The shape a normalised line has

  /** No empty leaf and no childless composite, at any depth. */
  predicate Solid(ts: seq<Token>)
    decreases ts
  {
    |ts| == 0 || (SolidToken(ts[0]) && Solid(ts[1..]))
  }

  predicate SolidToken(t: Token)
    decreases t
  {
    match t
    case Leaf(_, _, _, s) => |s| > 0
    case Composite(_, _, _, subs) => |subs| > 0 && Solid(subs)
  }

  /** Two neighbours the merge pass would fuse: both leaf-like, same type. */
  predicate Mergeable(a: Token, b: Token) {
    !IsBranch(a) && !IsBranch(b) && a.kind == b.kind
  }

  /** No two neighbours are mergeable, at any depth. */
  predicate Calm(ts: seq<Token>)
    decreases ts
  {
    |ts| == 0 ||
    (CalmToken(ts[0]) && (|ts| > 1 ==> !Mergeable(ts[0], ts[1])) && Calm(ts[1..]))
  }

  predicate CalmToken(t: Token)
    decreases t
  {
    t.Composite? ==> Calm(t.subs)
  }

  /** Every token of `ts` has calm children (neighbours may still merge). */
  predicate CalmInside(ts: seq<Token>)
    decreases ts
  {
    |ts| == 0 || (CalmToken(ts[0]) && CalmInside(ts[1..]))
  }

  /** Token `i` of the list has `tokenIdx == first + i` and `x` equal to
      `cursor` plus the length of the text before it; children start at
      their parent's `x`. */
  predicate Placed(ts: seq<Token>, first: int, cursor: int)
    decreases ts
  {
    |ts| == 0 ||
    (PlacedToken(ts[0], first, cursor) && Placed(ts[1..], first + 1, cursor + |Text(ts[0])|))
  }

  predicate PlacedToken(t: Token, idx: int, cursor: int)
    decreases t
  {
    t.tokenIdx == idx && t.x == cursor && (t.Composite? ==> Placed(t.subs, 0, cursor))
  }

  /** A normalised line. */
  predicate Normal(ts: seq<Token>) {
    Solid(ts) && Calm(ts) && Placed(ts, 0, 0)
  }

  // ---------------------------------------------------------------------
  // pruneEmptyTokens

  /** `pruneEmptyTokens`: drops empty leaves, prunes children, and drops a
      composite whose children all pruned away. */
  function Prune(ts: seq<Token>): seq<Token>
    decreases ts
  {
    if |ts| == 0 then [] else PruneToken(ts[0]) + Prune(ts[1..])
  }

  function PruneToken(t: Token): seq<Token>
    decreases t
  {
    if IsBranch(t) then
      var kids := Prune(t.subs);
      if |kids| == 0 then [] else [Composite(t.kind, t.tokenIdx, t.x, kids)]
    else if |Text(t)| == 0 then []
    else [t]
  }

  lemma {:induction false} SolidAppend(a: seq<Token>, b: seq<Token>)
    requires Solid(a) && Solid(b)
    ensures Solid(a + b)
  {
    if |a| > 0 {
      assert (a + b)[1..] == a[1..] + b;
      SolidAppend(a[1..], b);
    } else {
      assert a + b == b;
    }
  }

  /** Pruning keeps the text and leaves nothing empty. */
  lemma {:induction false} PruneSound(ts: seq<Token>)
    ensures Concat(Prune(ts)) == Concat(ts)
    ensures Solid(Prune(ts))
    decreases ts
  {
    if |ts| > 0 {
      PruneTokenSound(ts[0]);
      PruneSound(ts[1..]);
      ConcatAppend(PruneToken(ts[0]), Prune(ts[1..]));
      SolidAppend(PruneToken(ts[0]), Prune(ts[1..]));
    }
  }

  lemma {:induction false} PruneTokenSound(t: Token)
    ensures Concat(PruneToken(t)) == Text(t)
    ensures Solid(PruneToken(t))
    decreases t
  {
    if IsBranch(t) {
      PruneSound(t.subs);
      var kids := Prune(t.subs);
      if |kids| > 0 {
        var c := Composite(t.kind, t.tokenIdx, t.x, kids);
        ConcatSingle(c);
        assert SolidToken([c][0]) && Solid([c][1..]);
      }
    } else if |Text(t)| > 0 {
      ConcatSingle(t);
      assert t.Leaf?;
      assert SolidToken([t][0]) && Solid([t][1..]);
    }
  }

  /** Pruning changes nothing in a line with no empty token. */
  lemma {:induction false} PruneSolid(ts: seq<Token>)
    requires Solid(ts)
    ensures Prune(ts) == ts
    decreases ts
  {
    if |ts| > 0 {
      PruneTokenSolid(ts[0]);
      PruneSolid(ts[1..]);
      assert ts == [ts[0]] + ts[1..];
    }
  }

  lemma {:induction false} PruneTokenSolid(t: Token)
    requires SolidToken(t)
    ensures PruneToken(t) == [t]
    decreases t
  {
    if t.Composite? {
      PruneSolid(t.subs);
    }
  }

  // ---------------------------------------------------------------------
  // mergeAdjacentTokens

  /** `mergeAdjacentTokens`: children are merged first, then each leaf-like
      token absorbs the following leaf-like tokens of its type. The merged
      token keeps the first token's metadata. */
  function Merge(ts: seq<Token>): seq<Token>
    decreases ts
  {
    if |ts| == 0 then [] else MergeRun(MergeKids(ts[0]), MapMergeKids(ts[1..]))
  }

  function MergeKids(t: Token): Token
    decreases t
  {
    if IsBranch(t) then Composite(t.kind, t.tokenIdx, t.x, Merge(t.subs)) else t
  }

  function MapMergeKids(ts: seq<Token>): (r: seq<Token>)
    decreases ts
    ensures |r| == |ts|
  {
    if |ts| == 0 then [] else [MergeKids(ts[0])] + MapMergeKids(ts[1..])
  }

  /** The scan of the merge loop: `cur` is the token at position `i`,
      `rest` the tokens after it. */
  function MergeRun(cur: Token, rest: seq<Token>): (r: seq<Token>)
    decreases |rest|
    ensures |r| > 0 && r[0].kind == cur.kind && (IsBranch(r[0]) <==> IsBranch(cur))
  {
    if |rest| == 0 then [cur]
    else if Mergeable(cur, rest[0]) then MergeRun(WithText(cur, Text(cur) + Text(rest[0])), rest[1..])
    else [cur] + MergeRun(rest[0], rest[1..])
  }

  /** Merging keeps the text. */
  lemma {:induction false} MergeText(ts: seq<Token>)
    ensures Concat(Merge(ts)) == Concat(ts)
    decreases ts
  {
    if |ts| > 0 {
      MergeKidsText(ts[0]);
      MapMergeKidsText(ts[1..]);
      MergeRunText(MergeKids(ts[0]), MapMergeKids(ts[1..]));
    }
  }

  lemma {:induction false} MergeKidsText(t: Token)
    ensures Text(MergeKids(t)) == Text(t)
    decreases t
  {
    if IsBranch(t) {
      MergeText(t.subs);
    }
  }

  lemma {:induction false} MapMergeKidsText(ts: seq<Token>)
    ensures Concat(MapMergeKids(ts)) == Concat(ts)
    decreases ts
  {
    if |ts| > 0 {
      MergeKidsText(ts[0]);
      MapMergeKidsText(ts[1..]);
      assert MapMergeKids(ts)[1..] == MapMergeKids(ts[1..]);
    }
  }

  lemma {:induction false} MergeRunText(cur: Token, rest: seq<Token>)
    ensures Concat(MergeRun(cur, rest)) == Text(cur) + Concat(rest)
    decreases |rest|
  {
    if |rest| == 0 {
      ConcatSingle(cur);
    } else if Mergeable(cur, rest[0]) {
      MergeRunText(WithText(cur, Text(cur) + Text(rest[0])), rest[1..]);
    } else {
      MergeRunText(rest[0], rest[1..]);
      var r := MergeRun(rest[0], rest[1..]);
      assert ([cur] + r)[1..] == r;
    }
  }

  /** Merging a line with no empty token leaves no empty token and no
      mergeable neighbours, at any depth. */
  lemma {:induction false} MergeShape(ts: seq<Token>)
    requires Solid(ts)
    ensures Solid(Merge(ts)) && Calm(Merge(ts))
    decreases ts
  {
    if |ts| > 0 {
      MergeKidsShape(ts[0]);
      MapMergeKidsShape(ts[1..]);
      MergeRunShape(MergeKids(ts[0]), MapMergeKids(ts[1..]));
    }
  }

  lemma {:induction false} MergeKidsShape(t: Token)
    requires SolidToken(t)
    ensures SolidToken(MergeKids(t)) && CalmToken(MergeKids(t))
    decreases t
  {
    if t.Composite? {
      MergeShape(t.subs);
      assert |Merge(t.subs)| > 0;
    }
  }

  lemma {:induction false} MapMergeKidsShape(ts: seq<Token>)
    requires Solid(ts)
    ensures Solid(MapMergeKids(ts)) && CalmInside(MapMergeKids(ts))
    decreases ts
  {
    if |ts| > 0 {
      MergeKidsShape(ts[0]);
      MapMergeKidsShape(ts[1..]);
      assert MapMergeKids(ts)[1..] == MapMergeKids(ts[1..]);
    }
  }

  lemma {:induction false} MergeRunShape(cur: Token, rest: seq<Token>)
    requires SolidToken(cur) && CalmToken(cur)
    requires Solid(rest) && CalmInside(rest)
    ensures Solid(MergeRun(cur, rest)) && Calm(MergeRun(cur, rest))
    decreases |rest|
  {
    if |rest| == 0 {
    } else if Mergeable(cur, rest[0]) {
      assert |Text(cur)| > 0;
      MergeRunShape(WithText(cur, Text(cur) + Text(rest[0])), rest[1..]);
    } else {
      MergeRunShape(rest[0], rest[1..]);
      var r := MergeRun(rest[0], rest[1..]);
      assert ([cur] + r)[1..] == r;
      assert ([cur] + r)[1] == r[0];
    }
  }

  /** Merging changes nothing in a line with no mergeable neighbours. */
  lemma {:induction false} MergeCalm(ts: seq<Token>)
    requires Calm(ts)
    ensures Merge(ts) == ts
    decreases ts
  {
    if |ts| > 0 {
      MergeKidsCalm(ts[0]);
      MapMergeKidsCalm(ts[1..]);
      MergeRunCalm(ts[0], ts[1..]);
      assert ts == [ts[0]] + ts[1..];
    }
  }

  lemma {:induction false} MergeKidsCalm(t: Token)
    requires CalmToken(t)
    ensures MergeKids(t) == t
    decreases t
  {
    if IsBranch(t) {
      MergeCalm(t.subs);
    }
  }

  lemma {:induction false} MapMergeKidsCalm(ts: seq<Token>)
    requires Calm(ts)
    ensures MapMergeKids(ts) == ts
    decreases ts
  {
    if |ts| > 0 {
      MergeKidsCalm(ts[0]);
      MapMergeKidsCalm(ts[1..]);
      assert ts == [ts[0]] + ts[1..];
    }
  }

  lemma {:induction false} MergeRunCalm(cur: Token, rest: seq<Token>)
    requires Calm([cur] + rest)
    ensures MergeRun(cur, rest) == [cur] + rest
    decreases |rest|
  {
    assert ([cur] + rest)[1..] == rest;
    if |rest| > 0 {
      assert ([cur] + rest)[1] == rest[0];
      MergeRunCalm(rest[0], rest[1..]);
      assert rest == [rest[0]] + rest[1..];
    }
  }

  // ---------------------------------------------------------------------
  // updateTokenPositions

  /** `updateTokenPositions(tokens, cursor)`, with `first` the index of the
      first token of `ts` in its container. */
  function Place(ts: seq<Token>, first: int, cursor: int): (r: seq<Token>)
    decreases ts
    ensures |r| == |ts|
  {
    if |ts| == 0 then []
    else [PlaceToken(ts[0], first, cursor)] + Place(ts[1..], first + 1, cursor + |Text(ts[0])|)
  }

  function PlaceToken(t: Token, idx: int, cursor: int): Token
    decreases t
  {
    if IsBranch(t) then Composite(t.kind, idx, cursor, Place(t.subs, 0, cursor))
    else Leaf(t.kind, idx, cursor, Text(t))
  }

  /** Placing keeps the text, the types and the tree shape, and puts every
      token at its index and column. */
  lemma {:induction false} PlaceSound(ts: seq<Token>, first: int, cursor: int)
    ensures Concat(Place(ts, first, cursor)) == Concat(ts)
    ensures Placed(Place(ts, first, cursor), first, cursor)
    ensures Solid(ts) ==> Solid(Place(ts, first, cursor))
    ensures Solid(ts) && Calm(ts) ==> Calm(Place(ts, first, cursor))
    decreases ts
  {
    if |ts| > 0 {
      var p := Place(ts, first, cursor);
      PlaceTokenSound(ts[0], first, cursor);
      PlaceSound(ts[1..], first + 1, cursor + |Text(ts[0])|);
      assert p[1..] == Place(ts[1..], first + 1, cursor + |Text(ts[0])|);
      if |ts| > 1 {
        assert p[1] == PlaceToken(ts[1], first + 1, cursor + |Text(ts[0])|);
      }
    }
  }

  lemma {:induction false} PlaceTokenSound(t: Token, idx: int, cursor: int)
    ensures Text(PlaceToken(t, idx, cursor)) == Text(t)
    ensures PlaceToken(t, idx, cursor).kind == t.kind
    ensures IsBranch(PlaceToken(t, idx, cursor)) == IsBranch(t)
    ensures PlacedToken(PlaceToken(t, idx, cursor), idx, cursor)
    ensures SolidToken(t) ==> SolidToken(PlaceToken(t, idx, cursor))
    ensures SolidToken(t) && CalmToken(t) ==> CalmToken(PlaceToken(t, idx, cursor))
    decreases t
  {
    if IsBranch(t) {
      PlaceSound(t.subs, 0, cursor);
    }
  }

  /** Placing changes nothing in a solid line whose positions are right. */
  lemma {:induction false} PlacePlaced(ts: seq<Token>, first: int, cursor: int)
    requires Solid(ts) && Placed(ts, first, cursor)
    ensures Place(ts, first, cursor) == ts
    decreases ts
  {
    if |ts| > 0 {
      PlaceTokenPlaced(ts[0], first, cursor);
      PlacePlaced(ts[1..], first + 1, cursor + |Text(ts[0])|);
      assert ts == [ts[0]] + ts[1..];
    }
  }

  lemma {:induction false} PlaceTokenPlaced(t: Token, idx: int, cursor: int)
    requires SolidToken(t) && PlacedToken(t, idx, cursor)
    ensures PlaceToken(t, idx, cursor) == t
    decreases t
  {
    if t.Composite? {
      PlacePlaced(t.subs, 0, cursor);
    }
  }

  // ---------------------------------------------------------------------
  // normalizeTokenLine

  /** `normalizeTokenLine`. */
  function Normalize(ts: seq<Token>): seq<Token> {
    Place(Prune(Merge(Prune(ts))), 0, 0)
  }

  /** Normalising keeps the line text and yields a normal line: no empty
      tokens, no mergeable neighbours, and every `tokenIdx` and `x` right. */
  lemma NormalizeSound(ts: seq<Token>)
    ensures Concat(Normalize(ts)) == Concat(ts)
    ensures Normal(Normalize(ts))
  {
    var a := Prune(ts);
    PruneSound(ts);
    MergeText(a);
    MergeShape(a);
    var b := Merge(a);
    PruneSolid(b);
    PlaceSound(b, 0, 0);
  }

  /** A normal line is its own normal form. */
  lemma NormalizeNormal(ts: seq<Token>)
    requires Normal(ts)
    ensures Normalize(ts) == ts
  {
    PruneSolid(ts);
    MergeCalm(ts);
    PlacePlaced(ts, 0, 0);
  }

  /** Normalising twice is normalising once. */
  lemma NormalizeIdempotent(ts: seq<Token>)
    ensures Normalize(Normalize(ts)) == Normalize(ts)
  {
    NormalizeSound(ts);
    NormalizeNormal(Normalize(ts));
  }
}

=== FILE: token_registry.dfy ===
/** The token-type and operator registries of src/tokens.ts. Both are
    JavaScript `Map`s: a registry here is the map's entries in insertion
    order, and setting an existing key keeps that key's position. */
module TokenRegistry {
  import opened Wrappers
  import NumberLiteral

  /** What a validator does with a text: accepts it, rejects it, or
      throws (which every caller treats as a rejection). */
  datatype Verdict = Accept | Reject | Throw

  /** A validator: the Number literal check, or one of the validators
      loaded from the language description, known by name. */
  datatype Validator = NumberValidator | External(name: string)

  /** `PreAstType` without its highlighter. */
  datatype Descriptor = Descriptor(priority: int, kind: string, validator: Option<Validator>)

  type Registry = seq<Descriptor>

  /** What a `Map` guarantees: one entry per type name. */
  predicate DistinctKinds(reg: Registry) {
    forall i, j :: 0 <= i < j < |reg| ==> reg[i].kind != reg[j].kind
  }

  /** The position of the entry for type name `k`. */
  function IndexOfKind(reg: Registry, k: string): (r: Option<nat>)
    ensures r.Some? ==> r.value < |reg| && reg[r.value].kind == k
    ensures r.Some? ==> forall i :: 0 <= i < r.value ==> reg[i].kind != k
    ensures r.None? ==> forall i :: 0 <= i < |reg| ==> reg[i].kind != k
  {
    if |reg| == 0 then None
    else if reg[0].kind == k then Some(0)
    else match IndexOfKind(reg[1..], k)
      case None => None
      case Some(i) => Some(i + 1)
  }

  /** `tokenMap.get(k)` */
  function Get(reg: Registry, k: string): (r: Option<Descriptor>)
    ensures r.Some? ==> r.value.kind == k && r.value in reg
    ensures r.None? <==> forall i :: 0 <= i < |reg| ==> reg[i].kind != k
  {
    match IndexOfKind(reg, k)
    case None => None
    case Some(i) => Some(reg[i])
  }

  /** `registerToken(t)`: `tokenMap.set(t.type, t)`. An existing entry of
      that type name is replaced in place; otherwise `t` is appended. */
  function RegisterToken(reg: Registry, t: Descriptor): (r: Registry)
    ensures Get(r, t.kind) == Some(t)
    ensures |r| == |reg| + (if Get(reg, t.kind).None? then 1 else 0)
    ensures forall i :: 0 <= i < |reg| && reg[i].kind != t.kind ==> r[i] == reg[i]
    ensures DistinctKinds(reg) ==> DistinctKinds(r)
  {
    match IndexOfKind(reg, t.kind)
    case Some(i) =>
      assert IndexOfKind(reg[i := t], t.kind) == Some(i) by {
        IndexOfKindSame(reg[i := t], t.kind, i);
      }
      reg[i := t]
    case None =>
      assert IndexOfKind(reg + [t], t.kind) == Some(|reg|) by {
        IndexOfKindSame(reg + [t], t.kind, |reg|);
      }
      reg + [t]
  }

  /** The first position of a type name is determined by the entries up
      to it. */
  lemma IndexOfKindSame(b: Registry, k: string, i: nat)
    requires i < |b| && b[i].kind == k
    requires forall j :: 0 <= j < i ==> b[j].kind != k
    ensures IndexOfKind(b, k) == Some(i)
  {
  }

  /** Registering one type name leaves the entry of every other name as it
      was. */
  lemma RegisterTokenOthers(reg: Registry, t: Descriptor, k: string)
    requires k != t.kind
    ensures Get(RegisterToken(reg, t), k) == Get(reg, k)
  {
    var r := RegisterToken(reg, t);
    match IndexOfKind(reg, k)
    case None =>
      assert forall i :: 0 <= i < |r| ==> r[i].kind != k by {
        forall i | 0 <= i < |r| ensures r[i].kind != k {
          if i < |reg| && reg[i].kind != t.kind {
          }
        }
      }
    case Some(i) =>
      assert r[i] == reg[i];
      forall j | 0 <= j < i ensures r[j].kind != k {
        if reg[j].kind != t.kind {
          assert r[j] == reg[j];
        }
      }
      IndexOfKindSame(r, k, i);
  }

  /** The part of `typeInit` that is not about files: the Number entry
      (created with priority 0 when missing) gets the literal validator. */
  function InstallNumberValidator(reg: Registry): (r: Registry)
    ensures Get(r, "Number").Some?
    ensures Get(r, "Number").value.validator == Some(NumberValidator)
    ensures Get(r, "Number").value.priority == (if Get(reg, "Number").Some? then Get(reg, "Number").value.priority else 0)
    ensures forall k :: k != "Number" ==> Get(r, k) == Get(reg, k)
  {
    var existing := Get(reg, "Number").GetOr(Descriptor(0, "Number", None));
    var r := RegisterToken(reg, existing.(validator := Some(NumberValidator)));
    forall k | k != "Number" ensures Get(r, k) == Get(reg, k) {
      RegisterTokenOthers(reg, existing.(validator := Some(NumberValidator)), k);
    }
    r
  }

  /** Whether descriptor `d` accepts `text`: a missing validator and a
      throwing one both count as a rejection. `external` stands for the
      validators loaded from the language description. */
  predicate Accepts(d: Descriptor, external: (string, string) -> Verdict, text: string) {
    match d.validator
    case None => false
    case Some(NumberValidator) => NumberLiteral.IsValid(text)
    case Some(External(name)) => external(name, text) == Accept
  }

  // ---------------------------------------------------------------------
  // Operators

  datatype OprType = Binary | UnaryPrefix | UnaryPostfix | Circumfix | PostCircumfix | Meta

  /** An operator: its type, its symbol and, for multi-token operators,
      its closing symbol. */
  datatype Opr = Opr(kind: OprType, s: string, s1: Option<string>)

  /** JavaScript truthiness of an optional string. */
  predicate Truthy(s1: Option<string>) {
    s1.Some? && s1.value != ""
  }

  /** `registerOpr` as written: the secondary symbol is stored only when
      it is falsy, so a supplied one is dropped. */
  function RegisterOprAsWritten(m: map<string, Opr>, s: string, kind: OprType, s1: Option<string>): (r: map<string, Opr>)
    ensures s in r && r[s].kind == kind && r[s].s == s
    ensures forall k :: k in m && k != s ==> k in r && r[k] == m[k]
  {
    m[s := if Truthy(s1) then Opr(kind, s, None) else Opr(kind, s, s1)]
  }

  /** A supplied closing symbol never reaches the map. */
  lemma RegisterOprDropsSecondary(m: map<string, Opr>, s: string, kind: OprType, s1: Option<string>)
    requires Truthy(s1)
    ensures RegisterOprAsWritten(m, s, kind, s1)[s].s1 == None
  {
  }

  /** The bracket pair `[ ]` loses its closing symbol. */
  lemma RegisterOprBracketExample()
    ensures RegisterOprAsWritten(map[], "[", Circumfix, Some("]"))["["] == Opr(Circumfix, "[", None)
  {
  }

  /** `registerOpr` as intended: the secondary symbol is stored exactly
      when one is supplied. */
  function RegisterOpr(m: map<string, Opr>, s: string, kind: OprType, s1: Option<string>): (r: map<string, Opr>)
    ensures s in r && r[s].kind == kind && r[s].s == s
    ensures r[s].s1 == (if Truthy(s1) then s1 else None)
    ensures forall k :: k in m && k != s ==> k in r && r[k] == m[k]
    ensures r.Keys == m.Keys + {s}
  {
    m[s := if Truthy(s1) then Opr(kind, s, s1) else Opr(kind, s, None)]
  }

  /** The intended registration keeps what the caller supplied. */
  lemma RegisterOprKeepsSecondary(m: map<string, Opr>, s: string, kind: OprType, s1: string)
    requires s1 != ""
    ensures RegisterOpr(m, s, kind, Some(s1))[s] == Opr(kind, s, Some(s1))
  {
  }
}

=== FILE: token_round_trip.dfy ===
/** Inserting a space into a normal token line and deleting it again at
    the same column gives the line back: the same tokens, types and
    positions (tests/tokenEdit.test.ts:92-104). Normalisation recomputes
    every `tokenIdx` and `x`, so the proof compares lines with their
    positions erased (`Strip`) and restores them at the end. */
module TokenRoundTrip {
  import opened Wrappers
  import opened TokenTree
  import opened TokenNormalize
  import opened TokenEdit

  // ---------------------------------------------------------------------
  // Lines with their positions erased

  /** `t` with index and column 0 everywhere, and a leaf-like token as a
      leaf. */
  function Strip(t: Token): Token
    decreases t
  {
    if IsBranch(t) then Composite(t.kind, 0, 0, StripAll(t.subs)) else Leaf(t.kind, 0, 0, Text(t))
  }

  function StripAll(ts: seq<Token>): (r: seq<Token>)
    decreases ts
    ensures |r| == |ts|
  {
    if |ts| == 0 then [] else [Strip(ts[0])] + StripAll(ts[1..])
  }

  /** Erasing positions keeps the text, the type and the tree shape. */
  lemma {:induction false} StripToken(t: Token)
    ensures Text(Strip(t)) == Text(t) && Strip(t).kind == t.kind && IsBranch(Strip(t)) == IsBranch(t)
    decreases t
  {
    if IsBranch(t) {
      StripText(t.subs);
    }
  }

  lemma {:induction false} StripText(ts: seq<Token>)
    ensures Concat(StripAll(ts)) == Concat(ts)
    decreases ts
  {
    if |ts| > 0 {
      StripToken(ts[0]);
      StripText(ts[1..]);
      assert StripAll(ts)[1..] == StripAll(ts[1..]);
    }
  }

  lemma {:induction false} StripAt(ts: seq<Token>)
    ensures forall j :: 0 <= j < |ts| ==> StripAll(ts)[j] == Strip(ts[j])
    decreases ts
  {
    if |ts| > 0 {
      StripAt(ts[1..]);
      forall j | 1 <= j < |ts|
        ensures StripAll(ts)[j] == Strip(ts[j])
      {
        assert StripAll(ts)[j] == StripAll(ts[1..])[j - 1];
        assert ts[1..][j - 1] == ts[j];
      }
    }
  }

  lemma StripAppend(a: seq<Token>, b: seq<Token>)
    ensures StripAll(a + b) == StripAll(a) + StripAll(b)
  {
    StripAt(a);
    StripAt(b);
    StripAt(a + b);
    assert forall j :: 0 <= j < |a| ==> (a + b)[j] == a[j];
    assert forall j :: |a| <= j < |a + b| ==> (a + b)[j] == b[j - |a|];
  }

  /** Erasing positions commutes with replacing one token. */
  lemma StripUpdate(ts: seq<Token>, i: nat, x: Token)
    requires i < |ts|
    ensures StripAll(ts[i := x]) == StripAll(ts)[i := Strip(x)]
  {
    StripAt(ts);
    StripAt(ts[i := x]);
  }

  /** Erasing positions commutes with replacing one token by several. */
  lemma StripSplice(ts: seq<Token>, i: nat, mid: seq<Token>)
    requires i < |ts|
    ensures StripAll(ts[..i] + mid + ts[i + 1..]) == StripAll(ts)[..i] + StripAll(mid) + StripAll(ts)[i + 1..]
  {
    assert ts == ts[..i] + [ts[i]] + ts[i + 1..];
    StripAppend(ts[..i] + mid, ts[i + 1..]);
    StripAppend(ts[..i], mid);
    StripAppend(ts[..i] + [ts[i]], ts[i + 1..]);
    StripAppend(ts[..i], [ts[i]]);
  }

  lemma {:induction false} StripTwice(ts: seq<Token>)
    ensures StripAll(StripAll(ts)) == StripAll(ts)
    decreases ts
  {
    if |ts| > 0 {
      StripTokenTwice(ts[0]);
      StripTwice(ts[1..]);
      StripAppend([Strip(ts[0])], StripAll(ts[1..]));
    }
  }

  lemma {:induction false} StripTokenTwice(t: Token)
    ensures Strip(Strip(t)) == Strip(t)
    decreases t
  {
    StripToken(t);
    if IsBranch(t) {
      StripTwice(t.subs);
    }
  }

  /** A stripped list is made of stripped tokens. */
  lemma BareAt(ts: seq<Token>, i: nat)
    requires StripAll(ts) == ts && i < |ts|
    ensures !IsBranch(ts[i]) ==> ts[i] == Leaf(ts[i].kind, 0, 0, Text(ts[i]))
    ensures IsBranch(ts[i]) ==> ts[i] == Composite(ts[i].kind, 0, 0, ts[i].subs) && StripAll(ts[i].subs) == ts[i].subs
  {
    StripAt(ts);
    assert ts[i] == Strip(ts[i]);
  }

  // ---------------------------------------------------------------------
  // Every pass of the editor commutes with erasing positions

  /** One step of `Locate` past the first token, of length `len`. */
  lemma LocateNext(ts: seq<Token>, col: int, prefer: bool, len: int, h: Hit)
    requires |ts| > 0 && len == |Text(ts[0])|
    requires !(col < len || (col == len && (prefer || |ts| == 1)))
    requires Locate(ts[1..], col - len, prefer).Some? && Locate(ts[1..], col - len, prefer).value == h
    ensures Locate(ts, col, prefer).Some? && Locate(ts, col, prefer).value == Hit(h.index + 1, h.start + len)
  {
  }

  lemma LocateNextNone(ts: seq<Token>, col: int, prefer: bool, len: int)
    requires |ts| > 0 && len == |Text(ts[0])|
    requires !(col < len || (col == len && (prefer || |ts| == 1)))
    requires Locate(ts[1..], col - len, prefer) == None
    ensures Locate(ts, col, prefer) == None
  {
  }

  /** Two lists whose tokens' texts have the same lengths, in order. */
  predicate SameLengths(a: seq<Token>, b: seq<Token>)
    decreases |a|
  {
    |a| == |b| && (|a| > 0 ==> |Text(a[0])| == |Text(b[0])| && SameLengths(a[1..], b[1..]))
  }

  /** `Locate` looks only at the lengths of the tokens' texts. */
  lemma {:induction false} LocateLengths(a: seq<Token>, b: seq<Token>, col: int, prefer: bool)
    requires SameLengths(a, b)
    ensures Locate(a, col, prefer) == Locate(b, col, prefer)
    decreases |a|
  {
    if |a| > 0 {
      var len := |Text(a[0])|;
      if !(col < len || (col == len && (prefer || |a| == 1))) {
        LocateLengths(a[1..], b[1..], col - len, prefer);
        match Locate(a[1..], col - len, prefer)
        case None =>
          LocateNextNone(a, col, prefer, len);
          LocateNextNone(b, col, prefer, len);
        case Some(h) =>
          LocateNext(a, col, prefer, len, h);
          LocateNext(b, col, prefer, len, h);
      }
    }
  }

  lemma {:induction false} StripLengths(ts: seq<Token>)
    ensures SameLengths(StripAll(ts), ts)
    decreases |ts|
  {
    if |ts| > 0 {
      StripToken(ts[0]);
      StripLengths(ts[1..]);
      assert StripAll(ts)[0] == Strip(ts[0]) && StripAll(ts)[1..] == StripAll(ts[1..]);
    }
  }

  lemma LocateStrip(ts: seq<Token>, col: int, prefer: bool)
    ensures Locate(StripAll(ts), col, prefer) == Locate(ts, col, prefer)
  {
    StripLengths(ts);
    LocateLengths(StripAll(ts), ts, col, prefer);
  }

  lemma {:induction false} PruneStrip(ts: seq<Token>)
    ensures Prune(StripAll(ts)) == StripAll(Prune(ts))
    decreases ts
  {
    if |ts| > 0 {
      PruneTokenStrip(ts[0]);
      PruneStrip(ts[1..]);
      assert StripAll(ts)[0] == Strip(ts[0]) && StripAll(ts)[1..] == StripAll(ts[1..]);
      StripAppend(PruneToken(ts[0]), Prune(ts[1..]));
    }
  }

  lemma {:induction false} PruneTokenStrip(t: Token)
    ensures PruneToken(Strip(t)) == StripAll(PruneToken(t))
    decreases t
  {
    StripToken(t);
    if IsBranch(t) {
      PruneStrip(t.subs);
      var kids := Prune(t.subs);
      if |kids| > 0 {
        assert StripAll([Composite(t.kind, t.tokenIdx, t.x, kids)]) == [Composite(t.kind, 0, 0, StripAll(kids))];
      }
    } else if |Text(t)| > 0 {
      assert StripAll([t]) == [Strip(t)];
    }
  }

  lemma {:induction false} MergeRunStrip(cur: Token, rest: seq<Token>)
    ensures MergeRun(Strip(cur), StripAll(rest)) == StripAll(MergeRun(cur, rest))
    decreases |rest|
  {
    StripToken(cur);
    if |rest| == 0 {
      assert StripAll([cur]) == [Strip(cur)];
    } else {
      StripToken(rest[0]);
      assert StripAll(rest)[0] == Strip(rest[0]) && StripAll(rest)[1..] == StripAll(rest[1..]);
      if Mergeable(cur, rest[0]) {
        var joined := WithText(cur, Text(cur) + Text(rest[0]));
        assert WithText(Strip(cur), Text(Strip(cur)) + Text(Strip(rest[0]))) == Strip(joined);
        MergeRunStrip(joined, rest[1..]);
      } else {
        MergeRunStrip(rest[0], rest[1..]);
        StripAppend([cur], MergeRun(rest[0], rest[1..]));
        assert StripAll([cur]) == [Strip(cur)];
      }
    }
  }

  lemma {:induction false} MergeStrip(ts: seq<Token>)
    ensures Merge(StripAll(ts)) == StripAll(Merge(ts))
    decreases ts
  {
    if |ts| > 0 {
      MergeKidsStrip(ts[0]);
      MapMergeKidsStrip(ts[1..]);
      assert StripAll(ts)[0] == Strip(ts[0]) && StripAll(ts)[1..] == StripAll(ts[1..]);
      MergeRunStrip(MergeKids(ts[0]), MapMergeKids(ts[1..]));
    }
  }

  lemma {:induction false} MergeKidsStrip(t: Token)
    ensures MergeKids(Strip(t)) == Strip(MergeKids(t))
    decreases t
  {
    StripToken(t);
    if IsBranch(t) {
      MergeStrip(t.subs);
    }
  }

  lemma {:induction false} MapMergeKidsStrip(ts: seq<Token>)
    ensures MapMergeKids(StripAll(ts)) == StripAll(MapMergeKids(ts))
    decreases ts
  {
    if |ts| > 0 {
      MergeKidsStrip(ts[0]);
      MapMergeKidsStrip(ts[1..]);
      assert StripAll(ts)[0] == Strip(ts[0]) && StripAll(ts)[1..] == StripAll(ts[1..]);
      StripAppend([MergeKids(ts[0])], MapMergeKids(ts[1..]));
      assert StripAll([MergeKids(ts[0])]) == [Strip(MergeKids(ts[0]))];
    }
  }

  /** Placing a stripped list gives what placing the list gives. */
  lemma {:induction false} PlaceStrip(ts: seq<Token>, first: int, cursor: int)
    ensures Place(StripAll(ts), first, cursor) == Place(ts, first, cursor)
    decreases ts
  {
    if |ts| > 0 {
      PlaceTokenStrip(ts[0], first, cursor);
      StripToken(ts[0]);
      assert StripAll(ts)[0] == Strip(ts[0]) && StripAll(ts)[1..] == StripAll(ts[1..]);
      PlaceStrip(ts[1..], first + 1, cursor + |Text(ts[0])|);
    }
  }

  lemma {:induction false} PlaceTokenStrip(t: Token, idx: int, cursor: int)
    ensures PlaceToken(Strip(t), idx, cursor) == PlaceToken(t, idx, cursor)
    decreases t
  {
    StripToken(t);
    if IsBranch(t) {
      PlaceStrip(t.subs, 0, cursor);
    }
  }

  /** Placing changes nothing but positions. */
  lemma {:induction false} StripPlace(ts: seq<Token>, first: int, cursor: int)
    ensures StripAll(Place(ts, first, cursor)) == StripAll(ts)
    decreases ts
  {
    if |ts| > 0 {
      StripPlaceToken(ts[0], first, cursor);
      StripPlace(ts[1..], first + 1, cursor + |Text(ts[0])|);
      StripAppend([PlaceToken(ts[0], first, cursor)], Place(ts[1..], first + 1, cursor + |Text(ts[0])|));
      assert StripAll([PlaceToken(ts[0], first, cursor)]) == [Strip(PlaceToken(ts[0], first, cursor))];
    }
  }

  lemma {:induction false} StripPlaceToken(t: Token, idx: int, cursor: int)
    ensures Strip(PlaceToken(t, idx, cursor)) == Strip(t)
    decreases t
  {
    PlaceTokenSound(t, idx, cursor);
    if IsBranch(t) {
      StripPlace(t.subs, 0, cursor);
    }
  }

  lemma LeafInsertNonEmpty(t: Token, off: nat, ch: string)
    requires !IsBranch(t) && off <= |Text(t)|
    ensures |LeafInsert(t, off, ch)| > 0
  {
  }

  lemma InsertInNonEmpty(ts: seq<Token>, col: int, ch: string)
    ensures |InsertIn(ts, col, ch)| > 0
  {
    match Locate(ts, col, true)
    case None =>
    case Some(h) =>
      var t := ts[h.index];
      if !IsBranch(t) {
        LeafInsertNonEmpty(t, Clamp(col - h.start, 0, |Text(t)|), ch);
      }
  }

  lemma LeafInsertStrip(t: Token, off: nat, ch: string)
    requires !IsBranch(t) && off <= |Text(t)|
    ensures LeafInsert(Strip(t), off, ch) == StripAll(LeafInsert(t, off, ch))
  {
    var u := Strip(t);
    var s := Text(t);
    assert u == Leaf(t.kind, 0, 0, s);
    var before, after := s[..off], s[off..];
    var p := LeafInsert(t, off, ch);
    if ch == " " {
      if t.kind == SpaceKind {
        StripOne(WithText(t, before + " " + after));
      } else if |before| == 0 {
        StripTwo(SpaceToken(" "), t);
      } else if |after| == 0 {
        StripTwo(t, SpaceToken(" "));
      } else {
        StripThree(WithText(t, before), SpaceToken(" "), WithText(t, after));
      }
    } else if t.kind == SpaceKind {
      if |before| == 0 {
        StripTwo(TextToken(ch), WithText(t, after));
      } else if |after| > 0 {
        assert p == [WithText(t, before), TextToken(ch), SpaceToken(after)];
        StripThree(WithText(t, before), TextToken(ch), SpaceToken(after));
      } else {
        assert p == [WithText(t, before), TextToken(ch)];
        StripTwo(WithText(t, before), TextToken(ch));
      }
    } else {
      StripOne(WithText(t, before + ch + after));
    }
  }

  lemma StripOne(a: Token)
    ensures StripAll([a]) == [Strip(a)]
  {
    assert [a][1..] == [];
  }

  lemma StripTwo(a: Token, b: Token)
    ensures StripAll([a, b]) == [Strip(a), Strip(b)]
  {
    assert [a, b][1..] == [b];
    StripOne(b);
  }

  lemma StripThree(a: Token, b: Token, c: Token)
    ensures StripAll([a, b, c]) == [Strip(a), Strip(b), Strip(c)]
  {
    assert [a, b, c][1..] == [b, c];
    StripTwo(b, c);
  }

  lemma {:induction false} InsertInStrip(ts: seq<Token>, col: int, ch: string)
    ensures InsertIn(StripAll(ts), col, ch) == StripAll(InsertIn(ts, col, ch))
    decreases ts, 1
  {
    LocateStrip(ts, col, true);
    match Locate(ts, col, true)
    case None =>
      StripAppend(ts, [NewToken(ch)]);
      assert StripAll([NewToken(ch)]) == [NewToken(ch)];
    case Some(h) =>
      InsertAtStrip(ts, col, ch, h);
  }

  lemma {:induction false} InsertAtStrip(ts: seq<Token>, col: int, ch: string, h: Hit)
    requires h.index < |ts|
    ensures InsertAt(StripAll(ts), col, ch, h) == StripAll(InsertAt(ts, col, ch, h))
    decreases ts, 0
  {
    var i := h.index;
    var t := ts[i];
    StripAt(ts);
    StripToken(t);
    if IsBranch(t) {
      InsertInStrip(t.subs, col - h.start, ch);
      InsertInNonEmpty(t.subs, col - h.start, ch);
      StripUpdate(ts, i, Composite(t.kind, t.tokenIdx, t.x, InsertIn(t.subs, col - h.start, ch)));
    } else {
      LeafInsertStrip(t, Clamp(col - h.start, 0, |Text(t)|), ch);
      StripSplice(ts, i, LeafInsert(t, Clamp(col - h.start, 0, |Text(t)|), ch));
    }
  }

  /** A deletion keeps the number of tokens. */
  lemma {:induction false} DeleteInLength(ts: seq<Token>, col: int)
    ensures DeleteIn(ts, col).Some? ==> |DeleteIn(ts, col).value| == |ts|
  {
  }

  lemma {:induction false} DeleteInStrip(ts: seq<Token>, col: int)
    ensures DeleteIn(StripAll(ts), col).Some? == DeleteIn(ts, col).Some?
    ensures DeleteIn(ts, col).Some? ==> DeleteIn(StripAll(ts), col).value == StripAll(DeleteIn(ts, col).value)
    decreases ts, 1
  {
    LocateStrip(ts, col, false);
    match Locate(ts, col, false)
    case None =>
    case Some(h) =>
      DeleteAtStrip(ts, col, h);
  }

  lemma {:induction false} DeleteAtStrip(ts: seq<Token>, col: int, h: Hit)
    requires h.index < |ts|
    ensures DeleteAt(StripAll(ts), col, h).Some? == DeleteAt(ts, col, h).Some?
    ensures DeleteAt(ts, col, h).Some? ==> DeleteAt(StripAll(ts), col, h).value == StripAll(DeleteAt(ts, col, h).value)
    decreases ts, 0
  {
    var i := h.index;
    var t := ts[i];
    StripAt(ts);
    StripToken(t);
    if IsBranch(t) {
      DeleteInStrip(t.subs, col - h.start);
      DeleteInLength(t.subs, col - h.start);
      match DeleteIn(t.subs, col - h.start)
      case None =>
      case Some(kids) =>
        StripUpdate(ts, i, Composite(t.kind, t.tokenIdx, t.x, kids));
    } else {
      var s := Text(t);
      var off := Clamp(col - h.start, 0, |s|);
      if off < |s| {
        StripUpdate(ts, i, WithText(t, s[..off] + s[off + 1..]));
      }
    }
  }

  /** Erasing positions keeps a list free of empty tokens and of
      mergeable neighbours. */
  lemma {:induction false} SolidStrip(ts: seq<Token>)
    requires Solid(ts)
    ensures Solid(StripAll(ts))
    decreases ts
  {
    if |ts| > 0 {
      SolidTokenStrip(ts[0]);
      SolidStrip(ts[1..]);
      assert StripAll(ts)[0] == Strip(ts[0]) && StripAll(ts)[1..] == StripAll(ts[1..]);
    }
  }

  lemma {:induction false} SolidTokenStrip(t: Token)
    requires SolidToken(t)
    ensures SolidToken(Strip(t))
    decreases t
  {
    StripToken(t);
    if t.Composite? {
      SolidStrip(t.subs);
    }
  }

  lemma {:induction false} CalmStrip(ts: seq<Token>)
    requires Calm(ts)
    ensures Calm(StripAll(ts))
    decreases ts
  {
    if |ts| > 0 {
      CalmTokenStrip(ts[0]);
      CalmStrip(ts[1..]);
      StripToken(ts[0]);
      assert StripAll(ts)[0] == Strip(ts[0]) && StripAll(ts)[1..] == StripAll(ts[1..]);
      if |ts| > 1 {
        StripToken(ts[1]);
        assert StripAll(ts)[1] == Strip(ts[1]);
      }
    }
  }

  lemma {:induction false} CalmTokenStrip(t: Token)
    requires CalmToken(t)
    ensures CalmToken(Strip(t))
    decreases t
  {
    if IsBranch(t) {
      CalmStrip(t.subs);
    }
  }

  // ---------------------------------------------------------------------
  // Solid and calm lists cut into pieces

  /** A list is the tokens before `i`, token `i`, and the tokens after. */
  lemma Cut(ts: seq<Token>, i: nat)
    requires i < |ts|
    ensures ts == ts[..i] + ([ts[i]] + ts[i + 1..])
    ensures ts[..i] + [ts[i]] + ts[i + 1..] == ts
  {
    assert ts == ts[..i] + ts[i..];
    assert ts[i..] == [ts[i]] + ts[i + 1..];
  }

  lemma {:induction false} SolidJoin(a: seq<Token>, b: seq<Token>)
    ensures Solid(a + b) <==> Solid(a) && Solid(b)
    decreases |a|
  {
    if |a| == 0 {
      assert a + b == b;
    } else {
      assert (a + b)[1..] == a[1..] + b;
      SolidJoin(a[1..], b);
    }
  }

  lemma {:induction false} CalmJoin(a: seq<Token>, b: seq<Token>)
    ensures Calm(a + b) <==> Calm(a) && Calm(b) && (|a| > 0 && |b| > 0 ==> !Mergeable(a[|a| - 1], b[0]))
    decreases |a|
  {
    if |a| == 0 {
      assert a + b == b;
    } else {
      assert (a + b)[1..] == a[1..] + b;
      CalmJoin(a[1..], b);
      if |a| == 1 {
        assert a[1..] + b == b;
      } else {
        assert (a + b)[1] == a[1] && a[1..][|a| - 2] == a[|a| - 1];
      }
    }
  }

  lemma {:induction false} CalmInsideJoin(a: seq<Token>, b: seq<Token>)
    ensures CalmInside(a + b) <==> CalmInside(a) && CalmInside(b)
    decreases |a|
  {
    if |a| == 0 {
      assert a + b == b;
    } else {
      assert (a + b)[1..] == a[1..] + b;
      CalmInsideJoin(a[1..], b);
    }
  }

  lemma {:induction false} CalmIsInside(ts: seq<Token>)
    requires Calm(ts)
    ensures CalmInside(ts)
    decreases |ts|
  {
    if |ts| > 0 {
      CalmIsInside(ts[1..]);
    }
  }

  /** What a solid, calm list says about its token `i` and the tokens
      around it. */
  lemma Around(ts: seq<Token>, i: nat)
    requires Solid(ts) && Calm(ts) && i < |ts|
    ensures Solid(ts[..i]) && Solid(ts[i + 1..]) && SolidToken(ts[i])
    ensures Calm(ts[..i]) && Calm(ts[i + 1..]) && Calm([ts[i]] + ts[i + 1..]) && CalmToken(ts[i])
    ensures i > 0 ==> !Mergeable(ts[i - 1], ts[i])
    ensures i + 1 < |ts| ==> !Mergeable(ts[i], ts[i + 1])
  {
    Cut(ts, i);
    SolidJoin(ts[..i], [ts[i]] + ts[i + 1..]);
    SolidJoin([ts[i]], ts[i + 1..]);
    CalmJoin(ts[..i], [ts[i]] + ts[i + 1..]);
    CalmJoin([ts[i]], ts[i + 1..]);
    if i > 0 {
      assert ts[..i][i - 1] == ts[i - 1];
    }
    if i + 1 < |ts| {
      assert ts[i + 1..][0] == ts[i + 1];
    }
  }

  /** Token `i` of a solid list replaced by solid tokens. */
  lemma SolidSplice(ts: seq<Token>, i: nat, mid: seq<Token>)
    requires Solid(ts) && i < |ts| && Solid(mid)
    ensures Solid(ts[..i] + mid + ts[i + 1..])
  {
    Cut(ts, i);
    SolidJoin(ts[..i], [ts[i]] + ts[i + 1..]);
    SolidJoin([ts[i]], ts[i + 1..]);
    SolidJoin(ts[..i], mid);
    SolidJoin(ts[..i] + mid, ts[i + 1..]);
  }

  /** Token `i` of a calm list replaced by calm tokens that merge with
      neither neighbour. */
  lemma CalmSplice(ts: seq<Token>, i: nat, mid: seq<Token>)
    requires Calm(ts) && i < |ts| && Calm(mid) && |mid| > 0
    requires i > 0 ==> !Mergeable(ts[i - 1], mid[0])
    requires i + 1 < |ts| ==> !Mergeable(mid[|mid| - 1], ts[i + 1])
    ensures Calm(ts[..i] + mid + ts[i + 1..])
  {
    CalmParts(ts, i);
    if i > 0 {
      assert ts[..i][i - 1] == ts[i - 1];
    }
    if i + 1 < |ts| {
      assert ts[i + 1..][0] == ts[i + 1];
    }
    CalmEnds(ts[..i], mid, ts[i + 1..]);
  }

  /** The tokens before and after token `i` of a calm list are calm. */
  lemma CalmParts(ts: seq<Token>, i: nat)
    requires Calm(ts) && i < |ts|
    ensures Calm(ts[..i]) && Calm(ts[i + 1..])
  {
    Cut(ts, i);
    CalmJoin(ts[..i], [ts[i]] + ts[i + 1..]);
    CalmJoin([ts[i]], ts[i + 1..]);
  }

  /** Three calm lists joined are calm when neither seam merges. */
  lemma CalmEnds(a: seq<Token>, mid: seq<Token>, b: seq<Token>)
    requires Calm(a) && Calm(mid) && Calm(b) && |mid| > 0
    requires |a| > 0 ==> !Mergeable(a[|a| - 1], mid[0])
    requires |b| > 0 ==> !Mergeable(mid[|mid| - 1], b[0])
    ensures Calm(a + mid + b)
  {
    CalmJoin(mid, b);
    CalmJoin(a, mid + b);
    assert a + mid + b == a + (mid + b);
  }

  lemma {:induction false} PruneAppend(a: seq<Token>, b: seq<Token>)
    ensures Prune(a + b) == Prune(a) + Prune(b)
    decreases |a|
  {
    if |a| == 0 {
      assert a + b == b;
    } else {
      assert (a + b)[1..] == a[1..] + b;
      PruneAppend(a[1..], b);
    }
  }

  /** Pruning a solid list with token `i` replaced prunes only the
      replacement. */
  lemma PruneSplice(ts: seq<Token>, i: nat, mid: seq<Token>)
    requires Solid(ts) && i < |ts|
    ensures Prune(ts[..i] + mid + ts[i + 1..]) == ts[..i] + Prune(mid) + ts[i + 1..]
  {
    Cut(ts, i);
    SolidJoin(ts[..i], [ts[i]] + ts[i + 1..]);
    SolidJoin([ts[i]], ts[i + 1..]);
    PruneAppend(ts[..i] + mid, ts[i + 1..]);
    PruneAppend(ts[..i], mid);
    PruneSolid(ts[..i]);
    PruneSolid(ts[i + 1..]);
  }

  lemma {:induction false} MapMergeKidsAppend(a: seq<Token>, b: seq<Token>)
    ensures MapMergeKids(a + b) == MapMergeKids(a) + MapMergeKids(b)
    decreases |a|
  {
    if |a| == 0 {
      assert a + b == b;
    } else {
      assert (a + b)[1..] == a[1..] + b;
      MapMergeKidsAppend(a[1..], b);
    }
  }

  lemma {:induction false} MapMergeKidsInside(ts: seq<Token>)
    requires CalmInside(ts)
    ensures MapMergeKids(ts) == ts
    decreases |ts|
  {
    if |ts| > 0 {
      MergeKidsCalm(ts[0]);
      MapMergeKidsInside(ts[1..]);
      assert ts == [ts[0]] + ts[1..];
    }
  }

  /** The merge pass merges the children first, then scans the list. */
  lemma MergeOf(ts: seq<Token>)
    requires |ts| > 0
    ensures Merge(ts) == MergeRun(MapMergeKids(ts)[0], MapMergeKids(ts)[1..])
  {
    assert MapMergeKids(ts)[1..] == MapMergeKids(ts[1..]);
  }

  /** The scan passes over a calm prefix unchanged. */
  lemma {:induction false} MergeRunPrefix(a: seq<Token>, b: seq<Token>)
    requires |a| > 0 && Calm(a)
    ensures MergeRun(a[0], a[1..] + b) == a[..|a| - 1] + MergeRun(a[|a| - 1], b)
    decreases |a|
  {
    if |a| == 1 {
      assert a[1..] + b == b && a[..0] == [];
    } else {
      var rest := a[1..] + b;
      assert rest[0] == a[1] && rest[1..] == a[1..][1..] + b;
      MergeRunPrefix(a[1..], b);
      assert a[1..][0] == a[1] && a[1..][|a| - 2] == a[|a| - 1];
      assert a[..|a| - 1] == [a[0]] + a[1..][..|a| - 2];
    }
  }

  /** Merging the children of a list whose other tokens are calm merges
      only the children of the one token. */
  lemma MapMergeKidsSwap(ts: seq<Token>, i: nat, x: Token)
    requires i < |ts| && Calm(ts[..i]) && Calm(ts[i + 1..])
    ensures MapMergeKids(ts[..i] + [x] + ts[i + 1..]) == ts[..i] + [MergeKids(x)] + ts[i + 1..]
  {
    MapMergeKidsAppend(ts[..i] + [x], ts[i + 1..]);
    MapMergeKidsAppend(ts[..i], [x]);
    MapMergeKidsCalm(ts[..i]);
    MapMergeKidsCalm(ts[i + 1..]);
    assert MapMergeKids([x]) == [MergeKids(x)];
  }

  /** The scan leaves a calm list unchanged. */
  lemma MergeRunKeeps(ts: seq<Token>)
    requires |ts| > 0 && Calm(ts)
    ensures MergeRun(ts[0], ts[1..]) == ts
  {
    assert [ts[0]] + ts[1..] == ts;
    MergeRunCalm(ts[0], ts[1..]);
  }

  /** Merging a calm list with one branch swapped for another merges
      only inside that branch. */
  lemma MergeSwap(ts: seq<Token>, i: nat, x: Token)
    requires Solid(ts) && Calm(ts) && i < |ts| && IsBranch(x) && Calm(Merge(x.subs))
    ensures Merge(ts[..i] + [x] + ts[i + 1..]) == ts[..i] + [MergeKids(x)] + ts[i + 1..]
  {
    Around(ts, i);
    var y := MergeKids(x);
    var w := ts[..i] + [x] + ts[i + 1..];
    var ys := ts[..i] + [y] + ts[i + 1..];
    MapMergeKidsSwap(ts, i, x);
    assert Calm([y]) by {
      assert [y][1..] == [];
    }
    CalmSplice(ts, i, [y]);
    MergeOf(w);
    MergeRunKeeps(ys);
  }

  // ---------------------------------------------------------------------
  // Where an insertion and a deletion land

  /** With boundaries going to the earlier token, a token other than the
      first is found only for a column inside it or at its end. */
  lemma {:induction false} LocatePrefers(ts: seq<Token>, col: int)
    ensures var r := Locate(ts, col, true); r.Some? && r.value.index > 0 ==> r.value.start < col
    decreases |ts|
  {
    if |ts| > 0 {
      var len := |Text(ts[0])|;
      if col > len {
        LocatePrefers(ts[1..], col - len);
        match Locate(ts[1..], col - len, true)
        case None =>
          LocateNextNone(ts, col, true, len);
        case Some(h) =>
          assert h.index == 0 ==> h.start == 0 by {
            assert ts[1..][..0] == [];
          }
          LocateNext(ts, col, true, len, h);
      }
    }
  }

  /** The token an insertion at `k` goes into. */
  lemma InsertHit(ts: seq<Token>, k: int, h: Hit)
    requires 0 <= k && Locate(ts, k, true).Some? && Locate(ts, k, true).value == h
    ensures h.index < |ts| && h.start == |Concat(ts[..h.index])|
    ensures h.start <= k <= h.start + |Text(ts[h.index])|
    ensures h.index > 0 ==> h.start < k
  {
    LocatePrefers(ts, k);
    assert ts[..0] == [];
  }

  /** A deletion at a column inside token `i` finds token `i`. */
  lemma {:induction false} LocateInside(ts: seq<Token>, col: int, i: nat)
    requires i < |ts|
    requires |Concat(ts[..i])| <= col < |Concat(ts[..i])| + |Text(ts[i])|
    ensures Locate(ts, col, false).Some? && Locate(ts, col, false).value == Hit(i, |Concat(ts[..i])|)
    decreases i
  {
    var len := |Text(ts[0])|;
    if i == 0 {
      assert ts[..0] == [];
    } else {
      PrefixStep(ts, i);
      LocateInside(ts[1..], col - len, i - 1);
      LocateNext(ts, col, false, len, Hit(i - 1, |Concat(ts[1..][..i - 1])|));
    }
  }

  /** The tokens before `i` are the first token and the tokens of the
      rest before `i - 1`. */
  lemma PrefixStep(ts: seq<Token>, i: nat)
    requires 0 < i < |ts|
    ensures |Concat(ts[..i])| == |Text(ts[0])| + |Concat(ts[1..][..i - 1])| && ts[1..][i - 1] == ts[i]
  {
    assert ts[..i] == [ts[0]] + ts[1..][..i - 1];
    ConcatAppend([ts[0]], ts[1..][..i - 1]);
    ConcatSingle(ts[0]);
  }

  lemma Halves(a: seq<Token>, b: seq<Token>)
    requires |a| > 0
    ensures (a + b)[0] == a[0] && (a + b)[1..] == a[1..] + b
  {
  }

  lemma Tail(ts: seq<Token>, j: nat)
    requires j < |ts|
    ensures ts[j..] == [ts[j]] + ts[j + 1..]
  {
  }

  lemma Split(s: string, c: nat)
    requires c <= |s|
    ensures s[..c] + s[c..] == s
  {
  }

  /** Merging a calm list followed by another merges only where they
      meet. */
  lemma MergeCalmPrefix(a: seq<Token>, b: seq<Token>)
    requires |a| > 0 && Calm(a) && Calm(b)
    ensures Merge(a + b) == a[..|a| - 1] + MergeRun(a[|a| - 1], b)
  {
    MapMergeKidsAppend(a, b);
    MapMergeKidsCalm(a);
    MapMergeKidsCalm(b);
    MergeOf(a + b);
    Halves(a, b);
    MergeRunPrefix(a, b);
  }

  /** The scan fuses two mergeable leaves and then, the rest being calm,
      stops merging. */
  lemma MergeRunFuse(x: Token, y: Token, rest: seq<Token>)
    requires Mergeable(x, y) && Calm([WithText(x, Text(x) + Text(y))] + rest)
    ensures MergeRun(x, [y] + rest) == [WithText(x, Text(x) + Text(y))] + rest
  {
    var z := WithText(x, Text(x) + Text(y));
    Halves([y], rest);
    assert [y][1..] + rest == rest;
    MergeRunKeeps([z] + rest);
    Halves([z], rest);
    assert [z][1..] + rest == rest;
  }

  lemma Regroup(p: seq<Token>, x: Token, y: Token, q: seq<Token>)
    ensures (p + [x]) + ([y] + q) == p + [x, y] + q
  {
  }

  lemma Regroup2(p: seq<Token>, x: Token, y: Token, q: seq<Token>)
    ensures p + [x, y] + q == (p + [x]) + [y] + q
  {
  }

  lemma Regroup3(p: seq<Token>, x: Token, y: Token, z: Token, q: seq<Token>)
    ensures p + [x, y, z] + q == (p + [x]) + [y] + ([z] + q)
  {
  }

  /** Tokens `i` and `i + 1` cut out of a list. */
  lemma Cut2(ts: seq<Token>, i: nat)
    requires i + 1 < |ts|
    ensures (ts[..i] + [ts[i]]) + [ts[i + 1]] + ts[i + 2..] == ts
  {
    assert ts == ts[..i] + ts[i..];
    assert ts[i..] == [ts[i], ts[i + 1]] + ts[i + 2..];
  }

  lemma SpliceBack(ts: seq<Token>, i: nat, x: Token)
    requires i < |ts|
    ensures (ts[..i] + [x] + ts[i + 1..])[i := ts[i]] == ts
  {
  }

  lemma UpdateSplice(ts: seq<Token>, i: nat, x: Token)
    requires i < |ts|
    ensures ts[i := x] == ts[..i] + [x] + ts[i + 1..]
  {
  }

  /** Putting token `i + 1` back after replacing it. */
  lemma Restore2(ts: seq<Token>, i: nat, x: Token)
    requires i + 1 < |ts|
    ensures (ts[..i] + [ts[i], x] + ts[i + 2..])[i + 1 := ts[i + 1]] == ts
  {
  }

  // ---------------------------------------------------------------------
  // Inserting a space and deleting it, on a list with positions erased

  /** `w` has no empty token, and deleting at `k` from its merged form
      finds a character; pruning and merging the result gives `ts`. */
  predicate Undoes(ts: seq<Token>, k: int, w: seq<Token>) {
    Solid(w) && DeleteIn(Merge(w), k).Some? && Merge(Prune(DeleteIn(Merge(w), k).value)) == ts
  }

  /** The insertion of a space at `k` is undone by the deletion at `k`. */
  predicate RoundTrips(ts: seq<Token>, k: int) {
    Undoes(ts, k, InsertIn(ts, k, " "))
  }

  /** A solid and calm list, and the token `h.index`, starting at column
      `h.start`, that column `k` falls in or at the end of. */
  predicate Spot(ts: seq<Token>, k: int, h: Hit) {
    h.index < |ts| && h.start == |Concat(ts[..h.index])| && h.start <= k <= h.start + |Text(ts[h.index])|
    && Solid(ts) && Calm(ts)
  }

  /** A leaf with positions erased. */
  predicate BareLeaf(t: Token) {
    t == Leaf(t.kind, 0, 0, Text(t))
  }

  /** One or two tokens are solid or calm as their tokens are. */
  lemma Pair(a: Token, b: Token)
    ensures Solid([a]) <==> SolidToken(a)
    ensures Calm([a]) <==> CalmToken(a)
    ensures Solid([a, b]) <==> SolidToken(a) && SolidToken(b)
    ensures Calm([a, b]) <==> CalmToken(a) && CalmToken(b) && !Mergeable(a, b)
  {
    assert [a][1..] == [] && [b][1..] == [];
    assert [a, b] == [a] + [b];
    SolidJoin([a], [b]);
    CalmJoin([a], [b]);
  }

  /** A deletion at a column inside leaf `j` removes that character from
      the leaf. */
  lemma DeleteInLeaf(m: seq<Token>, k: int, j: nat)
    requires j < |m| && !IsBranch(m[j])
    requires |Concat(m[..j])| <= k < |Concat(m[..j])| + |Text(m[j])|
    ensures var s, c := Text(m[j]), k - |Concat(m[..j])|;
      DeleteIn(m, k).Some? && DeleteIn(m, k).value == m[j := WithText(m[j], s[..c] + s[c + 1..])]
  {
    var h := Hit(j, |Concat(m[..j])|);
    assert Locate(m, k, false).Some? && Locate(m, k, false).value == h by {
      LocateInside(m, k, j);
    }
  }

  /** A deletion at a column inside the leaf between `pre` and `post`
      removes that character from the leaf. */
  lemma DeleteMid(m: seq<Token>, pre: seq<Token>, x: Token, post: seq<Token>, k: int)
    requires m == pre + [x] + post && !IsBranch(x)
    requires |Concat(pre)| <= k < |Concat(pre)| + |Text(x)|
    ensures var s, c := Text(x), k - |Concat(pre)|;
      DeleteIn(m, k).Some? && DeleteIn(m, k).value == pre + [WithText(x, s[..c] + s[c + 1..])] + post
  {
    var j := |pre|;
    var s, c := Text(x), k - |Concat(pre)|;
    var z := WithText(x, s[..c] + s[c + 1..]);
    assert m[..j] == pre && m[j] == x;
    DeleteInLeaf(m, k, j);
    assert m[j := z] == pre + [z] + post;
  }

  /** The steps of an undo, put together. */
  lemma Undone(ts: seq<Token>, k: int, w: seq<Token>, m: seq<Token>, d: seq<Token>)
    requires Solid(w) && Merge(w) == m
    requires DeleteIn(m, k).Some? && DeleteIn(m, k).value == d && Merge(Prune(d)) == ts
    ensures Undoes(ts, k, w)
  {
  }

  /** The insertion into the leaf `Locate` finds. */
  lemma InsertLeafAt(ts: seq<Token>, k: int, h: Hit)
    requires Locate(ts, k, true).Some? && Locate(ts, k, true).value == h
    requires !IsBranch(ts[h.index]) && h.start <= k <= h.start + |Text(ts[h.index])|
    ensures InsertIn(ts, k, " ") == ts[..h.index] + LeafInsert(ts[h.index], k - h.start, " ") + ts[h.index + 1..]
  {
    InsertInHit(ts, k, h);
    assert Clamp(k - h.start, 0, |Text(ts[h.index])|) == k - h.start;
  }

  /** The insertion goes into the token `Locate` finds. */
  lemma InsertInHit(ts: seq<Token>, k: int, h: Hit)
    requires Locate(ts, k, true).Some? && Locate(ts, k, true).value == h
    ensures h.index < |ts| && InsertIn(ts, k, " ") == InsertAt(ts, k, " ", h)
  {
  }

  /** The insertion into the branch `Locate` finds. */
  lemma InsertBranchAt(ts: seq<Token>, k: int, h: Hit)
    requires Locate(ts, k, true).Some? && Locate(ts, k, true).value == h && IsBranch(ts[h.index])
    ensures var t := ts[h.index];
      InsertIn(ts, k, " ") == ts[h.index := Composite(t.kind, t.tokenIdx, t.x, InsertIn(t.subs, k - h.start, " "))]
  {
    InsertInHit(ts, k, h);
  }

  /** An empty line becomes one space and then one empty token, which
      pruning drops. */
  lemma RoundTripEmpty(k: int)
    requires k == 0
    ensures RoundTrips([], k)
  {
    var sp := SpaceToken(" ");
    assert InsertIn([], k, " ") == [sp];
    assert Merge([sp]) == [sp];
    assert Locate([sp], k, false).Some? && Locate([sp], k, false).value == Hit(0, 0);
    var e := Leaf(SpaceKind, 0, 0, "");
    assert " "[..0] + " "[1..] == "";
    assert DeleteAt([sp], k, Hit(0, 0)).Some? && DeleteAt([sp], k, Hit(0, 0)).value == [sp][0 := e];
    assert [sp][0 := e] == [e];
    assert Prune([e]) == [];
  }

  /** In a Space leaf the space lengthens the leaf and the deletion
      shortens it again. */
  lemma SpaceCase(ts: seq<Token>, k: int, h: Hit)
    requires Spot(ts, k, h) && BareLeaf(ts[h.index]) && ts[h.index].kind == SpaceKind
    ensures var s, c := Text(ts[h.index]), k - h.start;
      Undoes(ts, k, ts[..h.index] + [Leaf(SpaceKind, 0, 0, s[..c] + " " + s[c..])] + ts[h.index + 1..])
  {
    var i := h.index;
    var t := ts[i];
    var s, c := Text(t), k - h.start;
    var t' := Leaf(SpaceKind, 0, 0, s[..c] + " " + s[c..]);
    var w := ts[..i] + [t'] + ts[i + 1..];
    assert Solid(w) && Calm(w) by {
      Around(ts, i);
      Pair(t', t');
      SolidSplice(ts, i, [t']);
      CalmSplice(ts, i, [t']);
    }
    MergeCalm(w);
    SpaceBack(ts, k, h, t');
    Settled(ts);
    Undone(ts, k, w, w, ts);
  }

  /** The deletion half of `SpaceCase`: it shortens the leaf again. */
  lemma SpaceBack(ts: seq<Token>, k: int, h: Hit, t': Token)
    requires h.index < |ts| && h.start == |Concat(ts[..h.index])| && h.start <= k <= h.start + |Text(ts[h.index])|
    requires BareLeaf(ts[h.index]) && ts[h.index].kind == SpaceKind
    requires var s, c := Text(ts[h.index]), k - h.start; t' == Leaf(SpaceKind, 0, 0, s[..c] + " " + s[c..])
    ensures var w := ts[..h.index] + [t'] + ts[h.index + 1..];
      DeleteIn(w, k).Some? && DeleteIn(w, k).value == ts
  {
    var i := h.index;
    var t := ts[i];
    var s := Text(t);
    var c := k - h.start;
    var w := ts[..i] + [t'] + ts[i + 1..];
    DeleteMid(w, ts[..i], t', ts[i + 1..], k);
    Unsplice(s, c);
    assert WithText(t', s) == t;
    Cut(ts, i);
  }

  /** Deleting the character just put in at `c` gives the string back. */
  lemma Unsplice(s: string, c: int)
    requires 0 <= c <= |s|
    ensures var u := s[..c] + " " + s[c..]; u[..c] + u[c + 1..] == s
  {
    var u := s[..c] + " " + s[c..];
    assert u[..c] == s[..c] && u[c + 1..] == s[c..];
  }

  /** Pruning and merging leave a solid and calm list alone. */
  lemma Settled(ts: seq<Token>)
    requires Solid(ts) && Calm(ts)
    ensures Merge(Prune(ts)) == ts
  {
    PruneSolid(ts);
    MergeCalm(ts);
  }

  /** At the start of a line whose first token is a leaf of another type,
      the space goes in front as a token of its own, which the deletion
      empties and pruning drops. */
  lemma FrontCase(ts: seq<Token>, k: int, h: Hit)
    requires Spot(ts, k, h) && h.index == 0 && k == 0 && BareLeaf(ts[0]) && ts[0].kind != SpaceKind
    ensures Undoes(ts, k, ts[..0] + [SpaceToken(" "), ts[0]] + ts[1..])
  {
    var t := ts[0];
    var sp := SpaceToken(" ");
    var w := ts[..0] + [sp, t] + ts[1..];
    var d := ts[..0] + [Leaf(SpaceKind, 0, 0, ""), t] + ts[1..];
    FrontSolid(ts);
    MergeCalm(w);
    FrontBack(ts);
    FrontPrune(ts);
    MergeCalm(ts);
    Undone(ts, k, w, w, d);
  }

  /** A space put in front of a first leaf of another type keeps the list
      solid and calm. */
  lemma FrontSolid(ts: seq<Token>)
    requires Solid(ts) && Calm(ts) && |ts| > 0 && !IsBranch(ts[0]) && ts[0].kind != SpaceKind
    ensures var w := ts[..0] + [SpaceToken(" "), ts[0]] + ts[1..];
      Solid(w) && Calm(w)
  {
    var t := ts[0];
    var sp := SpaceToken(" ");
    Around(ts, 0);
    Pair(sp, t);
    SolidSplice(ts, 0, [sp, t]);
    CalmSplice(ts, 0, [sp, t]);
  }

  /** The deletion half of `FrontCase`: it empties the space token. */
  lemma FrontBack(ts: seq<Token>)
    requires |ts| > 0
    ensures var w := ts[..0] + [SpaceToken(" "), ts[0]] + ts[1..];
      DeleteIn(w, 0).Some? && DeleteIn(w, 0).value == ts[..0] + [Leaf(SpaceKind, 0, 0, ""), ts[0]] + ts[1..]
  {
    var sp := SpaceToken(" ");
    var w := ts[..0] + [sp, ts[0]] + ts[1..];
    assert w[..0] == [] && w[0] == sp;
    DeleteInLeaf(w, 0, 0);
    assert " "[..0] + " "[1..] == "";
  }

  /** Pruning drops the emptied space token in front. */
  lemma FrontPrune(ts: seq<Token>)
    requires Solid(ts) && Calm(ts) && |ts| > 0
    ensures Prune(ts[..0] + [Leaf(SpaceKind, 0, 0, ""), ts[0]] + ts[1..]) == ts
  {
    var t := ts[0];
    var e := Leaf(SpaceKind, 0, 0, "");
    Around(ts, 0);
    PruneSplice(ts, 0, [e, t]);
    assert Prune([e, t]) == [t] by {
      PruneAppend([e], [t]);
      assert Prune([e]) == [];
      Pair(t, t);
      PruneSolid([t]);
    }
    Cut(ts, 0);
  }

  /** At the end of a leaf of another type, with no Space leaf after it,
      the space goes after the leaf as a token of its own, which the
      deletion empties and pruning drops. */
  lemma AfterCase(ts: seq<Token>, k: int, h: Hit)
    requires Spot(ts, k, h) && !IsBranch(ts[h.index]) && ts[h.index].kind != SpaceKind
    requires k == h.start + |Text(ts[h.index])|
    requires !(h.index + 1 < |ts| && Mergeable(SpaceToken(" "), ts[h.index + 1]))
    ensures Undoes(ts, k, ts[..h.index] + [ts[h.index], SpaceToken(" ")] + ts[h.index + 1..])
  {
    var i := h.index;
    var t := ts[i];
    var sp := SpaceToken(" ");
    var w := ts[..i] + [t, sp] + ts[i + 1..];
    assert Solid(w) && Calm(w) by {
      Around(ts, i);
      Pair(t, sp);
      SolidSplice(ts, i, [t, sp]);
      CalmSplice(ts, i, [t, sp]);
    }
    MergeCalm(w);
    AfterBack(ts, k, h);
    AfterPrune(ts, i);
    MergeCalm(ts);
    Undone(ts, k, w, w, ts[..i] + [t, Leaf(SpaceKind, 0, 0, "")] + ts[i + 1..]);
  }

  /** The deletion half of `AfterCase`: it empties the space token. */
  lemma AfterBack(ts: seq<Token>, k: int, h: Hit)
    requires h.index < |ts| && k == h.start + |Text(ts[h.index])|
    requires h.start == |Concat(ts[..h.index])|
    ensures var w := ts[..h.index] + [ts[h.index], SpaceToken(" ")] + ts[h.index + 1..];
      DeleteIn(w, k).Some? && DeleteIn(w, k).value == ts[..h.index] + [ts[h.index], Leaf(SpaceKind, 0, 0, "")] + ts[h.index + 1..]
  {
    var i := h.index;
    var t := ts[i];
    var sp := SpaceToken(" ");
    var e := Leaf(SpaceKind, 0, 0, "");
    var w := ts[..i] + [t, sp] + ts[i + 1..];
    Regroup2(ts[..i], t, sp, ts[i + 1..]);
    ConcatAppend(ts[..i], [t]);
    ConcatSingle(t);
    DeleteMid(w, ts[..i] + [t], sp, ts[i + 1..], k);
    assert " "[..0] + " "[1..] == "";
    Regroup2(ts[..i], t, e, ts[i + 1..]);
  }

  /** Pruning drops an empty Space token put after token `i`. */
  lemma AfterPrune(ts: seq<Token>, i: nat)
    requires Solid(ts) && Calm(ts) && i < |ts|
    ensures Prune(ts[..i] + [ts[i], Leaf(SpaceKind, 0, 0, "")] + ts[i + 1..]) == ts
  {
    var t := ts[i];
    var e := Leaf(SpaceKind, 0, 0, "");
    PruneSplice(ts, i, [t, e]);
    assert Prune([t, e]) == [t] by {
      PruneAppend([t], [e]);
      assert Prune([e]) == [];
      Around(ts, i);
      Pair(t, t);
      PruneSolid([t]);
    }
    Cut(ts, i);
  }

  /** At the end of a leaf of another type followed by a Space leaf, the
      merge pass fuses the new space into the front of that Space leaf,
      and the deletion takes it off again. */
  lemma JoinCase(ts: seq<Token>, k: int, h: Hit)
    requires Spot(ts, k, h) && !IsBranch(ts[h.index]) && ts[h.index].kind != SpaceKind
    requires k == h.start + |Text(ts[h.index])|
    requires h.index + 1 < |ts| && Mergeable(SpaceToken(" "), ts[h.index + 1]) && BareLeaf(ts[h.index + 1])
    ensures Undoes(ts, k, ts[..h.index] + [ts[h.index], SpaceToken(" ")] + ts[h.index + 1..])
  {
    var i := h.index;
    var t := ts[i];
    var sp := SpaceToken(" ");
    var w := ts[..i] + [t, sp] + ts[i + 1..];
    assert Solid(w) by {
      Around(ts, i);
      Pair(t, sp);
      SolidSplice(ts, i, [t, sp]);
    }
    JoinMerge(ts, i);
    JoinBack(ts, k, h);
    Settled(ts);
    Undone(ts, k, w, ts[..i] + [t, Leaf(SpaceKind, 0, 0, " " + Text(ts[i + 1]))] + ts[i + 2..], ts);
  }

  /** The merge half of `JoinCase`. */
  lemma JoinMerge(ts: seq<Token>, i: nat)
    requires Solid(ts) && Calm(ts) && i + 1 < |ts|
    requires !IsBranch(ts[i]) && ts[i].kind != SpaceKind
    requires ts[i + 1] == Leaf(SpaceKind, 0, 0, Text(ts[i + 1]))
    ensures Merge(ts[..i] + [ts[i], SpaceToken(" ")] + ts[i + 1..])
      == ts[..i] + [ts[i], Leaf(SpaceKind, 0, 0, " " + Text(ts[i + 1]))] + ts[i + 2..]
  {
    var t, n := ts[i], ts[i + 1];
    var sp := SpaceToken(" ");
    var n' := Leaf(SpaceKind, 0, 0, " " + Text(n));
    var a := ts[..i] + [t, sp];
    JoinPrefix(ts, i);
    MergeCalmPrefix(a, ts[i + 1..]);
    assert a[..|a| - 1] == ts[..i] + [t] && a[|a| - 1] == sp;
    JoinRun(ts, i);
    Regroup(ts[..i], t, n', ts[i + 2..]);
  }

  /** The tokens up to the new space are calm, and so are those after. */
  lemma JoinPrefix(ts: seq<Token>, i: nat)
    requires Solid(ts) && Calm(ts) && i + 1 < |ts|
    requires !IsBranch(ts[i]) && ts[i].kind != SpaceKind
    ensures Calm(ts[..i] + [ts[i], SpaceToken(" ")]) && Calm(ts[i + 1..])
  {
    var t := ts[i];
    var sp := SpaceToken(" ");
    Around(ts, i);
    Pair(t, sp);
    CalmJoin(ts[..i], [t, sp]);
    if i > 0 {
      assert ts[..i][i - 1] == ts[i - 1];
    }
  }

  /** The new space fuses with the Space leaf after it. */
  lemma JoinRun(ts: seq<Token>, i: nat)
    requires Solid(ts) && Calm(ts) && i + 1 < |ts|
    requires ts[i + 1] == Leaf(SpaceKind, 0, 0, Text(ts[i + 1]))
    ensures MergeRun(SpaceToken(" "), ts[i + 1..]) == [Leaf(SpaceKind, 0, 0, " " + Text(ts[i + 1]))] + ts[i + 2..]
  {
    var n := ts[i + 1];
    var sp := SpaceToken(" ");
    var n' := Leaf(SpaceKind, 0, 0, " " + Text(n));
    var rest := ts[i + 2..];
    Tail(ts, i + 1);
    Around(ts, i + 1);
    Pair(n', n');
    CalmJoin([n'], rest);
    if i + 2 < |ts| {
      assert rest[0] == ts[i + 2];
    }
    assert WithText(sp, Text(sp) + Text(n)) == n';
    MergeRunFuse(sp, n, rest);
  }

  /** The deletion half of `JoinCase`. */
  lemma JoinBack(ts: seq<Token>, k: int, h: Hit)
    requires h.index + 1 < |ts| && k == h.start + |Text(ts[h.index])|
    requires h.start == |Concat(ts[..h.index])|
    requires ts[h.index + 1] == Leaf(SpaceKind, 0, 0, Text(ts[h.index + 1]))
    ensures var m := ts[..h.index] + [ts[h.index], Leaf(SpaceKind, 0, 0, " " + Text(ts[h.index + 1]))] + ts[h.index + 2..];
      DeleteIn(m, k).Some? && DeleteIn(m, k).value == ts
  {
    var i := h.index;
    var t, n := ts[i], ts[i + 1];
    var n' := Leaf(SpaceKind, 0, 0, " " + Text(n));
    var m := ts[..i] + [t, n'] + ts[i + 2..];
    Regroup2(ts[..i], t, n', ts[i + 2..]);
    ConcatAppend(ts[..i], [t]);
    ConcatSingle(t);
    DeleteMid(m, ts[..i] + [t], n', ts[i + 2..], k);
    assert (" " + Text(n))[..0] + (" " + Text(n))[1..] == Text(n);
    assert WithText(n', Text(n)) == n;
    Cut2(ts, i);
  }

  /** Inside a leaf of another type, the space splits the leaf in two;
      the deletion empties the space token, pruning drops it and merging
      joins the halves into the leaf again. */
  lemma InsideCase(ts: seq<Token>, k: int, h: Hit)
    requires Spot(ts, k, h) && BareLeaf(ts[h.index]) && ts[h.index].kind != SpaceKind
    requires h.start < k < h.start + |Text(ts[h.index])|
    ensures var t, c := ts[h.index], k - h.start;
      Undoes(ts, k, ts[..h.index] + [Leaf(t.kind, 0, 0, Text(t)[..c]), SpaceToken(" "), Leaf(t.kind, 0, 0, Text(t)[c..])] + ts[h.index + 1..])
  {
    var i := h.index;
    var t := ts[i];
    var s := Text(t);
    var c := k - h.start;
    var t1, sp, t2 := Leaf(t.kind, 0, 0, s[..c]), SpaceToken(" "), Leaf(t.kind, 0, 0, s[c..]);
    var e := Leaf(SpaceKind, 0, 0, "");
    var w := ts[..i] + [t1, sp, t2] + ts[i + 1..];
    var d := ts[..i] + [t1, e, t2] + ts[i + 1..];
    var p := ts[..i] + [t1, t2] + ts[i + 1..];
    InsideSolid(ts, i, c);
    MergeCalm(w);
    InsideBack(ts, k, h);
    InsidePrune(ts, i, c);
    InsideMerge(ts, i, c);
    Undone(ts, k, w, w, d);
  }

  /** Splitting leaf `i` around a space keeps the list solid and calm. */
  lemma InsideSolid(ts: seq<Token>, i: nat, c: int)
    requires Solid(ts) && Calm(ts) && i < |ts| && BareLeaf(ts[i]) && ts[i].kind != SpaceKind
    requires 0 < c < |Text(ts[i])|
    ensures var t := ts[i];
      var w := ts[..i] + [Leaf(t.kind, 0, 0, Text(t)[..c]), SpaceToken(" "), Leaf(t.kind, 0, 0, Text(t)[c..])] + ts[i + 1..];
      Solid(w) && Calm(w)
  {
    var t := ts[i];
    var s := Text(t);
    var t1, sp, t2 := Leaf(t.kind, 0, 0, s[..c]), SpaceToken(" "), Leaf(t.kind, 0, 0, s[c..]);
    Around(ts, i);
    Pair(t1, sp);
    Pair(sp, t2);
    assert [t1, sp, t2] == [t1] + [sp, t2];
    SolidJoin([t1], [sp, t2]);
    CalmJoin([t1], [sp, t2]);
    SolidSplice(ts, i, [t1, sp, t2]);
    CalmSplice(ts, i, [t1, sp, t2]);
  }

  /** The deletion half of `InsideCase`: it empties the space token. */
  lemma InsideBack(ts: seq<Token>, k: int, h: Hit)
    requires h.index < |ts| && h.start < k < h.start + |Text(ts[h.index])|
    requires h.start == |Concat(ts[..h.index])|
    ensures var t, c := ts[h.index], k - h.start;
      var t1, t2 := Leaf(t.kind, 0, 0, Text(t)[..c]), Leaf(t.kind, 0, 0, Text(t)[c..]);
      var w := ts[..h.index] + [t1, SpaceToken(" "), t2] + ts[h.index + 1..];
      DeleteIn(w, k).Some? && DeleteIn(w, k).value == ts[..h.index] + [t1, Leaf(SpaceKind, 0, 0, ""), t2] + ts[h.index + 1..]
  {
    var i := h.index;
    var t := ts[i];
    var c := k - h.start;
    var t1, sp, t2 := Leaf(t.kind, 0, 0, Text(t)[..c]), SpaceToken(" "), Leaf(t.kind, 0, 0, Text(t)[c..]);
    var w := ts[..i] + [t1, sp, t2] + ts[i + 1..];
    var e := Leaf(SpaceKind, 0, 0, "");
    Regroup3(ts[..i], t1, sp, t2, ts[i + 1..]);
    ConcatAppend(ts[..i], [t1]);
    ConcatSingle(t1);
    DeleteMid(w, ts[..i] + [t1], sp, [t2] + ts[i + 1..], k);
    assert " "[..0] + " "[1..] == "";
    Regroup3(ts[..i], t1, e, t2, ts[i + 1..]);
  }

  /** Pruning after `InsideBack` drops the emptied space token. */
  lemma InsidePrune(ts: seq<Token>, i: nat, c: int)
    requires Solid(ts) && i < |ts| && 0 < c < |Text(ts[i])|
    ensures var t := ts[i];
      var t1, t2 := Leaf(t.kind, 0, 0, Text(t)[..c]), Leaf(t.kind, 0, 0, Text(t)[c..]);
      Prune(ts[..i] + [t1, Leaf(SpaceKind, 0, 0, ""), t2] + ts[i + 1..]) == ts[..i] + [t1, t2] + ts[i + 1..]
  {
    var t := ts[i];
    var t1, t2 := Leaf(t.kind, 0, 0, Text(t)[..c]), Leaf(t.kind, 0, 0, Text(t)[c..]);
    var e := Leaf(SpaceKind, 0, 0, "");
    assert Prune([t1, e, t2]) == [t1, t2] by {
      assert [t1, e, t2] == [t1] + ([e] + [t2]);
      PruneAppend([t1], [e] + [t2]);
      PruneAppend([e], [t2]);
      assert Prune([e]) == [];
      Pair(t1, t2);
      Pair(t2, t1);
      PruneSolid([t1]);
      PruneSolid([t2]);
    }
    PruneSplice(ts, i, [t1, e, t2]);
  }

  /** The final merge of `InsideCase`: the two halves of leaf `i`
      join into it again. */
  lemma InsideMerge(ts: seq<Token>, i: nat, c: int)
    requires Solid(ts) && Calm(ts) && i < |ts| && !IsBranch(ts[i])
    requires ts[i] == Leaf(ts[i].kind, 0, 0, Text(ts[i])) && 0 < c < |Text(ts[i])|
    ensures var t := ts[i];
      Merge(ts[..i] + [Leaf(t.kind, 0, 0, Text(t)[..c]), Leaf(t.kind, 0, 0, Text(t)[c..])] + ts[i + 1..]) == ts
  {
    var t := ts[i];
    var s := Text(t);
    var t1, t2 := Leaf(t.kind, 0, 0, s[..c]), Leaf(t.kind, 0, 0, s[c..]);
    var a := ts[..i] + [t1];
    var b := [t2] + ts[i + 1..];
    assert ts[..i] + [t1, t2] + ts[i + 1..] == a + b;
    InsideCalm(ts, i, c);
    MergeCalmPrefix(a, b);
    assert a[..|a| - 1] == ts[..i] && a[|a| - 1] == t1;
    Split(s, c);
    assert WithText(t1, Text(t1) + Text(t2)) == t;
    MergeRunFuse(t1, t2, ts[i + 1..]);
    Cut(ts, i);
  }

  /** The halves of leaf `i` are calm with what lies on their side. */
  lemma InsideCalm(ts: seq<Token>, i: nat, c: int)
    requires Solid(ts) && Calm(ts) && i < |ts| && !IsBranch(ts[i])
    requires ts[i] == Leaf(ts[i].kind, 0, 0, Text(ts[i])) && 0 < c < |Text(ts[i])|
    ensures var t := ts[i];
      Calm(ts[..i] + [Leaf(t.kind, 0, 0, Text(t)[..c])]) && Calm([Leaf(t.kind, 0, 0, Text(t)[c..])] + ts[i + 1..])
      && Calm([t] + ts[i + 1..])
  {
    var t := ts[i];
    var s := Text(t);
    var t1, t2 := Leaf(t.kind, 0, 0, s[..c]), Leaf(t.kind, 0, 0, s[c..]);
    Around(ts, i);
    Pair(t1, t2);
    CalmJoin(ts[..i], [t1]);
    CalmJoin([t2], ts[i + 1..]);
    if i > 0 {
      assert ts[..i][i - 1] == ts[i - 1];
    }
    if i + 1 < |ts| {
      assert ts[i + 1..][0] == ts[i + 1];
    }
  }

  /** Inside a branch the space goes into the branch's children, giving
      `ws`; the deletion takes it out of them, and the tokens around the
      branch are left alone. */
  lemma BranchCase(ts: seq<Token>, k: int, h: Hit, ws: seq<Token>)
    requires Spot(ts, k, h) && IsBranch(ts[h.index])
    requires ts[h.index] == Composite(ts[h.index].kind, 0, 0, ts[h.index].subs)
    requires Undoes(ts[h.index].subs, k - h.start, ws) && |ws| > 0 && |Concat(ws)| == |Text(ts[h.index])| + 1
    ensures Undoes(ts, k, ts[h.index := Composite(ts[h.index].kind, 0, 0, ws)])
  {
    var i := h.index;
    var t := ts[i];
    var c := k - h.start;
    var x := Composite(t.kind, 0, 0, ws);
    var y := Composite(t.kind, 0, 0, Merge(ws));
    var d' := DeleteIn(Merge(ws), c).value;
    BranchKids(ws, c);
    BranchSolid(ts, i, x);
    MergeSwap(ts, i, x);
    assert MergeKids(x) == y;
    BranchBack(ts, k, h, y, d');
    BranchPrune(ts, i, d');
    Undone(ts, k, ts[i := x], ts[..i] + [y] + ts[i + 1..], ts[..i] + [Composite(t.kind, 0, 0, d')] + ts[i + 1..]);
  }

  /** What the children's round trip gives the branch: the merged
      children are calm, as long as the inserted ones, and the deletion
      leaves some of them. */
  lemma BranchKids(ws: seq<Token>, c: int)
    requires |ws| > 0 && Solid(ws) && DeleteIn(Merge(ws), c).Some?
    ensures Calm(Merge(ws)) && |Concat(Merge(ws))| == |Concat(ws)| && |DeleteIn(Merge(ws), c).value| > 0
  {
    MergeText(ws);
    MergeShape(ws);
    DeleteInLength(Merge(ws), c);
  }

  /** The insertion into a branch's children adds one character and
      leaves at least one token. */
  lemma InsertKids(subs: seq<Token>, c: int)
    requires 0 <= c <= |Concat(subs)|
    ensures |InsertIn(subs, c, " ")| > 0 && |Concat(InsertIn(subs, c, " "))| == |Concat(subs)| + 1
  {
    InsertInNonEmpty(subs, c, " ");
    InsertInText(subs, c, " ");
  }

  /** Replacing token `i` by a solid token keeps the list solid. */
  lemma BranchSolid(ts: seq<Token>, i: nat, x: Token)
    requires Solid(ts) && i < |ts| && SolidToken(x)
    ensures ts[i := x] == ts[..i] + [x] + ts[i + 1..] && Solid(ts[i := x])
  {
    Pair(x, x);
    SolidSplice(ts, i, [x]);
  }

  /** The deletion half of `BranchCase`. */
  lemma BranchBack(ts: seq<Token>, k: int, h: Hit, y: Token, d': seq<Token>)
    requires h.index < |ts| && h.start == |Concat(ts[..h.index])|
    requires IsBranch(y) && h.start <= k < h.start + |Text(y)|
    requires DeleteIn(y.subs, k - h.start).Some? && DeleteIn(y.subs, k - h.start).value == d'
    ensures var m := ts[..h.index] + [y] + ts[h.index + 1..];
      DeleteIn(m, k).Some? && DeleteIn(m, k).value == ts[..h.index] + [Composite(y.kind, y.tokenIdx, y.x, d')] + ts[h.index + 1..]
  {
    var i := h.index;
    var m := ts[..i] + [y] + ts[i + 1..];
    var z := Composite(y.kind, y.tokenIdx, y.x, d');
    assert m[..i] == ts[..i] && m[i] == y;
    DeleteInBranch(m, k, i);
    assert m[i := z] == ts[..i] + [z] + ts[i + 1..];
  }

  /** A deletion at a column inside branch `j` deletes inside its
      children. */
  lemma DeleteInBranch(m: seq<Token>, k: int, j: nat)
    requires j < |m| && IsBranch(m[j])
    requires |Concat(m[..j])| <= k < |Concat(m[..j])| + |Text(m[j])|
    requires DeleteIn(m[j].subs, k - |Concat(m[..j])|).Some?
    ensures var t, d := m[j], DeleteIn(m[j].subs, k - |Concat(m[..j])|).value;
      DeleteIn(m, k).Some? && DeleteIn(m, k).value == m[j := Composite(t.kind, t.tokenIdx, t.x, d)]
  {
    LocateInside(m, k, j);
  }

  /** The final prune and merge of `BranchCase`. */
  lemma BranchPrune(ts: seq<Token>, i: nat, d': seq<Token>)
    requires Solid(ts) && Calm(ts) && i < |ts| && IsBranch(ts[i])
    requires ts[i] == Composite(ts[i].kind, 0, 0, ts[i].subs)
    requires |d'| > 0 && Merge(Prune(d')) == ts[i].subs
    ensures Merge(Prune(ts[..i] + [Composite(ts[i].kind, 0, 0, d')] + ts[i + 1..])) == ts
  {
    var t := ts[i];
    var z := Composite(t.kind, 0, 0, d');
    PruneSplice(ts, i, [z]);
    var kids := Prune(d');
    assert |kids| > 0;
    var z' := Composite(t.kind, 0, 0, kids);
    assert Prune([z]) == [z'] by {
      assert [z][1..] == [];
    }
    Around(ts, i);
    MergeSwap(ts, i, z');
    assert MergeKids(z') == t;
    Cut(ts, i);
  }

  /** A leaf takes the space as one of the cases above describes. */
  lemma LeafCase(ts: seq<Token>, k: int, h: Hit)
    requires Spot(ts, k, h) && StripAll(ts) == ts && !IsBranch(ts[h.index]) && (h.index > 0 ==> h.start < k)
    ensures Undoes(ts, k, ts[..h.index] + LeafInsert(ts[h.index], k - h.start, " ") + ts[h.index + 1..])
  {
    var i := h.index;
    var t := ts[i];
    var s, c := Text(t), k - h.start;
    BareAt(ts, i);
    if t.kind == SpaceKind {
      SpaceCase(ts, k, h);
    } else if k == h.start {
      assert s[..0] == "";
      FrontCase(ts, k, h);
    } else if k == h.start + |s| {
      assert s[..c] == s && s[c..] == "";
      if i + 1 < |ts| && Mergeable(SpaceToken(" "), ts[i + 1]) {
        BareAt(ts, i + 1);
        JoinCase(ts, k, h);
      } else {
        AfterCase(ts, k, h);
      }
    } else {
      InsideCase(ts, k, h);
    }
  }

  /** The round trip on a stripped, solid and calm list, by the token the
      insertion goes into. */
  lemma {:induction false} RoundTripCore(ts: seq<Token>, k: int)
    requires StripAll(ts) == ts && Solid(ts) && Calm(ts) && 0 <= k <= |Concat(ts)|
    ensures RoundTrips(ts, k)
    decreases ts
  {
    if |ts| == 0 {
      RoundTripEmpty(k);
    } else {
      var h := Locate(ts, k, true).value;
      InsertHit(ts, k, h);
      var i := h.index;
      var t := ts[i];
      BareAt(ts, i);
      if IsBranch(t) {
        Around(ts, i);
        RoundTripCore(t.subs, k - h.start);
        InsertKids(t.subs, k - h.start);
        InsertBranchAt(ts, k, h);
        BranchCase(ts, k, h, InsertIn(t.subs, k - h.start, " "));
      } else {
        InsertLeafAt(ts, k, h);
        LeafCase(ts, k, h);
      }
    }
  }

  // ---------------------------------------------------------------------
  // The round trip on a normal line

  /** Normalising a list is normalising its stripped form and placing
      the result. */
  lemma NormalizeStrip(ts: seq<Token>)
    ensures StripAll(Normalize(ts)) == Prune(Merge(Prune(StripAll(ts))))
    ensures Normalize(ts) == Place(Prune(Merge(Prune(StripAll(ts)))), 0, 0)
  {
    var x := Prune(Merge(Prune(ts)));
    StripPlace(x, 0, 0);
    PlaceStrip(x, 0, 0);
    PruneStrip(ts);
    MergeStrip(Prune(ts));
    PruneStrip(Merge(Prune(ts)));
  }

  /** Inserting a space into a normal line and deleting the character at
      the same column gives the line back, with the same types, indices
      and columns; the deletion reports that it removed a character. */
  lemma InsertSpaceDeleteRestores(line: Line, k: int)
    requires Normal(line) && 0 <= k <= |Concat(line)|
    ensures DeleteChar(InsertChar(line, k, " "), k) == (line, true)
  {
    var s := StripAll(line);
    StripTwice(line);
    SolidStrip(line);
    CalmStrip(line);
    StripText(line);
    RoundTripCore(s, k);
    var ws := InsertIn(s, k, " ");
    InsertInStrip(line, k, " ");
    var n := InsertChar(line, k, " ");
    NormalizeStrip(InsertIn(line, k, " "));
    PruneSolid(ws);
    MergeShape(ws);
    PruneSolid(Merge(ws));
    assert StripAll(n) == Merge(ws);
    DeleteInStrip(n, k);
    var e := DeleteIn(n, k).value;
    NormalizeStrip(e);
    PruneSolid(s);
    PlaceStrip(line, 0, 0);
    PlacePlaced(line, 0, 0);
  }

  /** The line `echo 42` as the editor holds it. */
  const Sample: Line := [Leaf("Builtin", 0, 0, "echo"), Leaf("Space", 1, 4, " "), Leaf("Number", 2, 5, "42")]

  lemma SampleNormal()
    ensures Normal(Sample)
  {
    var a, b, c := Sample[0], Sample[1], Sample[2];
    assert Sample[1..] == [b, c] && [b, c][1..] == [c] && [c][1..] == [];
    assert Solid(Sample);
    assert Calm(Sample);
    assert Placed(Sample, 0, 0);
  }

  /** Typing a space at column 2 of `echo 42` and deleting the range from
      2 to 3 gives back the same three tokens with the same types,
      indices and columns. */
  lemma SampleRoundTrip()
    ensures DeleteRange(InsertText(Sample, 2, " "), 2, 3) == Sample
  {
    SampleNormal();
    InsertSpaceDeleteRestores(Sample, 2);
    var n := InsertChar(Sample, 2, " ");
    assert " "[..1] == " " && |" "[1..]| == 0;
    assert InsertText(Sample, 2, " ") == n;
    assert DeleteRange(n, 2, 3) == DeleteRun(n, 2, 1);
  }
}

=== FILE: token_tree.dfy ===
/** The token tree the line editor works on: a token is either a leaf
    holding text or a composite holding ordered children, and every token
    records its index in its container (`tokenIdx`) and its column (`x`). */
module TokenTree {
  datatype Token =
    | Leaf(kind: string, tokenIdx: int, x: int, text: string)
    | Composite(kind: string, tokenIdx: int, x: int, subs: seq<Token>)

  /** A token line is an ordered list of tokens. */
  type Line = seq<Token>

  /** A composite with at least one child. Every operation of the editor
      tests `subTokens.length > 0`, so a childless composite behaves as a
      leaf whose text is empty. */
  predicate IsBranch(t: Token) {
    t.Composite? && |t.subs| > 0
  }

  /** `tokenText`: a leaf's own text, else its children's texts in order. */
  function Text(t: Token): string
    decreases t
  {
    match t
    case Leaf(_, _, _, s) => s
    case Composite(_, _, _, subs) => Concat(subs)
  }

  /** The text of a token list: its tokens' texts joined with "". */
  function Concat(ts: seq<Token>): string
    decreases ts
  {
    if |ts| == 0 then "" else Text(ts[0]) + Concat(ts[1..])
  }

  /** Joining is compatible with list concatenation. */
  lemma {:induction false} ConcatAppend(a: seq<Token>, b: seq<Token>)
    ensures Concat(a + b) == Concat(a) + Concat(b)
  {
    if |a| > 0 {
      assert (a + b)[1..] == a[1..] + b;
      ConcatAppend(a[1..], b);
    } else {
      assert a + b == b;
    }
  }

  /** The text of a list is the text before position `i`, the text of
      token `i`, and the text after it. */
  lemma ConcatAround(ts: seq<Token>, i: nat)
    requires i < |ts|
    ensures Concat(ts) == Concat(ts[..i]) + Text(ts[i]) + Concat(ts[i + 1..])
  {
    assert ts == ts[..i] + ts[i..];
    ConcatAppend(ts[..i], ts[i..]);
    assert ts[i..][0] == ts[i] && ts[i..][1..] == ts[i + 1..];
  }

  /** Replacing token `i` by a list `mid` replaces its text by `mid`'s. */
  lemma ConcatSplice(ts: seq<Token>, i: nat, mid: seq<Token>)
    requires i < |ts|
    ensures Concat(ts[..i] + mid + ts[i + 1..]) == Concat(ts[..i]) + Concat(mid) + Concat(ts[i + 1..])
  {
    ConcatAppend(ts[..i] + mid, ts[i + 1..]);
    ConcatAppend(ts[..i], mid);
  }

  /** A one-token list has that token's text. */
  lemma ConcatSingle(t: Token)
    ensures Concat([t]) == Text(t)
  {
    assert [t][1..] == [];
  }

  /** Replacing token `i` by `x` replaces its text by `x`'s. */
  lemma ConcatReplace(ts: seq<Token>, i: nat, x: Token)
    requires i < |ts|
    ensures Concat(ts[i := x]) == Concat(ts[..i]) + Text(x) + Concat(ts[i + 1..])
  {
    assert ts[i := x] == ts[..i] + [x] + ts[i + 1..];
    ConcatSplice(ts, i, [x]);
    ConcatSingle(x);
  }
}

=== FILE: token_type.dfy ===
/** Choosing and cycling a token's type (src/tokenType.ts): the types
    whose validators accept the token's text, best first, and the rotation
    through them. */
module TokenType {
  import opened Wrappers
  import opened TokenTree
  import opened TokenRegistry

  /** Entry `i` goes before entry `j`: higher priority first, and among
      equal priorities the earlier registration first (the sort is
      stable). */
  predicate Before(reg: Registry, i: nat, j: nat)
    requires i < |reg| && j < |reg|
  {
    reg[i].priority > reg[j].priority || (reg[i].priority == reg[j].priority && i < j)
  }

  /** Positions into `reg`, strictly ordered by `Before`. */
  predicate Ranked(reg: Registry, xs: seq<nat>) {
    (forall k :: 0 <= k < |xs| ==> xs[k] < |reg|) &&
    forall a, b :: 0 <= a < b < |xs| ==> Before(reg, xs[a], xs[b])
  }

  /** The positions, in registry order, of the entries accepting `text`. */
  function Accepting(reg: Registry, external: (string, string) -> Verdict, text: string, from: nat): (r: seq<nat>)
    requires from <= |reg|
    ensures forall k :: 0 <= k < |r| ==> from <= r[k] < |reg|
    ensures forall i :: i in r <==> from <= i < |reg| && Accepts(reg[i], external, text)
    decreases |reg| - from
  {
    if from == |reg| then []
    else (if Accepts(reg[from], external, text) then [from] else []) + Accepting(reg, external, text, from + 1)
  }

  /** Every position is one of `reg`'s. */
  predicate InRange(reg: Registry, xs: seq<nat>) {
    forall k :: 0 <= k < |xs| ==> xs[k] < |reg|
  }

  lemma BeforeTransitive(reg: Registry, i: nat, j: nat, k: nat)
    requires i < |reg| && j < |reg| && k < |reg|
    requires Before(reg, i, j) && Before(reg, j, k)
    ensures Before(reg, i, k)
  {
  }

  /** Places `x` into the list `xs` before the first entry it goes
      before. */
  function Insert(reg: Registry, x: nat, xs: seq<nat>): (r: seq<nat>)
    requires x < |reg| && InRange(reg, xs)
    ensures InRange(reg, r)
    ensures multiset(r) == multiset(xs) + multiset{x}
  {
    if |xs| == 0 then [x]
    else if Before(reg, x, xs[0]) then [x] + xs
    else
      assert xs == [xs[0]] + xs[1..];
      [xs[0]] + Insert(reg, x, xs[1..])
  }

  lemma {:induction false} InsertRanked(reg: Registry, x: nat, xs: seq<nat>)
    requires x < |reg| && Ranked(reg, xs) && x !in xs
    ensures Ranked(reg, Insert(reg, x, xs))
    decreases |xs|
  {
    if |xs| == 0 {
    } else if Before(reg, x, xs[0]) {
      forall k | 0 <= k < |xs| ensures Before(reg, x, xs[k]) {
        if k > 0 {
          BeforeTransitive(reg, x, xs[0], xs[k]);
        }
      }
      RankedCons(reg, x, xs);
    } else {
      assert Ranked(reg, xs[1..]);
      assert x !in xs[1..];
      InsertRanked(reg, x, xs[1..]);
      var rest := Insert(reg, x, xs[1..]);
      forall b | 0 <= b < |rest| ensures Before(reg, xs[0], rest[b]) {
        assert rest[b] in multiset(rest);
        if rest[b] != x {
          assert rest[b] in multiset(xs[1..]);
          var k :| 0 <= k < |xs[1..]| && xs[1..][k] == rest[b];
          assert xs[k + 1] == rest[b];
        }
      }
      RankedCons(reg, xs[0], rest);
    }
  }

  /** An entry that goes before all of a ranked list heads it. */
  lemma RankedCons(reg: Registry, x: nat, xs: seq<nat>)
    requires x < |reg| && Ranked(reg, xs)
    requires forall k :: 0 <= k < |xs| ==> Before(reg, x, xs[k])
    ensures Ranked(reg, [x] + xs)
  {
    var r := [x] + xs;
    forall a, b | 0 <= a < b < |r| ensures Before(reg, r[a], r[b]) {
      if a == 0 {
        assert r[b] == xs[b - 1];
      } else {
        assert r[a] == xs[a - 1] && r[b] == xs[b - 1];
      }
    }
  }

  /** `matches.sort((a, b) => b.priority - a.priority)` on positions. */
  function Rank(reg: Registry, xs: seq<nat>): (r: seq<nat>)
    requires InRange(reg, xs)
    ensures InRange(reg, r)
    ensures multiset(r) == multiset(xs)
  {
    if |xs| == 0 then []
    else
      assert xs == [xs[0]] + xs[1..];
      Insert(reg, xs[0], Rank(reg, xs[1..]))
  }

  lemma {:induction false} RankRanked(reg: Registry, xs: seq<nat>)
    requires InRange(reg, xs)
    requires forall a, b :: 0 <= a < b < |xs| ==> xs[a] != xs[b]
    ensures Ranked(reg, Rank(reg, xs))
    decreases |xs|
  {
    if |xs| > 0 {
      var rest := Rank(reg, xs[1..]);
      RankRanked(reg, xs[1..]);
      assert forall k :: 0 <= k < |xs[1..]| ==> xs[1..][k] != xs[0];
      assert xs[0] !in multiset(xs[1..]);
      InsertRanked(reg, xs[0], rest);
    }
  }

  lemma AcceptingDistinct(reg: Registry, external: (string, string) -> Verdict, text: string, from: nat)
    requires from <= |reg|
    ensures forall a, b :: 0 <= a < b < |Accepting(reg, external, text, from)| ==>
      Accepting(reg, external, text, from)[a] < Accepting(reg, external, text, from)[b]
    decreases |reg| - from
  {
    if from < |reg| {
      AcceptingDistinct(reg, external, text, from + 1);
    }
  }

  /** The accepting entries for `text`, ranked by `Before`; nothing for
      the empty text. */
  function CandidatesFor(text: string, reg: Registry, external: (string, string) -> Verdict): (r: seq<nat>)
    ensures text == "" ==> r == []
    ensures InRange(reg, r)
  {
    if text == "" then [] else Rank(reg, Accepting(reg, external, text, 0))
  }

  /** `sortedValidTokens` on positions: nothing for a missing token, else
      the candidates for its text. */
  function Candidates(token: Option<Token>, reg: Registry, external: (string, string) -> Verdict): (r: seq<nat>)
    ensures token.None? || Text(token.value) == "" ==> r == []
    ensures InRange(reg, r)
  {
    if token.None? then [] else CandidatesFor(Text(token.value), reg, external)
  }

  /** The candidates are in ranking order ... */
  lemma CandidatesRanked(text: string, reg: Registry, external: (string, string) -> Verdict)
    ensures Ranked(reg, CandidatesFor(text, reg, external))
  {
    if text != "" {
      AcceptingDistinct(reg, external, text, 0);
      RankRanked(reg, Accepting(reg, external, text, 0));
    }
  }

  /** ... and they are exactly the entries whose validator accepts the
      non-empty text. */
  lemma CandidatesMembers(text: string, reg: Registry, external: (string, string) -> Verdict)
    ensures forall i :: i in CandidatesFor(text, reg, external) <==>
      0 <= i < |reg| && text != "" && Accepts(reg[i], external, text)
  {
    if text != "" {
      var xs := Accepting(reg, external, text, 0);
      SameElements(Rank(reg, xs), xs);
    }
  }

  /** A present token's candidates are the entries whose validator
      accepts its non-empty text, in ranking order; a missing token has
      none. */
  lemma TokenCandidates(token: Option<Token>, reg: Registry, external: (string, string) -> Verdict)
    ensures Ranked(reg, Candidates(token, reg, external))
    ensures forall i :: i in Candidates(token, reg, external) <==>
      token.Some? && 0 <= i < |reg| && Text(token.value) != "" && Accepts(reg[i], external, Text(token.value))
  {
    if token.Some? {
      CandidatesRanked(Text(token.value), reg, external);
      CandidatesMembers(Text(token.value), reg, external);
    } else {
      CandidatesRanked("", reg, external);
    }
  }

  lemma SameElements(a: seq<nat>, b: seq<nat>)
    requires multiset(a) == multiset(b)
    ensures forall i :: i in a <==> i in b
  {
    forall i ensures i in a <==> i in b {
      assert i in a <==> i in multiset(a);
      assert i in b <==> i in multiset(b);
    }
  }

  /** The descriptors of the candidates for `text`. */
  function SortedFor(text: string, reg: Registry, external: (string, string) -> Verdict): (r: seq<Descriptor>)
    ensures |r| == |CandidatesFor(text, reg, external)|
    ensures forall k :: 0 <= k < |r| ==> r[k] == reg[CandidatesFor(text, reg, external)[k]]
  {
    var c := CandidatesFor(text, reg, external);
    seq(|c|, k requires 0 <= k < |c| => reg[c[k]])
  }

  /** `sortedValidTokens(token)` */
  function SortedValidTokens(token: Option<Token>, reg: Registry, external: (string, string) -> Verdict): (r: seq<Descriptor>)
    ensures token.None? ==> r == []
    ensures token.Some? ==> r == SortedFor(Text(token.value), reg, external)
  {
    if token.None? then [] else SortedFor(Text(token.value), reg, external)
  }

  /** Ranking leaves no choice: two ranked lists of the same positions are
      equal, so the candidates are exactly the accepting entries in order
      of priority and then of registration. */
  lemma {:induction false} RankedUnique(reg: Registry, a: seq<nat>, b: seq<nat>)
    requires Ranked(reg, a) && Ranked(reg, b)
    requires forall i :: i in a <==> i in b
    ensures a == b
    decreases |a|
  {
    if |a| > 0 {
      assert a[0] in a;
    }
    if |b| > 0 {
      assert b[0] in b;
    }
    if |a| > 0 && |b| > 0 {
      RankedFirst(reg, a, b[0]);
      RankedFirst(reg, b, a[0]);
      assert a[0] == b[0];
      forall i ensures i in a[1..] <==> i in b[1..] {
        if i in a[1..] {
          var k :| 1 <= k < |a| && a[k] == i;
          assert Before(reg, a[0], a[k]);
          assert a[k] in a;
          var m :| 0 <= m < |b| && b[m] == i;
          assert b[1..][m - 1] == i;
        }
        if i in b[1..] {
          var k :| 1 <= k < |b| && b[k] == i;
          assert Before(reg, b[0], b[k]);
          assert b[k] in b;
          var m :| 0 <= m < |a| && a[m] == i;
          assert a[1..][m - 1] == i;
        }
      }
      RankedUnique(reg, a[1..], b[1..]);
      assert a == [a[0]] + a[1..] && b == [b[0]] + b[1..];
    }
  }

  /** The candidates are the only ranked list of the accepting entries:
      any list ordered by priority, then registration, that holds exactly
      the entries accepting the text is the candidate list. */
  lemma CandidatesUnique(text: string, reg: Registry, external: (string, string) -> Verdict, xs: seq<nat>)
    requires Ranked(reg, xs)
    requires forall i :: i in xs <==> 0 <= i < |reg| && text != "" && Accepts(reg[i], external, text)
    ensures xs == CandidatesFor(text, reg, external)
  {
    CandidatesRanked(text, reg, external);
    CandidatesMembers(text, reg, external);
    RankedUnique(reg, xs, CandidatesFor(text, reg, external));
  }

  /** Every other entry of a ranked list comes after its head. */
  lemma RankedFirst(reg: Registry, a: seq<nat>, i: nat)
    requires Ranked(reg, a) && i in a
    ensures i == a[0] || Before(reg, a[0], i)
  {
    var k :| 0 <= k < |a| && a[k] == i;
    if k > 0 {
      assert Before(reg, a[0], a[k]);
    }
  }

  /** The position in `cands` of the first entry of type `k`. */
  function FindIndex(cands: seq<Descriptor>, k: string): (r: Option<nat>)
    ensures r.Some? ==> r.value < |cands| && cands[r.value].kind == k
    ensures r.Some? ==> forall i :: 0 <= i < r.value ==> cands[i].kind != k
    ensures r.None? ==> forall i :: 0 <= i < |cands| ==> cands[i].kind != k
  {
    IndexOfKind(cands, k)
  }

  /** Where rotation goes in `cands` from type `k`: the candidate after
      the first one of type `k`, wrapping around, or the first candidate
      when none is of type `k`. */
  function NextIndex(cands: seq<Descriptor>, k: string): (r: nat)
    requires |cands| > 0
    ensures r < |cands|
  {
    match FindIndex(cands, k)
    case None => 0
    case Some(i) => Succ(i, |cands|)
  }

  /** The index is the source's `(currentIdx + 1) % candidates.length`
      when type `k` is found, and 0 when it is not. */
  lemma NextIndexMod(cands: seq<Descriptor>, k: string)
    requires |cands| > 0
    ensures FindIndex(cands, k).Some? ==> NextIndex(cands, k) == (FindIndex(cands, k).value + 1) % |cands|
    ensures FindIndex(cands, k).None? ==> NextIndex(cands, k) == 0
  {
    match FindIndex(cands, k)
    case None =>
    case Some(i) =>
      if i + 1 < |cands| {
        ModUnique(i + 1, |cands|, 0, i + 1);
      } else {
        ModUnique(i + 1, |cands|, 1, 0);
      }
  }

  /** The type rotation moves to from type `k`. */
  function NextKind(cands: seq<Descriptor>, k: string): string
    requires |cands| > 0
  {
    cands[NextIndex(cands, k)].kind
  }

  /** `token.type = k`: the token with type `k` and everything else,
      text included, as it was. */
  function Retype(t: Token, k: string): (r: Token)
    ensures r.kind == k && Text(r) == Text(t)
    ensures r.tokenIdx == t.tokenIdx && r.x == t.x && r.Leaf? == t.Leaf?
  {
    match t
    case Leaf(_, idx, x, s) => Leaf(k, idx, x, s)
    case Composite(_, idx, x, subs) => Composite(k, idx, x, subs)
  }

  /** `rotateTokenType` on a present token: whether the type changed, and
      the token afterwards. */
  function RotateToken(t: Token, reg: Registry, external: (string, string) -> Verdict): (r: (bool, Token))
    ensures r.1 == Retype(t, r.1.kind)
    ensures r.0 <==> r.1.kind != t.kind
    ensures var cands := SortedFor(Text(t), reg, external);
      r.1.kind == if |cands| == 0 then t.kind else NextKind(cands, t.kind)
  {
    var cands := SortedFor(Text(t), reg, external);
    if |cands| == 0 then (false, t)
    else
      var next := NextKind(cands, t.kind);
      if t.kind == next then (false, t)
      else (true, Retype(t, next))
  }

  /** `rotateTokenType(token)`; a missing token is left alone. */
  function Rotate(token: Option<Token>, reg: Registry, external: (string, string) -> Verdict): (r: (bool, Option<Token>))
    ensures token.None? ==> r == (false, None)
    ensures token.Some? ==> r.1.Some? && r.1.value == Retype(token.value, r.1.value.kind)
    ensures token.Some? && |SortedValidTokens(token, reg, external)| == 0 ==> r == (false, token)
  {
    if token.None? then (false, None)
    else
      var (changed, t) := RotateToken(token.value, reg, external);
      (changed, Some(t))
  }

  /** A type that is not a candidate gives way to the best candidate. */
  lemma RotateFromOther(t: Token, reg: Registry, external: (string, string) -> Verdict)
    requires var cands := SortedFor(Text(t), reg, external);
      |cands| > 0 && forall i :: 0 <= i < |cands| ==> cands[i].kind != t.kind
    ensures RotateToken(t, reg, external) == (true, Retype(t, SortedFor(Text(t), reg, external)[0].kind))
  {
  }

  lemma RetypeTwice(t: Token, k1: string, k2: string)
    ensures Retype(Retype(t, k1), k2) == Retype(t, k2)
  {
  }

  /** `n` rotations in a row. */
  function RotateTimes(t: Token, reg: Registry, external: (string, string) -> Verdict, n: nat): Token
    decreases n
  {
    if n == 0 then t else RotateTimes(RotateToken(t, reg, external).1, reg, external, n - 1)
  }

  /** The type after `n` rotations through `cands` from type `k`. */
  function KindAfter(cands: seq<Descriptor>, k: string, n: nat): string
    requires |cands| > 0
    decreases n
  {
    if n == 0 then k else KindAfter(cands, NextKind(cands, k), n - 1)
  }

  /** Rotating a token is rotating its type through the candidates of its
      text, which rotation never changes. */
  lemma {:induction false} RotateTimesKind(t: Token, reg: Registry, external: (string, string) -> Verdict, cands: seq<Descriptor>, n: nat)
    requires cands == SortedFor(Text(t), reg, external) && |cands| > 0
    ensures RotateTimes(t, reg, external, n) == Retype(t, KindAfter(cands, t.kind, n))
    decreases n
  {
    if n == 0 {
      RetypeSame(t);
    } else {
      var k := NextKind(cands, t.kind);
      var t' := RotateToken(t, reg, external).1;
      assert t' == Retype(t, k) by {
        RotateRetype(t, reg, external, t.kind);
        RetypeSame(t);
      }
      RotateTimesKind(t', reg, external, cands, n - 1);
      RetypeTwice(t, k, KindAfter(cands, k, n - 1));
    }
  }

  lemma RetypeSame(t: Token)
    ensures Retype(t, t.kind) == t
  {
  }

  /** Rotating a retyped token moves its type one step through the
      candidates of the original text. */
  lemma RotateRetype(t: Token, reg: Registry, external: (string, string) -> Verdict, k: string)
    requires |SortedFor(Text(t), reg, external)| > 0
    ensures RotateToken(Retype(t, k), reg, external).1 == Retype(t, NextKind(SortedFor(Text(t), reg, external), k))
  {
    var u := Retype(t, k);
    var r := RotateToken(u, reg, external).1;
    assert SortedFor(Text(u), reg, external) == SortedFor(Text(t), reg, external);
    RetypeTwice(t, k, r.kind);
  }

  /** Distinct type names in the registry give distinct candidate types. */
  lemma CandidateKindsDistinct(text: string, reg: Registry, external: (string, string) -> Verdict)
    requires DistinctKinds(reg)
    ensures var cands := SortedFor(text, reg, external);
      forall a, b :: 0 <= a < b < |cands| ==> cands[a].kind != cands[b].kind
  {
    var c := CandidatesFor(text, reg, external);
    CandidatesRanked(text, reg, external);
    forall a, b | 0 <= a < b < |c| ensures reg[c[a]].kind != reg[c[b]].kind {
      assert Before(reg, c[a], c[b]);
    }
  }

  /** Among candidates with distinct types, the one of type
      `cands[k].kind` is candidate `k`, and the next type is that of the
      candidate after it, or of the first after the last. */
  lemma NextKindAt(cands: seq<Descriptor>, k: nat)
    requires k < |cands|
    requires forall a, b :: 0 <= a < b < |cands| ==> cands[a].kind != cands[b].kind
    ensures FindIndex(cands, cands[k].kind) == Some(k)
    ensures NextKind(cands, cands[k].kind) == cands[Succ(k, |cands|)].kind
  {
    var f := FindIndex(cands, cands[k].kind);
    assert f.Some?;
    if k + 1 < |cands| {
      ModUnique(k + 1, |cands|, 0, k + 1);
    } else {
      ModUnique(k + 1, |cands|, 1, 0);
    }
  }

  /** The candidate index after `j`, wrapping from the last of `m` back
      to the first. */
  function Succ(j: nat, m: nat): (r: nat)
    requires j < m
    ensures r < m
  {
    if j + 1 == m then 0 else j + 1
  }

  /** The candidate index after `n` steps from `k` through `m`
      candidates. */
  function Advance(k: nat, n: nat, m: nat): (r: nat)
    requires k < m
    ensures r < m
    decreases n
  {
    if n == 0 then k else Advance(Succ(k, m), n - 1, m)
  }

  /** Stepping through the candidates is counting modulo their number. */
  lemma {:induction false} AdvanceMod(k: nat, n: nat, m: nat)
    requires k < m
    ensures Advance(k, n, m) == (k + n) % m
    decreases n
  {
    if n == 0 {
      ModUnique(k, m, 0, k);
    } else {
      AdvanceMod(Succ(k, m), n - 1, m);
      if k + 1 == m {
        ModAddM(n - 1, m);
      }
    }
  }

  /** With distinct types, `n` rotations from candidate `k` reach
      candidate `Advance(k, n)`. */
  lemma {:induction false} KindAfterAdvance(cands: seq<Descriptor>, k: nat, n: nat)
    requires k < |cands|
    requires forall a, b :: 0 <= a < b < |cands| ==> cands[a].kind != cands[b].kind
    ensures KindAfter(cands, cands[k].kind, n) == cands[Advance(k, n, |cands|)].kind
    decreases n
  {
    if n > 0 {
      NextKindAt(cands, k);
      KindAfterAdvance(cands, Succ(k, |cands|), n - 1);
    }
  }

  /** With distinct types, `n` rotations from candidate `k` reach
      candidate `(k + n) mod |cands|`. */
  lemma KindAfterCycles(cands: seq<Descriptor>, k: nat, n: nat)
    requires k < |cands|
    requires forall a, b :: 0 <= a < b < |cands| ==> cands[a].kind != cands[b].kind
    ensures KindAfter(cands, cands[k].kind, n) == cands[(k + n) % |cands|].kind
  {
    KindAfterAdvance(cands, k, n);
    AdvanceMod(k, n, |cands|);
  }

  /** Adding the modulus does not change a remainder. */
  lemma ModAddM(x: nat, m: nat)
    requires m > 0
    ensures (x + m) % m == x % m
  {
    var q := x / m;
    var r := x % m;
    assert x + m == (q + 1) * m + r;
    ModUnique(x + m, m, q + 1, r);
  }

  /** Quotient and remainder are determined by the value. */
  lemma ModUnique(y: int, m: int, q: int, r: int)
    requires m > 0 && 0 <= r < m && y == q * m + r
    ensures y % m == r
  {
    var q2 := y / m;
    var r2 := y % m;
    assert (q - q2) * m == r2 - r;
    if q > q2 {
      MulAtLeast(q - q2, m);
    } else if q < q2 {
      MulAtLeast(q2 - q, m);
    }
  }

  lemma MulAtLeast(a: int, m: int)
    requires a >= 1 && m > 0
    ensures a * m >= m
  {
  }

  /** With one entry per type name, a token whose type is candidate `k`
      has the type of candidate `(k + n) mod |candidates|` after `n`
      rotations, and nothing else about it changes. */
  lemma RotateCycles(t: Token, reg: Registry, external: (string, string) -> Verdict, k: nat, n: nat)
    requires DistinctKinds(reg)
    requires k < |SortedValidTokens(Some(t), reg, external)|
    requires SortedValidTokens(Some(t), reg, external)[k].kind == t.kind
    ensures var cands := SortedValidTokens(Some(t), reg, external);
      RotateTimes(t, reg, external, n) == Retype(t, cands[(k + n) % |cands|].kind)
  {
    var cands := SortedFor(Text(t), reg, external);
    RotateTimesKind(t, reg, external, cands, n);
    CandidateKindsDistinct(Text(t), reg, external);
    KindAfterCycles(cands, k, n);
  }

  /** A token whose type is a candidate comes back to it after a full
      round of rotations. */
  lemma RotateFullRound(t: Token, reg: Registry, external: (string, string) -> Verdict, k: nat)
    requires DistinctKinds(reg)
    requires k < |SortedValidTokens(Some(t), reg, external)|
    requires SortedValidTokens(Some(t), reg, external)[k].kind == t.kind
    ensures RotateTimes(t, reg, external, |SortedValidTokens(Some(t), reg, external)|) == t
  {
    var n := |SortedValidTokens(Some(t), reg, external)|;
    RotateCycles(t, reg, external, k, n);
    ModAddM(k, n);
    ModUnique(k, n, 0, k);
  }
}

=== FILE: wrappers.dfy ===
/** Failure-compatible wrappers shared by every module of the model.
    `Option` stands for the source's `undefined` / `null` results and
    `Result` for operations that throw an `Error` with a message. */
module Wrappers {

  datatype Option<+T> = None | Some(value: T) {

    predicate IsFailure() {
      None?
    }

    function PropagateFailure<U>(): Option<U>
      requires None?
    {
      None
    }

    function Extract(): T
      requires Some?
    {
      value
    }

    /** `x ?? d` in the source. */
    function GetOr(default: T): T {
      match this
      case Some(v) => v
      case None => default
    }
  }

  /** A thrown `Error` carries only its message in this model. */
  datatype Result<+R> = Ok(value: R) | Err(message: string) {

    predicate IsFailure() {
      Err?
    }

    function PropagateFailure<U>(): Result<U>
      requires Err?
    {
      Err(message)
    }

    function Extract(): R
      requires Ok?
    {
      value
    }
  }

  /** Concatenation regroups freely. */
  lemma AppendAssoc<T>(a: seq<T>, b: seq<T>, c: seq<T>)
    ensures a + (b + c) == (a + b) + c
  {
  }
}

=== FILE: yaml_serialize.dfy ===
/** Reading token lines back from a parsed YAML document
    (src/yaml-serialize.ts). The YAML text layer is not modelled: the input
    is the value the YAML loader produced. */
module YamlSerialize {
  import opened Wrappers
  import opened TokenTree

  /** A loaded YAML value. Numbers are integers or non-finite; an object
      is its list of key/value pairs. */
  datatype Value =
    | VNull
    | VBool(b: bool)
    | VNum(n: int)
    | VNonFinite
    | VStr(s: string)
    | VArr(items: seq<Value>)
    | VObj(fields: seq<(string, Value)>)

  const LinesError: string := "Invalid YAML: expected array of token lines"
  const LineError: string := "Invalid YAML: each line must be an array of tokens"
  const DefaultKind: string := "AnyString"

  /** `raw?.key`: the value of the last field with that key of an object,
      and nothing for any other value. */
  function Get(raw: Value, key: string): (r: Option<Value>)
    ensures r.Some? ==> raw.VObj? && exists i :: 0 <= i < |raw.fields| && raw.fields[i] == (key, r.value)
  {
    if raw.VObj? then Lookup(raw.fields, key) else None
  }

  function Lookup(fields: seq<(string, Value)>, key: string): (r: Option<Value>)
    ensures r.Some? ==> exists i :: 0 <= i < |fields| && fields[i] == (key, r.value)
    ensures r.None? ==> forall i :: 0 <= i < |fields| ==> fields[i].0 != key
  {
    if |fields| == 0 then None
    else if fields[|fields| - 1].0 == key then Some(fields[|fields| - 1].1)
    else Lookup(fields[..|fields| - 1], key)
  }

  /** A finite number, or the default 0. */
  function NumberOr0(v: Option<Value>): int {
    if v.Some? && v.value.VNum? then v.value.n else 0
  }

  /** `sanitizeToken`: anything that is not an object becomes an empty
      AnyString token at 0; an array of children wins over a text. */
  function Sanitize(raw: Value): (r: Token)
    decreases raw
    ensures !raw.VObj? ==> r == Leaf(DefaultKind, 0, 0, "")
    ensures r.Composite? <==> Get(raw, "subTokens").Some? && Get(raw, "subTokens").value.VArr?
    ensures r.Composite? ==> |r.subs| == |Get(raw, "subTokens").value.items|
  {
    var kind := match Get(raw, "type") case Some(VStr(s)) => s case _ => DefaultKind;
    var idx := NumberOr0(Get(raw, "tokenIdx"));
    var x := NumberOr0(Get(raw, "x"));
    match Get(raw, "subTokens")
    case Some(VArr(items)) => Composite(kind, idx, x, SanitizeAll(items))
    case _ =>
      match Get(raw, "text")
      case Some(VStr(s)) => Leaf(kind, idx, x, s)
      case _ => Leaf(kind, idx, x, "")
  }

  function SanitizeAll(items: seq<Value>): (r: seq<Token>)
    decreases items
    ensures |r| == |items|
  {
    if |items| == 0 then [] else [Sanitize(items[0])] + SanitizeAll(items[1..])
  }

  /** `sanitizeLine`. */
  function SanitizeLine(raw: Value): Result<Line> {
    if raw.VArr? then Ok(SanitizeAll(raw.items)) else Err(LineError)
  }

  /** `deserializeTokenMultiLine` after the YAML text has been loaded. */
  function Deserialize(plain: Value): (r: Result<seq<Line>>)
    ensures !plain.VArr? ==> r == Err(LinesError)
    ensures plain.VArr? && (exists i :: 0 <= i < |plain.items| && !plain.items[i].VArr?) ==> r == Err(LineError)
    ensures plain.VArr? && (forall i :: 0 <= i < |plain.items| ==> plain.items[i].VArr?) ==>
      r.Ok? && |r.value| == |plain.items| &&
      forall i :: 0 <= i < |plain.items| ==> r.value[i] == SanitizeAll(plain.items[i].items)
  {
    if !plain.VArr? then Err(LinesError) else SanitizeLines(plain.items)
  }

  function SanitizeLines(items: seq<Value>): (r: Result<seq<Line>>)
    ensures (exists i :: 0 <= i < |items| && !items[i].VArr?) ==> r == Err(LineError)
    ensures (forall i :: 0 <= i < |items| ==> items[i].VArr?) ==>
      r.Ok? && |r.value| == |items| && forall i :: 0 <= i < |items| ==> r.value[i] == SanitizeAll(items[i].items)
  {
    if |items| == 0 then Ok([])
    else
      var first :- SanitizeLine(items[0]);
      var rest :- SanitizeLines(items[1..]);
      assert forall i :: 1 <= i < |items| ==> items[i] == items[1..][i - 1];
      Ok([first] + rest)
  }

  // ---------------------------------------------------------------------
  // The shape the serialiser writes

  /** A token as the YAML dumper writes it: type, x, tokenIdx, then the
      text or the children. */
  function ToValue(t: Token): Value
    decreases t
  {
    match t
    case Leaf(kind, idx, x, s) =>
      VObj([("type", VStr(kind)), ("x", VNum(x)), ("tokenIdx", VNum(idx)), ("text", VStr(s))])
    case Composite(kind, idx, x, subs) =>
      VObj([("type", VStr(kind)), ("x", VNum(x)), ("tokenIdx", VNum(idx)), ("subTokens", VArr(ToValues(subs)))])
  }

  function ToValues(ts: seq<Token>): (r: seq<Value>)
    decreases ts
    ensures |r| == |ts|
  {
    if |ts| == 0 then [] else [ToValue(ts[0])] + ToValues(ts[1..])
  }

  /** Sanitising a token written by the serialiser gives the token back. */
  lemma {:induction false} SanitizeToValue(t: Token)
    ensures Sanitize(ToValue(t)) == t
    decreases t
  {
    var fields := ToValue(t).fields;
    assert Get(ToValue(t), "type") == Some(VStr(t.kind)) by { LookupKeys(fields, t); }
    assert Get(ToValue(t), "tokenIdx") == Some(VNum(t.tokenIdx)) by { LookupKeys(fields, t); }
    assert Get(ToValue(t), "x") == Some(VNum(t.x)) by { LookupKeys(fields, t); }
    if t.Composite? {
      assert Get(ToValue(t), "subTokens") == Some(VArr(ToValues(t.subs)));
      SanitizeAllToValues(t.subs);
    } else {
      assert Get(ToValue(t), "subTokens") == None by { LookupKeys(fields, t); }
      assert Get(ToValue(t), "text") == Some(VStr(t.text));
    }
  }

  /** The three metadata keys are found in the fields the serialiser
      writes. */
  lemma LookupKeys(fields: seq<(string, Value)>, t: Token)
    requires fields == ToValue(t).fields
    ensures Lookup(fields, "type") == Some(VStr(t.kind))
    ensures Lookup(fields, "tokenIdx") == Some(VNum(t.tokenIdx))
    ensures Lookup(fields, "x") == Some(VNum(t.x))
    ensures t.Leaf? ==> Lookup(fields, "subTokens") == None
  {
    var last := if t.Leaf? then "text" else "subTokens";
    assert fields[0].0 == "type" && fields[1].0 == "x" && fields[2].0 == "tokenIdx" && fields[3].0 == last;
    assert "type" != last && "tokenIdx" != last && "x" != last;
    assert fields[..3][2] == fields[2] && fields[..3][..2] == fields[..2];
    assert fields[..2][1] == fields[1] && fields[..2][..1] == fields[..1];
    assert fields[..1][0] == fields[0] && fields[..1][..0] == [];
    assert "type" != "tokenIdx" && "x" != "tokenIdx" && "type" != "x";
    if t.Leaf? {
      assert "subTokens" != "text" && "subTokens" != "tokenIdx" && "subTokens" != "x" && "subTokens" != "type";
    }
  }

  lemma {:induction false} SanitizeAllToValues(ts: seq<Token>)
    ensures SanitizeAll(ToValues(ts)) == ts
    decreases ts
  {
    if |ts| > 0 {
      SanitizeToValue(ts[0]);
      SanitizeAllToValues(ts[1..]);
      assert ToValues(ts)[1..] == ToValues(ts[1..]);
      assert ts == [ts[0]] + ts[1..];
    }
  }

  /** Loading what the serialiser wrote gives the lines back unchanged. */
  lemma DeserializeRoundTrip(lines: seq<Line>)
    ensures Deserialize(VArr(seq(|lines|, i requires 0 <= i < |lines| => VArr(ToValues(lines[i]))))) == Ok(lines)
  {
    var plain := seq(|lines|, i requires 0 <= i < |lines| => VArr(ToValues(lines[i])));
    forall i | 0 <= i < |lines| ensures SanitizeAll(plain[i].items) == lines[i] {
      SanitizeAllToValues(lines[i]);
    }
    var r := Deserialize(VArr(plain));
    assert r.Ok? && |r.value| == |lines|;
    assert r.value == lines;
  }
}
